=== FILE: README.md ===
# bluesap resource planner — a Dafny model

bluesap plans SAP RICEFW development and test work. It reads the project
matrix, assigns each task to a developer or tester with a greedy first-fit
pass over a working-day calendar, and shows the result as summaries, a
timeline and a metrics strip. The assignment engine exists in five versions.
This project models all of them and proves what they promise:

- the Streamlit service (`services/assignment_service.py`, and its
  byte-identical copy in `backup_streamlit/services/`);
- the older Streamlit helper (`utils/assignment.py`);
- the web calculator (`app/lib/assignment-calculator.ts`);
- the web API route (`app/api/assign/route.ts`).

It also models the code those engines depend on or feed:

- the three resource catalogues (`core/config.py` and its backup copy,
  `utils/config.py`, `app/lib/types/developers-config.ts` with
  `app/lib/config.ts`);
- the data filters;
- the resource summary, the metrics, the timeline helpers and the EF
  score;
- the CSV import (processor, profiles, error catalogue);
- input security checks, authentication helpers and pydantic validators;
- the two API-call auditors;
- the structured logger, the page registry and the web error handler.

Conventions of the model:

- Dates are whole day numbers, and day 0 is a Monday. Holidays are a finite
  set of day numbers rather than a table keyed by ISO date.
- A table is a sequence of rows. Each engine is modelled as a function from
  the input rows to the output rows. The TypeScript engines also write into
  the caller's row objects, because `[...data]` copies only the array; that
  aliasing is not modelled (see "Left out").
- The shared greedy core (`Greedy`) is one definition. Each engine
  instantiates it with its own calendar rule, day rounding, pool choice and
  truthiness test:

| engine | rule |
|---|---|
| Python service | Saturday/Sunday weekend, `ceil(h/8)` days |
| Streamlit helper | Saturday/Sunday weekend, `round(h/8)` with ties to even |
| TypeScript calculator | Saturday/Sunday weekend, `ceil` |
| API route | Friday/Saturday weekend as written (`getDay() >= 5`), `ceil` |

- State held by singletons (logger buffer, page registry, auditors) is a
  value threaded through the operations.
- Clocks are a `now` parameter.
- Parsers, formatters and page functions are function parameters.

Where the documentation and the code disagree, the model follows the code:

- The API route treats Friday and Saturday as the weekend, and it works on
  Sundays. The calculator and the Python engines use Saturday and Sunday.
  `Calendar.RouteWeekendIsFriSat` and `TsEngine.RouteSpanAvoidsFriday`
  state the route's rule as written.
- The EF score weights sum to 100 for the mandatory criteria
  ("obligatorios") and 10 for the optional ones ("opcionales"), and the score divides by 110. The 95 % / 5 % split
  named in the sidebar text is not what the code computes.
- The service copy of the data filters reads a module column spelled
  "M贸dulo" (a mis-decoded "Módulo"). The backup copy reads "Módulo". Both
  are modelled (`Filters.ModuleSpellingMatters`).
- `PlanConfig` has nine required string fields, not six. All nine must be
  non-empty.
- The Streamlit helper rounds the day count half to even (`round` in
  Python 3), so 12 hours is 2 days but 20 hours is also 2 days.
- `core/config.py`'s developer pool has 17 distinct names. Cesar Rivero is
  in both ERP and HCM, and Jhonatan Colina is in both LOC and PORTAL. The
  web catalogue has 18 names, and `utils/config.py` has 22.

## Model

| member | source | states |
|---|---|---|
| Calendar.JsGetDay | app/lib/assignment-calculator.ts:9-16 | JavaScript's Sunday-first day of week is Python's Monday-first weekday shifted by one, modulo 7 |
| Calendar.CalculatorWeekendIsSatSun | app/lib/assignment-calculator.ts:9-16 | the calculator's `getDay() === 0 \|\| getDay() === 6` test is exactly the Saturday/Sunday weekend of the Python engines |
| Calendar.RouteWeekendIsFriSat | app/api/assign/route.ts:20-22 | the route's `getDay() >= 5` test makes Friday and Saturday the weekend; Sunday is a working day |
| Calendar.NextWorking | services/assignment_service.py:52-54 | the start-date adjustment returns the first working day on or after the base date: it is working and every day skipped is not |
| Calendar.CountMonotone | services/assignment_service.py:59-65 | counting working days from a fixed origin never decreases as the end moves later |
| Calendar.AdvanceWorking | services/assignment_service.py:61-65 | stepping to the next working day n times lands on a working day that is exactly n working days further on |
| Calendar.Ceil | services/assignment_service.py:56 | `math.ceil`: the least integer not below x |
| Calendar.RoundHalfEven | utils/assignment.py:40 | Python 3 `round`: the nearest integer, ties going to the even one |
| Calendar.DayCount | services/assignment_service.py:56 | at least one day; with ceiling, h hours need r days exactly when 8(r−1) < h ≤ 8r; with Python's round, more than one day is round-half-even of h/8 |
| Calendar.DayCountExamples | utils/assignment.py:40 | 9 hours take 2 days under ceiling but 1 day under round; 20 hours round to 2 days (tie to even) |
| Calendar.SpanUnique | services/assignment_service.py:39-67 | the span of a base date and day count is determined: two spans satisfying the working-day conditions are equal |
| Calendar.Span | services/assignment_service.py:52-67 | the start is the first working day not before the base, the end is a working day, and the span holds exactly `days` working days |
| Calendar.WorkingDates | services/assignment_service.py:39-67 | no dates exactly when the base is missing or the hours are not positive; otherwise the unique span of DayCount working days from the base |
| Calendar.CalculatorDates | app/lib/assignment-calculator.ts:29-79 | the calculator's dates agree with the Python service's rule (Saturday/Sunday weekend, ceiling), its extra clamps change nothing |
| Overlap.OverlapsIffCommonDay | services/assignment_service.py:89 | `start_new <= task_end and end_new >= task_start` holds exactly when the two closed day ranges share a day |
| Overlap.OverlapsSymmetric | services/assignment_service.py:89 | the overlap test does not depend on which task is the new one |
| Overlap.ConflictsWith | services/assignment_service.py:69-91 | a conflict is reported exactly when some existing task with both dates present overlaps the new span; an empty task list never conflicts |
| Overlap.CountOverlapping | utils/visualization.py:99-125 | the number of other tasks a task overlaps is zero exactly when it overlaps none of them |
| Overlap.PairConflictsZeroIff | utils/visualization.py:99-125 | the summary's conflict count is zero exactly when a resource's tasks are pairwise disjoint |
| Overlap.PairConflictsSingle | utils/visualization.py:99-125 | a resource with one task has no conflicts |
| Overlap.PairConflictsBound | utils/visualization.py:99-125 | a resource with n tasks has at most n(n−1)/2 conflicting pairs |
| Greedy.UnassignedIndices | services/assignment_service.py:117-137 | the rows the pass considers are exactly the rows not already assigned (no null, "", "None" or "nan"), in ascending position |
| Greedy.CountOf | services/assignment_service.py:169-172 | a resource's current task count is zero exactly when no row holds its name |
| Greedy.CountUpdate | services/assignment_service.py:192 | rewriting one row changes a resource's count only by that row leaving or joining it |
| Greedy.ConflictsIffNotFree | services/assignment_service.py:177-184 | checking the new span against the resource's own rows reports a conflict exactly when the resource is not free over that span |
| Greedy.FirstFit | services/assignment_service.py:165-188 | the chosen resource is the first in pool order that is under its limit and free over the span; none is chosen only when no resource fits |
| Greedy.Place | services/assignment_service.py:145-194 | placing one task changes only its row; with no span or no fitting resource nothing changes; otherwise the first fit is written with the span |
| Greedy.Run | services/assignment_service.py:145-194 | rows outside the processing order are never changed, and every row that changes now holds a resource of its own pool and its own span |
| Greedy.RunWritesNamed | app/lib/assignment-calculator.ts:213-239 | under JavaScript truthiness, an empty resource name is never written to a row |
| Greedy.PlaceCapacity | services/assignment_service.py:174-175 | one placement never takes a resource past its limit unless it was already over it |
| Greedy.RunCapacity | services/assignment_service.py:165-175 | after the whole pass a resource holds at most max(its limit, what it held before) tasks |
| Greedy.PlaceNoOverlap | services/assignment_service.py:184-194 | a newly written row overlaps no other row of the same resource |
| Greedy.RunKeeps | services/assignment_service.py:117-124 | a row outside the processing order comes out of the pass unchanged |
| Greedy.RunNoNewOverlap | services/assignment_service.py:145-194 | after the pass, every row the pass wrote is free of overlap with every other row of its resource |
| PyEngine.Message | services/assignment_service.py:198-199 | the wrapped error text quotes a missing column the way `str(KeyError)` does |
| PyEngine.RowSpan | services/assignment_service.py:147-151 | a row has a span exactly when its base date is present and its hours (8 when the column is absent) are positive; the base is the available date, or the plan date only when the available column is absent |
| PyEngine.Backfill | services/assignment_service.py:124-133 | an assigned row with a missing date gets the computed span written to both date columns; other columns are unchanged, and a row with both dates or no base date is untouched |
| PyEngine.BackfillAll | services/assignment_service.py:124-133 | backfilling touches only preassigned rows and only their two date columns |
| PyEngine.SortedByHours | services/assignment_service.py:143 | the processing order lists every unassigned row once, by hours descending |
| PyEngine.StableOrder | services/assignment_service.py:143 | one admissible `sort_values` result: hours descending, ties in row order |
| PyEngine.LimitsOf | services/assignment_service.py:165-166 | each pool entry's task limit is its `max_tasks`, defaulting to 15 |
| PyEngine.RowPool | services/assignment_service.py:153-158 | in group mode with a group column, the pool is the group's (a NaN group raises AttributeError); otherwise the plan's flat pool |
| PyEngine.ServiceFlatPool | services/assignment_service.py:201-206 | a plan whose resource title mentions "Developer" gets the merged developer pool, any other plan the testers |
| PyEngine.Pass | services/assignment_service.py:145-194 | the unassigned pass over the sorted rows is the shared greedy run with the service's pools and spans |
| PyEngine.AssignRows | services/assignment_service.py:106-196 | the pass fails exactly when there is work and either the hours column is missing (KeyError) or a group lookup fails (AttributeError); with no unassigned row the backfilled table is returned |
| PyEngine.StreamlitAssign | utils/assignment.py:80-188 | the helper raises only KeyError or AttributeError, and outside group mode it fails exactly when there is work and no hours column |
| PyEngine.ServiceAssign | services/assignment_service.py:93-199 | a rejected frame (core/security.py:77-105) gives "Failed to assign resources: " and that check's own message, so an empty or missing frame reads "…DataFrame is empty or None"; a passing frame gives exactly the ceiling-day pass, its failures wrapped the same way |
| PyEngine.AssignWritesThreeColumns | services/assignment_service.py:108-114 | in every row only the resource, start and end cells can change, and the row order is kept |
| PyEngine.AssignKeepsPreassigned | services/assignment_service.py:117-133 | a preassigned row keeps its resource; only missing dates are filled |
| PyEngine.AssignIsPass | services/assignment_service.py:135-196 | a successful assignment is the backfill followed by the greedy pass over the sorted unassigned rows |
| PyEngine.BackfillKeepsInputs | services/assignment_service.py:124-133 | backfilling changes no cell the pool choice or the span computation reads, so the pass sees the same pools and spans |
| PyEngine.AssignUnassignedRow | services/assignment_service.py:145-194 | an unassigned row either stays as it was or receives its own span and a name from its own pool; a row without a base date is never touched |
| PyEngine.AssignCapacity | services/assignment_service.py:165-175 | no resource ends the pass holding more than max(its limit, what it held before) tasks |
| PyEngine.AssignNoNewOverlap | services/assignment_service.py:177-188 | no row the pass assigned overlaps another row of the same resource |
| TsEngine.HoursUsed | app/lib/assignment-calculator.ts:191 | `hours \|\| 8`: a missing or zero hour count is read as 8 |
| TsEngine.SortKey | app/lib/assignment-calculator.ts:185 | `hours \|\| 0`: a missing hour count sorts as 0 |
| TsEngine.BaseOf | app/lib/assignment-calculator.ts:192 | the base date is the available date, or the plan date when that is falsy; there is none only when both are blank |
| TsEngine.Reset | app/lib/assignment-calculator.ts:143-151 | when the first row's resource or date column is falsy, that column is cleared in every row |
| TsEngine.ResetIdempotent | app/lib/assignment-calculator.ts:143-151 | resetting twice is resetting once |
| TsEngine.ResetErasesAssignments | app/lib/assignment-calculator.ts:143-144 | a table whose first row is unassigned loses every assignment |
| TsEngine.RowSpan | app/api/assign/route.ts:11-38 | a row's span is computed under its engine's weekend rule with ceiling rounding, from its hours and base date |
| TsEngine.RouteSpanAvoidsFriday | app/api/assign/route.ts:20-31 | spans computed by the route never start or end on a Friday or a Saturday |
| TsEngine.Backfill | app/lib/assignment-calculator.ts:154-174 | an assigned row is changed only when a date is blank and a span exists, and then only its two date columns |
| TsEngine.BackfillIdempotent | app/lib/assignment-calculator.ts:154-174 | backfilling a backfilled row changes nothing |
| TsEngine.Merge | app/lib/assignment-calculator.ts:276-281 | writing the pass's tasks back sets each row's resource and the dates it received; a row whose task is unchanged stays as it was |
| TsEngine.MergeTasks | app/lib/assignment-calculator.ts:276-281 | when every changed task carries both dates, reading the tasks back from the merged table gives the pass's tasks |
| TsEngine.Order | app/lib/assignment-calculator.ts:177-185 | the loop visits each unassigned row exactly once, by hours descending (`\|\| 0`), ties in row order |
| TsEngine.OrderFacts | app/lib/assignment-calculator.ts:177-185 | the order lists no row twice and only rows without a resource |
| TsEngine.LimitsOf | app/lib/assignment-calculator.ts:213-216 | each entry's limit is `maxTasks \|\| 15`, so a zero limit is read as 15 |
| TsEngine.RowRef | app/lib/assignment-calculator.ts:198-206 | a shared group pool only in group mode, for a truthy group whose upper-cased name is a known key; the shared testers exactly when the row is not routed by group and the plan is the test plan |
| TsEngine.PoolAt | app/lib/assignment-calculator.ts:198-206 | a fresh merged pool lists exactly the names of every group |
| TsEngine.SeniorName | app/lib/assignment-calculator.ts:119 | generated names start with "Senior_" followed by at least two characters (the number padded to two digits) |
| TsEngine.SeniorNameInjective | app/lib/assignment-calculator.ts:119 | distinct numbers give distinct Senior names |
| TsEngine.DynamicEntry | app/lib/assignment-calculator.ts:118-126 | a generated consultant is SENIOR with 15 tasks and the colour at its number's position in the cycle |
| TsEngine.GenerateDynamicSeniorConsultants | app/lib/assignment-calculator.ts:108-129 | count entries (none for a non-positive count), entry i named Senior_(i+1) with its cycle colour |
| TsEngine.GeneratedNamesUnique | app/lib/assignment-calculator.ts:108-129 | the generated consultants have pairwise distinct names |
| TsEngine.GeneratedColorsCycle | app/lib/assignment-calculator.ts:110-120 | colours repeat with the palette's period |
| TsEngine.Invent | app/lib/assignment-calculator.ts:241-273 | the fallback adds a Senior entry to the pool in use; shared pools only grow, and the new entry can be looked up unless the pool was a fresh merge |
| TsEngine.CalcStep | app/lib/assignment-calculator.ts:187-281 | a row without a base date leaves the state alone; a row without a span keeps the tasks; otherwise the row is assigned, and the counter grows only with a Senior name |
| TsEngine.CalcStepFirstFit | app/lib/assignment-calculator.ts:213-239 | when some pool entry fits, the row gets the first one that does |
| TsEngine.CalcStepFallback | app/lib/assignment-calculator.ts:241-273 | when no entry fits, the row gets a fresh Senior consultant |
| TsEngine.CalcRunAssigns | app/lib/assignment-calculator.ts:187-281 | every visited row with a base date and a span ends the loop with a resource |
| TsEngine.CalculateAssignments | app/lib/assignment-calculator.ts:131-284 | empty input gives an empty result; an unknown plan fails with "Unknown plan type: " and the plan; otherwise the row count is kept and shared pools only grow |
| TsEngine.CalcKeepsPreassigned | app/lib/assignment-calculator.ts:154-174 | a row that is assigned after the reset and backfill comes out of the calculation unchanged |
| TsEngine.CalcAssignsEveryUsableRow | app/lib/assignment-calculator.ts:187-281 | every unassigned row that has a span ends up with a resource and exactly that span, thanks to the Senior fallback |
| TsEngine.CalcChangedRows | app/lib/assignment-calculator.ts:154-281 | a row the calculator changes was unassigned and had a span, and now holds a resource and that span |
| TsEngine.RouteAssign | app/api/assign/route.ts:77-179 | the route's pass is the shared greedy run with the route's pools and Friday/Saturday spans |
| TsEngine.Post | app/api/assign/route.ts:66-191 | missing data gives 400 InvalidDataFormat; an empty array or an unknown plan gives 500; success exactly when data is present, non-empty and the plan known |
| TsEngine.RoutePassTasks | app/api/assign/route.ts:128-179 | the response's tasks are the greedy run's tasks |
| TsEngine.RouteKeepsPreassigned | app/api/assign/route.ts:102-126 | a row that is assigned after the reset and backfill comes out of the route unchanged |
| TsEngine.RouteChangedRows | app/api/assign/route.ts:128-179 | a row the route changes was unassigned, and now holds a name of its own pool and its Friday/Saturday span |
| TsEngine.RouteCapacity | app/api/assign/route.ts:128-179 | no resource ends above max(its limit, what it held before) |
| TsEngine.RouteNoNewOverlap | app/api/assign/route.ts:40-64 | no row the route assigned overlaps another row of the same resource |
| Catalog.Find | core/config.py:126-136 | a name's position in a pool is its first occurrence, and there is none exactly when the pool lacks the name |
| Catalog.Lookup | core/config.py:126-136 | looking a name up succeeds exactly for the pool's names and returns that name's entry |
| Catalog.Put | app/lib/assignment-calculator.ts:241-273 | assigning a key replaces it in place or appends it, keeps the other keys' order, and the key then maps to the new value |
| Catalog.Update | core/config.py:138-144 | `dict.update`: the merged pool keeps p's key order and holds the names of both |
| Catalog.UpdateLookup | core/config.py:138-144 | after a merge a key of q has q's value and every other key keeps p's |
| Catalog.UnionOf | core/config.py:138-144 | merging the groups gives a pool with distinct names, exactly the names of some group |
| Catalog.UnionLookupLast | core/config.py:138-144 | a name in several groups takes its value from the last group that lists it |
| Catalog.UnionKeepsFirstPosition | core/config.py:138-144 | each name keeps the position of its first appearance |
| Catalog.GroupLookup | core/config.py:126-136 | a falsy group gives the fallback, a NaN group raises AttributeError, and any other name is upper-cased and looked up, with the fallback for an unknown group |
| Catalog.GroupLookupIgnoresCase | core/config.py:131-133 | group names with the same upper-case form get the same pool |
| Catalog.GroupLookupCovered | core/config.py:126-144 | every pool the lookup returns lists only names of the merged fallback |
| CoreConfig.AllDevelopersNames | core/config.py:27-73 | the merged developer pool lists 17 distinct names, exactly the names of the seven groups |
| CoreConfig.GroupConfig | core/config.py:126-136 | the application's group lookup, with the merged pool as fallback |
| CoreConfig.GroupConfigErp | core/config.py:131-133 | "erp" finds the ERP group |
| CoreConfig.GroupConfigCovered | core/config.py:126-144 | every pool the lookup returns is within the merged pool |
| CoreConfig.GetPlanConfig | core/config.py:94-124 | only "Plan de Desarrollo" and "Plan de Pruebas" exist; group mode only for development; an unknown plan fails with "Unknown plan type: "; each result passes `PlanConfig` validation |
| CoreConfig.ValidateConfig | core/config.py:146-171 | validation succeeds exactly when every group entry and every tester is a valid ResourceConfig, and fails with "Configuration validation failed: " |
| TsConfig.AllDevelopersNames | app/lib/types/developers-config.ts:93-99 | the web merged pool lists 18 distinct names, exactly the names of its seven groups |
| TsConfig.GroupConfig | app/lib/types/developers-config.ts:80-91 | a known upper-cased group gets its shared pool; any other or empty name gets a fresh merged pool, never the testers |
| TsConfig.GroupConfigIgnoresCase | app/lib/types/developers-config.ts:80-91 | the lookup ignores case |
| TsConfig.GroupConfigCovered | app/lib/types/developers-config.ts:80-99 | every pool the lookup returns is within the merged pool |
| TsConfig.ValidateDeveloperConfig | app/lib/types/developers-config.ts:101-122 | succeeds exactly when every entry has a truthy level and task limit |
| TsConfig.ShippedConfigValid | app/lib/types/developers-config.ts:17-122 | the shipped web catalogue passes its own validation |
| TsConfig.GetPlanConfig | app/lib/config.ts:26-82 | four plans exist, three of them developer plans in group mode; anything else fails with "Unknown plan type: " |
| TsConfig.FlatPool | app/lib/assignment-calculator.ts:198-206 | outside group mode a developer plan uses a fresh merged pool and the test plan the shared testers |
| UtilsConfig.GroupsAgree | utils/config.py:4-73 | the helper's groups equal the application's except GRID |
| UtilsConfig.ExtraNamesAreNew | utils/config.py:4-62 | the five extra names are not among the application's 17 |
| UtilsConfig.DevelopersCount | utils/config.py:53-62 | the helper's default pool has 22 distinct names: the application's 17 plus senior6, senior7 and the three placeholders |
| UtilsConfig.GroupConfig | utils/config.py:94-101 | a known group is found ignoring case; an unknown name or an empty cell gets the 22-name default pool; a NaN cell fails with the AttributeError of `.upper()` |
| UtilsConfig.GroupConfigMatchesCore | utils/config.py:94-101 | outside GRID the helper's lookup agrees with the application's |
| UtilsConfig.GetPlanConfig | utils/config.py:104-137 | the two known plans; an unknown plan gives None instead of raising; development uses the default pool |
| Filters.Active | services/data_service.py:147-156 | a filter applies exactly when it is set, non-empty and not "Todos" |
| Filters.KeepMatching | services/data_service.py:147-156 | the kept rows all match the active filters and are no more than the input |
| Filters.KeepMatchingIsFilter | services/data_service.py:147-156 | the boolean masks keep every matching row, each as often as it occurs, in input order: the pass is the order-keeping filter on the criteria |
| Filters.SelectionsAreKeepMatching | services/data_service.py:147-156 | the three successive selections equal one pass keeping the rows that match all criteria |
| Filters.KeepMatchingMembers | services/data_service.py:147-156 | the kept rows are a subsequence of the input; a row is kept exactly when it is in the input and matches, and then as often as it occurs there |
| Filters.KeepMatchingIdempotent | services/data_service.py:147-156 | filtering twice is filtering once |
| Filters.ApplyFilters | services/data_service.py:141-161 | fails exactly when an active filter's column is missing, with "Failed to apply filters: "; otherwise the columns are kept and the rows are those matching |
| Filters.ApplyFiltersOpen | services/data_service.py:141-161 | with no active filter the frame comes back unchanged |
| Filters.ApplyFiltersIdempotent | services/data_service.py:141-161 | the result is a subsequence of the input, and applying the filters again changes nothing |
| Filters.ModuleSpellingMatters | services/data_service.py:150-152 | a module filter over a frame with the "Módulo" column fails in the service copy and succeeds in the backup copy |
| Filters.SortedDistinct | services/data_service.py:176-191 | the option list is strictly sorted and holds each present value once |
| Filters.OptionList | services/data_service.py:176-191 | "Todos" comes first, then the distinct non-null values of the column, sorted |
| Filters.FilterOptions | services/data_service.py:176-191 | fails exactly when PROY or the module column is missing; the group list is ["Todos"] when there is no group column |
| Filters.OfferedProjectIsNonEmpty | services/data_service.py:141-191 | selecting any offered project keeps at least one row |
| Filters.GetFilteredData | app/page.tsx:120-140 | the visible items all match the page filters and are no more than the data |
| Filters.GetFilteredDataIsFilter | app/page.tsx:120-140 | `assignedData.filter` keeps every matching item, each as often as it occurs, in data order |
| Filters.GetFilteredDataSpec | app/page.tsx:120-140 | the visible items are a subsequence of the data; an item is visible exactly when it is in the data and matches, and then as often as it occurs there |
| Filters.UnsetFilterHidesAll | app/page.tsx:120-140 | with the project, module, group or consultant filter never set (`undefined`), nothing is shown |
| Filters.OpenFiltersShowAll | app/page.tsx:120-140 | with every filter at "Todos" everything is shown |
| Filters.GetPagePlan | app/page.tsx:70-117 | "Plan de PU" gets the PU columns and "Plan de Test" the test columns, each exactly for that name; every other plan falls back to development; every plan reads abap_asignado and starts at its plan column |
| Filters.ConfiguredPlansUseDevelopmentColumns | app/page.tsx:70-117 | every plan type the application configuration accepts (app/lib/config.ts) is drawn with the development columns; the page's PU and test plans are not accepted there |
| Summary.Resources | utils/visualization.py:99-125 | the summary's resources are the distinct assigned names |
| Summary.HoursSumNonNegative | utils/visualization.py:99-125 | summed hours of non-negative rows are non-negative |
| Summary.Percent | utils/visualization.py:99-125 | the load percentage is within rounding of tasks·100/max, and 0 for a non-positive limit |
| Summary.EntryFor | utils/visualization.py:99-125 | a resource's row counts its tasks, sums their hours and counts its overlapping pairs; an unknown name has level N/A |
| Summary.CreateResourceSummary | utils/visualization.py:99-125 | empty when the resource column is missing or nothing is assigned; otherwise, with the hours column, one entry per distinct assigned name; without it, the KeyError of the hours column, exactly then |
| Summary.AssignedNamesListed | utils/visualization.py:99-125 | every assigned name appears in the summary |
| Summary.SummaryTasksTotal | utils/visualization.py:99-125 | the task counts add up to the number of assigned rows |
| Summary.SummaryTasksPositive | utils/visualization.py:99-125 | every listed resource has at least one task |
| Summary.SummaryConflicts | utils/visualization.py:99-125 | a resource's conflict count is zero exactly when its tasks are pairwise disjoint |
| Summary.Metrics | app/components/Metrics.tsx:11-16 | total tasks is the row count, assigned and unassigned add up to it, assigned counts the rows with a resource, and projects are the distinct non-empty project codes |
| Summary.MetricsMatchSummary | app/components/Metrics.tsx:11-16 | the strip's assigned count equals the sum of the summary's task column |
| Summary.SentinelsCountAsAssigned | app/components/Metrics.tsx:11-16 | the strings "None" and "nan" count as assigned in the metrics, though the engine treats them as unassigned |
| Timeline.ThreeDaysHoldABusinessDay | app/components/Timeline.tsx:56-67 | any three consecutive days contain a business day |
| Timeline.AddBusinessDays | app/components/Timeline.tsx:56-67 | adding n > 0 business days lands on a business day after the start with exactly n business days in between; n ≤ 0 returns the start |
| Timeline.CountBusinessDays | app/components/Timeline.tsx:70-79 | counts the weekdays in [start, end), and 0 when end is not after start |
| Timeline.BusinessDaysSplit | app/components/Timeline.tsx:70-79 | counts over adjacent ranges add up |
| Timeline.FiveBusinessDaysAWeek | app/components/Timeline.tsx:70-79 | every seven consecutive days hold five business days |
| Timeline.HoursOf | app/components/Timeline.tsx:128-147 | a drawn task's hours are never zero: a non-zero hours field is kept, otherwise a default is used |
| Timeline.ItemOf | app/components/Timeline.tsx:128-147 | a task's label is its id, or Task_k for the k-th row without one |
| Timeline.TimelineData | app/components/Timeline.tsx:128-147 | the timeline shows one item per task that has a resource and both dates, in input order; it fails with `Invalid time value` exactly when such a task has a date that does not parse |
| Timeline.TimelineRowsAreDrawnRows | app/components/Timeline.tsx:128-134 | when the timeline is built, a row gets an item exactly when its start, end and resource are all truthy |
| Timeline.UnparsedDateFailsTimeline | app/components/Timeline.tsx:134-140 | one row with a resource and an unparseable date makes the whole timeline fail |
| Timeline.SortByStart | app/components/Timeline.tsx:218-222 | rows are ordered by start, stably |
| Timeline.SortByStartSameItems | app/components/Timeline.tsx:218-222 | sorting keeps exactly the same rows, each as often as before |
| Timeline.TotalPages | app/components/Timeline.tsx:223-228 | zero pages for no rows, otherwise the least page count that holds all rows |
| Timeline.PageNonEmptyIff | app/components/Timeline.tsx:223-228 | a page shows rows exactly when its number is below the page count |
| Timeline.PagesCoverAll | app/components/Timeline.tsx:223-228 | the pages in order give back every row |
| EfScore.WeightTotals | pages/validacion_ef.py:16-32 | the mandatory ("obligatorios") weights sum to 100 and the optional ("opcionales") ones to 10 |
| EfScore.CalcularScoreEf | pages/validacion_ef.py:61-80 | the score is the weighted sum of the marks divided by 110 |
| EfScore.ScoreBounds | pages/validacion_ef.py:61-80 | marks between 0 and 100 give a score between 0 and 100 |
| EfScore.ScoreMonotone | pages/validacion_ef.py:61-80 | raising any mark never lowers the score |
| EfScore.ScoreExtremes | pages/validacion_ef.py:61-80 | all marks 0 give 0 and all marks 100 give 100 |
| EfScore.GradeOf | pages/validacion_ef.py:222-238 | Excelente from 90, Buena from 70, Regular from 50, Deficiente below |
| EfScore.ColourFollowsGrade | pages/validacion_ef.py:290-298 | the score colour follows the grade bands |
| EfScore.DefaultsAreDeficiente | pages/validacion_ef.py:194-213 | the form's default marks score 5000/110 and grade Deficiente |
| EfScore.Submit | pages/validacion_ef.py:222-238 | a submission is accepted exactly when the three identifying fields are filled |
| CsvProcessor.DropTwoLines | app/lib/csv-processor.ts:26-35 | fewer than three lines is an error; otherwise the text is two lines followed by the remainder given back |
| CsvProcessor.DataRows | app/lib/csv-processor.ts:51-59 | `data.filter` keeps exactly the rows that have a project code, in order, each as often as it occurs |
| CsvProcessor.NormalizeRow | app/lib/csv-processor.ts:62-103 | normalising keeps the row's keys and changes only date and numeric columns |
| CsvProcessor.ProcessSpecialCSV | app/lib/csv-processor.ts:26-110 | short text fails; parse errors fail with "CSV parsing errors: "; otherwise the counts are the kept rows and the parsed rows |
| CsvProcessor.ProcessedRowsAreDataRows | app/lib/csv-processor.ts:51-103 | every returned row has a project code |
| CsvProcessor.ConvertToSimpleCSV | app/lib/csv-processor.ts:147-162 | no rows is an error; otherwise a header line and one line per row |
| CsvProcessor.SimpleCSVLines | app/lib/csv-processor.ts:147-162 | the text splits into the header line and one line per row |
| CsvProcessor.ConvertToOriginalCSVFormat | app/lib/csv-processor.ts:118-140 | no rows is an error; otherwise the simple CSV under a title line and a blank line |
| CsvProcessor.ReaderUndoesWriterPrefix | app/lib/csv-processor.ts:26-140 | the reader's two-line skip gives back exactly the simple CSV the writer put under its header |
| CsvProcessor.ValidateCSVFile | app/lib/csv-processor.ts:192-203 | a file is accepted exactly when its name ends in ".csv" in any case and its size is at most 50 MB |
| CsvConfig.GetProfile | app/lib/csv-config.ts:79-81 | only "sap-ricesfw" names the SAP profile; every other name gets the generic one |
| CsvConfig.DetectProfile | app/lib/csv-config.ts:83-106 | SAP is detected exactly when every marker is among the lower-cased headers |
| CsvConfig.DetectMeansRequiredPresent | app/lib/csv-config.ts:83-106 | detection means every required SAP column is present up to case |
| CsvConfig.SapHeadersDetected | app/lib/csv-config.ts:83-106 | headers listing the required columns are detected whatever surrounds them |
| CsvConfig.ValidateConfig | app/lib/csv-config.ts:109-114 | each given field overrides its default and each missing field takes it |
| CsvConfig.ValidateConfigLaws | app/lib/csv-config.ts:109-114 | an empty override gives the defaults, a full one is kept, merging is idempotent |
| CsvConfig.GetColumnMapping | app/lib/csv-config.ts:116-128 | each required column maps to itself and nothing else is mapped |
| CsvConfig.ColumnMappingByProfile | app/lib/csv-config.ts:116-128 | only the SAP profile has a mapping, of four columns |
| CsvErrors.CreateError | app/lib/csv-errors.ts:57-76 | the error keeps its type and details; without a value the message is the template; a value is put in place of the placeholder after JavaScript's `$` patterns (`$$`, `$&`, `` $` ``, `$'`) are expanded, and a value with no `$` and no brace goes in literally |
| CsvErrors.PlaceholderInValue | app/lib/csv-errors.ts:62-71 | a column list that itself reads "{column}" has that text substituted too, `$` patterns included |
| CsvErrors.MatchPatternKeepsPlaceholder | app/lib/csv-errors.ts:68-70 | a parse error whose details read "$&" keeps the template unchanged, because `$&` stands for the matched "{details}" |
| CsvErrors.EscapedValueIsLiteral | app/lib/csv-errors.ts:62-71 | a brace-free value with every `$` doubled is inserted exactly as the original value |
| Strings.SubstituteEscaped | app/lib/csv-errors.ts:62-71 | expanding the `$` patterns of a value whose every `$` is doubled gives back the value |
| Strings.ReplaceFirst | app/lib/csv-errors.ts:62-71 | `replace` with a string pattern changes only the first occurrence, into the expanded replacement; no occurrence leaves the text as it was |
| CsvErrors.FormatErrorForUser | app/lib/csv-errors.ts:79-81 | the user sees the message unchanged |
| CsvErrors.UserSeesTemplate | app/lib/csv-errors.ts:22-81 | without details the user sees the language's template |
| CsvErrors.FormatErrorForLog | app/lib/csv-errors.ts:83-85 | the log line is "CSV Error [type]: " and the message, then the details when present |
| ErrorHandler.CreateError | app/lib/error-handler.ts:29-42 | the error carries its type, message, details and time; user-friendly only when asked |
| ErrorHandler.ErrorToResponse | app/lib/error-handler.ts:47-54 | only user-friendly errors expose their message and details |
| ErrorHandler.HandleCsvError | app/lib/error-handler.ts:59-93 | first match wins: parse errors, missing data, too few lines, else a processing error |
| ErrorHandler.CsvValidationIff | app/lib/error-handler.ts:59-93 | a CSV error is a validation error exactly when it is not a parse error and mentions missing data or too few lines |
| ErrorHandler.HandleSupabaseError | app/lib/error-handler.ts:98-123 | network when the message mentions fetch, auth when it mentions auth and not fetch, storage otherwise |
| ErrorHandler.FetchBeatsAuth | app/lib/error-handler.ts:98-123 | a message mentioning both is a network error; no message is a storage error |
| ErrorHandler.HandleUploadError | app/lib/error-handler.ts:128-153 | an invalid or missing file is a validation error, anything else a processing error |
| ErrorHandler.GetUserFriendlyMessage | app/lib/error-handler.ts:166-186 | user-friendly errors show their own message; every other error shows the fixed text of its type: validation, network, auth, storage, processing, or the unexpected-error text |
| ErrorHandler.FallbackByKind | app/lib/error-handler.ts:172-185 | two errors that are not user-friendly show the same text exactly when they have the same type |
| ErrorHandler.ClassifiedErrorsAreExposed | app/lib/error-handler.ts:47-186 | for every classified error, the response and the user message agree and carry the original message |
| ErrorHandler.DefaultErrorIsHidden | app/lib/error-handler.ts:29-54 | an error created with the default flag is hidden behind the generic response |
| Logger.LogOperation | core/logger.py:38-64 | the buffer keeps at most 100 entries: the new entry, with its session id, goes last, the oldest is evicted when full |
| Logger.LogAllKeepsNewest | core/logger.py:49-52 | after any number of entries the buffer is the newest 100 of everything logged, in order |
| Logger.GetRecentLogs | core/logger.py:103-105 | Python slicing: the last count entries; 0 gives everything; a negative count drops from the front |
| Logger.ClearThenLog | core/logger.py:107-109 | after clearing, the next entry is the only one |
| Logger.PerformanceLevel | core/logger.py:91-101 | GOOD below 1 s, SLOW below 5 s, VERY_SLOW otherwise |
| Logger.PerformanceLevelMonotone | core/logger.py:91-101 | a slower operation never gets a better label |
| Logger.LogPerformance | core/logger.py:91-101 | the entry records the duration and its level, and the session it was logged in |
| Logger.LogError | core/logger.py:80-89 | the entry has level ERROR, the type and message, and names the context or "unknown" |
| PageManager.RegisterPage | core/page_manager.py:16-25 | the page is active, titled by its name when no title is given; other pages are untouched |
| PageManager.GetPage | core/page_manager.py:27-32 | found exactly for registered names; others raise "Page '…' not registered" |
| PageManager.GetAllPages | core/page_manager.py:34-37 | every page get_page finds, with the same entry |
| PageManager.SetCurrentPage | core/page_manager.py:39-44 | only a registered page can become current; a failure changes nothing |
| PageManager.SetActive | core/page_manager.py:93-102 | disabling or enabling flips one registered page's flag; an unknown name is ignored |
| PageManager.EnableAfterDisable | core/page_manager.py:93-102 | enabling undoes disabling of an active page |
| PageManager.RenderPage | core/page_manager.py:51-62 | an unknown page raises; a disabled page shows an error; otherwise it runs, and failures are shown, not raised |
| PageManager.DisabledNeverRuns | core/page_manager.py:51-62 | a disabled page's function is never consulted |
| PageManager.RegisteredPageRuns | core/page_manager.py:16-62 | a freshly registered page renders by running its function and can be made current |
| Security.Suffix | core/security.py:66 | `PurePath.suffix`: the last dot-part of the base name, empty for dot-files |
| Security.TooLargeIff | core/security.py:70-73 | a file is too large exactly above 50 × 1024 × 1024 bytes |
| Security.ValidateFileUpload | core/security.py:59-75 | no file is an error; the upload passes exactly when its lower-cased suffix is allowed and it is small enough; every failure is a SecurityError |
| Security.SuffixOfExtension | core/security.py:66 | a name ending in an extension has that suffix, unless the extension is the whole base name |
| Security.TrulySuspicious | core/security.py:89-95 | exactly the unknown columns whose lower-cased name mentions a script pattern |
| Security.HandlerAtIff | core/security.py:119-120 | the `on\w+\s*=` pattern matches exactly at "on", a word run and spaces followed by "=" |
| Security.FirstProblem | core/security.py:107-126 | a column is clean exactly when every non-null cell is; otherwise the first problem is reported |
| Security.ValidateDataframe | core/security.py:77-105 | None or empty fails first; then missing required columns; suspicious columns only once those are present; then text cell content |
| Security.Escape | core/security.py:135 | `html.escape` leaves no markup character |
| Security.UnescapeEscape | core/security.py:135 | escaping loses nothing: unescaping gives the input back |
| Security.RemoveControls | core/security.py:138 | removing control characters leaves none, keeps markup-free text markup-free, and leaves text without control characters unchanged |
| Security.SanitizeInput | core/security.py:128-140 | None gives ""; the result has no markup, no control characters and no outer whitespace |
| Security.SanitizePipeline | core/security.py:128-140 | sanitising is escape, then control removal, then strip |
| Security.SanitizeRecoverable | core/security.py:128-140 | a clean, unpadded input is recovered by unescaping |
| Security.SanitizeTwiceDiffers | core/security.py:128-140 | sanitising is not idempotent: a second pass escapes every ampersand again, so text holding one grows |
| Security.ValidateEmail | core/security.py:142-149 | the empty string fails; otherwise the address matches the email pattern |
| Security.ValidateEmailVersusModel | core/security.py:142-149 | Python's `$` accepts one trailing newline, so "a@b.co\n" passes here but not the pydantic validator |
| Security.ValidateUserPermissions | core/security.py:151-157 | only an authenticated user with the permission or admin passes |
| Security.PermissionMonotone | core/security.py:151-157 | admin grants every permission, and more permissions never revoke one |
| Auth.ValidateUserSession | services/auth_service.py:52-70 | a session is valid exactly when a user is present, authenticated, and their email passes `validate_email` |
| Auth.GetUserPermissions | services/auth_service.py:72-90 | none for an invalid session; read and export for all; write exactly for company addresses; never admin |
| Auth.CheckPermissionIff | services/auth_service.py:92-99 | a permission holds exactly when the session is valid and the permission is granted |
| Auth.CreateUserSession | services/auth_service.py:101-118 | succeeds exactly for a well-formed email and a short enough name; the session carries the user's permissions |
| Auth.CreateUserSessionQuirks | services/auth_service.py:101-118 | an unauthenticated user still gets an authenticated session with no permissions, and a trailing newline passes the email check but fails the session model |
| Auth.CreatedSessionGrantsWrite | services/auth_service.py:72-118 | a created session for a company address can write |
| Models.ResourceConfigErrors | backup_streamlit/core/models.py:18-30 | each field is reported exactly when its constraint fails |
| Models.NewResourceConfig | backup_streamlit/core/models.py:14-30 | valid input with no extra field is accepted with the name stripped; otherwise every failing field is reported |
| Models.RevalidateStoredConfig | backup_streamlit/core/models.py:18-30 | a stored config validates again exactly when its stripped name is non-empty |
| Models.WhitespaceNameStoredEmpty | backup_streamlit/core/models.py:18-30 | a blank name passes the pattern and is stored empty |
| Models.NewPlanConfig | backup_streamlit/core/models.py:32-43 | accepted exactly when all nine names are non-empty and no extra field is given; the error lists the empty names, or the extra-field marker; group mode defaults to on |
| Models.MatchesEmail | backup_streamlit/core/models.py:45-58 | the pydantic email pattern holds exactly for the modelled email shape |
| Models.NoAtNoEmail | backup_streamlit/core/models.py:45-58 | an address without "@" never matches |
| Models.NewUserSession | backup_streamlit/core/models.py:45-58 | a session is accepted exactly for a well-formed email and a name of at most 100 characters |
| Models.NewFilterState | backup_streamlit/core/models.py:60-69 | filter values default to "Todos" and are accepted exactly when each is valid |
| Models.DefaultFilterStateValid | backup_streamlit/core/models.py:60-69 | the default filter state is valid |
| Models.AssignFilter | backup_streamlit/core/models.py:60-69 | assignment validation: accepted exactly for a valid value, changing only that field and keeping the state valid; over 50 characters is the length error, otherwise a bad character is the pattern error |
| PerfAuditor.Cleanup | app/lib/performance-auditor.ts:179-190 | only calls newer than five minutes are kept, per endpoint |
| PerfAuditor.AfterIsFilter | app/lib/performance-auditor.ts:179-190 | the per-endpoint cleanup is the order-keeping filter on the timestamp, keeping each recent call as often as it occurs |
| PerfAuditor.ShouldAllowCall | app/lib/performance-auditor.ts:50-75 | a call is refused when a recent call of the same component is a duplicate, which is counted, or when five calls came in the last minute; the history is never changed |
| PerfAuditor.RecordCall | app/lib/performance-auditor.ts:81-100 | the call is filed under its key, the total grows by one, and old calls are cleaned |
| PerfAuditor.DebounceAfterRecord | app/lib/performance-auditor.ts:50-100 | a repeat within the debounce delay after a recorded call is refused |
| PerfAuditor.CapPerMinute | app/lib/performance-auditor.ts:50-75 | five calls in the last minute block the next |
| PerfAuditor.Complete | app/lib/performance-auditor.ts:105-116 | a failure adds an error, a call over 2000 ms adds a slow call, and the average is updated over the total |
| PerfAuditor.PairedAverage | app/lib/performance-auditor.ts:105-116 | when every call is completed before the next starts, the average is the mean duration |
| PerfAuditor.InterleavedAverage | app/lib/performance-auditor.ts:192-195 | when calls overlap the running average drifts: two 100 ms calls average 75 |
| PerfAuditor.Clear | app/lib/performance-auditor.ts:142-152 | clearing empties the history and zeroes every counter |
| PerfAuditor.ClearAllows | app/lib/performance-auditor.ts:50-152 | after clearing any call is allowed |
| PerfAuditor.NewestFirst | app/lib/performance-auditor.ts:128-137 | the same calls with the same multiplicities, timestamps non-increasing, calls with equal timestamps in their original order |
| PerfAuditor.NewestFirstUnique | app/lib/performance-auditor.ts:128-137 | any reordering that is newest first and keeps equal timestamps in original order is that result: the stable sort is unique |
| PerfAuditor.GetRecentCalls | app/lib/performance-auditor.ts:128-137 | the calls of the last minutes, each with the multiplicity it has in the history, none older, newest first |
| PerfAuditor.RecentCallsAreSortedFilter | app/lib/performance-auditor.ts:128-137 | the result is the stable newest-first sort of the filtered history, so calls with equal timestamps keep their recorded order |
| AuditedFetch.Cleanup | app/lib/auditedFetch.ts:126-135 | after five minutes the counts reset and only the calls younger than five minutes are kept |
| AuditedFetch.CleanupIsFilter | app/lib/auditedFetch.ts:126-135 | a cleanup that runs keeps the calls younger than five minutes with the order-keeping filter, duplicates included |
| AuditedFetch.ShouldAllowCall | app/lib/auditedFetch.ts:51-63 | a call is allowed exactly when fewer than five were counted for its key, and an allowed call is counted |
| AuditedFetch.AtMostFivePerWindow | app/lib/auditedFetch.ts:51-63 | between cleanups at most five calls per key are allowed |
| AuditedFetch.RecordCall | app/lib/auditedFetch.ts:65-74 | the call is appended as pending |
| AuditedFetch.RecordCompletion | app/lib/auditedFetch.ts:76-87 | the first pending call with the same endpoint and verb is completed; with none pending nothing changes |
| AuditedFetch.PendingBookkeeping | app/lib/auditedFetch.ts:65-87 | recording adds one pending call for its key, and a completion with a non-zero duration settles one if any was pending |
| AuditedFetch.GetMetrics | app/lib/auditedFetch.ts:89-100 | total counts the completed calls; slow counts the completed calls over 2000 ms and failed those not marked successful; the average is the completed calls' total duration over their count, or 0 when none completed |
| AuditedFetch.GetRecentCalls | app/lib/auditedFetch.ts:121-124 | exactly the recorded calls newer than the given number of minutes, in recorded order (a subsequence of the history) |
| AuditedFetch.AuditGate | app/lib/auditedFetch.ts:146-155 | unless auditing is skipped, a refused call fails with "API call blocked by performance auditor: "; otherwise the call is recorded |
| AuditedFetch.GateRecords | app/lib/auditedFetch.ts:146-155 | a refused call leaves only the cleanup behind; an accepted one appends exactly one pending call to the history as it was (with `skipAudit`) or as cleaned up (without) |

## Left out

- `get_assignment_summary` and the other read-only reports of the assignment service are not modelled; they add no behaviour to the pass.
- Date parsing (`pd.to_datetime`, `new Date`), time zones and the UTC-based holiday test are not modelled: a date cell is already blank, not a date, or a day number (`Calendar.DateCell`), and which of the three the parser yields is the input.
- Hours are exact reals: NaN hours, IEEE rounding and JavaScript number coercion are not modelled.
- The CSV parsers (Papa Parse, pandas) and number and date formatters are function parameters.
- All UI rendering (Streamlit widgets, React components, Plotly figures) is left out. Only the computations behind them are modelled.
- Summary.CreateResourceSummary: the start and end date columns are taken as present; their KeyError, raised once a resource has two or more rows, is not modelled, only that of the hours column.
- Timeline.TotalPages: the page size is taken as at least 1. The component reads it from local storage or the page-size select, so a size of 0 can reach it, and its division by zero (an infinite or NaN page count) is not modelled.
- PyEngine.SortedByHours: pandas' quicksort tie order is unspecified, so the order is any descending one. `PyEngine.StableOrder` gives one admissible choice.
- Object.prototype keys such as "constructor" are not modelled in the web pool lookups, in `CsvConfig.GetProfile` or in the page's `getPlanConfig` (`Filters.GetPagePlan`); group and profile names are plain keys, so a name like "constructor" is simply absent here.
- Case mapping (`upper`, `lower`, `toLowerCase`) and `\w`, `\s` are ASCII-only.
- Python's rendering of a set of column names inside an error message is a parameter (`show`), since its order follows string hashing; float formatting inside messages is not modelled, and other messages carry the values as data.
- The performance auditor's `generateReport`, its debounce timers and its console output are not modelled; the debounce check uses the recorded timestamps.
- The audited fetch itself (the network call, timing, `generateReport`, `createCSVMetadata`) is not modelled; only the gate and the bookkeeping are.
- Supabase storage, OAuth and logout are not modelled; they are network calls.
- The logger's thin wrappers, the standard `logging` output and `export_logs` are not modelled. The singleton buffer is a value, and timestamps are a parameter.
- `create_navigation` of the page manager and the aliasing of the shallow copy returned by `get_all_pages` are not modelled.
- CsvErrors.CreateError: the filled message is stated for PARSE_ERROR and for values whose expansion (after the `$` patterns) has no '{'. A value that itself contains a placeholder is shown by `CsvErrors.PlaceholderInValue`.
- Security.BaseName: the name is the text after the last '/'. `PurePath` also drops trailing '/' and '.' components, so for "data.csv/" Python finds the suffix ".csv" where the model finds an empty name and rejects the file.
- The TypeScript engines' writes into the caller's row objects (the shallow copy `[...data]` shares them) are not modelled; the result rows are a new value.
- The CSV profile manager's console logging and the error handler's `logError` are not modelled: output only.
- The shipped Python configuration's validity is not proved as one lemma; `CoreConfig.ValidateConfig` states the rule and the catalogue contents are explicit.
- TsEngine.RowSpan: the route's Friday/Saturday weekend is modelled as written, not as the Saturday/Sunday rule the other engines use.

=== FILE: audited_fetch.dfy ===
/** The second auditor (`PerformanceAuditorImpl` of `auditedFetch`): a
    per-`method:endpoint` counter that refuses the sixth check until a
    cleanup, a flat list of calls whose completions are filled in later, the
    metrics over completed calls, and the gate `auditedFetch` runs before a
    request. The clock is a parameter (`now`, in milliseconds); the request
    itself is not modelled. */
module AuditedFetch {
  import opened Wrappers
  import Seqs

  const SlowCallThreshold: int := 2000
  const MaxCallsPerEndpoint: nat := 5
  const CleanupInterval: int := 5 * 60 * 1000

  /** A call with `duration` 0 is still pending. */
  datatype Call = Call(endpoint: string, verb: string, component: string, timestamp: int, duration: int, success: bool)

  datatype Limiter = Limiter(calls: seq<Call>, counts: map<string, nat>, lastCleanup: int)

  function CallKey(endpoint: string, verb: string): string {
    verb + ":" + endpoint
  }

  /** Every counter is at most the cap. */
  predicate Capped(l: Limiter) {
    forall k | k in l.counts :: l.counts[k] <= MaxCallsPerEndpoint
  }

  function CountOf(l: Limiter, key: string): nat {
    if key in l.counts then l.counts[key] else 0
  }

  /** `cleanup`: only when more than five minutes have passed since the last
      one, drop the calls at least five minutes old and reset every counter. */
  function Cleanup(l: Limiter, now: int): (r: Limiter)
    ensures now - l.lastCleanup <= CleanupInterval ==> r == l
    ensures now - l.lastCleanup > CleanupInterval ==>
              r.counts == map[] && r.lastCleanup == now
              && forall c :: c in r.calls <==> c in l.calls && now - c.timestamp < CleanupInterval
  {
    if now - l.lastCleanup > CleanupInterval then
      Limiter(Recent(l.calls, now), map[], now)
    else l
  }

  /** A cleanup that runs keeps every young call, duplicates included, in
      recorded order. */
  lemma CleanupIsFilter(l: Limiter, now: int)
    requires now - l.lastCleanup > CleanupInterval
    ensures Cleanup(l, now).calls == Seqs.Filter(l.calls, Fresh(now))
  {
  }

  /** Younger than the cleanup interval at `now`. */
  function Fresh(now: int): Call -> bool {
    (c: Call) => now - c.timestamp < CleanupInterval
  }

  function Recent(calls: seq<Call>, now: int): (r: seq<Call>)
    ensures r == Seqs.Filter(calls, Fresh(now))
    ensures forall c :: c in r <==> c in calls && now - c.timestamp < CleanupInterval
  {
    if |calls| == 0 then []
    else
      var rest := Recent(calls[1..], now);
      assert forall c :: c in calls <==> c == calls[0] || c in calls[1..];
      if now - calls[0].timestamp < CleanupInterval then [calls[0]] + rest else rest
  }

  datatype Decision = Decision(allowed: bool, limiter: Limiter)

  /** `shouldAllowCall`: the component plays no part, and an allowed check
      itself takes one of the five slots. */
  function ShouldAllowCall(l: Limiter, endpoint: string, verb: string, now: int): (r: Decision)
    ensures var c := Cleanup(l, now);
            var key := CallKey(endpoint, verb);
            && (r.allowed <==> CountOf(c, key) < MaxCallsPerEndpoint)
            && r.limiter.calls == c.calls && r.limiter.lastCleanup == c.lastCleanup
            && (r.allowed ==> r.limiter.counts == c.counts[key := CountOf(c, key) + 1])
            && (!r.allowed ==> r.limiter == c)
    ensures Capped(l) ==> Capped(r.limiter)
  {
    var c := Cleanup(l, now);
    var key := CallKey(endpoint, verb);
    var count := CountOf(c, key);
    if count >= MaxCallsPerEndpoint then Decision(false, c)
    else Decision(true, c.(counts := c.counts[key := count + 1]))
  }

  /** Checks at the given times, threading the limiter through. */
  function Checks(l: Limiter, endpoint: string, verb: string, times: seq<int>): (r: (nat, Limiter))
    decreases |times|
  {
    if |times| == 0 then (0, l)
    else
      var d := ShouldAllowCall(l, endpoint, verb, times[0]);
      var rest := Checks(d.limiter, endpoint, verb, times[1..]);
      ((if d.allowed then 1 else 0) + rest.0, rest.1)
  }

  /** Between cleanups a key is allowed at most five times in all, whatever
      the components: the allowed checks plus the counter already used
      never exceed the cap. */
  lemma {:induction false} AtMostFivePerWindow(l: Limiter, endpoint: string, verb: string, times: seq<int>)
    requires Capped(l)
    requires forall k :: 0 <= k < |times| ==> times[k] - l.lastCleanup <= CleanupInterval
    ensures Checks(l, endpoint, verb, times).0 + CountOf(l, CallKey(endpoint, verb)) <= MaxCallsPerEndpoint
    decreases |times|
  {
    if |times| > 0 {
      var d := ShouldAllowCall(l, endpoint, verb, times[0]);
      assert Cleanup(l, times[0]) == l;
      assert d.limiter.lastCleanup == l.lastCleanup;
      AtMostFivePerWindow(d.limiter, endpoint, verb, times[1..]);
    }
  }

  /** `recordCall`: append a pending entry. */
  function RecordCall(l: Limiter, endpoint: string, verb: string, component: string, now: int): (r: Limiter)
    ensures r.calls == l.calls + [Call(endpoint, verb, component, now, 0, false)]
    ensures r.counts == l.counts && r.lastCleanup == l.lastCleanup
  {
    l.(calls := l.calls + [Call(endpoint, verb, component, now, 0, false)])
  }

  predicate PendingFor(c: Call, endpoint: string, verb: string) {
    c.endpoint == endpoint && c.verb == verb && c.duration == 0
  }

  /** The first pending call of this endpoint and method. */
  function FirstPending(calls: seq<Call>, endpoint: string, verb: string): (r: Option<nat>)
    ensures r.Some? ==> r.value < |calls| && PendingFor(calls[r.value], endpoint, verb)
                        && forall k :: 0 <= k < r.value ==> !PendingFor(calls[k], endpoint, verb)
    ensures r.None? ==> forall k :: 0 <= k < |calls| ==> !PendingFor(calls[k], endpoint, verb)
  {
    if |calls| == 0 then None
    else if PendingFor(calls[0], endpoint, verb) then Some(0)
    else
      match FirstPending(calls[1..], endpoint, verb)
      case None => None
      case Some(k) => Some(k + 1)
  }

  /** `recordCompletion`: fill in the first pending call of the endpoint and
      method; with none pending nothing changes. */
  function RecordCompletion(l: Limiter, endpoint: string, verb: string, duration: int, success: bool): (r: Limiter)
    ensures r.counts == l.counts && r.lastCleanup == l.lastCleanup && |r.calls| == |l.calls|
    ensures FirstPending(l.calls, endpoint, verb).None? ==> r == l
    ensures FirstPending(l.calls, endpoint, verb).Some? ==>
              var k := FirstPending(l.calls, endpoint, verb).value;
              && r.calls[k] == l.calls[k].(duration := duration, success := success)
              && forall m :: 0 <= m < |l.calls| && m != k ==> r.calls[m] == l.calls[m]
  {
    match FirstPending(l.calls, endpoint, verb)
    case None => l
    case Some(k) => l.(calls := l.calls[k := l.calls[k].(duration := duration, success := success)])
  }

  /** How many calls are pending for this endpoint and method. */
  function PendingCount(calls: seq<Call>, endpoint: string, verb: string): nat {
    if |calls| == 0 then 0
    else (if PendingFor(calls[0], endpoint, verb) then 1 else 0) + PendingCount(calls[1..], endpoint, verb)
  }

  lemma {:induction false} PendingCountUpdate(calls: seq<Call>, k: nat, c: Call, endpoint: string, verb: string)
    requires k < |calls|
    ensures PendingCount(calls[k := c], endpoint, verb) + (if PendingFor(calls[k], endpoint, verb) then 1 else 0)
            == PendingCount(calls, endpoint, verb) + (if PendingFor(c, endpoint, verb) then 1 else 0)
  {
    if k > 0 {
      PendingCountUpdate(calls[1..], k - 1, c, endpoint, verb);
      assert calls[k := c][1..] == calls[1..][k - 1 := c];
    } else {
      assert calls[k := c][1..] == calls[1..];
    }
  }

  lemma {:induction false} PendingCountAppend(calls: seq<Call>, c: Call, endpoint: string, verb: string)
    ensures PendingCount(calls + [c], endpoint, verb)
            == PendingCount(calls, endpoint, verb) + (if PendingFor(c, endpoint, verb) then 1 else 0)
  {
    if |calls| > 0 {
      PendingCountAppend(calls[1..], c, endpoint, verb);
      assert (calls + [c])[1..] == calls[1..] + [c];
    }
  }

  /** Recording adds one pending call; a completion with a non-zero
      duration settles exactly one, if any was pending. */
  lemma PendingBookkeeping(l: Limiter, endpoint: string, verb: string, component: string, now: int, duration: int, success: bool)
    ensures PendingCount(RecordCall(l, endpoint, verb, component, now).calls, endpoint, verb)
            == PendingCount(l.calls, endpoint, verb) + 1
    ensures duration != 0 && PendingCount(l.calls, endpoint, verb) > 0 ==>
              PendingCount(RecordCompletion(l, endpoint, verb, duration, success).calls, endpoint, verb)
              == PendingCount(l.calls, endpoint, verb) - 1
    ensures duration == 0 ==> PendingCount(RecordCompletion(l, endpoint, verb, duration, success).calls, endpoint, verb)
                              == PendingCount(l.calls, endpoint, verb)
  {
    PendingCountAppend(l.calls, Call(endpoint, verb, component, now, 0, false), endpoint, verb);
    match FirstPending(l.calls, endpoint, verb)
    case None =>
      PendingNone(l.calls, endpoint, verb);
    case Some(k) =>
      PendingCountUpdate(l.calls, k, l.calls[k].(duration := duration, success := success), endpoint, verb);
  }

  lemma {:induction false} PendingNone(calls: seq<Call>, endpoint: string, verb: string)
    requires forall k :: 0 <= k < |calls| ==> !PendingFor(calls[k], endpoint, verb)
    ensures PendingCount(calls, endpoint, verb) == 0
  {
    if |calls| > 0 {
      PendingNone(calls[1..], endpoint, verb);
    }
  }

  // ---------------------------------------------------------------------------
  // Metrics

  datatype Metrics = Metrics(totalCalls: nat, slowCalls: nat, failedCalls: nat, averageResponseTime: real)

  predicate IsCompleted(c: Call) {
    c.duration > 0
  }

  predicate IsSlow(c: Call) {
    c.duration > SlowCallThreshold
  }

  predicate IsFailed(c: Call) {
    !c.success
  }

  /** The calls with a positive duration, in order. */
  function Completed(calls: seq<Call>): (r: seq<Call>)
    ensures r == Seqs.Filter(calls, IsCompleted)
    ensures forall c :: c in r <==> c in calls && c.duration > 0
  {
    if |calls| == 0 then []
    else
      var rest := Completed(calls[1..]);
      assert forall c :: c in calls <==> c == calls[0] || c in calls[1..];
      if calls[0].duration > 0 then [calls[0]] + rest else rest
  }

  /** How many calls are slow (`slow`) or failed (otherwise). */
  function CountWhere(calls: seq<Call>, slow: bool): (r: nat)
    ensures slow ==> r == |Seqs.Filter(calls, IsSlow)|
    ensures !slow ==> r == |Seqs.Filter(calls, IsFailed)|
  {
    if |calls| == 0 then 0
    else
      var hit := if slow then calls[0].duration > SlowCallThreshold else !calls[0].success;
      (if hit then 1 else 0) + CountWhere(calls[1..], slow)
  }

  function TotalDuration(calls: seq<Call>): int {
    if |calls| == 0 then 0 else calls[0].duration + TotalDuration(calls[1..])
  }

  lemma {:induction false} TotalDurationBounds(calls: seq<Call>)
    requires forall c :: c in calls ==> c.duration > 0
    ensures |calls| <= TotalDuration(calls)
  {
    if |calls| > 0 {
      TotalDurationBounds(calls[1..]);
    }
  }

  /** `getMetrics`: only completed calls count, the slow and failed ones
      among them are counted, and the average is their mean duration (0
      without any). */
  function GetMetrics(l: Limiter): (r: Metrics)
    ensures var done := Seqs.Filter(l.calls, IsCompleted);
            && r.totalCalls == |done| <= |l.calls|
            && r.slowCalls == |Seqs.Filter(done, IsSlow)| <= r.totalCalls
            && r.failedCalls == |Seqs.Filter(done, IsFailed)| <= r.totalCalls
            && (r.totalCalls > 0 ==> r.averageResponseTime == (TotalDuration(done) as real) / (|done| as real))
    ensures r.totalCalls == 0 <==> r.averageResponseTime == 0.0
    ensures r.totalCalls > 0 ==> r.averageResponseTime >= 1.0
  {
    var done := Completed(l.calls);
    TotalDurationBounds(done);
    var avg := if |done| > 0 then (TotalDuration(done) as real) / (|done| as real) else 0.0;
    AverageAtLeastOne(TotalDuration(done), |done|);
    Metrics(|done|, CountWhere(done, true), CountWhere(done, false), avg)
  }

  lemma AverageAtLeastOne(total: int, n: nat)
    requires n <= total
    ensures n > 0 ==> (total as real) / (n as real) >= 1.0
  {
    if n > 0 {
      assert (total as real) >= (n as real);
    }
  }

  /** Newer than the cut-off. */
  function NewerThan(cutoff: real): Call -> bool {
    (c: Call) => c.timestamp as real > cutoff
  }

  /** `getRecentCalls(minutes)`: the calls newer than `minutes` ago, in order
      and each as often as it was recorded. */
  function GetRecentCalls(l: Limiter, minutes: real, now: int): (r: seq<Call>)
    ensures r == Seqs.Filter(l.calls, NewerThan(now as real - minutes * 60000.0))
    ensures forall c :: c in r <==> c in l.calls && c.timestamp as real > now as real - minutes * 60000.0
    decreases |l.calls|
  {
    if |l.calls| == 0 then []
    else
      var rest := GetRecentCalls(l.(calls := l.calls[1..]), minutes, now);
      assert forall c :: c in l.calls <==> c == l.calls[0] || c in l.calls[1..];
      if l.calls[0].timestamp as real > now as real - minutes * 60000.0 then [l.calls[0]] + rest else rest
  }

  // ---------------------------------------------------------------------------
  // The gate of `auditedFetch`

  /** `options.method || 'GET'`: a missing or empty method is GET. */
  function MethodOf(verb: Option<string>): (r: string)
    ensures r != ""
  {
    match verb
    case Some(v) => if v != "" then v else "GET"
    case None => "GET"
  }

  datatype Gate = Gate(outcome: Result<(), string>, limiter: Limiter)

  /** The part of `auditedFetch` before the request: unless the audit is
      skipped, a refused check throws before the call is recorded (the
      check's own cleanup has already happened); otherwise the call is
      recorded as pending. */
  function AuditGate(l: Limiter, url: string, verb: Option<string>, component: string, skipAudit: bool, now: int): (r: Gate)
    ensures var m := MethodOf(verb);
            && (r.outcome.Err? <==> !skipAudit && !ShouldAllowCall(l, url, m, now).allowed)
            && (r.outcome.Err? ==> r.outcome.error == "API call blocked by performance auditor: " + m + " " + url
                                   && r.limiter == Cleanup(l, now))
            && (r.outcome.Ok? && skipAudit ==> r.limiter == RecordCall(l, url, m, component, now))
            && (r.outcome.Ok? && !skipAudit ==>
                  r.limiter == RecordCall(ShouldAllowCall(l, url, m, now).limiter, url, m, component, now))
  {
    var m := MethodOf(verb);
    if skipAudit then Gate(Ok(()), RecordCall(l, url, m, component, now))
    else
      var d := ShouldAllowCall(l, url, m, now);
      if !d.allowed then Gate(Err("API call blocked by performance auditor: " + m + " " + url), d.limiter)
      else Gate(Ok(()), RecordCall(d.limiter, url, m, component, now))
  }

  /** A refused request leaves no trace in the call list beyond the cleanup,
      and an accepted one adds exactly one pending call. */
  lemma GateRecords(l: Limiter, url: string, verb: Option<string>, component: string, skipAudit: bool, now: int)
    ensures var g := AuditGate(l, url, verb, component, skipAudit, now);
            && (g.outcome.Err? ==> g.limiter.calls == Cleanup(l, now).calls)
            && (g.outcome.Ok? ==> |g.limiter.calls| == |Cleanup(l, now).calls| + 1 || |g.limiter.calls| == |l.calls| + 1)
            && (g.outcome.Ok? && skipAudit ==> g.limiter.calls == l.calls + [Call(url, MethodOf(verb), component, now, 0, false)])
            && (g.outcome.Ok? && !skipAudit ==>
                  g.limiter.calls == Cleanup(l, now).calls + [Call(url, MethodOf(verb), component, now, 0, false)])
            && (g.outcome.Ok? ==> g.limiter.calls[|g.limiter.calls| - 1] == Call(url, MethodOf(verb), component, now, 0, false))
  {
  }
}

=== FILE: auth.dfy ===
/** The authentication service (`AuthService`): session validation, the
    default permission set, the permission check and the creation of a
    validated `UserSession`. The Supabase client, the OAuth placeholder and
    the Streamlit session state are not part of this model. */
module Auth {
  import opened Wrappers
  import opened Strings
  import Models
  import Security

  /** The fields of a user dictionary the service reads: a missing `email`
      is "", a missing `is_authenticated` is false, a missing `name` is None.
      An absent or empty dictionary is `None`. */
  datatype UserData = UserData(email: string, name: Option<string>, isAuthenticated: bool)

  const CompanyDomain := "@company.com"

  /** `validate_user_session`: a present user whose email passes
      `validate_email` and who is authenticated. */
  function ValidateUserSession(user: Option<UserData>): (r: bool)
    ensures r <==> user.Some? && Security.ValidateEmail(user.value.email) && user.value.isAuthenticated
    ensures r ==> user.value.email != ""
    ensures user.Some? && Models.EmailShape(user.value.email) && user.value.isAuthenticated ==> r
  {
    match user
    case None => false
    case Some(u) => Security.ValidateEmail(u.email) && u.isAuthenticated
  }

  /** Read and export for every valid session, write for company addresses. */
  function GetUserPermissions(user: Option<UserData>): (r: seq<string>)
    ensures !ValidateUserSession(user) ==> r == []
    ensures ValidateUserSession(user) ==> |r| >= 2 && r[..2] == ["read", "export"]
    ensures ValidateUserSession(user) ==> ("write" in r <==> EndsWith(user.value.email, CompanyDomain))
    ensures forall k :: 0 <= k < |r| ==> r[k] in Models.Permissions && r[k] != "admin"
  {
    if !ValidateUserSession(user) then []
    else
      var base := ["read", "export"];
      if EndsWith(user.value.email, CompanyDomain) then base + ["write"] else base
  }

  function CheckPermission(user: Option<UserData>, required: string): (r: bool)
    ensures r ==> ValidateUserSession(user)
  {
    var permissions := GetUserPermissions(user);
    required in permissions || "admin" in permissions
  }

  /** Exactly read and export for a valid session, write only for a company
      address, and never anything else: `admin` cannot be obtained here. */
  lemma CheckPermissionIff(user: Option<UserData>, required: string)
    ensures CheckPermission(user, required) <==>
              ValidateUserSession(user)
              && (required == "read" || required == "export"
                  || (required == "write" && EndsWith(user.value.email, CompanyDomain)))
  {
    var r := GetUserPermissions(user);
    if ValidateUserSession(user) {
      assert r[0] == "read" && r[1] == "export";
      if required in r && required != "read" && required != "export" {
        var k :| 0 <= k < |r| && r[k] == required;
        assert k >= 2;
      }
    }
  }

  /** Why `create_user_session` fails; both are re-raised as a
      `SecurityError("Failed to create user session: ...")`. */
  datatype SessionError = InvalidEmailFormat | SessionInvalid(fields: set<string>)

  function CreateUserSession(data: UserData): (r: Result<Models.UserSession, SessionError>)
    ensures !Security.ValidateEmail(data.email) ==> r == Err(InvalidEmailFormat)
    ensures r.Ok? <==> Models.EmailShape(data.email) && (data.name.Some? ==> |data.name.value| <= 100)
    ensures r.Ok? ==> r.value.email == data.email && r.value.name == data.name && r.value.isAuthenticated
    ensures r.Ok? ==> r.value.permissions == GetUserPermissions(Some(data))
  {
    if !Security.ValidateEmail(data.email) then Err(InvalidEmailFormat)
    else
      var permissions := GetUserPermissions(Some(data));
      match Models.NewUserSession(Models.UserSession(data.email, data.name, true, permissions), {})
      case Ok(s) => Ok(s)
      case Err(fields) => Err(SessionInvalid(fields))
  }

  /** The created session is marked authenticated, but its permissions come
      from the input's own `is_authenticated`: input without it yields an
      authenticated session with no permissions. An address with a final
      line feed passes the service's email check and is then refused by the
      session model. */
  lemma CreateUserSessionQuirks(data: UserData)
    ensures !data.isAuthenticated && CreateUserSession(data).Ok? ==>
              CreateUserSession(data).value.isAuthenticated && CreateUserSession(data).value.permissions == []
    ensures CreateUserSession(UserData("a@b.co\n", None, true)).Err?
    ensures CreateUserSession(UserData("a@b.co\n", None, true)) != Err(InvalidEmailFormat)
  {
    Security.ValidateEmailVersusModel("a@b.co\n");
  }

  /** A session built from authenticated company input checks out for write. */
  lemma CreatedSessionGrantsWrite(data: UserData)
    requires data.isAuthenticated && EndsWith(data.email, CompanyDomain)
    requires CreateUserSession(data).Ok?
    ensures "write" in CreateUserSession(data).value.permissions
    ensures CheckPermission(Some(data), "write")
  {
    CheckPermissionIff(Some(data), "write");
  }
}

=== FILE: calendar.dfy ===
/** The working-day calendar shared by every version of the assignment engine.

    Dates are whole day numbers; day 0 is a Monday. A working day is a day
    that is not a weekend day and not in the holiday set (the engines keep
    holidays as a table keyed by ISO date; here it is a finite set of day
    numbers). Two weekend rules occur: Saturday/Sunday (the Python service,
    the Streamlit helper and the TypeScript calculator) and Friday/Saturday
    (the web API route, whose test is `getDay() >= 5`). */
module Calendar {
  import opened Wrappers

  // ---------------------------------------------------------------------------
  // Weekdays

  /** Python `date.weekday()`: 0 is Monday, 6 is Sunday. */
  function PyWeekday(d: int): (r: int)
    ensures 0 <= r < 7
  {
    d % 7
  }

  /** JavaScript `Date.getDay()`: 0 is Sunday, 6 is Saturday. */
  function JsGetDay(d: int): (r: int)
    ensures 0 <= r < 7
    ensures r == (PyWeekday(d) + 1) % 7
  {
    (d + 1) % 7
  }

  datatype WeekendRule = SatSun | FriSat

  predicate IsWeekend(rule: WeekendRule, d: int) {
    match rule
    case SatSun => PyWeekday(d) >= 5
    case FriSat => JsGetDay(d) >= 5
  }

  /** The calculator's `getDay() === 0 || getDay() === 6` is the Saturday/Sunday rule. */
  lemma CalculatorWeekendIsSatSun(d: int)
    ensures (JsGetDay(d) == 0 || JsGetDay(d) == 6) <==> IsWeekend(SatSun, d)
  {
  }

  /** The route's `getDay() >= 5` rule makes Friday (weekday 4) and Saturday
      (weekday 5) the weekend, and Sunday a working day. */
  lemma RouteWeekendIsFriSat(d: int)
    ensures IsWeekend(FriSat, d) <==> (PyWeekday(d) == 4 || PyWeekday(d) == 5)
    ensures PyWeekday(d) == 6 ==> !IsWeekend(FriSat, d)
  {
  }

  predicate IsWorking(rule: WeekendRule, holidays: set<int>, d: int) {
    !IsWeekend(rule, d) && d !in holidays
  }

  // ---------------------------------------------------------------------------
  // Moving forward to a working day

  function HolidaysFrom(holidays: set<int>, d: int): set<int> {
    set h | h in holidays && h >= d
  }

  /** How many weekend days follow `d` without a break, `d` included (at most 2). */
  function WeekendRun(rule: WeekendRule, d: int): nat {
    if !IsWeekend(rule, d) then 0 else if IsWeekend(rule, d + 1) then 2 else 1
  }

  lemma WeekendRunShrinks(rule: WeekendRule, d: int)
    requires IsWeekend(rule, d)
    ensures WeekendRun(rule, d + 1) < WeekendRun(rule, d)
  {
  }

  lemma HolidaysFromShrinks(holidays: set<int>, d: int)
    ensures |HolidaysFrom(holidays, d + 1)| <= |HolidaysFrom(holidays, d)|
    ensures d in holidays ==> |HolidaysFrom(holidays, d + 1)| < |HolidaysFrom(holidays, d)|
  {
    var later := HolidaysFrom(holidays, d + 1);
    if d in holidays {
      assert HolidaysFrom(holidays, d) == later + {d};
    } else {
      assert HolidaysFrom(holidays, d) == later;
    }
  }

  /** Skipping a non-working day lowers the measure that bounds the search. */
  lemma SkipShrinksMeasure(rule: WeekendRule, holidays: set<int>, d: int)
    requires !IsWorking(rule, holidays, d)
    ensures 3 * |HolidaysFrom(holidays, d + 1)| + WeekendRun(rule, d + 1)
          < 3 * |HolidaysFrom(holidays, d)| + WeekendRun(rule, d)
  {
    HolidaysFromShrinks(holidays, d);
    if d !in holidays {
      WeekendRunShrinks(rule, d);
    }
  }

  /** The first working day at or after `d`: the engines' "advance while
      non-working" loop. It ends because the holidays are finite and a weekend
      lasts two days. */
  function NextWorking(rule: WeekendRule, holidays: set<int>, d: int): (r: int)
    ensures d <= r && IsWorking(rule, holidays, r)
    ensures forall k :: d <= k < r ==> !IsWorking(rule, holidays, k)
    decreases 3 * |HolidaysFrom(holidays, d)| + WeekendRun(rule, d)
  {
    if IsWorking(rule, holidays, d) then d
    else
      SkipShrinksMeasure(rule, holidays, d);
      NextWorking(rule, holidays, d + 1)
  }

  /** The number of working days in the closed range `[lo, hi]`. */
  function WorkingCount(rule: WeekendRule, holidays: set<int>, lo: int, hi: int): nat
    decreases hi - lo
  {
    if hi < lo then 0
    else WorkingCount(rule, holidays, lo, hi - 1) + (if IsWorking(rule, holidays, hi) then 1 else 0)
  }

  /** Moving the end of the range over non-working days to the next working
      day adds exactly one to the count. */
  lemma {:induction false} CountAcrossGap(rule: WeekendRule, holidays: set<int>, lo: int, e: int, r: int)
    requires lo <= e + 1 <= r && IsWorking(rule, holidays, r)
    requires forall k :: e < k < r ==> !IsWorking(rule, holidays, k)
    ensures WorkingCount(rule, holidays, lo, r) == WorkingCount(rule, holidays, lo, e) + 1
    decreases r - e
  {
    if r > e + 1 {
      CountAcrossGapStep(rule, holidays, lo, e, r - 1);
    }
  }

  /** A run of non-working days does not change the count. */
  lemma {:induction false} CountAcrossGapStep(rule: WeekendRule, holidays: set<int>, lo: int, e: int, m: int)
    requires lo <= e + 1 <= m
    requires forall k :: e < k <= m ==> !IsWorking(rule, holidays, k)
    ensures WorkingCount(rule, holidays, lo, m) == WorkingCount(rule, holidays, lo, e)
    decreases m - e
  {
    if m > e + 1 {
      CountAcrossGapStep(rule, holidays, lo, e, m - 1);
    }
  }

  lemma {:induction false} CountMonotone(rule: WeekendRule, holidays: set<int>, lo: int, a: int, b: int)
    requires a <= b
    ensures WorkingCount(rule, holidays, lo, a) <= WorkingCount(rule, holidays, lo, b)
    decreases b - a
  {
    if a < b {
      CountMonotone(rule, holidays, lo, a, b - 1);
    }
  }

  /** `n` more working days after the working day `e`: each step moves one day
      on and then forward to the next working day. */
  function AdvanceWorking(rule: WeekendRule, holidays: set<int>, e: int, n: nat): (r: int)
    requires IsWorking(rule, holidays, e)
    decreases n
    ensures e <= r && IsWorking(rule, holidays, r)
    ensures forall lo :: lo <= e ==> WorkingCount(rule, holidays, lo, r) == WorkingCount(rule, holidays, lo, e) + n
  {
    if n == 0 then e
    else
      var next := NextWorking(rule, holidays, e + 1);
      var r := AdvanceWorking(rule, holidays, next, n - 1);
      assert forall lo :: lo <= e ==> WorkingCount(rule, holidays, lo, next) == WorkingCount(rule, holidays, lo, e) + 1 by {
        forall lo | lo <= e
          ensures WorkingCount(rule, holidays, lo, next) == WorkingCount(rule, holidays, lo, e) + 1
        {
          CountAcrossGap(rule, holidays, lo, e, next);
        }
      }
      r
  }

  lemma {:induction false} CountSingleWorkingDay(rule: WeekendRule, holidays: set<int>, s: int)
    requires IsWorking(rule, holidays, s)
    ensures WorkingCount(rule, holidays, s, s) == 1
  {
    assert WorkingCount(rule, holidays, s, s - 1) == 0;
  }

  // ---------------------------------------------------------------------------
  // How many days a task lasts

  /** `math.ceil` / `Math.ceil` on a real. */
  function Ceil(x: real): (r: int)
    ensures x <= r as real < x + 1.0
  {
    if x == x.Floor as real then x.Floor else x.Floor + 1
  }

  /** Python's built-in `round` on a real: to the nearest integer, ties to the even one. */
  function RoundHalfEven(x: real): (r: int)
    ensures x - 0.5 <= r as real <= x + 0.5
    ensures (r as real == x - 0.5 || r as real == x + 0.5) ==> r % 2 == 0
  {
    var f := x.Floor;
    var frac := x - f as real;
    if frac < 0.5 then f
    else if frac > 0.5 then f + 1
    else if f % 2 == 0 then f
    else f + 1
  }

  datatype DaysRule = Ceiling | HalfEven

  /** `max(1, ceil(hours / 8))` or `max(1, round(hours / 8))`. */
  function DayCount(rule: DaysRule, hours: real): (r: int)
    ensures r >= 1
    ensures rule == Ceiling && hours > 0.0 ==> 8.0 * (r - 1) as real < hours <= 8.0 * r as real
    ensures rule == Ceiling && hours <= 8.0 ==> r == 1
    ensures rule == HalfEven && r > 1 ==> r == RoundHalfEven(hours / 8.0)
  {
    match rule
    case Ceiling =>
      var c := Ceil(hours / 8.0);
      if c < 1 then 1 else c
    case HalfEven =>
      var c := RoundHalfEven(hours / 8.0);
      if c < 1 then 1 else c
  }

  /** The day counts the source comments and tests rely on: ceiling gives 1, 2,
      2 and 3 days for 8, 9, 16 and 17 hours; round-half-even gives 1, 1, 2
      and 2 days for 4, 9, 12 and 20 hours. */
  lemma DayCountExamples()
    ensures DayCount(Ceiling, 8.0) == 1 && DayCount(Ceiling, 9.0) == 2
    ensures DayCount(Ceiling, 16.0) == 2 && DayCount(Ceiling, 17.0) == 3
    ensures DayCount(HalfEven, 4.0) == 1 && DayCount(HalfEven, 9.0) == 1
    ensures DayCount(HalfEven, 12.0) == 2 && DayCount(HalfEven, 20.0) == 2
  {
    assert (9.0 / 8.0).Floor == 1;
    assert (17.0 / 8.0).Floor == 2;
    assert (4.0 / 8.0).Floor == 0;
    assert (12.0 / 8.0).Floor == 1;
    assert (20.0 / 8.0).Floor == 2;
  }

  // ---------------------------------------------------------------------------
  // The working span of a task

  /** A base-date cell as the engines see it: missing (NaN, null, empty),
      present but not a date, or a day. */
  datatype DateCell = Blank | Bad | Day(day: int)

  /** The span `[start, end]` of a task of `days` working days whose base date is `base`. */
  predicate IsSpan(rule: WeekendRule, holidays: set<int>, base: int, days: int, start: int, end: int) {
    && base <= start <= end
    && IsWorking(rule, holidays, start)
    && (forall k :: base <= k < start ==> !IsWorking(rule, holidays, k))
    && IsWorking(rule, holidays, end)
    && WorkingCount(rule, holidays, start, end) == days
  }

  /** The span is determined by the base date and the day count. */
  lemma SpanUnique(rule: WeekendRule, holidays: set<int>, base: int, days: int, s1: int, e1: int, s2: int, e2: int)
    requires IsSpan(rule, holidays, base, days, s1, e1) && IsSpan(rule, holidays, base, days, s2, e2)
    ensures s1 == s2 && e1 == e2
  {
    assert s1 == s2;
    if e1 != e2 {
      var lo, hi := if e1 < e2 then e1 else e2, if e1 < e2 then e2 else e1;
      CountMonotone(rule, holidays, s1, lo, hi - 1);
    }
  }

  /** The start moved to a working day, then `days - 1` further working days. */
  function Span(rule: WeekendRule, holidays: set<int>, base: int, days: int): (r: (int, int))
    requires days >= 1
    ensures IsSpan(rule, holidays, base, days, r.0, r.1)
  {
    var start := NextWorking(rule, holidays, base);
    var end := AdvanceWorking(rule, holidays, start, days - 1);
    CountSingleWorkingDay(rule, holidays, start);
    (start, end)
  }

  /** `calculate_working_dates` in the Python service (`Ceiling`, Saturday/Sunday),
      the Streamlit helper (`HalfEven`, Saturday/Sunday) and the API route
      (`Ceiling`, Friday/Saturday): no span for a missing base date, for hours
      that are not positive, or for a base that does not parse; otherwise
      the span of `DayCount(days, hours)` working days. */
  function WorkingDates(rule: WeekendRule, days: DaysRule, holidays: set<int>, base: DateCell, hours: real): (r: Option<(int, int)>)
    ensures r.Some? <==> base.Day? && hours > 0.0
    ensures r.Some? ==> IsSpan(rule, holidays, base.day, DayCount(days, hours), r.value.0, r.value.1)
  {
    if base.Blank? || hours <= 0.0 then None
    else
      match base
      case Bad => None
      case Day(d) => Some(Span(rule, holidays, d, DayCount(days, hours)))
  }

  /** The TypeScript calculator's `calculateWorkingDates`: the same span, then
      three clamps (a weekend start moves to Monday, a weekend end moves back
      to Friday, an end before the start becomes the start). Since both
      endpoints are already working days the clamps never change anything,
      so the result is the Saturday/Sunday, ceiling span. */
  function CalculatorDates(holidays: set<int>, base: DateCell, hours: real): (r: Option<(int, int)>)
    ensures r == WorkingDates(SatSun, Ceiling, holidays, base, hours)
  {
    match WorkingDates(SatSun, Ceiling, holidays, base, hours)
    case None => None
    case Some((s, e)) =>
      var s1 := if JsGetDay(s) == 0 then s + 1 else if JsGetDay(s) == 6 then s + 2 else s;
      var e1 := if JsGetDay(e) == 0 then e - 2 else if JsGetDay(e) == 6 then e - 1 else e;
      var e2 := if e1 < s1 then s1 else e1;
      Some((s1, e2))
  }
}

=== FILE: catalog.dfy ===
/** The resource catalogue: who can take tasks, grouped by development group.

    A pool maps resource names to their configuration. The Python and
    JavaScript sources hold pools in insertion-ordered dictionaries and scan
    them in that order, so a pool is an ordered list of (name, resource)
    entries whose names are distinct. Assigning a key that is already present
    replaces its value in place; a new key goes at the end. Merging one pool
    into another (`dict.update`, `{**a, **b}`, `Object.assign`) is that
    assignment for every entry of the second pool in turn, so the later value
    wins while the key keeps its first position.

    Three copies of the catalogue exist: the application configuration
    (`core/config.py`), the older Streamlit helper (`utils/config.py`) and the
    web application (`app/lib/types/developers-config.ts`). */
module Catalog {
  import opened Wrappers
  import opened Strings
  import Models

  /** A resource's configuration. The web catalogue has no colours; a
      missing `max_tasks` is `None`. */
  datatype Resource = Resource(level: string, maxTasks: Option<int>, color: Option<string>)

  type Pool = seq<(string, Resource)>

  predicate UniqueNames(p: Pool) {
    forall i, j :: 0 <= i < j < |p| ==> p[i].0 != p[j].0
  }

  function NameSet(p: Pool): set<string> {
    set i | 0 <= i < |p| :: p[i].0
  }

  /** The names of a non-empty pool: the first one and those of the rest. */
  lemma NameSetCons(p: Pool)
    requires |p| > 0
    ensures NameSet(p) == {p[0].0} + NameSet(p[1..])
  {
    forall n | n in NameSet(p) ensures n in {p[0].0} + NameSet(p[1..]) {
      var k :| 0 <= k < |p| && p[k].0 == n;
      if k > 0 {
        assert p[1..][k - 1].0 == n;
      }
    }
    forall n | n in NameSet(p[1..]) ensures n in NameSet(p) {
      var k :| 0 <= k < |p[1..]| && p[1..][k].0 == n;
      assert p[k + 1].0 == n;
    }
  }

  // ---------------------------------------------------------------------------
  // Lookup and assignment

  /** The position of `name` in `p`, if present. */
  function Find(p: Pool, name: string): (r: Option<nat>)
    ensures r.Some? ==> r.value < |p| && p[r.value].0 == name
    ensures r.Some? ==> forall k :: 0 <= k < r.value ==> p[k].0 != name
    ensures r.None? <==> name !in NameSet(p)
  {
    if |p| == 0 then None
    else if p[0].0 == name then Some(0)
    else
      assert forall k :: 1 <= k < |p| ==> p[k] == p[1..][k - 1];
      match Find(p[1..], name)
      case None => None
      case Some(i) => Some(i + 1)
  }

  /** `pool.get(name)`. */
  function Lookup(p: Pool, name: string): (r: Option<Resource>)
    ensures r.Some? <==> name in NameSet(p)
    ensures r.Some? ==> (name, r.value) in p
  {
    match Find(p, name)
    case None => None
    case Some(i) => Some(p[i].1)
  }

  /** In a pool with distinct names, looking up an entry's name gives its value. */
  lemma LookupEntry(p: Pool, i: nat)
    requires UniqueNames(p) && i < |p|
    ensures Lookup(p, p[i].0) == Some(p[i].1)
  {
  }

  /** `pool[name] = v`: replace in place, or append a new key. */
  function Put(p: Pool, name: string, v: Resource): (r: Pool)
    ensures |r| == if name in NameSet(p) then |p| else |p| + 1
    ensures forall i :: 0 <= i < |p| ==> r[i].0 == p[i].0
    ensures NameSet(r) == NameSet(p) + {name}
    ensures UniqueNames(p) ==> UniqueNames(r)
    ensures Lookup(r, name) == Some(v)
    ensures name !in NameSet(p) ==> r == p + [(name, v)]
  {
    match Find(p, name)
    case Some(i) =>
      var r := p[i := (name, v)];
      assert NameSet(r) == NameSet(p) by {
        forall n | n in NameSet(p) ensures n in NameSet(r) {
          var k :| 0 <= k < |p| && p[k].0 == n;
          assert r[k].0 == n;
        }
      }
      assert Find(r, name) == Some(i) by {
        assert r[i].0 == name;
      }
      r
    case None =>
      var r := p + [(name, v)];
      assert r[|p|].0 == name;
      assert NameSet(r) == NameSet(p) + {name} by {
        forall n | n in NameSet(r) ensures n in NameSet(p) + {name} {
          var k :| 0 <= k < |r| && r[k].0 == n;
          if k < |p| {
            assert p[k].0 == n;
          }
        }
        forall n | n in NameSet(p) ensures n in NameSet(r) {
          var k :| 0 <= k < |p| && p[k].0 == n;
          assert r[k].0 == n;
        }
      }
      assert Find(r, name) == Some(|p|);
      r
  }

  /** `Find` returns the first position holding the name. */
  lemma FindAt(p: Pool, m: string, j: nat)
    requires j < |p| && p[j].0 == m
    requires forall k :: 0 <= k < j ==> p[k].0 != m
    ensures Find(p, m) == Some(j)
  {
    assert m in NameSet(p);
  }

  /** Assigning one key leaves every other key's value alone. */
  lemma PutLookupOther(p: Pool, name: string, v: Resource, m: string)
    requires m != name
    ensures Lookup(Put(p, name, v), m) == Lookup(p, m)
  {
    var r := Put(p, name, v);
    match Find(p, m)
    case None =>
      assert m !in NameSet(r);
    case Some(j) =>
      assert r[j] == p[j] by {
        match Find(p, name)
        case Some(i) =>
          assert r == p[i := (name, v)];
        case None =>
          assert r == p + [(name, v)];
      }
      FindAt(r, m, j);
  }

  /** Merging `q` into `p` entry by entry: `p.update(q)` / `Object.assign(p, q)`. */
  function Update(p: Pool, q: Pool): (r: Pool)
    ensures |r| >= |p|
    ensures forall i :: 0 <= i < |p| ==> r[i].0 == p[i].0
    ensures NameSet(r) == NameSet(p) + NameSet(q)
    ensures UniqueNames(p) ==> UniqueNames(r)
    decreases |q|
  {
    if |q| == 0 then p
    else
      var r := Update(Put(p, q[0].0, q[0].1), q[1..]);
      NameSetCons(q);
      r
  }

  /** After a merge, a key of `q` has `q`'s value and any other key keeps
      the value it had in `p`: later values win. */
  lemma {:induction false} UpdateLookup(p: Pool, q: Pool, m: string)
    requires UniqueNames(q)
    ensures Lookup(Update(p, q), m) == if m in NameSet(q) then Lookup(q, m) else Lookup(p, m)
    decreases |q|
  {
    if |q| > 0 {
      var p' := Put(p, q[0].0, q[0].1);
      var rest := q[1..];
      assert UniqueNames(rest);
      UpdateLookup(p', rest, m);
      NameSetCons(q);
      if m != q[0].0 {
        LookupTail(q, m);
        PutLookupOther(p, q[0].0, q[0].1, m);
      }
    }
  }

  /** A name other than the first is looked up in the rest of the pool. */
  lemma LookupTail(q: Pool, m: string)
    requires |q| > 0 && q[0].0 != m
    ensures Lookup(q, m) == Lookup(q[1..], m)
  {
  }

  // ---------------------------------------------------------------------------
  // The union of several groups

  /** Merging the groups, in order, into an empty pool. */
  function UnionOf(groups: seq<Pool>): (r: Pool)
    ensures UniqueNames(r)
    ensures forall n :: n in NameSet(r) <==> exists k :: 0 <= k < |groups| && n in NameSet(groups[k])
  {
    if |groups| == 0 then []
    else
      var init := groups[..|groups| - 1];
      var r := Update(UnionOf(init), groups[|groups| - 1]);
      assert forall k :: 0 <= k < |init| ==> init[k] == groups[k];
      r
  }

  /** A name takes its value from the last group that lists it. */
  lemma {:induction false} UnionLookupLast(groups: seq<Pool>, k: nat, m: string)
    requires forall g :: 0 <= g < |groups| ==> UniqueNames(groups[g])
    requires k < |groups| && m in NameSet(groups[k])
    requires forall g :: k < g < |groups| ==> m !in NameSet(groups[g])
    ensures Lookup(UnionOf(groups), m) == Lookup(groups[k], m)
  {
    var n := |groups| - 1;
    var init := groups[..n];
    var last := groups[n];
    var u := UnionOf(init);
    assert UnionOf(groups) == Update(u, last);
    assert UniqueNames(last);
    UpdateLookup(u, last, m);
    if k == n {
      assert m in NameSet(last);
    } else {
      assert m !in NameSet(last);
      assert Lookup(UnionOf(groups), m) == Lookup(u, m);
      assert forall g :: 0 <= g < |init| ==> init[g] == groups[g];
      UnionLookupLast(init, k, m);
    }
  }

  /** Keys keep the position of their first appearance: the union of a prefix
      of the groups is, name by name, a prefix of the full union. */
  lemma {:induction false} UnionKeepsFirstPosition(groups: seq<Pool>, j: nat)
    requires j <= |groups|
    ensures |UnionOf(groups[..j])| <= |UnionOf(groups)|
    ensures forall i :: 0 <= i < |UnionOf(groups[..j])| ==> UnionOf(groups)[i].0 == UnionOf(groups[..j])[i].0
  {
    if j < |groups| {
      var n := |groups| - 1;
      var init := groups[..n];
      assert init[..j] == groups[..j];
      UnionKeepsFirstPosition(init, j);
    } else {
      assert groups[..j] == groups;
    }
  }

  /** The names of a pool, entry by entry. */
  function Keys(p: Pool): set<string> {
    if |p| == 0 then {} else {p[0].0} + Keys(p[1..])
  }

  lemma {:induction false} KeysIsNameSet(p: Pool)
    ensures Keys(p) == NameSet(p)
  {
    if |p| > 0 {
      var rest := p[1..];
      KeysIsNameSet(rest);
      NameSetCons(p);
    }
  }

  /** In a pool with distinct names the entry count is the name count. */
  lemma {:induction false} UniqueCount(p: Pool)
    requires UniqueNames(p)
    ensures |NameSet(p)| == |p|
  {
    if |p| > 0 {
      var rest := p[1..];
      UniqueCount(rest);
      NameSetCons(p);
      assert p[0].0 !in NameSet(rest);
    }
  }


  /** The names of every group. */
  function AllNames(groups: seq<Pool>): set<string> {
    if |groups| == 0 then {} else Keys(groups[0]) + AllNames(groups[1..])
  }

  lemma AllNamesCons(p: Pool, rest: seq<Pool>)
    ensures AllNames([p] + rest) == Keys(p) + AllNames(rest)
  {
    assert ([p] + rest)[1..] == rest;
  }

  lemma {:induction false} AllNamesMembers(groups: seq<Pool>)
    ensures forall n :: n in AllNames(groups) <==> exists k :: 0 <= k < |groups| && n in NameSet(groups[k])
  {
    if |groups| > 0 {
      var rest := groups[1..];
      AllNamesMembers(rest);
      KeysIsNameSet(groups[0]);
      assert forall k :: 0 <= k < |rest| ==> rest[k] == groups[k + 1];
      assert AllNames(groups) == Keys(groups[0]) + AllNames(rest);
      forall n | n in AllNames(groups) ensures exists k :: 0 <= k < |groups| && n in NameSet(groups[k]) {
        if n !in Keys(groups[0]) {
          var k :| 0 <= k < |rest| && n in NameSet(rest[k]);
          assert n in NameSet(groups[k + 1]);
        }
      }
      forall n | (exists k :: 0 <= k < |groups| && n in NameSet(groups[k])) ensures n in AllNames(groups) {
        var k :| 0 <= k < |groups| && n in NameSet(groups[k]);
        if k > 0 {
          assert n in NameSet(rest[k - 1]);
        }
      }
    }
  }

  /** The merged pool holds exactly the names of all its groups. */
  lemma UnionNames(groups: seq<Pool>)
    ensures NameSet(UnionOf(groups)) == AllNames(groups)
  {
    AllNamesMembers(groups);
  }

  /** Every group's names are in the merged pool. */
  lemma GroupInUnion(groups: seq<Pool>, k: nat)
    requires k < |groups|
    ensures NameSet(groups[k]) <= NameSet(UnionOf(groups))
  {
  }

  lemma {:induction false} AllNamesAppend(a: seq<Pool>, b: seq<Pool>)
    ensures AllNames(a + b) == AllNames(a) + AllNames(b)
  {
    if |a| > 0 {
      assert (a + b)[1..] == a[1..] + b;
      AllNamesAppend(a[1..], b);
    } else {
      assert a + b == b;
    }
  }

  lemma AllNamesSingle(p: Pool)
    ensures AllNames([p]) == Keys(p)
  {
    assert [p][1..] == [];
  }

  // ---------------------------------------------------------------------------
  // Group cells and keys

  /** A group cell of a task row: absent (`None`), a float NaN (what pandas
      reads for an empty cell), or a string. */
  datatype GroupCell = NoGroup | NaNGroup | Group(name: string)

  /** Python truthiness of the cell: NaN is truthy, the empty string is not. */
  predicate GroupTruthy(g: GroupCell) {
    g.NaNGroup? || (g.Group? && g.name != "")
  }

  /** `GROUP_CONFIG_MAPPING`'s keys, in declaration order; every catalogue
      uses the same seven. */
  const GroupKeys: seq<string> := ["GRID", "FSM", "C4E", "ERP", "LOC", "PORTAL", "HCM"]

  /** The position of `key` in `keys`. */
  function IndexOfKey(keys: seq<string>, key: string): (r: Option<nat>)
    ensures r.Some? ==> r.value < |keys| && keys[r.value] == key
    ensures r.None? <==> key !in keys
  {
    if |keys| == 0 then None
    else if keys[0] == key then Some(0)
    else match IndexOfKey(keys[1..], key)
      case None => None
      case Some(i) => Some(i + 1)
  }

  /** Upper-casing is idempotent. */
  lemma UpperIdempotent(s: string)
    ensures Upper(Upper(s)) == Upper(s)
  {
  }

  lemma UpperKeepsEmpty(s: string, t: string)
    requires Upper(s) == Upper(t)
    ensures s == "" <==> t == ""
  {
    assert |s| == |Upper(s)| == |Upper(t)| == |t|;
  }

  /** A catalogue of group pools: the pool of each of the `GroupKeys`, in the
      same order, and the pool used for every other name. */
  datatype Catalogue = Catalogue(groups: seq<Pool>, fallback: Pool)

  /** A catalogue with one pool per group key. */
  type GroupTable = c: Catalogue | |c.groups| == |GroupKeys| witness Catalogue([[], [], [], [], [], [], []], [])

  /** The message of the `AttributeError` raised by calling `.upper()` on a
      float (a NaN cell). */
  const AttributeError := "'float' object has no attribute 'upper'"

  /** `get_group_config` of the Python configurations: a falsy name gives the
      fallback pool; any other name is upper-cased and looked up among the
      group keys, falling back to the fallback pool. A NaN cell is truthy and
      has no `.upper()`. */
  function GroupLookup(c: GroupTable, g: GroupCell): (r: Result<Pool, string>)
    ensures r.Err? <==> g.NaNGroup?
    ensures r.Err? ==> r.error == AttributeError
    ensures r.Ok? ==> r.value == c.fallback || r.value in c.groups
    ensures g.Group? && Upper(g.name) in GroupKeys ==> r == Ok(c.groups[IndexOfKey(GroupKeys, Upper(g.name)).value])
    ensures (g.Group? && Upper(g.name) !in GroupKeys) || g.NoGroup? ==> r == Ok(c.fallback)
  {
    match g
    case NoGroup => Ok(c.fallback)
    case NaNGroup => Err(AttributeError)
    case Group(s) =>
      if s == "" then Ok(c.fallback)
      else
        match IndexOfKey(GroupKeys, Upper(s))
        case Some(k) => Ok(c.groups[k])
        case None => Ok(c.fallback)
  }

  /** The lookup ignores case: names with the same upper-case form get the same pool. */
  lemma GroupLookupIgnoresCase(c: GroupTable, s: string, t: string)
    requires Upper(s) == Upper(t)
    ensures GroupLookup(c, Group(s)) == GroupLookup(c, Group(t))
  {
    UpperKeepsEmpty(s, t);
  }

  /** When the fallback is the union of the groups, every pool the lookup
      returns lists only names of the fallback. */
  lemma GroupLookupCovered(c: GroupTable, g: GroupCell)
    requires c.fallback == UnionOf(c.groups) && GroupLookup(c, g).Ok?
    ensures NameSet(GroupLookup(c, g).value) <= NameSet(c.fallback)
  {
    var r := GroupLookup(c, g).value;
    if r != c.fallback {
      var k :| 0 <= k < |c.groups| && c.groups[k] == r;
      GroupInUnion(c.groups, k);
    }
  }
}

=== FILE: core_config.dfy ===
/** The application configuration (`core/config.py`; `backup_streamlit/core/config.py`
    is a copy): the developer groups and testers, group lookup, the merged
    developer pool, the two plan types and the validation of every entry. */
module CoreConfig {
  import opened Wrappers
  import opened Strings
  import opened Catalog
  import Models

  function Senior(maxTasks: int, color: string): Resource {
    Resource("SENIOR", Some(maxTasks), Some(color))
  }

  function Res(level: string, maxTasks: int, color: string): Resource {
    Resource(level, Some(maxTasks), Some(color))
  }

  const Grid: Pool := [
    ("Fabricio Sánchez", Senior(15, "#FF6B6B")),
    ("Oscar Castellanos", Senior(15, "#4ECDC4")),
    ("Gabriel Huamani", Senior(15, "#45B7D1")),
    ("Luiggi Gonzales", Senior(15, "#96CEB4")),
    ("Norman Tinco", Senior(4, "#FFEAA7"))]

  const Fsm: Pool := [
    ("FSM1", Senior(15, "#9370DB")),
    ("FSM2", Senior(15, "#32CD32"))]

  const C4e: Pool := [
    ("c4e1", Senior(15, "#FF6347"))]

  const Erp: Pool := [
    ("Luis Ore", Senior(6, "#FF4500")),
    ("Angel Burga", Senior(15, "#1E90FF")),
    ("Richard Galán", Res("SEMI_SENIOR", 12, "#32CD32")),
    ("Cesar Rivero", Senior(7, "#27AE60"))]

  const Loc: Pool := [
    ("Jhonatan Colina", Res("PLENO", 6, "#FF7F50")),
    ("Jose Aguilar", Res("PLENO", 12, "#20B2AA"))]

  const Portal: Pool := [
    ("Jhonatan Colina", Res("PLENO", 6, "#FF7F50")),
    ("Jorge Clemente", Res("JUNIOR", 8, "#FFB347")),
    ("Jose Urbina", Res("JUNIOR", 8, "#87CEEB"))]

  const Hcm: Pool := [
    ("Cesar Rivero", Senior(7, "#27AE60")),
    ("Katheryn Quiroz", Res("SEMI_SENIOR", 12, "#E91E63"))]

  const Testers: Pool := [
    ("Tester QA 1", Senior(15, "#FF6B6B")),
    ("Tester QA 2", Res("PLENO", 12, "#4ECDC4")),
    ("Tester QA 3", Res("JUNIOR", 10, "#45B7D1"))]

  /** The pools of `GROUP_CONFIG_MAPPING`, at the positions of `GroupKeys`. */
  const Groups: seq<Pool> := [Grid, Fsm, C4e, Erp, Loc, Portal, Hcm]

  /** `_get_all_developers_config`: every group merged, in mapping order, into
      a fresh pool. Testers are not included. */
  function AllDevelopers(): Pool {
    UnionOf(Groups)
  }

  lemma GroupNames()
    ensures Keys(Grid) == {"Fabricio Sánchez", "Oscar Castellanos", "Gabriel Huamani", "Luiggi Gonzales", "Norman Tinco"}
    ensures Keys(Fsm) == {"FSM1", "FSM2"}
    ensures Keys(C4e) == {"c4e1"}
    ensures Keys(Erp) == {"Luis Ore", "Angel Burga", "Richard Galán", "Cesar Rivero"}
    ensures Keys(Loc) == {"Jhonatan Colina", "Jose Aguilar"}
    ensures Keys(Portal) == {"Jhonatan Colina", "Jorge Clemente", "Jose Urbina"}
    ensures Keys(Hcm) == {"Cesar Rivero", "Katheryn Quiroz"}
  {
    GridKeys(); SmallGroupKeys(); ErpKeys(); PortalKeys();
  }

  // The names of each pool, one small proof per pool.

  lemma GridKeys()
    ensures Keys(Grid) == {"Fabricio Sánchez", "Oscar Castellanos", "Gabriel Huamani", "Luiggi Gonzales", "Norman Tinco"}
  {
  }

  lemma SmallGroupKeys()
    ensures Keys(Fsm) == {"FSM1", "FSM2"}
    ensures Keys(C4e) == {"c4e1"}
    ensures Keys(Loc) == {"Jhonatan Colina", "Jose Aguilar"}
    ensures Keys(Hcm) == {"Cesar Rivero", "Katheryn Quiroz"}
  {
  }

  lemma ErpKeys()
    ensures Keys(Erp) == {"Luis Ore", "Angel Burga", "Richard Galán", "Cesar Rivero"}
  {
  }

  lemma PortalKeys()
    ensures Keys(Portal) == {"Jhonatan Colina", "Jorge Clemente", "Jose Urbina"}
  {
  }

  lemma GroupsAllNames()
    ensures AllNames(Groups) == Keys(Grid) + Keys(Fsm) + Keys(C4e) + Keys(Erp) + Keys(Loc) + Keys(Portal) + Keys(Hcm)
  {
    AllNamesCons(Hcm, []);
    AllNamesCons(Portal, [Hcm]);
    AllNamesCons(Loc, [Portal, Hcm]);
    AllNamesCons(Erp, [Loc, Portal, Hcm]);
    AllNamesCons(C4e, [Erp, Loc, Portal, Hcm]);
    AllNamesCons(Fsm, [C4e, Erp, Loc, Portal, Hcm]);
    AllNamesCons(Grid, [Fsm, C4e, Erp, Loc, Portal, Hcm]);
  }

  /** The developer names, in three parts that share no name. */
  const GridNameSet: set<string> := {"Fabricio Sánchez", "Oscar Castellanos", "Gabriel Huamani", "Luiggi Gonzales", "Norman Tinco"}
  const MiddleNameSet: set<string> := {"FSM1", "FSM2", "c4e1", "Luis Ore", "Angel Burga", "Richard Galán"}
  const LastNameSet: set<string> := {"Cesar Rivero", "Jhonatan Colina", "Jose Aguilar", "Jorge Clemente", "Jose Urbina", "Katheryn Quiroz"}
  const DeveloperNames: set<string> := GridNameSet + MiddleNameSet + LastNameSet

  lemma DeveloperNamesSplit()
    ensures DeveloperNames ==
      {"Fabricio Sánchez", "Oscar Castellanos", "Gabriel Huamani", "Luiggi Gonzales", "Norman Tinco"} +
      {"FSM1", "FSM2"} + {"c4e1"} + {"Luis Ore", "Angel Burga", "Richard Galán", "Cesar Rivero"} +
      {"Jhonatan Colina", "Jose Aguilar"} + {"Jhonatan Colina", "Jorge Clemente", "Jose Urbina"} +
      {"Cesar Rivero", "Katheryn Quiroz"}
  {
  }

  lemma DeveloperNamesAreGroupNames()
    ensures AllNames(Groups) == DeveloperNames
  {
    GroupNames();
    GroupsAllNames();
    DeveloperNamesSplit();
  }

  lemma GridNameSetCount()
    ensures |GridNameSet| == 5
  {
  }

  lemma MiddleNameSetCount()
    ensures |MiddleNameSet| == 6
  {
  }

  lemma LastNameSetCount()
    ensures |LastNameSet| == 6
  {
  }

  lemma NameSetsDisjoint()
    ensures GridNameSet !! MiddleNameSet && GridNameSet !! LastNameSet && MiddleNameSet !! LastNameSet
  {
  }

  lemma DeveloperNamesCount()
    ensures |DeveloperNames| == 17
  {
    GridNameSetCount();
    MiddleNameSetCount();
    LastNameSetCount();
    NameSetsDisjoint();
  }

  /** The merged pool lists each of the 17 developers once: Cesar Rivero (ERP
      and HCM) and Jhonatan Colina (LOC and PORTAL) keep one entry. */
  lemma AllDevelopersNames()
    ensures NameSet(AllDevelopers()) == DeveloperNames
    ensures |AllDevelopers()| == 17
  {
    UnionNames(Groups);
    DeveloperNamesAreGroupNames();
    DeveloperNamesCount();
    UniqueCount(AllDevelopers());
  }

  // ---------------------------------------------------------------------------
  // Group lookup

  /** `GROUP_CONFIG_MAPPING` with the merged pool as fallback. */
  function AppCatalogue(): GroupTable {
    Catalogue(Groups, AllDevelopers())
  }

  /** `get_group_config`: a falsy name gives the merged pool; any other name is
      upper-cased and looked up among the group keys, falling back to the
      merged pool. */
  function GroupConfig(g: GroupCell): (r: Result<Pool, string>)
    ensures r.Err? <==> g.NaNGroup?
    ensures r.Err? ==> r.error == AttributeError
    ensures r.Ok? ==> r.value == AllDevelopers() || r.value in Groups
    ensures g.Group? && Upper(g.name) in GroupKeys ==> r == Ok(Groups[IndexOfKey(GroupKeys, Upper(g.name)).value])
    ensures (g.Group? && Upper(g.name) !in GroupKeys) || g.NoGroup? ==> r == Ok(AllDevelopers())
  {
    GroupLookup(AppCatalogue(), g)
  }

  lemma UpperErp()
    ensures Upper("erp") == "ERP"
  {
    assert Upper("erp") == [UpperChar('e')] + Upper("rp");
    assert Upper("rp") == [UpperChar('r')] + Upper("p");
  }

  lemma IndexOfErp()
    ensures IndexOfKey(GroupKeys, "ERP") == Some(3)
  {
  }

  /** A lower-case group name finds its group. */
  lemma GroupConfigErp()
    ensures GroupConfig(Group("erp")) == Ok(Erp)
  {
    UpperErp();
    IndexOfErp();
    assert GroupKeys[3] == "ERP" && Groups[3] == Erp;
  }

  /** Every pool the lookup returns lists only names of the merged pool. */
  lemma GroupConfigCovered(g: GroupCell)
    ensures GroupConfig(g).Ok? ==> NameSet(GroupConfig(g).value) <= NameSet(AllDevelopers())
  {
    if GroupConfig(g).Ok? {
      GroupLookupCovered(AppCatalogue(), g);
    }
  }

  // ---------------------------------------------------------------------------
  // Plan types

  /** `get_plan_config`: the two known plan types; anything else is a
      configuration error. */
  function GetPlanConfig(planType: string): (r: Result<Models.PlanConfig, string>)
    ensures r.Ok? <==> planType == "Plan de Desarrollo" || planType == "Plan de Pruebas"
    ensures r.Err? ==> r.error == "Unknown plan type: " + planType
    ensures r.Ok? ==> (r.value.useGroupBasedAssignment <==> planType == "Plan de Desarrollo")
    ensures r.Ok? ==> r.value.resourceCol == "abap_asignado"
    ensures r.Ok? ==> Models.NewPlanConfig(Models.PlanNames(r.value), Some(r.value.useGroupBasedAssignment), {}) == Ok(r.value)
  {
    if planType == "Plan de Desarrollo" then
      Ok(Models.PlanConfig("abap_asignado", "plan_abap_dev_time", "esfu_disponible", "plan_abap_dev_ini",
        "Fecha Inicio Plan", "Fecha Fin Plan", "Developer", "Developers", "Assigned ABAPs", true))
    else if planType == "Plan de Pruebas" then
      Ok(Models.PlanConfig("abap_asignado", "plan_abap_pu_time", "available_test_date", "plan_abap_pu_ini",
        "pu_ini", "Fecha Fin Real", "Tester", "Testers", "Assigned Testers", false))
    else Err("Unknown plan type: " + planType)
  }

  // ---------------------------------------------------------------------------
  // Validation

  /** Building `ResourceConfig(name=..., level=..., max_tasks=..., color=...)`
      from a catalogue entry succeeds. A missing field is a failure. */
  predicate EntryValid(e: (string, Resource)) {
    e.1.maxTasks.Some? && e.1.color.Some? &&
    Models.NewResourceConfig(Models.ResourceConfig(e.0, e.1.level, e.1.maxTasks.value, e.1.color.value), {}).Ok?
  }

  predicate PoolValid(p: Pool) {
    forall i :: 0 <= i < |p| ==> EntryValid(p[i])
  }

  /** The first entry, in scan order, that does not validate. */
  function FirstInvalid(p: Pool): (r: Option<string>)
    ensures r.None? <==> PoolValid(p)
    ensures r.Some? ==> exists i :: 0 <= i < |p| && p[i].0 == r.value && !EntryValid(p[i])
  {
    if |p| == 0 then None
    else if !EntryValid(p[0]) then Some(p[0].0)
    else
      var rest := FirstInvalid(p[1..]);
      PoolValidCons(p);
      if rest.Some? then
        var i :| 0 <= i < |p[1..]| && p[1..][i].0 == rest.value && !EntryValid(p[1..][i]);
        assert p[i + 1] == p[1..][i];
        rest
      else rest
  }

  lemma PoolValidCons(p: Pool)
    requires |p| > 0
    ensures PoolValid(p) <==> EntryValid(p[0]) && PoolValid(p[1..])
  {
    if EntryValid(p[0]) && PoolValid(p[1..]) {
      forall i | 0 <= i < |p| ensures EntryValid(p[i]) {
        if i > 0 {
          assert p[i] == p[1..][i - 1];
        }
      }
    }
  }

  /** `validate_config` over the given groups and testers: `Ok(true)` when
      every entry builds a valid `ResourceConfig`, otherwise the
      "Configuration validation failed: " error. The source appends the
      exception's own text; the model appends the name of the first failing
      entry in its place. */
  function ValidateConfig(groups: seq<Pool>, testers: Pool): (r: Result<bool, string>)
    ensures r.Ok? <==> (forall k :: 0 <= k < |groups| ==> PoolValid(groups[k])) && PoolValid(testers)
    ensures r.Ok? ==> r.value
    ensures r.Err? ==> StartsWith(r.error, "Configuration validation failed: ")
    decreases |groups|
  {
    if |groups| == 0 then
      match FirstInvalid(testers)
      case None => Ok(true)
      case Some(n) => Err("Configuration validation failed: " + n)
    else
      match FirstInvalid(groups[0])
      case Some(n) => Err("Configuration validation failed: " + n)
      case None =>
        assert forall k :: 1 <= k < |groups| ==> groups[k] == groups[1..][k - 1];
        ValidateConfig(groups[1..], testers)
  }
}

=== FILE: csv_config.dfy ===
/** CSV import profiles (`CSVConfigManager`): the two known profiles, the
    lookup with its generic fallback, the detection of the SAP RICEFW
    matrix from its headers, the merge of a partial configuration with the
    defaults, and the column mapping of a profile. */
module CsvConfig {
  import opened Wrappers
  import opened Strings

  datatype Profile = Profile(
    name: string, description: string, headerRow: nat,
    requiredColumns: seq<string>, optionalColumns: seq<string>,
    dateFormats: seq<string>, numberFormats: seq<string>,
    delimiter: string, encoding: string, skipEmptyRows: bool)

  const SapKey := "sap-ricesfw"
  const GenericKey := "generic"

  const SapRequired: seq<string> := ["plannedAbapDevStart", "plannedAbapDevEnd", "abapAssigned", "abapDevelopmentTime"]

  const SapProfile := Profile(
    "SAP RICEFW", "Matriz de RICEFWs con plan de esfuerzo", 3,
    SapRequired,
    ["abapTestTime", "cpiDevelopmentTime", "cpiTestTime", "effortReceivedPlan", "effortReceivedReal",
     "effortReadyDate", "effortExecutionStart", "keywords", "functionalAssigned", "actualAbapDevStart",
     "actualAbapDevEnd", "plannedCpiDevStart", "plannedCpiDevEnd"],
    ["DD/MM/YYYY", "YYYY-MM-DD", "DD-MM-YYYY"], ["#,##0.00", "#,##0"], ",", "UTF-8", true)

  const GenericProfile := Profile(
    "CSV Genérico", "Perfil genérico para archivos CSV", 1, [], [],
    ["DD/MM/YYYY", "YYYY-MM-DD", "MM/DD/YYYY"], ["#,##0.00", "#,##0"], ",", "UTF-8", true)

  const Profiles: map<string, Profile> := map[SapKey := SapProfile, GenericKey := GenericProfile]

  /** `getProfile`: a known name gives its profile, any other the generic
      one. */
  function GetProfile(name: string): (r: Profile)
    ensures r == SapProfile <==> name == SapKey
    ensures r == GenericProfile <==> name != SapKey
  {
    if name in Profiles then Profiles[name] else GenericProfile
  }

  /** The lower-case header names whose joint presence marks the SAP
      matrix. */
  const SapMarkers: seq<string> := ["plannedabapdevstart", "abapassigned", "abapdevelopmenttime", "plannedabapdevend"]

  function LowerAll(headers: seq<string>): (r: seq<string>)
    ensures |r| == |headers|
    ensures forall i :: 0 <= i < |headers| ==> r[i] == Lower(headers[i])
  {
    seq(|headers|, i requires 0 <= i < |headers| => Lower(headers[i]))
  }

  /** `detectProfile`: the SAP profile exactly when every marker is among
      the lower-cased headers (headers are not trimmed); otherwise the
      generic one. */
  function DetectProfile(headers: seq<string>): (r: string)
    ensures r == SapKey || r == GenericKey
    ensures r == SapKey <==> forall m :: m in SapMarkers ==> exists i :: 0 <= i < |headers| && Lower(headers[i]) == m
  {
    var normalized := LowerAll(headers);
    if forall m :: m in SapMarkers ==> m in normalized then SapKey else GenericKey
  }

  // The required columns lower-cased, one literal at a time.

  lemma LowerStart() ensures Lower("plannedAbapDevStart") == "plannedabapdevstart" {}
  lemma LowerEnd() ensures Lower("plannedAbapDevEnd") == "plannedabapdevend" {}
  lemma LowerAssigned() ensures Lower("abapAssigned") == "abapassigned" {}
  lemma LowerTime() ensures Lower("abapDevelopmentTime") == "abapdevelopmenttime" {}

  /** The markers are the profile's own required columns, lower-cased. */
  lemma MarkersAreRequiredColumns()
    ensures forall m :: m in SapMarkers <==> exists c :: c in SapRequired && Lower(c) == m
  {
    LowerStart(); LowerEnd(); LowerAssigned(); LowerTime();
    assert SapRequired[0] == "plannedAbapDevStart" && SapRequired[1] == "plannedAbapDevEnd";
    assert SapRequired[2] == "abapAssigned" && SapRequired[3] == "abapDevelopmentTime";
    forall m | m in SapMarkers ensures exists c :: c in SapRequired && Lower(c) == m {
      if m == "plannedabapdevstart" {
        assert Lower(SapRequired[0]) == m;
      } else if m == "abapassigned" {
        assert Lower(SapRequired[2]) == m;
      } else if m == "abapdevelopmenttime" {
        assert Lower(SapRequired[3]) == m;
      } else {
        assert Lower(SapRequired[1]) == m;
      }
    }
  }

  /** Detection picks the SAP profile exactly when each of that profile's
      required columns is present up to ASCII case. */
  lemma DetectMeansRequiredPresent(headers: seq<string>)
    ensures DetectProfile(headers) == SapKey <==>
              forall c :: c in GetProfile(SapKey).requiredColumns ==>
                exists i :: 0 <= i < |headers| && Lower(headers[i]) == Lower(c)
  {
    MarkersAreRequiredColumns();
    if DetectProfile(headers) == SapKey {
      forall c | c in SapRequired ensures exists i :: 0 <= i < |headers| && Lower(headers[i]) == Lower(c) {
        assert Lower(c) in SapMarkers;
      }
    } else {
      var m :| m in SapMarkers && !exists i :: 0 <= i < |headers| && Lower(headers[i]) == m;
      var c :| c in SapRequired && Lower(c) == m;
      assert !exists i :: 0 <= i < |headers| && Lower(headers[i]) == Lower(c);
    }
  }

  /** Headers exactly as the profile names them are recognised, whatever
      else surrounds them. */
  lemma SapHeadersDetected(before: seq<string>, after: seq<string>)
    ensures DetectProfile(before + SapRequired + after) == SapKey
  {
    var h := before + SapRequired + after;
    forall c | c in SapRequired
      ensures exists i :: 0 <= i < |h| && Lower(h[i]) == Lower(c)
    {
      var k :| 0 <= k < |SapRequired| && SapRequired[k] == c;
      assert h[|before| + k] == c;
    }
    DetectMeansRequiredPresent(h);
  }

  /** With no headers, nothing is detected. */
  lemma NoHeadersIsGeneric()
    ensures DetectProfile([]) == GenericKey
  {
    assert "plannedabapdevstart" in SapMarkers;
  }

  datatype Config = Config(headerRow: int, encoding: string, delimiter: string, skipEmptyRows: bool,
                           maxFileSize: int, allowedTypes: seq<string>)

  const DefaultConfig := Config(1, "UTF-8", ",", true, 50 * 1024 * 1024,
                                ["text/csv", "application/csv", "application/vnd.ms-excel"])

  /** A `Partial<CSVConfig>`: each field given or left out. */
  datatype PartialConfig = PartialConfig(
    headerRow: Option<int>, encoding: Option<string>, delimiter: Option<string>,
    skipEmptyRows: Option<bool>, maxFileSize: Option<int>, allowedTypes: Option<seq<string>>)

  /** `validateConfig`: `{ ...DEFAULT_CSV_CONFIG, ...config }`, each given
      field overriding the default, without any range check. */
  function ValidateConfig(c: PartialConfig): (r: Config)
    ensures c.headerRow.Some? ==> r.headerRow == c.headerRow.value
    ensures c.headerRow.None? ==> r.headerRow == DefaultConfig.headerRow
    ensures c.encoding.Some? ==> r.encoding == c.encoding.value
    ensures c.encoding.None? ==> r.encoding == DefaultConfig.encoding
    ensures c.delimiter.Some? ==> r.delimiter == c.delimiter.value
    ensures c.delimiter.None? ==> r.delimiter == DefaultConfig.delimiter
    ensures c.skipEmptyRows.Some? ==> r.skipEmptyRows == c.skipEmptyRows.value
    ensures c.skipEmptyRows.None? ==> r.skipEmptyRows == DefaultConfig.skipEmptyRows
    ensures c.maxFileSize.Some? ==> r.maxFileSize == c.maxFileSize.value
    ensures c.maxFileSize.None? ==> r.maxFileSize == DefaultConfig.maxFileSize
    ensures c.allowedTypes.Some? ==> r.allowedTypes == c.allowedTypes.value
    ensures c.allowedTypes.None? ==> r.allowedTypes == DefaultConfig.allowedTypes
  {
    Config(c.headerRow.GetOr(DefaultConfig.headerRow), c.encoding.GetOr(DefaultConfig.encoding),
           c.delimiter.GetOr(DefaultConfig.delimiter), c.skipEmptyRows.GetOr(DefaultConfig.skipEmptyRows),
           c.maxFileSize.GetOr(DefaultConfig.maxFileSize), c.allowedTypes.GetOr(DefaultConfig.allowedTypes))
  }

  /** The fields a configuration would give back when spread again. */
  function AsPartial(c: Config): PartialConfig {
    PartialConfig(Some(c.headerRow), Some(c.encoding), Some(c.delimiter), Some(c.skipEmptyRows),
                  Some(c.maxFileSize), Some(c.allowedTypes))
  }

  /** An empty override yields the defaults, a complete one is kept as it
      is, and merging is idempotent. */
  lemma ValidateConfigLaws(c: PartialConfig, full: Config)
    ensures ValidateConfig(PartialConfig(None, None, None, None, None, None)) == DefaultConfig
    ensures ValidateConfig(AsPartial(full)) == full
    ensures ValidateConfig(AsPartial(ValidateConfig(c))) == ValidateConfig(c)
  {
  }

  /** `getColumnMapping`: every required column of the profile maps to
      itself, and nothing else is mapped. */
  function GetColumnMapping(name: string): (r: map<string, string>)
    ensures r.Keys == set c | c in GetProfile(name).requiredColumns
    ensures forall k :: k in r ==> r[k] == k
  {
    map c | c in GetProfile(name).requiredColumns :: c
  }

  /** Only the SAP profile has a mapping; an unknown name falls back to the
      generic profile and maps nothing. */
  lemma ColumnMappingByProfile(name: string)
    ensures name != SapKey ==> GetColumnMapping(name) == map[]
    ensures name == SapKey ==> |GetColumnMapping(name).Keys| == 4
  {
    if name == SapKey {
      var keys := GetColumnMapping(name).Keys;
      assert keys == {"plannedAbapDevStart", "plannedAbapDevEnd", "abapAssigned", "abapDevelopmentTime"};
    }
  }
}

=== FILE: csv_errors.dfy ===
/** Localised CSV error messages (`CSVErrorHandler`): a template per error
    type and language, with the first `{columns}`, `{column}` or `{details}`
    placeholder filled from the details when they carry that field, and the
    user and log renderings of the resulting error. */
module CsvErrors {
  import opened Wrappers
  import opened Strings

  datatype CsvErrorType =
    | HeaderNotFound | InvalidDateFormat | MissingRequiredColumns | EmptyData
    | InvalidFileFormat | FileTooLarge | EncodingError | ParseError

  function TypeValue(t: CsvErrorType): (r: string)
    ensures |r| > 0
  {
    match t
    case HeaderNotFound => "header_not_found"
    case InvalidDateFormat => "invalid_date_format"
    case MissingRequiredColumns => "missing_required_columns"
    case EmptyData => "empty_data"
    case InvalidFileFormat => "invalid_file_format"
    case FileTooLarge => "file_too_large"
    case EncodingError => "encoding_error"
    case ParseError => "parse_error"
  }

  datatype Language = Es | En

  /** The placeholder a template carries, if any. */
  function Placeholder(t: CsvErrorType): (r: Option<string>)
  {
    match t
    case MissingRequiredColumns => Some("{columns}")
    case InvalidDateFormat => Some("{column}")
    case ParseError => Some("{details}")
    case _ => None
  }

  /** The text before and after the placeholder (the whole text when there
      is none). */
  function Pieces(t: CsvErrorType, lang: Language): (r: (string, string))
  {
    match t
    case HeaderNotFound => HeaderNotFoundText(lang)
    case MissingRequiredColumns => MissingColumnsText(lang)
    case EmptyData => EmptyDataText(lang)
    case InvalidDateFormat => InvalidDateText(lang)
    case FileTooLarge => FileTooLargeText(lang)
    case InvalidFileFormat => InvalidFileText(lang)
    case EncodingError => EncodingText(lang)
    case ParseError => ParseText(lang)
  }

  function HeaderNotFoundText(lang: Language): (string, string) {
    match lang
    case Es => ("No se encontró la " + "cabecera en la fila " + "esperada. Verifique que " + "el archivo tenga el " + "formato correcto.",
      "")
    case En => ("Header not found in " + "expected row. Please " + "verify the file format.",
      "")
  }

  function MissingColumnsText(lang: Language): (string, string) {
    match lang
    case Es => ("Faltan columnas " + "requeridas: ",
      ". Verifique que el " + "archivo contenga todas " + "las columnas necesarias.")
    case En => ("Missing required " + "columns: ",
      ". Please verify the " + "file contains all " + "necessary columns.")
  }

  function EmptyDataText(lang: Language): (string, string) {
    match lang
    case Es => ("El archivo no contiene " + "datos válidos. " + "Verifique que haya al " + "menos una fila de datos.",
      "")
    case En => ("The file contains no " + "valid data. Please " + "verify there is at " + "least one data row.",
      "")
  }

  function InvalidDateText(lang: Language): (string, string) {
    match lang
    case Es => ("Formato de fecha " + "inválido en la columna ",
      ". Use el formato " + "DD/MM/YYYY o YYYY-MM-DD.")
    case En => ("Invalid date format in " + "column ",
      ". Use DD/MM/YYYY or " + "YYYY-MM-DD format.")
  }

  function FileTooLargeText(lang: Language): (string, string) {
    match lang
    case Es => ("El archivo es demasiado " + "grande. El tamaño " + "máximo permitido es " + "50MB.",
      "")
    case En => ("File is too large. " + "Maximum allowed size is " + "50MB.",
      "")
  }

  function InvalidFileText(lang: Language): (string, string) {
    match lang
    case Es => ("Formato de archivo " + "inválido. Solo se " + "permiten archivos CSV.",
      "")
    case En => ("Invalid file format. " + "Only CSV files are " + "allowed.",
      "")
  }

  function EncodingText(lang: Language): (string, string) {
    match lang
    case Es => ("Error de codificación " + "del archivo. Use UTF-8 " + "o ISO-8859-1.",
      "")
    case En => ("File encoding error. " + "Use UTF-8 or ISO-8859-1.",
      "")
  }

  function ParseText(lang: Language): (string, string) {
    match lang
    case Es => ("Error al procesar el " + "archivo CSV: ",
      "")
    case En => ("Error processing CSV " + "file: ",
      "")
  }

  /** The message template of `errorMessages[type][language]`. */
  function Template(t: CsvErrorType, lang: Language): (r: string)
  {
    var (before, after) := Pieces(t, lang);
    match Placeholder(t)
    case Some(p) => before + p + after
    case None => before
  }

  predicate NoBrace(s: string) {
    forall k :: 0 <= k < |s| ==> s[k] != '{'
  }

  predicate Plain(pieces: (string, string)) {
    NoBrace(pieces.0) && NoBrace(pieces.1)
  }

  lemma NoBraceAppend(a: string, b: string)
    requires NoBrace(a) && NoBrace(b)
    ensures NoBrace(a + b)
  {
    forall k | 0 <= k < |a + b| ensures (a + b)[k] != '{' {
      if k >= |a| {
        assert (a + b)[k] == b[k - |a|];
      }
    }
  }

  // No template text outside its placeholder contains a brace, shown one
  // type at a time by joining the fragments the texts are written in.

  lemma HeaderNotFoundPlain(lang: Language)
    ensures Plain(HeaderNotFoundText(lang))
  {
    match lang
    case Es =>
      NoBraceAppend("No se encontró la ", "cabecera en la fila ");
      NoBraceAppend("No se encontró la " + "cabecera en la fila ", "esperada. Verifique que ");
      NoBraceAppend("No se encontró la " + "cabecera en la fila " + "esperada. Verifique que ", "el archivo tenga el ");
      NoBraceAppend("No se encontró la " + "cabecera en la fila " + "esperada. Verifique que " + "el archivo tenga el ", "formato correcto.");
    case En =>
      NoBraceAppend("Header not found in ", "expected row. Please ");
      NoBraceAppend("Header not found in " + "expected row. Please ", "verify the file format.");
  }

  lemma MissingColumnsPlain(lang: Language)
    ensures Plain(MissingColumnsText(lang))
  {
    match lang
    case Es =>
      NoBraceAppend("Faltan columnas ", "requeridas: ");
      NoBraceAppend(". Verifique que el ", "archivo contenga todas ");
      NoBraceAppend(". Verifique que el " + "archivo contenga todas ", "las columnas necesarias.");
    case En =>
      NoBraceAppend("Missing required ", "columns: ");
      NoBraceAppend(". Please verify the ", "file contains all ");
      NoBraceAppend(". Please verify the " + "file contains all ", "necessary columns.");
  }

  lemma EmptyDataPlain(lang: Language)
    ensures Plain(EmptyDataText(lang))
  {
    match lang
    case Es =>
      NoBraceAppend("El archivo no contiene ", "datos válidos. ");
      NoBraceAppend("El archivo no contiene " + "datos válidos. ", "Verifique que haya al ");
      NoBraceAppend("El archivo no contiene " + "datos válidos. " + "Verifique que haya al ", "menos una fila de datos.");
    case En =>
      NoBraceAppend("The file contains no ", "valid data. Please ");
      NoBraceAppend("The file contains no " + "valid data. Please ", "verify there is at ");
      NoBraceAppend("The file contains no " + "valid data. Please " + "verify there is at ", "least one data row.");
  }

  lemma InvalidDatePlain(lang: Language)
    ensures Plain(InvalidDateText(lang))
  {
    match lang
    case Es =>
      NoBraceAppend("Formato de fecha ", "inválido en la columna ");
      NoBraceAppend(". Use el formato ", "DD/MM/YYYY o YYYY-MM-DD.");
    case En =>
      NoBraceAppend("Invalid date format in ", "column ");
      NoBraceAppend(". Use DD/MM/YYYY or ", "YYYY-MM-DD format.");
  }

  lemma FileTooLargePlain(lang: Language)
    ensures Plain(FileTooLargeText(lang))
  {
    match lang
    case Es =>
      NoBraceAppend("El archivo es demasiado ", "grande. El tamaño ");
      NoBraceAppend("El archivo es demasiado " + "grande. El tamaño ", "máximo permitido es ");
      NoBraceAppend("El archivo es demasiado " + "grande. El tamaño " + "máximo permitido es ", "50MB.");
    case En =>
      NoBraceAppend("File is too large. ", "Maximum allowed size is ");
      NoBraceAppend("File is too large. " + "Maximum allowed size is ", "50MB.");
  }

  lemma InvalidFilePlain(lang: Language)
    ensures Plain(InvalidFileText(lang))
  {
    match lang
    case Es =>
      NoBraceAppend("Formato de archivo ", "inválido. Solo se ");
      NoBraceAppend("Formato de archivo " + "inválido. Solo se ", "permiten archivos CSV.");
    case En =>
      NoBraceAppend("Invalid file format. ", "Only CSV files are ");
      NoBraceAppend("Invalid file format. " + "Only CSV files are ", "allowed.");
  }

  lemma EncodingPlain(lang: Language)
    ensures Plain(EncodingText(lang))
  {
    match lang
    case Es =>
      NoBraceAppend("Error de codificación ", "del archivo. Use UTF-8 ");
      NoBraceAppend("Error de codificación " + "del archivo. Use UTF-8 ", "o ISO-8859-1.");
    case En =>
      NoBraceAppend("File encoding error. ", "Use UTF-8 or ISO-8859-1.");
  }

  lemma ParsePlain(lang: Language)
    ensures Plain(ParseText(lang))
  {
    match lang
    case Es =>
      NoBraceAppend("Error al procesar el ", "archivo CSV: ");
    case En =>
      NoBraceAppend("Error processing CSV ", "file: ");
  }

  lemma PiecesPlain(t: CsvErrorType, lang: Language)
    ensures Plain(Pieces(t, lang))
  {
    match t
    case HeaderNotFound => HeaderNotFoundPlain(lang);
    case MissingRequiredColumns => MissingColumnsPlain(lang);
    case EmptyData => EmptyDataPlain(lang);
    case InvalidDateFormat => InvalidDatePlain(lang);
    case FileTooLarge => FileTooLargePlain(lang);
    case InvalidFileFormat => InvalidFilePlain(lang);
    case EncodingError => EncodingPlain(lang);
    case ParseError => ParsePlain(lang);
  }

  lemma NoBraceCat(a: string, b: string, c: string)
    requires NoBrace(a) && NoBrace(b) && NoBrace(c)
    ensures NoBrace(a + b + c)
  {
    forall k | 0 <= k < |a + b + c| ensures (a + b + c)[k] != '{' {
      if k < |a| {
        assert (a + b + c)[k] == a[k];
      } else if k < |a| + |b| {
        assert (a + b + c)[k] == b[k - |a|];
      } else {
        assert (a + b + c)[k] == c[k - |a| - |b|];
      }
    }
  }

  /** The fields of the details object the placeholders read; JavaScript
      truthiness makes an empty `column` or `details` string count as
      absent, while any `columns` array counts as present. */
  datatype Details = Details(columns: Option<seq<string>>, column: Option<string>, details: Option<string>)

  datatype CsvError = CsvError(kind: CsvErrorType, message: string, details: Option<Details>)

  /** `columns.join(', ')`. */
  function JoinComma(xs: seq<string>): (r: string)
    ensures |xs| == 1 ==> r == xs[0]
    ensures |xs| == 0 ==> r == ""
  {
    if |xs| == 0 then "" else if |xs| == 1 then xs[0] else xs[0] + ", " + JoinComma(xs[1..])
  }

  /** The value each placeholder would receive, when the details carry it. */
  function ColumnsValue(d: Option<Details>): Option<string> {
    if d.Some? && d.value.columns.Some? then Some(JoinComma(d.value.columns.value)) else None
  }

  function ColumnValue(d: Option<Details>): Option<string> {
    if d.Some? && d.value.column.Some? && d.value.column.value != "" then d.value.column else None
  }

  function DetailsValue(d: Option<Details>): Option<string> {
    if d.Some? && d.value.details.Some? && d.value.details.value != "" then d.value.details else None
  }

  /** The value a template's own placeholder receives. */
  function ValueFor(t: CsvErrorType, d: Option<Details>): Option<string> {
    match t
    case MissingRequiredColumns => ColumnsValue(d)
    case InvalidDateFormat => ColumnValue(d)
    case ParseError => DetailsValue(d)
    case _ => None
  }

  /** `message.replace(placeholder, value)` when the value is present. */
  function Fill(message: string, placeholder: string, value: Option<string>): string {
    match value
    case Some(v) => ReplaceFirst(message, placeholder, v)
    case None => message
  }

  /** What the template's own placeholder is replaced by: the value with
      its `$` patterns expanded against the template around the placeholder. */
  function Inserted(t: CsvErrorType, lang: Language, v: string): string {
    Substitute(v, Placeholder(t).GetOr(""), Pieces(t, lang).0, Pieces(t, lang).1)
  }

  /** The three replacements of `createError`, in their order. */
  function Filled(template: string, d: Option<Details>): string {
    var m := Fill(template, "{columns}", ColumnsValue(d));
    var m := Fill(m, "{column}", ColumnValue(d));
    Fill(m, "{details}", DetailsValue(d))
  }

  lemma OccursAtChar(s: string, p: string, j: nat, i: nat)
    requires i < |p|
    ensures OccursAt(s, p, j) ==> s[j + i] == p[i]
  {
    if OccursAt(s, p, j) {
      assert s[j..j + |p|][i] == s[j + i];
    }
  }

  /** A text with no brace has no placeholder to fill. */
  lemma FillNoBrace(s: string, p: string, v: Option<string>)
    requires NoBrace(s) && |p| > 0 && p[0] == '{'
    ensures Fill(s, p, v) == s
  {
    forall j: nat ensures !OccursAt(s, p, j) {
      OccursAtChar(s, p, j, 0);
    }
  }

  /** Filling `p` in `before + p + after` when `before` has no brace: the
      value, its `$` patterns expanded, takes the placeholder's place. */
  lemma FillAt(before: string, p: string, after: string, v: string)
    requires NoBrace(before) && |p| > 0 && p[0] == '{'
    ensures Fill(before + p + after, p, Some(v)) == before + Substitute(v, p, before, after) + after
  {
    var s := before + p + after;
    var k := |before|;
    assert s[k..k + |p|] == p;
    forall j: nat | j < k ensures !OccursAt(s, p, j) {
      OccursAtChar(s, p, j, 0);
      assert s[j] == before[j];
    }
    assert s[..k] == before;
    assert s[k + |p|..] == after;
  }

  /** Filling `p` in `before + q + after` changes nothing when `p` and `q`
      are different placeholders, told apart at position `i`. */
  lemma FillOther(before: string, q: string, after: string, p: string, v: Option<string>, i: nat)
    requires NoBrace(before) && NoBrace(after) && |q| > 0 && NoBrace(q[1..])
    requires |p| > 0 && p[0] == '{' && 0 < i < |p| && i < |q| && p[i] != q[i]
    ensures Fill(before + q + after, p, v) == before + q + after
  {
    var s := before + q + after;
    forall j: nat ensures !OccursAt(s, p, j) {
      OccursAtChar(s, p, j, 0);
      OccursAtChar(s, p, j, i);
      if j < |before| {
        assert s[j] == before[j];
      } else if j == |before| {
        if j + i < |s| {
          assert s[j + i] == q[i];
        }
      } else if j < |before| + |q| {
        assert s[j] == q[1..][j - |before| - 1];
      } else if j < |s| {
        assert s[j] == after[j - |before| - |q|];
      }
    }
  }

  lemma NoPlaceholderSteps(t: CsvErrorType, lang: Language, d: Option<Details>)
    requires Placeholder(t).None?
    ensures Filled(Template(t, lang), d) == Template(t, lang)
  {
    PiecesPlain(t, lang);
    var s := Template(t, lang);
    FillNoBrace(s, "{columns}", ColumnsValue(d));
    FillNoBrace(s, "{column}", ColumnValue(d));
    FillNoBrace(s, "{details}", DetailsValue(d));
  }

  lemma ColumnsSteps(lang: Language, d: Option<Details>)
    ensures ColumnsValue(d).None? ==> Filled(Template(MissingRequiredColumns, lang), d) == Template(MissingRequiredColumns, lang)
    ensures ColumnsValue(d).Some? && NoBrace(Inserted(MissingRequiredColumns, lang, ColumnsValue(d).value)) ==>
              Filled(Template(MissingRequiredColumns, lang), d)
              == Pieces(MissingRequiredColumns, lang).0 + Inserted(MissingRequiredColumns, lang, ColumnsValue(d).value)
                 + Pieces(MissingRequiredColumns, lang).1
  {
    PiecesPlain(MissingRequiredColumns, lang);
    var (b, a) := Pieces(MissingRequiredColumns, lang);
    if ColumnsValue(d).None? {
      FillOther(b, "{columns}", a, "{column}", ColumnValue(d), 7);
      FillOther(b, "{columns}", a, "{details}", DetailsValue(d), 1);
    } else {
      var w := Inserted(MissingRequiredColumns, lang, ColumnsValue(d).value);
      FillAt(b, "{columns}", a, ColumnsValue(d).value);
      if NoBrace(w) {
        NoBraceCat(b, w, a);
        FillNoBrace(b + w + a, "{column}", ColumnValue(d));
        FillNoBrace(b + w + a, "{details}", DetailsValue(d));
      }
    }
  }

  lemma ColumnSteps(lang: Language, d: Option<Details>)
    ensures ColumnValue(d).None? ==> Filled(Template(InvalidDateFormat, lang), d) == Template(InvalidDateFormat, lang)
    ensures ColumnValue(d).Some? && NoBrace(Inserted(InvalidDateFormat, lang, ColumnValue(d).value)) ==>
              Filled(Template(InvalidDateFormat, lang), d)
              == Pieces(InvalidDateFormat, lang).0 + Inserted(InvalidDateFormat, lang, ColumnValue(d).value)
                 + Pieces(InvalidDateFormat, lang).1
  {
    PiecesPlain(InvalidDateFormat, lang);
    var (b, a) := Pieces(InvalidDateFormat, lang);
    FillOther(b, "{column}", a, "{columns}", ColumnsValue(d), 7);
    if ColumnValue(d).None? {
      FillOther(b, "{column}", a, "{details}", DetailsValue(d), 1);
    } else {
      var w := Inserted(InvalidDateFormat, lang, ColumnValue(d).value);
      FillAt(b, "{column}", a, ColumnValue(d).value);
      if NoBrace(w) {
        NoBraceCat(b, w, a);
        FillNoBrace(b + w + a, "{details}", DetailsValue(d));
      }
    }
  }

  lemma DetailsSteps(lang: Language, d: Option<Details>)
    ensures DetailsValue(d).None? ==> Filled(Template(ParseError, lang), d) == Template(ParseError, lang)
    ensures DetailsValue(d).Some? ==>
              Filled(Template(ParseError, lang), d)
              == Pieces(ParseError, lang).0 + Inserted(ParseError, lang, DetailsValue(d).value) + Pieces(ParseError, lang).1
  {
    PiecesPlain(ParseError, lang);
    var (b, a) := Pieces(ParseError, lang);
    FillOther(b, "{details}", a, "{columns}", ColumnsValue(d), 1);
    FillOther(b, "{details}", a, "{column}", ColumnValue(d), 1);
    if DetailsValue(d).Some? {
      FillAt(b, "{details}", a, DetailsValue(d).value);
    }
  }

  lemma FillSteps(t: CsvErrorType, lang: Language, d: Option<Details>)
    ensures ValueFor(t, d).None? ==> Filled(Template(t, lang), d) == Template(t, lang)
    ensures ValueFor(t, d).Some? && (t == ParseError || NoBrace(Inserted(t, lang, ValueFor(t, d).value))) ==>
              Filled(Template(t, lang), d) == Pieces(t, lang).0 + Inserted(t, lang, ValueFor(t, d).value) + Pieces(t, lang).1
  {
    match t
    case MissingRequiredColumns => ColumnsSteps(lang, d);
    case InvalidDateFormat => ColumnSteps(lang, d);
    case ParseError => DetailsSteps(lang, d);
    case _ => NoPlaceholderSteps(t, lang, d);
  }

  /** `createError` (language defaults to Spanish). The template's own
      placeholder is kept verbatim when the details lack its field, and is
      otherwise replaced at its place by the value with its `$` patterns
      expanded, the rest of the template unchanged; a plain value (no brace,
      no dollar) is inserted as it is. A template without placeholder is
      used as it is. The type and details are passed through. */
  function CreateError(t: CsvErrorType, lang: Language := Es, details: Option<Details> := None): (r: CsvError)
    ensures r.kind == t && r.details == details
    ensures ValueFor(t, details).None? ==> r.message == Template(t, lang)
    ensures ValueFor(t, details).Some? && (t == ParseError || NoBrace(Inserted(t, lang, ValueFor(t, details).value))) ==>
              r.message == Pieces(t, lang).0 + Inserted(t, lang, ValueFor(t, details).value) + Pieces(t, lang).1
    ensures ValueFor(t, details).Some? && NoBrace(ValueFor(t, details).value) && NoDollar(ValueFor(t, details).value) ==>
              r.message == Pieces(t, lang).0 + ValueFor(t, details).value + Pieces(t, lang).1
  {
    FillSteps(t, lang, details);
    CsvError(t, Filled(Template(t, lang), details), details)
  }

  /** A `$&` in the details puts the placeholder itself back, so the message
      still reads `{details}`. */
  lemma MatchPatternKeepsPlaceholder(lang: Language)
    ensures CreateError(ParseError, lang, Some(Details(None, None, Some("$&")))).message == Template(ParseError, lang)
  {
    SubstituteMatched("{details}", Pieces(ParseError, lang).0, Pieces(ParseError, lang).1);
  }

  /** Doubling every `$` of a plain value makes it appear literally. */
  lemma EscapedValueIsLiteral(t: CsvErrorType, lang: Language, v: string)
    requires Placeholder(t).Some? && NoBrace(v)
    ensures Inserted(t, lang, EscapeDollars(v)) == v
  {
    SubstituteEscaped(v, Placeholder(t).value, Pieces(t, lang).0, Pieces(t, lang).1);
  }

  /** The replacements run in turn over the growing message: a column list
      that itself reads `{column}` has that text filled by the next step. */
  lemma PlaceholderInValue(lang: Language, column: string)
    requires column != ""
    ensures var (b, a) := Pieces(MissingRequiredColumns, lang);
            CreateError(MissingRequiredColumns, lang, Some(Details(Some(["{column}"]), Some(column), None))).message
            == b + Substitute(column, "{column}", b, a) + a
  {
    PiecesPlain(MissingRequiredColumns, lang);
    var (b, a) := Pieces(MissingRequiredColumns, lang);
    assert NoDollar("{column}");
    FillAt(b, "{columns}", a, "{column}");
    FillAt(b, "{column}", a, column);
  }

  /** `formatErrorForUser`: the message as created. */
  function FormatErrorForUser(e: CsvError): (r: string)
    ensures |r| == |e.message|
  {
    e.message
  }

  /** Without details the user sees the bare template of the type. */
  lemma UserSeesTemplate(t: CsvErrorType, lang: Language)
    ensures FormatErrorForUser(CreateError(t, lang)) == Template(t, lang)
  {
  }

  /** `formatErrorForLog`: `CSV Error [type]: message`, followed by the
      JSON of the details when there are any. The JSON serialiser is a
      parameter. */
  function FormatErrorForLog(e: CsvError, stringify: Details -> string): (r: string)
    ensures var head := "CSV Error [" + TypeValue(e.kind) + "]: " + FormatErrorForUser(e);
            && |head| <= |r| && r[..|head|] == head
            && (e.details.None? <==> r == head)
            && (e.details.Some? ==> r[|head|..] == " | Details: " + stringify(e.details.value))
  {
    var head := "CSV Error [" + TypeValue(e.kind) + "]: " + e.message;
    match e.details
    case None => head
    case Some(d) => head + " | Details: " + stringify(d)
  }
}

=== FILE: csv_processor.dfy ===
/** The special-format CSV reader and the CSV writers of the web
    application (`app/lib/csv-processor.ts`).

    The special format carries a title line and a blank line before the
    header. The reader drops those two lines, hands the rest to the CSV
    parser, keeps the rows that carry a real project code and normalises a
    few date and number columns. The parser and the date and number
    conversions are library calls; they are parameters here. A row is a
    JavaScript object: its keys in insertion order, each once. */
module CsvProcessor {
  import opened Wrappers
  import opened Strings
  import Seqs

  /** A cell: missing (`undefined`), a string, or a number written back by
      the normaliser. */
  datatype Value = Missing | Text(s: string) | Number(x: real)

  predicate DistinctKeys(r: seq<(string, Value)>) {
    forall i, j :: 0 <= i < j < |r| ==> r[i].0 != r[j].0
  }

  type Row = r: seq<(string, Value)> | DistinctKeys(r) witness []

  function Keys(row: Row): (r: seq<string>)
    ensures |r| == |row| && forall i :: 0 <= i < |row| ==> r[i] == row[i].0
  {
    seq(|row|, i requires 0 <= i < |row| => row[i].0)
  }

  /** `row[key]`. */
  function Get(row: Row, key: string): (v: Value)
    ensures v != Missing ==> exists i :: 0 <= i < |row| && row[i] == (key, v)
    ensures forall i :: 0 <= i < |row| && row[i].0 == key ==> v == row[i].1
  {
    if |row| == 0 then Missing
    else if row[0].0 == key then row[0].1
    else
      var rest := Get(row[1..], key);
      assert forall i :: 1 <= i < |row| ==> row[i] == row[1..][i - 1];
      rest
  }

  /** `normalizedRow[key] = v` on a key the row already has: the value
      changes in place. */
  function Set(row: Row, key: string, v: Value): (r: Row)
    ensures Keys(r) == Keys(row)
    ensures forall k :: k != key ==> Get(r, k) == Get(row, k)
    ensures key in Keys(row) ==> Get(r, key) == v
  {
    var r := seq(|row|, i requires 0 <= i < |row| => if row[i].0 == key then (key, v) else row[i]);
    assert DistinctKeys(r) by {
      forall i, j | 0 <= i < j < |r| ensures r[i].0 != r[j].0 {
        assert r[i].0 == row[i].0 && r[j].0 == row[j].0;
      }
    }
    assert forall k :: k != key ==> Get(r, k) == Get(row, k) by {
      forall k | k != key ensures Get(r, k) == Get(row, k) {
        if Get(row, k) != Missing {
          var i :| 0 <= i < |row| && row[i] == (k, Get(row, k));
          assert r[i] == row[i];
        }
      }
    }
    assert key in Keys(row) ==> Get(r, key) == v by {
      if key in Keys(row) {
        var i :| 0 <= i < |row| && Keys(row)[i] == key;
        assert r[i] == (key, v);
      }
    }
    r
  }

  /** JavaScript truthiness of a cell. */
  predicate Truthy(v: Value) {
    match v
    case Missing => false
    case Text(s) => s != ""
    case Number(x) => x != 0.0
  }

  // Dropping the two leading lines

  const TooFewLines := "CSV file must have at least 3 lines"

  /** `csvText.split('\n')`, refusing fewer than three lines, then
      `lines.slice(2).join('\n')`: the text after the second newline. */
  function DropTwoLines(text: string): (r: Result<string, string>)
    ensures r.Err? <==> |Split(text, '\n')| < 3
    ensures r.Err? ==> r.error == TooFewLines
    ensures r.Ok? ==> '\n' !in Split(text, '\n')[0] && '\n' !in Split(text, '\n')[1]
    ensures r.Ok? ==> text == Split(text, '\n')[0] + "\n" + Split(text, '\n')[1] + "\n" + r.value
  {
    var lines := Split(text, '\n');
    if |lines| < 3 then Err(TooFewLines)
    else
      JoinSplit(text, '\n');
      assert Join(lines, '\n') == lines[0] + ['\n'] + Join(lines[1..], '\n');
      assert Join(lines[1..], '\n') == lines[1] + ['\n'] + Join(lines[2..], '\n') by {
        assert lines[1..][1..] == lines[2..];
      }
      Ok(Join(lines[2..], '\n'))
  }

  // Reading

  /** What the CSV parser reports: the parsed rows and its error messages. */
  datatype Parsed = Parsed(rows: seq<Row>, errors: seq<string>)

  /** `row.PROY && row.PROY !== '' && row.PROY !== 'PROY' && row.PROY !== 'nan'`. */
  predicate IsDataRow(row: Row) {
    var p := Get(row, "PROY");
    Truthy(p) && p != Text("PROY") && p != Text("nan")
  }

  function IsDataRowOf(): Row -> bool {
    (x: Row) => IsDataRow(x)
  }

  /** The rows with a project code, in order, each as often as it occurs. */
  function DataRows(rows: seq<Row>): (r: seq<Row>)
    ensures r == Seqs.Filter(rows, IsDataRowOf())
    ensures |r| <= |rows|
    ensures forall x :: x in r <==> x in rows && IsDataRow(x)
  {
    if |rows| == 0 then []
    else
      var rest := DataRows(rows[1..]);
      assert forall x :: x in rows <==> x == rows[0] || x in rows[1..] by {
        assert rows == [rows[0]] + rows[1..];
      }
      if IsDataRow(rows[0]) then [rows[0]] + rest else rest
  }

  const DateColumns: seq<string> := [
    "esfu_disponible", "plan_abap_dev_ini", "Fecha Inicio Plan", "Fecha Fin Plan",
    "available_test_date", "plan_abap_pu_ini", "pu_ini", "Fecha Fin Real"]

  const NumericColumns: seq<string> := ["plan_abap_dev_time", "plan_abap_pu_time"]

  /** Writes, for each listed column whose ORIGINAL value is truthy and
      converts, the converted value. */
  function Convert(original: Row, acc: Row, cols: seq<string>, conv: Value -> Option<Value>): (r: Row)
    ensures Keys(r) == Keys(acc)
    ensures forall k :: k !in cols ==> Get(r, k) == Get(acc, k)
    ensures forall k :: k in cols && k in Keys(acc) && Truthy(Get(original, k)) && conv(Get(original, k)).Some? ==>
              Get(r, k) == conv(Get(original, k)).value
    ensures forall k :: k in cols && !(Truthy(Get(original, k)) && conv(Get(original, k)).Some?) ==> Get(r, k) == Get(acc, k)
  {
    if |cols| == 0 then acc
    else
      var k := cols[|cols| - 1];
      var prev := Convert(original, acc, cols[..|cols| - 1], conv);
      var v := Get(original, k);
      assert forall c :: c in cols ==> c in cols[..|cols| - 1] || c == k by {
        assert cols == cols[..|cols| - 1] + [k];
      }
      if Truthy(v) && conv(v).Some? then Set(prev, k, conv(v).value) else prev
  }

  /** The per-row normalisation: a date column whose value is truthy and
      parses becomes the ISO string `parseDate` yields; a numeric column
      whose value is truthy and parses becomes the number. Everything else
      keeps its original value. */
  function NormalizeRow(row: Row, parseDate: Value -> Option<string>, parseNumber: Value -> Option<real>): (r: Row)
    ensures Keys(r) == Keys(row)
    ensures forall k :: k !in DateColumns && k !in NumericColumns ==> Get(r, k) == Get(row, k)
  {
    var asDate := (v: Value) => if parseDate(v).Some? then Some(Text(parseDate(v).value)) else None;
    var asNumber := (v: Value) => if parseNumber(v).Some? then Some(Number(parseNumber(v).value)) else None;
    var dated := Convert(row, row, DateColumns, asDate);
    Convert(row, dated, NumericColumns, asNumber)
  }

  /** A date column is rewritten exactly when its value is truthy and
      parses, and then holds the parsed date. */
  lemma NormalizeDateColumn(row: Row, parseDate: Value -> Option<string>, parseNumber: Value -> Option<real>, k: string)
    requires k in DateColumns && k in Keys(row)
    ensures var v := Get(row, k);
      Get(NormalizeRow(row, parseDate, parseNumber), k)
        == if Truthy(v) && parseDate(v).Some? then Text(parseDate(v).value) else v
  {
    assert k !in NumericColumns;
  }

  /** A numeric column is rewritten exactly when its value is truthy and
      parses, and then holds the number. */
  lemma NormalizeNumericColumn(row: Row, parseDate: Value -> Option<string>, parseNumber: Value -> Option<real>, k: string)
    requires k in NumericColumns && k in Keys(row)
    ensures var v := Get(row, k);
      Get(NormalizeRow(row, parseDate, parseNumber), k)
        == if Truthy(v) && parseNumber(v).Some? then Number(parseNumber(v).value) else v
  {
    assert k !in DateColumns;
  }

  datatype Processed = Processed(data: seq<Row>, rowCount: nat, originalRowCount: nat)

  /** `"CSV parsing errors: " + messages.join(", ")`. */
  function ParseErrorMessage(errors: seq<string>): (r: string)
    ensures StartsWith(r, "CSV parsing errors: ")
  {
    "CSV parsing errors: " + JoinWith(errors, ", ")
  }

  function JoinWith(xs: seq<string>, sep: string): string {
    if |xs| == 0 then "" else if |xs| == 1 then xs[0] else xs[0] + sep + JoinWith(xs[1..], sep)
  }

  /** `processSpecialCSV`: drop two lines, parse, keep the data rows and
      normalise them. */
  function ProcessSpecialCSV(text: string, parse: string -> Parsed,
                             parseDate: Value -> Option<string>, parseNumber: Value -> Option<real>): (r: Result<Processed, string>)
    ensures |Split(text, '\n')| < 3 ==> r == Err(TooFewLines)
    ensures r.Ok? ==> DropTwoLines(text).Ok? && |parse(DropTwoLines(text).value).errors| == 0
    ensures r.Ok? ==> r.value.rowCount == |r.value.data| <= r.value.originalRowCount
    ensures r.Ok? ==> r.value.originalRowCount == |parse(DropTwoLines(text).value).rows|
    ensures r.Ok? ==> var kept := DataRows(parse(DropTwoLines(text).value).rows);
      |r.value.data| == |kept| &&
      forall i :: 0 <= i < |kept| ==> r.value.data[i] == NormalizeRow(kept[i], parseDate, parseNumber)
    ensures DropTwoLines(text).Ok? && |parse(DropTwoLines(text).value).errors| > 0 ==>
      r == Err(ParseErrorMessage(parse(DropTwoLines(text).value).errors))
  {
    var content :- DropTwoLines(text);
    var parsed := parse(content);
    if |parsed.errors| > 0 then Err(ParseErrorMessage(parsed.errors))
    else
      var kept := DataRows(parsed.rows);
      var data := seq(|kept|, i requires 0 <= i < |kept| => NormalizeRow(kept[i], parseDate, parseNumber));
      Ok(Processed(data, |data|, |parsed.rows|))
  }

  /** Normalisation never touches the project code, so a data row stays one. */
  lemma NormalizeKeepsDataRow(row: Row, parseDate: Value -> Option<string>, parseNumber: Value -> Option<real>)
    ensures Get(NormalizeRow(row, parseDate, parseNumber), "PROY") == Get(row, "PROY")
    ensures IsDataRow(NormalizeRow(row, parseDate, parseNumber)) == IsDataRow(row)
  {
    assert "PROY" !in DateColumns && "PROY" !in NumericColumns;
  }

  /** Every row the reader returns is a data row: its project code is
      present and is not the repeated header or `nan`. */
  lemma ProcessedRowsAreDataRows(text: string, parse: string -> Parsed,
                                 parseDate: Value -> Option<string>, parseNumber: Value -> Option<real>)
    ensures var res := ProcessSpecialCSV(text, parse, parseDate, parseNumber);
            res.Ok? ==> forall out :: out in res.value.data ==> IsDataRow(out)
  {
    var res := ProcessSpecialCSV(text, parse, parseDate, parseNumber);
    if res.Ok? {
      var data := res.value.data;
      var kept := DataRows(parse(DropTwoLines(text).value).rows);
      forall out | out in data ensures IsDataRow(out) {
        var i :| 0 <= i < |data| && data[i] == out;
        assert kept[i] in kept;
        NormalizeKeepsDataRow(kept[i], parseDate, parseNumber);
      }
    }
  }

  // Writing

  const NoData := "No data to convert"

  /** A cell as it appears in the output: strings containing a comma are
      wrapped in double quotes (inner quotes are not escaped), a missing
      value is empty, and numbers are rendered by `showNumber`. */
  function CellText(v: Value, showNumber: real -> string): (r: string)
    ensures v.Text? && Contains(v.s, ",") ==> r == "\"" + v.s + "\""
    ensures v.Text? && !Contains(v.s, ",") ==> r == v.s
    ensures v == Missing ==> r == ""
  {
    match v
    case Missing => ""
    case Text(s) => if Contains(s, ",") then "\"" + s + "\"" else s
    case Number(x) => showNumber(x)
  }

  function Line(row: Row, headers: seq<string>, showNumber: real -> string): string {
    Join(Cells(row, headers, showNumber), ',')
  }

  function Cells(row: Row, headers: seq<string>, showNumber: real -> string): (r: seq<string>)
    ensures |r| == |headers|
    ensures forall i :: 0 <= i < |headers| ==> r[i] == CellText(Get(row, headers[i]), showNumber)
  {
    seq(|headers|, i requires 0 <= i < |headers| => CellText(Get(row, headers[i]), showNumber))
  }

  /** The header line and one line per row, taking the columns from the
      first row. */
  function CsvLines(data: seq<Row>, showNumber: real -> string): (r: seq<string>)
    requires |data| > 0
    ensures |r| == |data| + 1
    ensures r[0] == Join(Keys(data[0]), ',')
    ensures forall i :: 0 <= i < |data| ==> r[i + 1] == Line(data[i], Keys(data[0]), showNumber)
  {
    var headers := Keys(data[0]);
    [Join(headers, ',')] + seq(|data|, i requires 0 <= i < |data| => Line(data[i], headers, showNumber))
  }

  /** `convertToSimpleCSV`. */
  function ConvertToSimpleCSV(data: seq<Row>, showNumber: real -> string): (r: Result<string, string>)
    ensures r.Err? <==> |data| == 0
    ensures r.Err? ==> r.error == NoData
  {
    if |data| == 0 then Err(NoData) else Ok(Join(CsvLines(data, showNumber), '\n'))
  }

  const Title := "SAP Project Planning Data"

  /** `convertToOriginalCSVFormat`: the title line, a blank line, then the
      simple CSV. */
  function ConvertToOriginalCSVFormat(data: seq<Row>, showNumber: real -> string): (r: Result<string, string>)
    ensures r.Err? <==> |data| == 0
    ensures r.Err? ==> r.error == NoData
  {
    if |data| == 0 then Err(NoData)
    else Ok(Join([Title, "", Join(CsvLines(data, showNumber), '\n')], '\n'))
  }

  /** The special format is the simple CSV behind a title line and an
      empty line. */
  lemma OriginalIsPrefixedSimple(data: seq<Row>, showNumber: real -> string)
    requires |data| > 0
    ensures ConvertToOriginalCSVFormat(data, showNumber).value
      == Title + "\n\n" + ConvertToSimpleCSV(data, showNumber).value
  {
    var s := ConvertToSimpleCSV(data, showNumber).value;
    assert Join([Title, "", s], '\n') == Title + ['\n'] + Join(["", s], '\n');
    assert [Title, "", s][1..] == ["", s];
    assert Join(["", s], '\n') == "" + ['\n'] + Join([s], '\n');
    assert ["", s][1..] == [s];
  }

  /** Reading back what the writer produced: dropping the two leading lines
      of the special format hands the parser exactly the simple CSV. */
  lemma ReaderUndoesWriterPrefix(data: seq<Row>, showNumber: real -> string)
    requires |data| > 0
    ensures DropTwoLines(ConvertToOriginalCSVFormat(data, showNumber).value)
      == Ok(ConvertToSimpleCSV(data, showNumber).value)
  {
    OriginalIsPrefixedSimple(data, showNumber);
    assert '\n' !in Title;
    DropHeadLines(Title, ConvertToSimpleCSV(data, showNumber).value);
  }

  /** A one-line head and a blank line are what the reader drops. */
  lemma DropHeadLines(head: string, s: string)
    requires '\n' !in head
    ensures DropTwoLines(head + "\n\n" + s) == Ok(s)
  {
    var text := head + "\n\n" + s;
    assert text == head + ['\n'] + ("" + ['\n'] + s);
    SplitAfterPiece(head, "" + ['\n'] + s, '\n');
    SplitAfterPiece("", s, '\n');
    assert Split(text, '\n') == [head, ""] + Split(s, '\n');
    assert (Split(text, '\n'))[2..] == Split(s, '\n');
    JoinSplit(s, '\n');
  }

  predicate NoNewlines(data: seq<Row>, showNumber: real -> string)
    requires |data| > 0
  {
    forall i :: 0 <= i < |CsvLines(data, showNumber)| ==> '\n' !in CsvLines(data, showNumber)[i]
  }

  /** When no header or cell text holds a newline the output has exactly
      one line per row after the header. */
  lemma SimpleCSVLines(data: seq<Row>, showNumber: real -> string)
    requires |data| > 0 && NoNewlines(data, showNumber)
    ensures Split(ConvertToSimpleCSV(data, showNumber).value, '\n') == CsvLines(data, showNumber)
    ensures |Split(ConvertToSimpleCSV(data, showNumber).value, '\n')| == |data| + 1
  {
    SplitJoin(CsvLines(data, showNumber), '\n');
  }

  /** A line whose cells hold no comma splits back into its cells. */
  lemma LineSplitsIntoCells(row: Row, headers: seq<string>, showNumber: real -> string)
    requires |headers| > 0
    requires forall i :: 0 <= i < |headers| ==> ',' !in CellText(Get(row, headers[i]), showNumber)
    ensures Split(Line(row, headers, showNumber), ',') == Cells(row, headers, showNumber)
  {
    SplitJoin(Cells(row, headers, showNumber), ',');
  }

  // Upload check

  const MaxUploadBytes := 50 * 1024 * 1024

  /** `validateCSVFile`: the lower-cased name ends in `.csv` and the file
      is at most 50 MiB. */
  function ValidateCSVFile(name: string, size: int): (r: bool)
    ensures r <==> && |name| >= 4 && size <= 52428800
                   && name[|name| - 4] == '.'
                   && name[|name| - 3] in "cC" && name[|name| - 2] in "sS" && name[|name| - 1] in "vV"
  {
    EndsWith(Lower(name), ".csv") && size <= MaxUploadBytes
  }

  /** The extension test ignores case, the limit is inclusive, and a name
      with anything after `.csv` is refused. */
  lemma ValidateCSVFileExamples()
    ensures ValidateCSVFile("PLAN.CSV", 52428800)
    ensures !ValidateCSVFile("plan.csv", 52428801)
    ensures !ValidateCSVFile("plan.csv ", 10)
    ensures !ValidateCSVFile("plan.xlsx", 10)
  {
    assert Lower("PLAN.CSV")[4..] == ".csv";
    assert Lower("plan.csv ")[5..] == "csv ";
    assert Lower("plan.xlsx")[5..] == "xlsx";
  }
}

=== FILE: ef_score.dfy ===
/** The functional-specification (EF) quality score of
    `pages/validacion_ef.py`: eleven weighted criteria, a weighted mean of
    the reviewer's 0-100 marks, and four grade bands. Marks and scores are
    exact reals; the one-decimal display is not modelled. */
module EfScore {
  import opened Wrappers

  /** The criteria, by their dictionary keys. */
  datatype Key =
    | DescripcionFuncional | ObjetoTecnico | InputsOutputs | LogicaNegocio
    | CasosPrueba | ManejoErrores | Autor | FechaCreacion
    | Diagramas | Referencias | Dependencias

  function KeyName(k: Key): string {
    match k
    case DescripcionFuncional => "descripcion_funcional"
    case ObjetoTecnico => "objeto_tecnico"
    case InputsOutputs => "inputs_outputs"
    case LogicaNegocio => "logica_negocio"
    case CasosPrueba => "casos_prueba"
    case ManejoErrores => "manejo_errores"
    case Autor => "autor"
    case FechaCreacion => "fecha_creacion"
    case Diagramas => "diagramas"
    case Referencias => "referencias"
    case Dependencias => "dependencias"
  }

  datatype Criterion = Criterion(key: Key, weight: nat)

  /** `CRITERIOS_VALIDACION_EF["obligatorios"]`, in declaration order. */
  const Mandatory: seq<Criterion> := [
    Criterion(DescripcionFuncional, 20), Criterion(ObjetoTecnico, 15),
    Criterion(InputsOutputs, 15), Criterion(LogicaNegocio, 20),
    Criterion(CasosPrueba, 10), Criterion(ManejoErrores, 10),
    Criterion(Autor, 5), Criterion(FechaCreacion, 5)]

  /** `CRITERIOS_VALIDACION_EF["opcionales"]`. */
  const Optional: seq<Criterion> := [
    Criterion(Diagramas, 5), Criterion(Referencias, 3), Criterion(Dependencias, 2)]

  const AllCriteria: seq<Criterion> := Mandatory + Optional

  function WeightSum(cs: seq<Criterion>): nat {
    if |cs| == 0 then 0 else WeightSum(cs[..|cs| - 1]) + cs[|cs| - 1].weight
  }

  /** The mandatory weights add up to 100 and the optional ones to 10, so
      the mandatory share is 100/110, not the 95% the page's help text
      claims. */
  lemma WeightTotals()
    ensures WeightSum(Mandatory) == 100 && WeightSum(Optional) == 10
    ensures WeightSum(AllCriteria) == 110
  {
    WeightSumFront(Mandatory);
    WeightSumFront(Optional);
    WeightSumAppend(Mandatory, Optional);
  }

  function WeightSumFromFront(cs: seq<Criterion>): nat {
    if |cs| == 0 then 0 else cs[0].weight + WeightSumFromFront(cs[1..])
  }

  lemma {:induction false} WeightSumAppend(a: seq<Criterion>, b: seq<Criterion>)
    ensures WeightSum(a + b) == WeightSum(a) + WeightSum(b)
    decreases |b|
  {
    if |b| == 0 {
      assert a + b == a;
    } else {
      assert (a + b)[..|a + b| - 1] == a + b[..|b| - 1];
      WeightSumAppend(a, b[..|b| - 1]);
    }
  }

  lemma {:induction false} WeightSumFront(cs: seq<Criterion>)
    ensures WeightSum(cs) == WeightSumFromFront(cs)
  {
    if |cs| > 0 {
      WeightSumFront(cs[1..]);
      WeightSumAppend([cs[0]], cs[1..]);
      assert [cs[0]] + cs[1..] == cs;
      assert WeightSum([cs[0]]) == cs[0].weight by {
        assert [cs[0]][..0] == [];
      }
    }
  }

  /** `criterios_evaluados.get(criterio, 0)`. */
  function Mark(marks: map<Key, real>, key: Key): real {
    if key in marks then marks[key] else 0.0
  }

  /** The weighted sum of the marks, Σ mark·weight. */
  function Dot(cs: seq<Criterion>, marks: map<Key, real>): real {
    if |cs| == 0 then 0.0
    else Dot(cs[..|cs| - 1], marks) + Mark(marks, cs[|cs| - 1].key) * (cs[|cs| - 1].weight as real)
  }

  /** `calcular_score_ef`: walks the mandatory and then the optional
      criteria, accumulating `valor * peso / 100` and the weights, and
      returns the accumulated score over the accumulated weight, times 100.
      That is the weighted mean Σ mark·weight / 110, a missing mark counting
      as 0. */
  method CalcularScoreEf(marks: map<Key, real>) returns (r: real)
    ensures r == Dot(AllCriteria, marks) / 110.0
  {
    WeightTotals();
    r := ScoreOver(AllCriteria, marks);
  }

  /** The accumulation loop of `calcular_score_ef` over a list of criteria. */
  method ScoreOver(cs: seq<Criterion>, marks: map<Key, real>) returns (r: real)
    ensures WeightSum(cs) > 0 ==> r == Dot(cs, marks) / (WeightSum(cs) as real)
    ensures WeightSum(cs) == 0 ==> r == 0.0
  {
    var scoreTotal := 0.0;
    var pesoTotal := 0;
    var i := 0;
    while i < |cs|
      invariant 0 <= i <= |cs|
      invariant scoreTotal == Dot(cs[..i], marks) / 100.0
      invariant pesoTotal == WeightSum(cs[..i])
    {
      var c := cs[i];
      assert cs[..i + 1][..i] == cs[..i];
      scoreTotal := scoreTotal + Mark(marks, c.key) * (c.weight as real) / 100.0;
      pesoTotal := pesoTotal + c.weight;
      i := i + 1;
    }
    assert cs[..i] == cs;
    r := if pesoTotal > 0 then (scoreTotal / (pesoTotal as real)) * 100.0 else 0.0;
    if pesoTotal > 0 {
      Rescale(Dot(cs, marks), pesoTotal as real);
    }
  }

  /** Dividing by 100 before the mean and multiplying by 100 after it
      cancel out. */
  lemma Rescale(d: real, w: real)
    requires w > 0.0
    ensures (d / 100.0 / w) * 100.0 == d / w
  {
    assert d / 100.0 / w == d / (100.0 * w);
  }

  lemma Distribute(a: real, x: real, y: real)
    ensures a * (x + y) == a * x + a * y
  {
  }

  lemma ScaleMonotone(a: real, b: real, w: real)
    requires a <= b && w >= 0.0
    ensures a * w <= b * w
  {
    assert (b - a) * w >= 0.0;
  }

  predicate MarksIn(marks: map<Key, real>, lo: real, hi: real) {
    forall k :: k in marks ==> lo <= marks[k] <= hi
  }

  /** With every mark in [0, hi] the weighted sum lies between 0 and
      hi·W, W the total weight. */
  lemma {:induction false} DotBounds(cs: seq<Criterion>, marks: map<Key, real>, hi: real)
    requires 0.0 <= hi && MarksIn(marks, 0.0, hi)
    ensures 0.0 <= Dot(cs, marks) <= hi * (WeightSum(cs) as real)
  {
    if |cs| > 0 {
      var init := cs[..|cs| - 1];
      var c := cs[|cs| - 1];
      DotBounds(init, marks, hi);
      BoundStep(Dot(init, marks), Mark(marks, c.key), c.weight as real, hi, WeightSum(init) as real);
    }
  }

  /** One more criterion keeps the running sum within its bounds. */
  lemma BoundStep(d: real, m: real, w: real, hi: real, before: real)
    requires 0.0 <= d <= hi * before && 0.0 <= m <= hi && 0.0 <= w
    ensures 0.0 <= d + m * w <= hi * (before + w)
  {
    ScaleMonotone(0.0, m, w);
    ScaleMonotone(m, hi, w);
    Distribute(hi, before, w);
  }

  /** With every mark in [0, 100] the score is in [0, 100]. */
  lemma ScoreBounds(marks: map<Key, real>)
    requires MarksIn(marks, 0.0, 100.0)
    ensures 0.0 <= Dot(AllCriteria, marks) / 110.0 <= 100.0
  {
    DotBounds(AllCriteria, marks, 100.0);
    WeightTotals();
  }

  /** Raising any marks never lowers the score. */
  lemma {:induction false} ScoreMonotone(cs: seq<Criterion>, a: map<Key, real>, b: map<Key, real>)
    requires forall k :: Mark(a, k) <= Mark(b, k)
    ensures Dot(cs, a) <= Dot(cs, b)
  {
    if |cs| > 0 {
      var c := cs[|cs| - 1];
      ScoreMonotone(cs[..|cs| - 1], a, b);
      ScaleMonotone(Mark(a, c.key), Mark(b, c.key), c.weight as real);
    }
  }

  /** Giving every criterion the same mark `v` scores `v`. */
  lemma {:induction false} UniformMarks(cs: seq<Criterion>, marks: map<Key, real>, v: real)
    requires forall c :: c in cs ==> Mark(marks, c.key) == v
    ensures Dot(cs, marks) == v * (WeightSum(cs) as real)
  {
    if |cs| > 0 {
      var init, last := cs[..|cs| - 1], cs[|cs| - 1];
      assert last in cs;
      assert forall c :: c in init ==> c in cs;
      UniformMarks(init, marks, v);
      assert Dot(cs, marks) == Dot(init, marks) + v * (last.weight as real);
      Distribute(v, WeightSum(init) as real, last.weight as real);
    }
  }

  /** All marks 100 score 100; all marks 0 (or none given) score 0. */
  lemma ScoreExtremes(marks: map<Key, real>)
    ensures (forall c :: c in AllCriteria ==> Mark(marks, c.key) == 100.0) ==> Dot(AllCriteria, marks) / 110.0 == 100.0
    ensures (forall c :: c in AllCriteria ==> Mark(marks, c.key) == 0.0) ==> Dot(AllCriteria, marks) / 110.0 == 0.0
  {
    WeightTotals();
    if forall c :: c in AllCriteria ==> Mark(marks, c.key) == 100.0 {
      UniformMarks(AllCriteria, marks, 100.0);
    }
    if forall c :: c in AllCriteria ==> Mark(marks, c.key) == 0.0 {
      UniformMarks(AllCriteria, marks, 0.0);
    }
  }

  // Grades

  datatype Grade = Excelente | Buena | Regular | Deficiente

  /** The classification shown after scoring: inclusive lower thresholds
      90, 70 and 50. */
  function GradeOf(score: real): (g: Grade)
    ensures g == Excelente <==> score >= 90.0
    ensures g == Buena <==> 70.0 <= score < 90.0
    ensures g == Regular <==> 50.0 <= score < 70.0
    ensures g == Deficiente <==> score < 50.0
  {
    if score >= 90.0 then Excelente
    else if score >= 70.0 then Buena
    else if score >= 50.0 then Regular
    else Deficiente
  }

  /** `colorear_score`: the cell background of the review table. */
  function ScoreColour(val: real): (r: string)
    ensures val >= 90.0 ==> r == "background-color: #d1fae5"
    ensures val < 50.0 ==> r == "background-color: #fecaca"
  {
    if val >= 90.0 then "background-color: #d1fae5"
    else if val >= 70.0 then "background-color: #fef3c7"
    else if val >= 50.0 then "background-color: #fed7aa"
    else "background-color: #fecaca"
  }

  function GradeColour(g: Grade): string {
    match g
    case Excelente => "background-color: #d1fae5"
    case Buena => "background-color: #fef3c7"
    case Regular => "background-color: #fed7aa"
    case Deficiente => "background-color: #fecaca"
  }

  /** The table colours use the same cut-offs as the grades: two scores get
      the same colour exactly when they get the same grade. */
  lemma ColourFollowsGrade(a: real, b: real)
    ensures ScoreColour(a) == GradeColour(GradeOf(a))
    ensures ScoreColour(a) == ScoreColour(b) <==> GradeOf(a) == GradeOf(b)
  {
  }

  /** The form's slider defaults: 50 on every mandatory criterion, 0 on
      every optional one. */
  function DefaultMarks(): (m: map<Key, real>)
    ensures forall c :: c in Mandatory ==> Mark(m, c.key) == 50.0
    ensures forall c :: c in Optional ==> Mark(m, c.key) == 0.0
  {
    map k: Key | true :: if k.Diagramas? || k.Referencias? || k.Dependencias? then 0.0 else 50.0
  }

  lemma {:induction false} DotAppend(a: seq<Criterion>, b: seq<Criterion>, marks: map<Key, real>)
    ensures Dot(a + b, marks) == Dot(a, marks) + Dot(b, marks)
    decreases |b|
  {
    if |b| == 0 {
      assert a + b == a;
    } else {
      assert (a + b)[..|a + b| - 1] == a + b[..|b| - 1];
      DotAppend(a, b[..|b| - 1], marks);
    }
  }

  /** Submitting the form untouched scores 5000/110 (about 45.45), which is
      graded Deficiente. */
  lemma DefaultsAreDeficiente()
    ensures Dot(AllCriteria, DefaultMarks()) / 110.0 == 5000.0 / 110.0
    ensures GradeOf(Dot(AllCriteria, DefaultMarks()) / 110.0) == Deficiente
  {
    var m := DefaultMarks();
    WeightTotals();
    UniformMarks(Mandatory, m, 50.0);
    UniformMarks(Optional, m, 0.0);
    DotAppend(Mandatory, Optional, m);
  }

  datatype Verdict = Verdict(score: real, grade: Grade)

  const MissingFieldsError := "❌ Por favor completa los campos obligatorios: GAP ID, Título y Autor"

  /** The form's submit handler: scores and grades only when GAP ID, title
      and author are all filled in, and reports an error otherwise. */
  method Submit(gapId: string, titulo: string, autor: string, marks: map<Key, real>) returns (r: Result<Verdict, string>)
    ensures r.Ok? <==> gapId != "" && titulo != "" && autor != ""
    ensures r.Err? ==> r.error == MissingFieldsError
    ensures r.Ok? ==> r.value.score == Dot(AllCriteria, marks) / 110.0 && r.value.grade == GradeOf(r.value.score)
  {
    if gapId != "" && titulo != "" && autor != "" {
      var score := CalcularScoreEf(marks);
      r := Ok(Verdict(score, GradeOf(score)));
    } else {
      r := Err(MissingFieldsError);
    }
  }
}

=== FILE: error_handler.dfy ===
/** The centralised error handling of the web front end: the `AppError`
    record, its conversion to an API response, the three classifiers that
    turn a raised error's message into a user-facing `AppError`, and the
    fallback user message. The clock is a parameter (`now`). */
module ErrorHandler {
  import opened Wrappers
  import opened Strings

  datatype ErrorType = Validation | Network | Auth | Storage | Processing | Unknown

  function TypeName(t: ErrorType): (r: string)
    ensures |r| > 0
  {
    match t
    case Validation => "validation"
    case Network => "network"
    case Auth => "auth"
    case Storage => "storage"
    case Processing => "processing"
    case Unknown => "unknown"
  }

  lemma TypeNameInjective(a: ErrorType, b: ErrorType)
    ensures TypeName(a) == TypeName(b) ==> a == b
  {
  }

  /** The classifiers attach `{ originalError: message }`; other callers may
      attach anything, which the model keeps as an opaque payload. */
  datatype Details = OriginalError(original: Option<string>) | Opaque(id: nat)

  datatype AppError = AppError(kind: ErrorType, message: string, details: Option<Details>,
                               timestamp: int, userFriendly: bool)

  /** `createError`; `userFriendly` defaults to false at the call sites that
      omit it, and no `code` is ever set. */
  function CreateError(kind: ErrorType, message: string, details: Option<Details>, now: int,
                       userFriendly: bool := false): (r: AppError)
    ensures r.kind == kind && r.message == message && r.details == details
    ensures r.timestamp == now && r.userFriendly == userFriendly
  {
    AppError(kind, message, details, now, userFriendly)
  }

  datatype ErrorResponse = ErrorResponse(error: string, errorType: string, details: Option<Details>)

  const GenericError := "An error occurred"

  /** `errorToResponse`: the message and details are exposed only for a
      user-friendly error; otherwise a generic text and no details. */
  function ErrorToResponse(e: AppError): (r: ErrorResponse)
    ensures r.errorType == TypeName(e.kind)
    ensures e.userFriendly ==> r.error == e.message && r.details == e.details
    ensures !e.userFriendly ==> r.error == GenericError && r.details == None
  {
    ErrorResponse(if e.userFriendly then e.message else GenericError, TypeName(e.kind),
                  if e.userFriendly then e.details else None)
  }

  /** `message?.includes(p)`: false when there is no message. */
  predicate Mentions(message: Option<string>, p: string) {
    message.Some? && Contains(message.value, p)
  }

  /** What a classifier chose: its type and user message. */
  function Classified(message: Option<string>, kind: ErrorType, text: string, now: int): (r: AppError)
    ensures r.kind == kind && r.message == text && r.userFriendly
    ensures r.details == Some(OriginalError(message)) && r.timestamp == now
  {
    CreateError(kind, text, Some(OriginalError(message)), now, true)
  }

  const CsvFormatText := "Invalid CSV format. Please check your file structure."
  const CsvNoDataText := "No valid project data found in CSV. Please check your file content."
  const CsvLinesText := "CSV file must have at least 3 lines (title, empty line, headers)."
  const CsvDefaultText := "Error processing CSV file. Please try again."

  /** `handleCSVError`: the first matching phrase wins, in the order parse
      errors, no data, too few lines; anything else is a processing error. */
  function HandleCsvError(message: Option<string>, now: int): (r: AppError)
    ensures r.userFriendly && r.details == Some(OriginalError(message))
    ensures Mentions(message, "CSV parsing errors") ==> r.kind == Processing && r.message == CsvFormatText
    ensures !Mentions(message, "CSV parsing errors") && Mentions(message, "No valid data found") ==>
              r.kind == Validation && r.message == CsvNoDataText
    ensures (!Mentions(message, "CSV parsing errors") && !Mentions(message, "No valid data found")
             && Mentions(message, "at least 3 lines")) ==> r.kind == Validation && r.message == CsvLinesText
    ensures (!Mentions(message, "CSV parsing errors") && !Mentions(message, "No valid data found")
             && !Mentions(message, "at least 3 lines")) ==> r.kind == Processing && r.message == CsvDefaultText
  {
    if Mentions(message, "CSV parsing errors") then Classified(message, Processing, CsvFormatText, now)
    else if Mentions(message, "No valid data found") then Classified(message, Validation, CsvNoDataText, now)
    else if Mentions(message, "at least 3 lines") then Classified(message, Validation, CsvLinesText, now)
    else Classified(message, Processing, CsvDefaultText, now)
  }

  /** A CSV error is classed as a validation problem exactly when it is not
      a parse error and mentions missing data or too few lines. */
  lemma CsvValidationIff(message: Option<string>, now: int)
    ensures HandleCsvError(message, now).kind == Validation <==>
              !Mentions(message, "CSV parsing errors")
              && (Mentions(message, "No valid data found") || Mentions(message, "at least 3 lines"))
    ensures HandleCsvError(message, now).kind in {Validation, Processing}
  {
  }

  const NetworkText := "Unable to connect to database. Using local storage."
  const AuthText := "Authentication error. Please log in again."
  const StorageText := "Database connection error. Using local storage."

  /** `handleSupabaseError`: "fetch" means the network, then "auth" means
      authentication, anything else is a storage error. */
  function HandleSupabaseError(message: Option<string>, now: int): (r: AppError)
    ensures r.userFriendly && r.details == Some(OriginalError(message))
    ensures r.kind == Network <==> Mentions(message, "fetch")
    ensures r.kind == Auth <==> !Mentions(message, "fetch") && Mentions(message, "auth")
    ensures r.kind == Storage <==> !Mentions(message, "fetch") && !Mentions(message, "auth")
    ensures r.message == match r.kind case Network => NetworkText case Auth => AuthText case _ => StorageText
  {
    if Mentions(message, "fetch") then Classified(message, Network, NetworkText, now)
    else if Mentions(message, "auth") then Classified(message, Auth, AuthText, now)
    else Classified(message, Storage, StorageText, now)
  }

  /** A message that mentions both a failed fetch and authentication is
      reported as a network error. */
  lemma FetchBeatsAuth(now: int)
    ensures HandleSupabaseError(Some("auth fetch failed"), now).kind == Network
    ensures HandleSupabaseError(None, now).kind == Storage
  {
    assert OccursAt("auth fetch failed", "fetch", 5);
  }

  const InvalidFileText := "Please select a valid CSV file under 50MB."
  const NoFileText := "Please select a file to upload."
  const UploadFailedText := "Upload failed. Please try again."

  /** `handleUploadError`: an invalid or missing file is a validation error,
      anything else a processing error. */
  function HandleUploadError(message: Option<string>, now: int): (r: AppError)
    ensures r.userFriendly && r.details == Some(OriginalError(message))
    ensures r.kind == Validation <==> Mentions(message, "Invalid file") || Mentions(message, "No file provided")
    ensures r.kind != Validation ==> r.kind == Processing && r.message == UploadFailedText
    ensures Mentions(message, "Invalid file") ==> r.message == InvalidFileText
    ensures !Mentions(message, "Invalid file") && Mentions(message, "No file provided") ==> r.message == NoFileText
  {
    if Mentions(message, "Invalid file") then Classified(message, Validation, InvalidFileText, now)
    else if Mentions(message, "No file provided") then Classified(message, Validation, NoFileText, now)
    else Classified(message, Processing, UploadFailedText, now)
  }

  const ValidationFallback := "Please check your input and try again."
  const NetworkFallback := "Network error. Please check your connection."
  const StorageFallback := "Storage error. Please try again."
  const ProcessingFallback := "Processing error. Please try again."
  const UnknownFallback := "An unexpected error occurred. Please try again."

  /** `getUserFriendlyMessage`: the error's own message when it is marked
      user-friendly, otherwise a fixed text per type (the authentication
      text is the one the storage classifier also uses). */
  function GetUserFriendlyMessage(e: AppError): (r: string)
    ensures e.userFriendly ==> r == e.message
    ensures !e.userFriendly ==> |r| > 0 && r != GenericError
    ensures !e.userFriendly && e.kind == Validation ==> r == ValidationFallback
    ensures !e.userFriendly && e.kind == Network ==> r == NetworkFallback
    ensures !e.userFriendly && e.kind == Auth ==> r == AuthText
    ensures !e.userFriendly && e.kind == Storage ==> r == StorageFallback
    ensures !e.userFriendly && e.kind == Processing ==> r == ProcessingFallback
    ensures !e.userFriendly && e.kind == Unknown ==> r == UnknownFallback
  {
    if e.userFriendly then e.message
    else
      match e.kind
      case Validation => "Please check your input and try again."
      case Network => "Network error. Please check your connection."
      case Auth => "Authentication error. Please log in again."
      case Storage => "Storage error. Please try again."
      case Processing => "Processing error. Please try again."
      case Unknown => "An unexpected error occurred. Please try again."
  }

  /** Without the flag the text depends on the type alone, and different
      types get different texts. */
  lemma FallbackByKind(e1: AppError, e2: AppError)
    requires !e1.userFriendly && !e2.userFriendly
    ensures GetUserFriendlyMessage(e1) == GetUserFriendlyMessage(e2) <==> e1.kind == e2.kind
  {
    if e1.kind != e2.kind {
      var m1, m2 := GetUserFriendlyMessage(e1), GetUserFriendlyMessage(e2);
      assert m1[0] != m2[0] || m1[1] != m2[1] || |m1| != |m2|;
    }
  }

  /** The two user-facing views agree for every error a classifier builds:
      the response carries the same text the user is shown, and the original
      message travels along as details. */
  lemma ClassifiedErrorsAreExposed(message: Option<string>, now: int)
    ensures var e := HandleCsvError(message, now);
            ErrorToResponse(e).error == GetUserFriendlyMessage(e) && ErrorToResponse(e).details == Some(OriginalError(message))
    ensures var e := HandleSupabaseError(message, now);
            ErrorToResponse(e).error == GetUserFriendlyMessage(e) && ErrorToResponse(e).details == Some(OriginalError(message))
    ensures var e := HandleUploadError(message, now);
            ErrorToResponse(e).error == GetUserFriendlyMessage(e) && ErrorToResponse(e).details == Some(OriginalError(message))
  {
  }

  /** An error created with the default flag hides its message and details
      from the response, and the user sees the per-type text instead. */
  lemma DefaultErrorIsHidden(kind: ErrorType, message: string, details: Option<Details>, now: int)
    ensures var e := CreateError(kind, message, details, now);
            ErrorToResponse(e) == ErrorResponse(GenericError, TypeName(kind), None)
            && GetUserFriendlyMessage(e) != GenericError
  {
  }
}

=== FILE: filters.dfy ===
/** Row filters and filter options: `apply_filters` and `get_filter_options`
    of `services/data_service.py` (and its backup copy), and `getFilteredData`
    and `getPlanConfig` of `app/page.tsx`.

    The two Python copies differ only in the module column they read: the
    service copy spells it `"M贸dulo"` (a mis-decoded `"Módulo"`), the backup
    copy `"Módulo"`. Both are modelled by one definition that takes the
    column name. */
module Filters {
  import opened Wrappers
  import opened Strings
  import Seqs
  import TsConfig

  /** One row of a frame: column name to cell, `None` for a missing value. */
  type Row = map<string, Option<string>>

  datatype Frame = Frame(columns: set<string>, rows: seq<Row>)

  /** A pandas frame: every row has exactly the frame's columns. */
  type Table = f: Frame | forall i :: 0 <= i < |f.rows| ==> f.rows[i].Keys == f.columns
    witness Frame({}, [])

  /** The module column of the service copy and of the backup copy. */
  const ServiceModuleColumn := "M贸dulo"
  const BackupModuleColumn := "Módulo"

  const Todos := "Todos"

  // ---------------------------------------------------------------------------
  // Subsequences

  /** `a` is `b` with some elements left out, in the same order. */
  predicate Subseq<T(==)>(a: seq<T>, b: seq<T>)
    decreases |b|
  {
    if |b| == 0 then |a| == 0
    else (|a| > 0 && a[0] == b[0] && Subseq(a[1..], b[1..])) || Subseq(a, b[1..])
  }

  // ---------------------------------------------------------------------------
  // apply_filters

  /** A filter value that restricts: present, non-empty and not `"Todos"`. */
  function Active(filters: map<string, string>, key: string): (r: Option<string>)
    ensures r.Some? <==> key in filters && filters[key] != "" && filters[key] != Todos
    ensures r.Some? ==> r.value == filters[key]
  {
    if key in filters && filters[key] != "" && filters[key] != Todos then Some(filters[key]) else None
  }

  /** `df[df[col] == v]` keeps a row; no value keeps every row. A missing
      cell equals nothing. */
  predicate Keeps(row: Row, col: string, v: Option<string>) {
    v.None? || (col in row && row[col] == Some(v.value))
  }

  /** One boolean-mask selection. */
  function Select(rows: seq<Row>, col: string, v: Option<string>): (r: seq<Row>)
    decreases |rows|
  {
    if |rows| == 0 then []
    else (if Keeps(rows[0], col, v) then [rows[0]] else []) + Select(rows[1..], col, v)
  }

  lemma {:induction false} SelectAppend(a: seq<Row>, b: seq<Row>, col: string, v: Option<string>)
    ensures Select(a + b, col, v) == Select(a, col, v) + Select(b, col, v)
    decreases |a|
  {
    if |a| == 0 {
      assert a + b == b;
    } else {
      var h := if Keeps(a[0], col, v) then [a[0]] else [];
      assert (a + b)[0] == a[0] && (a + b)[1..] == a[1..] + b;
      SelectAppend(a[1..], b, col, v);
      calc {
        Select(a + b, col, v);
        h + Select(a[1..] + b, col, v);
        h + (Select(a[1..], col, v) + Select(b, col, v));
        (h + Select(a[1..], col, v)) + Select(b, col, v);
      }
    }
  }

  /** The three dimensions a call filters on: column and value each, `None`
      for a dimension left open. */
  datatype Criteria = Criteria(proy: Option<string>, moduleCol: string, modulo: Option<string>, grupo: Option<string>)

  predicate Matches(row: Row, c: Criteria) {
    Keeps(row, "PROY", c.proy) && Keeps(row, c.moduleCol, c.modulo) && Keeps(row, "grupo_dev", c.grupo)
  }

  function MatchesOf(c: Criteria): Row -> bool {
    (x: Row) => Matches(x, c)
  }

  /** The reference filter: the rows that match every dimension, in order,
      each as often as it occurs. */
  function KeepMatching(rows: seq<Row>, c: Criteria): (r: seq<Row>)
    ensures |r| <= |rows|
    ensures forall i :: 0 <= i < |r| ==> Matches(r[i], c)
    decreases |rows|
  {
    if |rows| == 0 then []
    else (if Matches(rows[0], c) then [rows[0]] else []) + KeepMatching(rows[1..], c)
  }

  /** The mask keeps every matching row with its multiplicity: it is the
      order-keeping filter on `Matches`. */
  lemma {:induction false} KeepMatchingIsFilter(rows: seq<Row>, c: Criteria)
    ensures KeepMatching(rows, c) == Seqs.Filter(rows, MatchesOf(c))
    decreases |rows|
  {
    if |rows| > 0 {
      KeepMatchingIsFilter(rows[1..], c);
    }
  }

  /** The three selections one after the other are the one-pass filter. */
  lemma {:induction false} SelectionsAreKeepMatching(rows: seq<Row>, c: Criteria)
    ensures Select(Select(Select(rows, "PROY", c.proy), c.moduleCol, c.modulo), "grupo_dev", c.grupo) == KeepMatching(rows, c)
    decreases |rows|
  {
    if |rows| > 0 {
      var h, t := [rows[0]], rows[1..];
      assert rows == h + t;
      SelectAppend(h, t, "PROY", c.proy);
      var s1h, s1t := Select(h, "PROY", c.proy), Select(t, "PROY", c.proy);
      SelectAppend(s1h, s1t, c.moduleCol, c.modulo);
      var s2h, s2t := Select(s1h, c.moduleCol, c.modulo), Select(s1t, c.moduleCol, c.modulo);
      SelectAppend(s2h, s2t, "grupo_dev", c.grupo);
      SelectionsAreKeepMatching(t, c);
      assert Select(Select(Select(h, "PROY", c.proy), c.moduleCol, c.modulo), "grupo_dev", c.grupo)
        == (if Matches(rows[0], c) then h else []);
    }
  }

  /** The filtered rows are the input's rows in order, with some left out. */
  lemma {:induction false} KeepMatchingSubseq(rows: seq<Row>, c: Criteria)
    ensures Subseq(KeepMatching(rows, c), rows)
    decreases |rows|
  {
    if |rows| > 0 {
      KeepMatchingSubseq(rows[1..], c);
      var r := KeepMatching(rows, c);
      if Matches(rows[0], c) {
        assert r[0] == rows[0] && r[1..] == KeepMatching(rows[1..], c);
      } else {
        assert r == KeepMatching(rows[1..], c);
      }
    }
  }

  /** The kept rows are the input's in order; a row is kept if and only if
      it is in the input and matches, and then as often as it occurs. */
  lemma {:induction false} KeepMatchingMembers(rows: seq<Row>, c: Criteria, x: Row)
    ensures Subseq(KeepMatching(rows, c), rows)
    ensures x in KeepMatching(rows, c) <==> x in rows && Matches(x, c)
    ensures multiset(KeepMatching(rows, c))[x] == if Matches(x, c) then multiset(rows)[x] else 0
    decreases |rows|
  {
    KeepMatchingSubseq(rows, c);
    KeepMatchingIsFilter(rows, c);
    assert MatchesOf(c)(x) == Matches(x, c);
  }

  /** Filtering what is already filtered changes nothing. */
  lemma {:induction false} KeepMatchingIdempotent(rows: seq<Row>, c: Criteria)
    ensures KeepMatching(KeepMatching(rows, c), c) == KeepMatching(rows, c)
  {
    KeepAllMatching(KeepMatching(rows, c), c);
  }

  lemma {:induction false} KeepAllMatching(rows: seq<Row>, c: Criteria)
    requires forall i :: 0 <= i < |rows| ==> Matches(rows[i], c)
    ensures KeepMatching(rows, c) == rows
    decreases |rows|
  {
    if |rows| > 0 {
      KeepAllMatching(rows[1..], c);
    }
  }

  /** `str(KeyError(col))` in the wrapped message. */
  function Quoted(col: string): string {
    "'" + col + "'"
  }

  /** What a call filters on: the module column of the copy, and the group
      only when the frame has a `grupo_dev` column. */
  function CriteriaOf(moduleCol: string, columns: set<string>, filters: map<string, string>): Criteria {
    Criteria(Active(filters, "selected_proy"), moduleCol, Active(filters, "selected_modulo"),
      if "grupo_dev" in columns then Active(filters, "selected_grupo") else None)
  }

  /** `apply_filters(df, filters)` with the copy's module column. Selecting on
      a column the frame lacks raises `KeyError`, re-raised as
      `DataProcessingError`. */
  function ApplyFilters(moduleCol: string, df: Table, filters: map<string, string>): (r: Result<Table, string>)
    ensures r.Err? <==>
      (Active(filters, "selected_proy").Some? && "PROY" !in df.columns) ||
      (Active(filters, "selected_modulo").Some? && moduleCol !in df.columns)
    ensures r.Err? ==> StartsWith(r.error, "Failed to apply filters: ")
    ensures r.Ok? ==> r.value.columns == df.columns
    ensures r.Ok? ==> r.value.rows == KeepMatching(df.rows, CriteriaOf(moduleCol, df.columns, filters))
  {
    var c := CriteriaOf(moduleCol, df.columns, filters);
    if c.proy.Some? && "PROY" !in df.columns then
      Err(Prefix("Failed to apply filters: ", Quoted("PROY")))
    else if c.modulo.Some? && moduleCol !in df.columns then
      Err(Prefix("Failed to apply filters: ", Quoted(moduleCol)))
    else
      var s1 := Select(df.rows, "PROY", c.proy);
      var s2 := Select(s1, moduleCol, c.modulo);
      var s3 := Select(s2, "grupo_dev", c.grupo);
      SelectionsAreKeepMatching(df.rows, c);
      KeepMatchingKeepsRows(df, c);
      Ok(Frame(df.columns, s3))
  }

  function Prefix(p: string, s: string): (r: string)
    ensures StartsWith(r, p)
  {
    assert (p + s)[..|p|] == p;
    p + s
  }

  lemma KeepMatchingKeepsRows(df: Table, c: Criteria)
    ensures forall i :: 0 <= i < |KeepMatching(df.rows, c)| ==> KeepMatching(df.rows, c)[i].Keys == df.columns
  {
    forall i | 0 <= i < |KeepMatching(df.rows, c)| ensures KeepMatching(df.rows, c)[i].Keys == df.columns {
      var x := KeepMatching(df.rows, c)[i];
      KeepMatchingMembers(df.rows, c, x);
    }
  }

  /** With every filter open (missing, empty or `"Todos"`) the frame comes
      back unchanged. */
  lemma ApplyFiltersOpen(moduleCol: string, df: Table, filters: map<string, string>)
    requires Active(filters, "selected_proy").None? && Active(filters, "selected_modulo").None?
    requires Active(filters, "selected_grupo").None?
    ensures ApplyFilters(moduleCol, df, filters) == Ok(df)
  {
    KeepAllMatching(df.rows, CriteriaOf(moduleCol, df.columns, filters));
  }

  /** The result is the input's rows in order, with exactly the matching ones
      kept; applying the same filters again changes nothing. */
  lemma ApplyFiltersIdempotent(moduleCol: string, df: Table, filters: map<string, string>)
    requires ApplyFilters(moduleCol, df, filters).Ok?
    ensures Subseq(ApplyFilters(moduleCol, df, filters).value.rows, df.rows)
    ensures ApplyFilters(moduleCol, ApplyFilters(moduleCol, df, filters).value, filters) == ApplyFilters(moduleCol, df, filters)
  {
    var c := CriteriaOf(moduleCol, df.columns, filters);
    KeepMatchingSubseq(df.rows, c);
    KeepMatchingIdempotent(df.rows, c);
  }

  /** On a frame whose module column is spelled `"Módulo"`, the service
      copy cannot filter by module, while the backup copy can. */
  lemma ModuleSpellingMatters(df: Table, filters: map<string, string>)
    requires Active(filters, "selected_modulo").Some?
    requires BackupModuleColumn in df.columns && ServiceModuleColumn !in df.columns
    ensures ApplyFilters(ServiceModuleColumn, df, filters).Err?
    ensures "PROY" in df.columns ==> ApplyFilters(BackupModuleColumn, df, filters).Ok?
  {
  }

  // ---------------------------------------------------------------------------
  // get_filter_options

  /** Strictly increasing in Python's string order, so also free of repeats. */
  predicate StrictlySorted(xs: seq<string>) {
    forall i, j :: 0 <= i < j < |xs| ==> LexLess(xs[i], xs[j])
  }

  /** `x` put into its place in a strictly sorted list, unless already there. */
  function InsertSorted(x: string, xs: seq<string>): (r: seq<string>)
    requires StrictlySorted(xs)
    ensures StrictlySorted(r)
    ensures forall y :: y in r <==> y in xs || y == x
    decreases |xs|
  {
    if |xs| == 0 then [x]
    else if x == xs[0] then xs
    else if LexLess(x, xs[0]) then
      assert forall j :: 0 <= j < |xs| ==> LexLess(x, xs[j]) by {
        forall j | 0 <= j < |xs| ensures LexLess(x, xs[j]) {
          if j > 0 {
            LexLessTransitive(x, xs[0], xs[j]);
          }
        }
      }
      [x] + xs
    else
      LexLessTotal(x, xs[0]);
      var rest := InsertSorted(x, xs[1..]);
      assert forall j :: 0 <= j < |rest| ==> LexLess(xs[0], rest[j]) by {
        forall j | 0 <= j < |rest| ensures LexLess(xs[0], rest[j]) {
          assert rest[j] in xs[1..] || rest[j] == x;
        }
      }
      assert forall y :: y in xs <==> y == xs[0] || y in xs[1..] by {
        assert xs == [xs[0]] + xs[1..];
      }
      [xs[0]] + rest
  }

  /** `sorted(set(values))`. */
  function SortedDistinct(values: seq<string>): (r: seq<string>)
    ensures StrictlySorted(r)
    ensures forall y :: y in r <==> y in values
    decreases |values|
  {
    if |values| == 0 then []
    else
      var r := InsertSorted(values[|values| - 1], SortedDistinct(values[..|values| - 1]));
      assert forall y :: y in values <==> y in values[..|values| - 1] || y == values[|values| - 1] by {
        assert values == values[..|values| - 1] + [values[|values| - 1]];
      }
      r
  }

  /** The non-missing cells of a column. */
  function Present(rows: seq<Row>, col: string): (r: seq<string>)
    ensures forall y :: y in r <==> exists i :: 0 <= i < |rows| && col in rows[i] && rows[i][col] == Some(y)
    decreases |rows|
  {
    if |rows| == 0 then []
    else
      var rest := Present(rows[1..], col);
      assert forall i :: 1 <= i < |rows| ==> rows[i] == rows[1..][i - 1];
      (if col in rows[0] && rows[0][col].Some? then [rows[0][col].value] else []) + rest
  }

  /** `["Todos"] + sorted(df[col].dropna().unique())`. */
  function OptionList(rows: seq<Row>, col: string): (r: seq<string>)
    ensures |r| >= 1 && r[0] == Todos
    ensures StrictlySorted(r[1..])
    ensures forall y :: y in r[1..] <==> exists i :: 0 <= i < |rows| && col in rows[i] && rows[i][col] == Some(y)
  {
    [Todos] + SortedDistinct(Present(rows, col))
  }

  datatype Options = Options(proy: seq<string>, modulo: seq<string>, grupo: seq<string>)

  /** `get_filter_options(df)`: the project and module lists, and the group
      list when the frame has a `grupo_dev` column (`["Todos"]` alone
      otherwise). A missing project or module column raises `KeyError`,
      re-raised as `DataProcessingError`. */
  function FilterOptions(moduleCol: string, df: Table): (r: Result<Options, string>)
    ensures r.Err? <==> "PROY" !in df.columns || moduleCol !in df.columns
    ensures r.Err? ==> StartsWith(r.error, "Failed to get filter options: ")
    ensures r.Ok? ==> r.value.proy == OptionList(df.rows, "PROY") && r.value.modulo == OptionList(df.rows, moduleCol)
    ensures r.Ok? && "grupo_dev" !in df.columns ==> r.value.grupo == [Todos]
    ensures r.Ok? && "grupo_dev" in df.columns ==> r.value.grupo == OptionList(df.rows, "grupo_dev")
  {
    if "PROY" !in df.columns then Err(Prefix("Failed to get filter options: ", Quoted("PROY")))
    else if moduleCol !in df.columns then Err(Prefix("Failed to get filter options: ", Quoted(moduleCol)))
    else
      Ok(Options(OptionList(df.rows, "PROY"), OptionList(df.rows, moduleCol),
        if "grupo_dev" in df.columns then OptionList(df.rows, "grupo_dev") else [Todos]))
  }

  /** Choosing any offered project keeps exactly the rows of that project,
      and there is at least one. */
  lemma OfferedProjectIsNonEmpty(moduleCol: string, df: Table, p: string)
    requires FilterOptions(moduleCol, df).Ok?
    requires p in FilterOptions(moduleCol, df).value.proy[1..] && p != Todos && p != ""
    ensures ApplyFilters(moduleCol, df, map["selected_proy" := p]).Ok?
    ensures |ApplyFilters(moduleCol, df, map["selected_proy" := p]).value.rows| > 0
  {
    var filters := map["selected_proy" := p];
    var c := CriteriaOf(moduleCol, df.columns, filters);
    var i :| 0 <= i < |df.rows| && "PROY" in df.rows[i] && df.rows[i]["PROY"] == Some(p);
    assert Matches(df.rows[i], c);
    KeepMatchingMembers(df.rows, c, df.rows[i]);
  }

  // ---------------------------------------------------------------------------
  // The web page

  /** A row of the page's assigned data, with each field already passed
      through `String(x || '')`. */
  datatype Item = Item(proyecto: string, modulo: string, grupo: string, id: string, consultor: string)

  /** The page's filter state; `None` is a field never set (`undefined`). */
  datatype PageFilters = PageFilters(
    proy: Option<string>, modulo: Option<string>, grupo: Option<string>,
    idFilter: Option<string>, consultor: Option<string>)

  /** `filter === 'Todos' || value === filter`: an unset filter matches nothing. */
  predicate FieldMatches(filter: Option<string>, value: string) {
    filter == Some(Todos) || filter == Some(value)
  }

  predicate ItemMatches(f: PageFilters, item: Item) {
    && FieldMatches(f.proy, item.proyecto)
    && FieldMatches(f.modulo, item.modulo)
    && FieldMatches(f.grupo, item.grupo)
    && (f.idFilter.None? || f.idFilter.value == "" || Contains(item.id, f.idFilter.value))
    && FieldMatches(f.consultor, item.consultor)
  }

  function ItemMatchesOf(f: PageFilters): Item -> bool {
    (x: Item) => ItemMatches(f, x)
  }

  /** `getFilteredData()`: the matching rows, in order, each as often as it
      occurs. */
  function GetFilteredData(data: seq<Item>, f: PageFilters): (r: seq<Item>)
    ensures |r| <= |data|
    ensures forall i :: 0 <= i < |r| ==> ItemMatches(f, r[i])
    decreases |data|
  {
    if |data| == 0 then []
    else (if ItemMatches(f, data[0]) then [data[0]] else []) + GetFilteredData(data[1..], f)
  }

  /** `assignedData.filter(...)`: the order-keeping filter on `ItemMatches`,
      so every matching item is kept with its multiplicity. */
  lemma {:induction false} GetFilteredDataIsFilter(data: seq<Item>, f: PageFilters)
    ensures GetFilteredData(data, f) == Seqs.Filter(data, ItemMatchesOf(f))
    decreases |data|
  {
    if |data| > 0 {
      GetFilteredDataIsFilter(data[1..], f);
    }
  }

  /** Kept rows are the input's, in order, and a row is kept if and only if
      it matches, as often as it occurs. */
  lemma {:induction false} GetFilteredDataSpec(data: seq<Item>, f: PageFilters, x: Item)
    ensures Subseq(GetFilteredData(data, f), data)
    ensures x in GetFilteredData(data, f) <==> x in data && ItemMatches(f, x)
    ensures multiset(GetFilteredData(data, f))[x] == if ItemMatches(f, x) then multiset(data)[x] else 0
  {
    GetFilteredDataSubseq(data, f);
    GetFilteredDataIsFilter(data, f);
    assert ItemMatchesOf(f)(x) == ItemMatches(f, x);
  }

  lemma {:induction false} GetFilteredDataSubseq(data: seq<Item>, f: PageFilters)
    ensures Subseq(GetFilteredData(data, f), data)
    decreases |data|
  {
    if |data| > 0 {
      GetFilteredDataSubseq(data[1..], f);
      var r := GetFilteredData(data, f);
      if ItemMatches(f, data[0]) {
        assert r[0] == data[0] && r[1..] == GetFilteredData(data[1..], f);
      } else {
        assert r == GetFilteredData(data[1..], f);
      }
    }
  }


  /** A project, module, group or consultant filter that was never set
      (`undefined`) hides every row: it equals neither "Todos" nor any
      field. A filter set to "" is not unset; it keeps the rows whose field
      is empty. */
  lemma {:induction false} UnsetFilterHidesAll(data: seq<Item>, f: PageFilters)
    requires f.proy.None? || f.modulo.None? || f.grupo.None? || f.consultor.None?
    ensures GetFilteredData(data, f) == []
    decreases |data|
  {
    if |data| > 0 {
      UnsetFilterHidesAll(data[1..], f);
    }
  }

  /** Every filter at `"Todos"` and no id filter shows every row. */
  lemma {:induction false} OpenFiltersShowAll(data: seq<Item>, f: PageFilters)
    requires f.proy == Some(Todos) && f.modulo == Some(Todos) && f.grupo == Some(Todos) && f.consultor == Some(Todos)
    requires f.idFilter.None? || f.idFilter.value == ""
    ensures GetFilteredData(data, f) == data
    decreases |data|
  {
    if |data| > 0 {
      OpenFiltersShowAll(data[1..], f);
    }
  }

  /** The Timeline's view of a plan: the columns it reads. */
  datatype PagePlan = PagePlan(startCol: string, endCol: string, resourceCol: string, hoursCol: string, availableCol: string, planCol: string)

  const Desarrollo := PagePlan("plan_abap_dev_ini", "plan_abap_dev_fin", "abap_asignado", "plan_abap_dev_time", "esfu_disponible", "plan_abap_dev_ini")
  const Pu := PagePlan("plan_abap_pu_ini", "plan_abap_pu_fin", "abap_asignado", "plan_abap_pu_time", "esfu_disponible", "plan_abap_pu_ini")
  const Test := PagePlan("available_test_date", "available_test_date", "abap_asignado", "plan_abap_dev_time", "esfu_disponible", "available_test_date")

  /** `getPlanConfig()`: the three page plans, and the development plan for
      any other plan type. */
  function GetPagePlan(planType: string): (r: PagePlan)
    ensures r == Pu <==> planType == "Plan de PU"
    ensures r == Test <==> planType == "Plan de Test"
    ensures r == Desarrollo <==> planType !in {"Plan de PU", "Plan de Test"}
    ensures r.startCol == r.planCol && r.resourceCol == "abap_asignado"
  {
    if planType == "Plan de PU" then Pu
    else if planType == "Plan de Test" then Test
    else Desarrollo
  }

  /** None of the plan types the application's configuration accepts is
      one the page knows: each of them is drawn with the development
      columns, and the page's PU and test plans are not plans the
      configuration accepts. */
  lemma ConfiguredPlansUseDevelopmentColumns(planType: string)
    ensures TsConfig.GetPlanConfig(planType).Ok? ==> GetPagePlan(planType) == Desarrollo
    ensures GetPagePlan(planType) != Desarrollo ==> TsConfig.GetPlanConfig(planType).Err?
  {
  }

  /** The page's test plan reads one column as both start and end, so its
      tasks last a single day on the Timeline. */
  lemma TestPlanSingleColumn()
    ensures GetPagePlan("Plan de Test").startCol == GetPagePlan("Plan de Test").endCol
    ensures GetPagePlan("Plan de Pruebas") == Desarrollo
  {
  }
}

=== FILE: greedy.dfy ===
/** The greedy pass shared by every version of the assignment engine.

    The table is reduced to the three columns the pass reads and writes: the
    assigned resource and the start and end days. Each unassigned row, taken
    in a given order, scans its pool in order and takes the first resource
    that holds fewer rows than its limit and has no dated task overlapping
    the row's span. Counts and conflicts are taken over the whole table as
    it stands, so earlier placements are visible to later rows. */
module Greedy {
  import opened Wrappers
  import opened Overlap

  datatype Task = Task(resource: Option<string>, start: Option<int>, end: Option<int>)

  function SpanOf(t: Task): Span {
    (t.start, t.end)
  }

  predicate Holds(t: Task, name: string) {
    t.resource == Some(name)
  }

  /** A pool as the pass reads it: names in scan order with their task limits. */
  type Limits = seq<(string, int)>

  predicate InPool(name: string, pool: Limits) {
    exists k :: 0 <= k < |pool| && pool[k].0 == name
  }

  /** Already assigned: the resource is present and is none of `""`,
      `"None"`, `"nan"`. The Python engines test `notna()` and the three
      values, the web engines truthiness and the last two: the same rows. */
  predicate Preassigned(resource: Option<string>) {
    resource.Some? && resource.value != "" && resource.value != "None" && resource.value != "nan"
  }

  /** The positions of the rows still to assign, in table order. */
  function UnassignedIndices(tasks: seq<Task>): (r: seq<nat>)
    ensures forall a :: 0 <= a < |r| ==> r[a] < |tasks| && !Preassigned(tasks[r[a]].resource)
    ensures forall i :: 0 <= i < |tasks| && !Preassigned(tasks[i].resource) ==> i in r
    ensures forall a, b :: 0 <= a < b < |r| ==> r[a] < r[b]
    decreases |tasks|
  {
    if |tasks| == 0 then []
    else
      var init := tasks[..|tasks| - 1];
      var rest := UnassignedIndices(init);
      assert forall i :: 0 <= i < |init| ==> init[i] == tasks[i];
      rest + (if Preassigned(tasks[|tasks| - 1].resource) then [] else [|tasks| - 1])
  }

  // ---------------------------------------------------------------------------
  // Counting and conflicts over the whole table

  /** The number of rows whose resource is `name`. */
  function CountOf(tasks: seq<Task>, name: string): (r: nat)
    ensures r <= |tasks|
    ensures r == 0 <==> forall i :: 0 <= i < |tasks| ==> !Holds(tasks[i], name)
  {
    if |tasks| == 0 then 0
    else
      var rest := CountOf(tasks[1..], name);
      assert forall i :: 1 <= i < |tasks| ==> tasks[i] == tasks[1..][i - 1];
      (if Holds(tasks[0], name) then 1 else 0) + rest
  }

  /** Overwriting one row changes a count by what leaves and what arrives. */
  lemma {:induction false} CountUpdate(tasks: seq<Task>, i: nat, t: Task, name: string)
    requires i < |tasks|
    ensures CountOf(tasks[i := t], name) + (if Holds(tasks[i], name) then 1 else 0)
         == CountOf(tasks, name) + (if Holds(t, name) then 1 else 0)
  {
    if i == 0 {
      assert tasks[i := t][1..] == tasks[1..];
    } else {
      assert tasks[i := t][1..] == tasks[1..][i - 1 := t];
      CountUpdate(tasks[1..], i - 1, t, name);
    }
  }

  /** A count reads only the resource column. */
  lemma {:induction false} CountSameResources(a: seq<Task>, b: seq<Task>, name: string)
    requires |a| == |b| && forall i :: 0 <= i < |a| ==> a[i].resource == b[i].resource
    ensures CountOf(a, name) == CountOf(b, name)
  {
    if |a| > 0 {
      assert forall i :: 0 <= i < |a| - 1 ==> a[1..][i] == a[i + 1] && b[1..][i] == b[i + 1];
      CountSameResources(a[1..], b[1..], name);
    }
  }

  /** The spans of the rows held by `name`, in table order (the frame
      `current_tasks` handed to the conflict test). */
  function SpansOf(tasks: seq<Task>, name: string): (r: seq<Span>)
    ensures |r| == CountOf(tasks, name)
    ensures forall x :: x in r <==> exists i :: 0 <= i < |tasks| && Holds(tasks[i], name) && x == SpanOf(tasks[i])
  {
    if |tasks| == 0 then []
    else
      var rest := SpansOf(tasks[1..], name);
      assert forall i :: 1 <= i < |tasks| ==> tasks[i] == tasks[1..][i - 1];
      (if Holds(tasks[0], name) then [SpanOf(tasks[0])] else []) + rest
  }

  /** No dated row held by `name` overlaps `[s, e]`. */
  predicate FreeFor(tasks: seq<Task>, name: string, s: int, e: int) {
    forall i :: 0 <= i < |tasks| && Holds(tasks[i], name) ==> !SpansOverlap((Some(s), Some(e)), SpanOf(tasks[i]))
  }

  /** The conflict test over `name`'s rows fails exactly when no row held by
      `name` overlaps. */
  lemma ConflictsIffNotFree(tasks: seq<Task>, name: string, s: int, e: int)
    ensures ConflictsWith(s, e, SpansOf(tasks, name)) <==> !FreeFor(tasks, name, s, e)
  {
    var sp := SpansOf(tasks, name);
    if ConflictsWith(s, e, sp) {
      var j :| 0 <= j < |sp| && SpansOverlap((Some(s), Some(e)), sp[j]);
      assert sp[j] in sp;
    }
    if !FreeFor(tasks, name, s, e) {
      var i :| 0 <= i < |tasks| && Holds(tasks[i], name) && SpansOverlap((Some(s), Some(e)), SpanOf(tasks[i]));
      assert SpanOf(tasks[i]) in sp;
    }
  }

  /** Resource `name` with limit `limit` can take the span `[s, e]`. */
  predicate Fits(tasks: seq<Task>, entry: (string, int), s: int, e: int) {
    CountOf(tasks, entry.0) < entry.1 && !ConflictsWith(s, e, SpansOf(tasks, entry.0))
  }

  /** The position of the first pool entry that fits. */
  function FirstFit(pool: Limits, tasks: seq<Task>, s: int, e: int): (r: Option<nat>)
    ensures r.None? <==> forall k :: 0 <= k < |pool| ==> !Fits(tasks, pool[k], s, e)
    ensures r.Some? ==> r.value < |pool| && Fits(tasks, pool[r.value], s, e)
    ensures r.Some? ==> forall k :: 0 <= k < r.value ==> !Fits(tasks, pool[k], s, e)
  {
    FirstFitFrom(pool, tasks, s, e, 0)
  }

  /** The scan from position `from` on. */
  function FirstFitFrom(pool: Limits, tasks: seq<Task>, s: int, e: int, from: nat): (r: Option<nat>)
    requires from <= |pool|
    ensures r.None? <==> forall k :: from <= k < |pool| ==> !Fits(tasks, pool[k], s, e)
    ensures r.Some? ==> from <= r.value < |pool| && Fits(tasks, pool[r.value], s, e)
    ensures r.Some? ==> forall k :: from <= k < r.value ==> !Fits(tasks, pool[k], s, e)
    decreases |pool| - from
  {
    if from == |pool| then None
    else if Fits(tasks, pool[from], s, e) then Some(from)
    else FirstFitFrom(pool, tasks, s, e, from + 1)
  }

  // ---------------------------------------------------------------------------
  // One row, then the whole pass

  /** Row `i` takes the first fitting resource of its pool and its span; it is
      left as it is when it has no span or nothing fits. With `truthy` set,
      as in the web engines' `if (bestResource)`, a first fit whose name is
      empty is not written either. */
  function Place(tasks: seq<Task>, i: nat, pool: Limits, span: Option<(int, int)>, truthy: bool): (r: seq<Task>)
    requires i < |tasks|
    ensures |r| == |tasks|
    ensures forall j :: 0 <= j < |tasks| && j != i ==> r[j] == tasks[j]
    ensures span.None? ==> r == tasks
    ensures span.Some? && (forall k :: 0 <= k < |pool| ==> !Fits(tasks, pool[k], span.value.0, span.value.1)) ==> r == tasks
    ensures span.Some? && (exists k :: 0 <= k < |pool| && Fits(tasks, pool[k], span.value.0, span.value.1)) ==>
      exists k :: 0 <= k < |pool| && Fits(tasks, pool[k], span.value.0, span.value.1) &&
        (forall k' :: 0 <= k' < k ==> !Fits(tasks, pool[k'], span.value.0, span.value.1)) &&
        if truthy && pool[k].0 == "" then r == tasks
        else r[i] == Task(Some(pool[k].0), Some(span.value.0), Some(span.value.1))
    ensures r[i] != tasks[i] ==> Written(r[i], pool, span)
  {
    match span
    case None => tasks
    case Some((s, e)) =>
      match FirstFit(pool, tasks, s, e)
      case None => tasks
      case Some(k) =>
        if truthy && pool[k].0 == "" then tasks
        else tasks[i := Task(Some(pool[k].0), Some(s), Some(e))]
  }

  /** A row as a step writes it: a resource of its pool over its span. */
  predicate Written(t: Task, pool: Limits, span: Option<(int, int)>) {
    && span.Some? && t.start == Some(span.value.0) && t.end == Some(span.value.1)
    && t.resource.Some? && InPool(t.resource.value, pool)
  }

  predicate IndicesIn(order: seq<nat>, n: nat) {
    forall a :: 0 <= a < |order| ==> order[a] < n
  }

  /** The rest of a visiting order is a visiting order, and holds every row
      but the first. */
  lemma OrderTail(order: seq<nat>, n: nat)
    requires |order| > 0 && IndicesIn(order, n)
    ensures IndicesIn(order[1..], n)
    ensures forall x :: x in order ==> x == order[0] || x in order[1..]
  {
    assert order == [order[0]] + order[1..];
  }

  /** The pass: the rows of `order`, one after the other, each with its own
      pool and span. */
  function Run(tasks: seq<Task>, order: seq<nat>, pools: seq<Limits>, spans: seq<Option<(int, int)>>, truthy: bool): (r: seq<Task>)
    requires |pools| == |tasks| && |spans| == |tasks| && IndicesIn(order, |tasks|)
    ensures |r| == |tasks|
    ensures forall i :: 0 <= i < |tasks| && i !in order ==> r[i] == tasks[i]
    ensures forall i :: 0 <= i < |tasks| && r[i] != tasks[i] ==> Written(r[i], pools[i], spans[i])
    decreases |order|
  {
    if |order| == 0 then tasks
    else
      var i := order[0];
      var mid := Place(tasks, i, pools[i], spans[i], truthy);
      OrderTail(order, |tasks|);
      Run(mid, order[1..], pools, spans, truthy)
  }

  /** With `truthy` set, a row the pass writes never gets an empty name. */
  lemma {:induction false} RunWritesNamed(tasks: seq<Task>, order: seq<nat>, pools: seq<Limits>, spans: seq<Option<(int, int)>>, i: nat)
    requires |pools| == |tasks| && |spans| == |tasks| && IndicesIn(order, |tasks|)
    requires i < |tasks| && Run(tasks, order, pools, spans, true)[i] != tasks[i]
    ensures Run(tasks, order, pools, spans, true)[i].resource != Some("")
    decreases |order|
  {
    var j := order[0];
    var mid := Place(tasks, j, pools[j], spans[j], true);
    OrderTail(order, |tasks|);
    if Run(mid, order[1..], pools, spans, true)[i] != mid[i] {
      RunWritesNamed(mid, order[1..], pools, spans, i);
    }
  }

  // ---------------------------------------------------------------------------
  // Capacity

  /** A step never takes a resource past a bound that covers every limit the
      pool gives it; a count already above the bound does not grow. */
  lemma PlaceCapacity(tasks: seq<Task>, i: nat, pool: Limits, span: Option<(int, int)>, truthy: bool, name: string, bound: int)
    requires i < |tasks|
    requires forall k :: 0 <= k < |pool| && pool[k].0 == name ==> pool[k].1 <= bound
    ensures CountOf(Place(tasks, i, pool, span, truthy), name) <= if CountOf(tasks, name) < bound then bound else CountOf(tasks, name)
  {
    var r := Place(tasks, i, pool, span, truthy);
    if r != tasks {
      var t := r[i];
      assert r == tasks[i := t];
      CountUpdate(tasks, i, t, name);
    }
  }

  predicate LimitsBounded(order: seq<nat>, pools: seq<Limits>, name: string, bound: int)
    requires forall a :: 0 <= a < |order| ==> order[a] < |pools|
  {
    forall a, k :: 0 <= a < |order| && 0 <= k < |pools[order[a]]| && pools[order[a]][k].0 == name ==> pools[order[a]][k].1 <= bound
  }

  /** Capacity over the pass: when every pool the pass consults limits `name`
      to at most `bound`, the pass leaves `name` with at most `bound` rows, or
      with no more than it had. */
  lemma {:induction false} RunCapacity(tasks: seq<Task>, order: seq<nat>, pools: seq<Limits>, spans: seq<Option<(int, int)>>, truthy: bool, name: string, bound: int)
    requires |pools| == |tasks| && |spans| == |tasks| && IndicesIn(order, |tasks|)
    requires LimitsBounded(order, pools, name, bound)
    ensures CountOf(Run(tasks, order, pools, spans, truthy), name) <= if CountOf(tasks, name) < bound then bound else CountOf(tasks, name)
    decreases |order|
  {
    if |order| > 0 {
      var i := order[0];
      var mid := Place(tasks, i, pools[i], spans[i], truthy);
      assert forall a :: 1 <= a < |order| ==> order[a] == order[1..][a - 1];
      assert forall k :: 0 <= k < |pools[i]| && pools[i][k].0 == name ==> pools[i][k].1 <= bound by {
        assert order[0] == i;
      }
      PlaceCapacity(tasks, i, pools[i], spans[i], truthy, name, bound);
      RunCapacity(mid, order[1..], pools, spans, truthy, name, bound);
    }
  }

  // ---------------------------------------------------------------------------
  // No new overlap

  /** Every row that differs from `before` overlaps no other row of the same
      resource. */
  predicate NoNewOverlap(before: seq<Task>, after: seq<Task>)
    requires |before| == |after|
  {
    forall i, j ::
      (0 <= i < |after| && 0 <= j < |after| && i != j && after[i] != before[i] &&
       after[i].resource.Some? && after[j].resource == after[i].resource) ==>
      !SpansOverlap(SpanOf(after[i]), SpanOf(after[j]))
  }

  /** The placed row overlaps no other row of its resource. */
  lemma PlaceNoOverlap(tasks: seq<Task>, i: nat, pool: Limits, span: Option<(int, int)>, truthy: bool)
    requires i < |tasks|
    ensures NoNewOverlap(tasks, Place(tasks, i, pool, span, truthy))
  {
    var r := Place(tasks, i, pool, span, truthy);
    if r != tasks {
      var s, e := span.value.0, span.value.1;
      var k := FirstFit(pool, tasks, s, e).value;
      var name := pool[k].0;
      ConflictsIffNotFree(tasks, name, s, e);
      forall j | 0 <= j < |r| && j != i && r[j].resource == r[i].resource
        ensures !SpansOverlap(SpanOf(r[i]), SpanOf(r[j]))
      {
        assert r[j] == tasks[j] && Holds(tasks[j], name);
      }
    }
  }

  /** Rows a pass never reaches keep their value: rows of the tail are the only ones it writes. */
  lemma RunKeeps(tasks: seq<Task>, order: seq<nat>, pools: seq<Limits>, spans: seq<Option<(int, int)>>, truthy: bool, i: nat)
    requires |pools| == |tasks| && |spans| == |tasks| && IndicesIn(order, |tasks|)
    requires i < |tasks| && i !in order
    ensures Run(tasks, order, pools, spans, truthy)[i] == tasks[i]
  {
  }

  /** No new overlap over the pass: a row the pass assigns overlaps no other
      row that ends up with the same resource, whether that row was there
      before or was assigned earlier or later in the pass. Rows are visited
      at most once. */
  lemma {:induction false} RunNoNewOverlap(tasks: seq<Task>, order: seq<nat>, pools: seq<Limits>, spans: seq<Option<(int, int)>>, truthy: bool)
    requires |pools| == |tasks| && |spans| == |tasks| && IndicesIn(order, |tasks|)
    requires forall a, b :: 0 <= a < b < |order| ==> order[a] != order[b]
    ensures NoNewOverlap(tasks, Run(tasks, order, pools, spans, truthy))
    decreases |order|
  {
    if |order| > 0 {
      var i := order[0];
      var mid := Place(tasks, i, pools[i], spans[i], truthy);
      var tail := order[1..];
      assert forall a :: 1 <= a < |order| ==> order[a] == tail[a - 1];
      assert i !in tail;
      var out := Run(mid, tail, pools, spans, truthy);
      assert out == Run(tasks, order, pools, spans, truthy);
      RunNoNewOverlap(mid, tail, pools, spans, truthy);
      PlaceNoOverlap(tasks, i, pools[i], spans[i], truthy);
      RunKeeps(mid, tail, pools, spans, truthy, i);
      forall p, j | 0 <= p < |out| && 0 <= j < |out| && p != j && out[p] != tasks[p] &&
          out[p].resource.Some? && out[j].resource == out[p].resource
        ensures !SpansOverlap(SpanOf(out[p]), SpanOf(out[j]))
      {
        if out[p] != mid[p] {
          // assigned later in the pass: the tail's own guarantee
        } else if out[j] != mid[j] {
          // the other row was assigned later: its guarantee, read the other way round
          assert !SpansOverlap(SpanOf(out[j]), SpanOf(out[p]));
        } else {
          // both as they stood after the first step
          assert mid[p] != tasks[p];
        }
      }
    }
  }
}

=== FILE: logger.dfy ===
/** The structured log of the Streamlit back end (`AILogger`): a shared
    buffer of the last 100 entries, the recent-entries query with Python's
    slice semantics, the performance label and the error entry. The buffer
    is class-level (one per process, the class being a singleton), so it is
    modelled as a value threaded through the operations; the clock and the
    session id (`id(st.session_state)`, or none outside Streamlit) are
    parameters, and the standard `logging` output is not modelled. */
module Logger {
  import opened Wrappers

  const MaxBufferSize: nat := 100

  datatype Value = Text(s: string) | Number(x: real) | Absent

  datatype Entry = Entry(timestamp: string, operation: string, details: map<string, Value>, level: string, session: Option<int>)

  type Buffer = seq<Entry>

  /** `log_operation`: append, then drop the oldest entry when over the limit;
      missing or empty details are stored as `{}`. */
  function LogOperation(buf: Buffer, timestamp: string, operation: string, details: Option<map<string, Value>>, level: string,
                        session: Option<int>): (r: Buffer)
    requires |buf| <= MaxBufferSize
    ensures |r| <= MaxBufferSize && |r| > 0
    ensures r[|r| - 1] == Entry(timestamp, operation, details.GetOr(map[]), level, session)
    ensures |buf| < MaxBufferSize ==> r == buf + [r[|r| - 1]]
    ensures |buf| == MaxBufferSize ==> r == buf[1..] + [r[|r| - 1]]
  {
    var e := Entry(timestamp, operation, details.GetOr(map[]), level, session);
    var appended := buf + [e];
    if |appended| > MaxBufferSize then appended[1..] else appended
  }

  /** The last `n` entries of `xs` (all of them when there are fewer). */
  function LastN<T>(xs: seq<T>, n: nat): (r: seq<T>)
    ensures |r| == if n < |xs| then n else |xs|
    ensures r == xs[|xs| - |r|..]
  {
    if n < |xs| then xs[|xs| - n..] else xs
  }

  /** Logging a whole sequence of entries, oldest first. */
  function LogAll(buf: Buffer, es: seq<Entry>): (r: Buffer)
    requires |buf| <= MaxBufferSize
    ensures |r| <= MaxBufferSize
    decreases |es|
  {
    if |es| == 0 then buf
    else
      var e := es[0];
      LogAll(LogOperation(buf, e.timestamp, e.operation, Some(e.details), e.level, e.session), es[1..])
  }

  /** However many entries are logged, the buffer holds exactly the newest
      100 of everything seen, in order: eviction is oldest first. */
  lemma {:induction false} LogAllKeepsNewest(buf: Buffer, es: seq<Entry>)
    requires |buf| <= MaxBufferSize
    ensures LogAll(buf, es) == LastN(buf + es, MaxBufferSize)
    decreases |es|
  {
    if |es| > 0 {
      var e := es[0];
      var next := LogOperation(buf, e.timestamp, e.operation, Some(e.details), e.level, e.session);
      LogAllKeepsNewest(next, es[1..]);
      NextThenRest(buf, es);
      LastNDrop(buf + es, MaxBufferSize, |buf|);
    }
  }

  /** One entry logged, then the rest: the same entries as all of them,
      less the evicted one. */
  lemma NextThenRest(buf: Buffer, es: seq<Entry>)
    requires |buf| <= MaxBufferSize && |es| > 0
    ensures var e := es[0];
            var next := LogOperation(buf, e.timestamp, e.operation, Some(e.details), e.level, e.session);
            next + es[1..] == (if |buf| < MaxBufferSize then buf + es else (buf + es)[1..])
  {
    var e := es[0];
    var next := LogOperation(buf, e.timestamp, e.operation, Some(e.details), e.level, e.session);
    assert next[|next| - 1] == e;
    assert es == [e] + es[1..];
  }

  lemma LastNDrop<T>(all: seq<T>, n: nat, b: nat)
    requires b <= n && b < |all|
    ensures b == n ==> LastN(all[1..], n) == LastN(all, n)
  {
  }

  /** `get_recent_logs(count)`: `buffer[-count:]`. A positive count takes
      the last `count` entries, 0 takes the whole buffer (`-0` is `0`), and a
      negative count drops the first `-count` entries. */
  function GetRecentLogs(buf: Buffer, count: int): (r: Buffer)
    ensures count > 0 ==> r == LastN(buf, count)
    ensures count == 0 ==> r == buf
    ensures count < 0 ==> r == (if -count < |buf| then buf[-count..] else [])
  {
    if |buf| == 0 then []
    else
      var start := if count > 0 then (if count < |buf| then |buf| - count else 0)
                   else if -count < |buf| then -count else |buf|;
      buf[start..]
  }

  lemma RecentLogsDefault(buf: Buffer)
    ensures |GetRecentLogs(buf, 10)| == if |buf| < 10 then |buf| else 10
    ensures GetRecentLogs(buf, 0) == buf
  {
  }

  /** `clear_logs`. */
  function ClearLogs(buf: Buffer): (r: Buffer)
    ensures |r| == 0
  {
    []
  }

  /** After clearing, the next entry is the only one. */
  lemma ClearThenLog(buf: Buffer, e: Entry)
    ensures LogAll(ClearLogs(buf), [e]) == [e]
    ensures GetRecentLogs(ClearLogs(buf), 10) == []
  {
    assert LogAll(ClearLogs(buf), [e]) == LastN([] + [e], MaxBufferSize) by {
      LogAllKeepsNewest([], [e]);
    }
  }

  /** The `performance_level` of `log_performance`. */
  function PerformanceLevel(seconds: real): (r: string)
    ensures r == "GOOD" <==> seconds < 1.0
    ensures r == "SLOW" <==> 1.0 <= seconds < 5.0
    ensures r == "VERY_SLOW" <==> seconds >= 5.0
  {
    if seconds < 1.0 then "GOOD" else if seconds < 5.0 then "SLOW" else "VERY_SLOW"
  }

  /** A slower operation never gets a better label. */
  lemma PerformanceLevelMonotone(a: real, b: real)
    requires a <= b
    ensures PerformanceLevel(a) == "VERY_SLOW" ==> PerformanceLevel(b) == "VERY_SLOW"
    ensures PerformanceLevel(b) == "GOOD" ==> PerformanceLevel(a) == "GOOD"
  {
  }

  function LogPerformance(buf: Buffer, timestamp: string, operation: string, seconds: real, dataSize: Option<int>,
                          session: Option<int>): (r: Buffer)
    requires |buf| <= MaxBufferSize
    ensures |r| <= MaxBufferSize && |r| > 0
    ensures var e := r[|r| - 1];
            && e.operation == "Performance: " + operation && e.level == "INFO" && e.session == session
            && "performance_level" in e.details && "duration_seconds" in e.details
            && e.details["performance_level"] == Text(PerformanceLevel(seconds))
            && e.details["duration_seconds"] == Number(seconds)
  {
    var size := match dataSize case Some(n) => Number(n as real) case None => Absent;
    LogOperation(buf, timestamp, "Performance: " + operation,
                 Some(map["duration_seconds" := Number(seconds), "data_size" := size,
                          "performance_level" := Text(PerformanceLevel(seconds))]), "INFO", session)
  }

  /** `log_error`: level ERROR, the error's type and message; a missing or
      empty context reads "unknown" in the operation name. */
  function LogError(buf: Buffer, timestamp: string, errorType: string, message: string, traceback: string, context: Option<string>,
                    session: Option<int>): (r: Buffer)
    requires |buf| <= MaxBufferSize
    ensures |r| <= MaxBufferSize && |r| > 0
    ensures var e := r[|r| - 1];
            && e.level == "ERROR" && e.session == session
            && "error_type" in e.details && "error_message" in e.details
            && e.details["error_type"] == Text(errorType) && e.details["error_message"] == Text(message)
            && e.operation == "Error in " + (if context.Some? && context.value != "" then context.value else "unknown")
  {
    var where := if context.Some? && context.value != "" then context.value else "unknown";
    var ctx := match context case Some(c) => Text(c) case None => Absent;
    LogOperation(buf, timestamp, "Error in " + where,
                 Some(map["error_type" := Text(errorType), "error_message" := Text(message),
                          "traceback" := Text(traceback), "context" := ctx]), "ERROR", session)
  }
}

=== FILE: models.dfy ===
/** The validated records of the Python layer: resource entries, plan column
    sets, user sessions and filter selections. Each record is built by a
    validating constructor that either returns the stored value or reports
    the set of fields that failed. Unknown fields are refused (`extra`
    names them), and every field assignment is validated again. */
module Models {
  import opened Wrappers
  import opened Strings

  // ---------------------------------------------------------------------------
  // Character classes

  predicate IsAsciiLetter(c: char) {
    ('a' <= c <= 'z') || ('A' <= c <= 'Z')
  }

  predicate IsAsciiDigit(c: char) {
    '0' <= c <= '9'
  }

  predicate IsHexDigit(c: char) {
    IsAsciiDigit(c) || ('a' <= c <= 'f') || ('A' <= c <= 'F')
  }

  /** The class `[a-zA-Z0-9áéíóúÁÉÍÓÚñÑ\s\-_]` used for names and filter values. */
  predicate IsNameChar(c: char) {
    IsAsciiLetter(c) || IsAsciiDigit(c) || c in "áéíóúÁÉÍÓÚñÑ" || IsPySpace(c) || c == '-' || c == '_'
  }

  /** `re.match(r'^[class]+$', v)`: one or more class characters and nothing
      else (the class contains `\n`, so the final-newline allowance of `$`
      adds nothing). */
  predicate NameMatches(s: string) {
    |s| >= 1 && forall i :: 0 <= i < |s| ==> IsNameChar(s[i])
  }

  /** `^#[0-9A-Fa-f]{6}$`. */
  predicate IsHexColor(s: string) {
    |s| == 7 && s[0] == '#' && forall i :: 1 <= i < 7 ==> IsHexDigit(s[i])
  }

  const Levels: set<string> := {"SENIOR", "SEMI_SENIOR", "PLENO", "JUNIOR"}

  // ---------------------------------------------------------------------------
  // ResourceConfig

  datatype ResourceConfig = ResourceConfig(name: string, level: string, maxTasks: int, color: string)

  /** The fields of `c` that break a constraint: name of 1..100 characters from
      the name class, one of the four levels, 1 <= max_tasks <= 50, a
      `#RRGGBB` colour. */
  function ResourceConfigErrors(c: ResourceConfig): (r: set<string>)
    ensures r <= {"name", "level", "max_tasks", "color"}
    ensures "name" !in r <==> 1 <= |c.name| <= 100 && NameMatches(c.name)
    ensures "level" !in r <==> c.level in Levels
    ensures "max_tasks" !in r <==> 1 <= c.maxTasks <= 50
    ensures "color" !in r <==> IsHexColor(c.color)
  {
    (if 1 <= |c.name| <= 100 && NameMatches(c.name) then {} else {"name"})
    + (if c.level in Levels then {} else {"level"})
    + (if 1 <= c.maxTasks <= 50 then {} else {"max_tasks"})
    + (if IsHexColor(c.color) then {} else {"color"})
  }

  /** Building a `ResourceConfig`: the stored name is the given one stripped
      of surrounding whitespace. */
  function NewResourceConfig(c: ResourceConfig, extra: set<string>): (r: Result<ResourceConfig, set<string>>)
    ensures r.Ok? <==> ResourceConfigErrors(c) == {} && extra == {}
    ensures r.Ok? ==> r.value == c.(name := Strip(c.name))
    ensures r.Ok? ==> r.value.level in Levels && 1 <= r.value.maxTasks <= 50
    ensures r.Err? ==> r.error == ResourceConfigErrors(c) + extra
  {
    var errors := ResourceConfigErrors(c) + extra;
    if errors == {} then Ok(c.(name := Strip(c.name))) else Err(errors)
  }

  lemma StripKeepsNameChars(s: string)
    requires 1 <= |s| <= 100 && NameMatches(s)
    ensures |Strip(s)| <= 100
    ensures forall i :: 0 <= i < |Strip(s)| ==> IsNameChar(Strip(s)[i])
  {
    var t := Strip(s);
    StripChars(s);
    assert forall k :: 0 <= k < |t| ==> t[k] in s;
  }

  /** Building a stored record again succeeds exactly when the stripped name
      is not empty: a whitespace-only name is accepted once and stored as "",
      which the length constraint then refuses. */
  lemma RevalidateStoredConfig(c: ResourceConfig)
    requires NewResourceConfig(c, {}).Ok?
    ensures NewResourceConfig(NewResourceConfig(c, {}).value, {}).Ok? <==> Strip(c.name) != ""
  {
    StripKeepsNameChars(c.name);
  }

  lemma WhitespaceNameStoredEmpty()
    ensures NewResourceConfig(ResourceConfig("  ", "SENIOR", 15, "#FF6B6B"), {}) == Ok(ResourceConfig("", "SENIOR", 15, "#FF6B6B"))
  {
    assert IsPySpace(' ');
    assert Strip("  ") == "" by {
      assert StripStart("  ") == StripStart(" ") == StripStart("") == "";
    }
  }

  // ---------------------------------------------------------------------------
  // PlanConfig

  datatype PlanConfig = PlanConfig(
    resourceCol: string, hoursCol: string, availableDateCol: string, planDateCol: string,
    startDateCol: string, endDateCol: string, resourceTitle: string, resourcesTitle: string,
    assignedTitle: string, useGroupBasedAssignment: bool)

  /** The nine column and title names, in declaration order. */
  function PlanNames(p: PlanConfig): (r: seq<string>)
    ensures |r| == 9
  {
    [p.resourceCol, p.hoursCol, p.availableDateCol, p.planDateCol, p.startDateCol,
     p.endDateCol, p.resourceTitle, p.resourcesTitle, p.assignedTitle]
  }

  /** The error position that stands for a field the model forbids
      (`extra = "forbid"`): one past the nine names. */
  const ExtraField: nat := 9

  /** Building a `PlanConfig`: every name must be non-empty; the group flag
      defaults to true when not given. The error lists the positions of the
      empty names, or `ExtraField` for an unknown field. */
  function NewPlanConfig(names: seq<string>, useGroup: Option<bool>, extra: set<string>): (r: Result<PlanConfig, set<nat>>)
    requires |names| == 9
    ensures r.Ok? <==> (forall i :: 0 <= i < 9 ==> names[i] != "") && extra == {}
    ensures r.Ok? ==> PlanNames(r.value) == names
    ensures r.Ok? ==> r.value.useGroupBasedAssignment == (useGroup != Some(false))
    ensures r.Err? && extra == {} ==> r.error == set i | 0 <= i < 9 && names[i] == ""
    ensures (forall i :: 0 <= i < 9 ==> names[i] != "") && extra != {} ==> r == Err({ExtraField})
  {
    var empty := set i | 0 <= i < 9 && names[i] == "";
    var allGiven := forall i :: 0 <= i < 9 ==> names[i] != "";
    assert allGiven <==> empty == {} by {
      if !allGiven {
        var i :| 0 <= i < 9 && names[i] == "";
        assert i in empty;
      }
    }
    if allGiven && extra == {} then
      Ok(PlanConfig(names[0], names[1], names[2], names[3], names[4], names[5], names[6], names[7], names[8], useGroup.GetOr(true)))
    else if allGiven then Err({ExtraField})
    else Err(empty)
  }

  // ---------------------------------------------------------------------------
  // Email addresses: `^[a-zA-Z0-9._%+-]+@[a-zA-Z0-9.-]+\.[a-zA-Z]{2,}$`

  predicate IsLocalChar(c: char) {
    IsAsciiLetter(c) || IsAsciiDigit(c) || c == '.' || c == '_' || c == '%' || c == '+' || c == '-'
  }

  predicate IsDomainChar(c: char) {
    IsAsciiLetter(c) || IsAsciiDigit(c) || c == '.' || c == '-'
  }

  predicate AllLocal(s: string) {
    forall k :: 0 <= k < |s| ==> IsLocalChar(s[k])
  }

  predicate AllDomain(s: string) {
    forall k :: 0 <= k < |s| ==> IsDomainChar(s[k])
  }

  predicate AllLetters(s: string) {
    forall k :: 0 <= k < |s| ==> IsAsciiLetter(s[k])
  }

  /** `s` splits as local part, `@` at `i`, domain, `.` at `j`, and at least two letters. */
  predicate EmailSplit(s: string, i: nat, j: nat) {
    && 0 < i && i + 1 < j && j + 3 <= |s|
    && s[i] == '@' && s[j] == '.'
    && AllLocal(s[..i]) && AllDomain(s[i + 1..j]) && AllLetters(s[j + 1..])
  }

  /** The language of the email pattern, anchored at both ends. */
  ghost predicate EmailShape(s: string) {
    exists i: nat, j: nat :: EmailSplit(s, i, j)
  }

  function FirstIndexOf(s: string, c: char): (r: Option<nat>)
    ensures r.Some? ==> r.value < |s| && s[r.value] == c && forall k :: 0 <= k < r.value ==> s[k] != c
    ensures r.None? ==> forall k :: 0 <= k < |s| ==> s[k] != c
  {
    if |s| == 0 then None
    else if s[0] == c then Some(0)
    else
      match FirstIndexOf(s[1..], c)
      case None => None
      case Some(k) => Some(k + 1)
  }

  function LastIndexOf(s: string, c: char): (r: Option<nat>)
    ensures r.Some? ==> r.value < |s| && s[r.value] == c && forall k :: r.value < k < |s| ==> s[k] != c
    ensures r.None? ==> forall k :: 0 <= k < |s| ==> s[k] != c
  {
    if |s| == 0 then None
    else if s[|s| - 1] == c then Some(|s| - 1)
    else LastIndexOf(s[..|s| - 1], c)
  }

  /** A decision procedure for the pattern: the `@` must be the first one (no
      class before it contains `@`) and the `.` the last one (letters follow it). */
  function MatchesEmail(s: string): (r: bool)
    ensures r <==> EmailShape(s)
  {
    match FirstIndexOf(s, '@')
    case None =>
      NoAtNoEmail(s);
      false
    case Some(i) =>
      match LastIndexOf(s[i + 1..], '.')
      case None =>
        assert !EmailShape(s) by { EmailShapeAt(s, i); }
        false
      case Some(d) =>
        var j := i + 1 + d;
        var ok := 0 < i && i + 1 < j && j + 3 <= |s| && AllLocal(s[..i]) && AllDomain(s[i + 1..j]) && AllLetters(s[j + 1..]);
        assert s[j] == s[i + 1..][d];
        assert ok <==> EmailSplit(s, i, j);
        assert EmailShape(s) ==> ok by {
          if EmailShape(s) {
            EmailShapeAt(s, i);
            var j2: nat :| EmailSplit(s, i, j2);
            LastDotIs(s, i, j2, d);
          }
        }
        ok
  }

  lemma NoAtNoEmail(s: string)
    requires forall k :: 0 <= k < |s| ==> s[k] != '@'
    ensures !EmailShape(s)
  {
  }

  /** Any split uses the first `@` of the string. */
  lemma EmailShapeAt(s: string, i: nat)
    requires i < |s| && s[i] == '@' && forall k :: 0 <= k < i ==> s[k] != '@'
    ensures EmailShape(s) ==> exists j: nat :: EmailSplit(s, i, j)
    ensures EmailShape(s) ==> LastIndexOf(s[i + 1..], '.').Some?
  {
    if EmailShape(s) {
      var i2: nat, j2: nat :| EmailSplit(s, i2, j2);
      assert forall k :: 0 <= k < i2 ==> s[k] == s[..i2][k];
      assert i2 == i;
      assert s[i + 1..][j2 - i - 1] == '.';
    }
  }

  /** In a split, the `.` at `j` is the last `.` after the `@`. */
  lemma LastDotIs(s: string, i: nat, j: nat, d: nat)
    requires EmailSplit(s, i, j)
    requires LastIndexOf(s[i + 1..], '.') == Some(d)
    ensures j == i + 1 + d
  {
    var rest := s[i + 1..];
    assert rest[j - i - 1] == '.';
    assert forall k :: j < k < |s| ==> s[k] == s[j + 1..][k - j - 1];
    assert rest[d] == s[i + 1 + d];
  }

  // ---------------------------------------------------------------------------
  // UserSession

  const Permissions: set<string> := {"read", "write", "admin", "export"}

  datatype UserSession = UserSession(email: string, name: Option<string>, isAuthenticated: bool, permissions: seq<string>)

  /** Building a `UserSession`: the email must have the pattern's shape (the
      pattern is matched as a whole, with no final-newline allowance), the
      name at most 100 characters, and every permission one of the four known ones. */
  function NewUserSession(u: UserSession, extra: set<string>): (r: Result<UserSession, set<string>>)
    ensures r.Ok? <==> EmailShape(u.email) && (u.name.Some? ==> |u.name.value| <= 100)
                       && (forall p :: p in u.permissions ==> p in Permissions) && extra == {}
    ensures r.Ok? ==> r.value == u
  {
    var errors := (if MatchesEmail(u.email) then {} else {"email"})
      + (if u.name.Some? && |u.name.value| > 100 then {"name"} else {})
      + (if forall p :: p in u.permissions ==> p in Permissions then {} else {"permissions"})
      + extra;
    if errors == {} then Ok(u) else Err(errors)
  }

  // ---------------------------------------------------------------------------
  // FilterState

  datatype FilterState = FilterState(proy: string, modulo: string, grupo: string)

  const DefaultFilterState := FilterState("Todos", "Todos", "Todos")

  /** One filter value: at most 50 characters, and if not empty, only name-class characters. */
  predicate ValidFilterValue(v: string) {
    |v| <= 50 && (v != "" ==> NameMatches(v))
  }

  predicate ValidFilterState(f: FilterState) {
    ValidFilterValue(f.proy) && ValidFilterValue(f.modulo) && ValidFilterValue(f.grupo)
  }

  /** Building a `FilterState`; a field that is not given takes "Todos". */
  function NewFilterState(proy: Option<string>, modulo: Option<string>, grupo: Option<string>): (r: Result<FilterState, set<string>>)
    ensures r.Ok? ==> ValidFilterState(r.value)
    ensures r.Ok? <==> ValidFilterValue(proy.GetOr("Todos")) && ValidFilterValue(modulo.GetOr("Todos")) && ValidFilterValue(grupo.GetOr("Todos"))
  {
    var f := FilterState(proy.GetOr("Todos"), modulo.GetOr("Todos"), grupo.GetOr("Todos"));
    var errors := (if ValidFilterValue(f.proy) then {} else {"selected_proy"})
      + (if ValidFilterValue(f.modulo) then {} else {"selected_modulo"})
      + (if ValidFilterValue(f.grupo) then {} else {"selected_grupo"});
    if errors == {} then Ok(f) else Err(errors)
  }

  lemma DefaultFilterStateValid()
    ensures NewFilterState(None, None, None) == Ok(DefaultFilterState)
  {
    assert NameMatches("Todos");
  }

  datatype FilterField = SelectedProy | SelectedModulo | SelectedGrupo

  /** Why an assigned filter value is refused: the field's `max_length` of
      50, checked first, or the validator's character pattern ("Filter value
      contains invalid characters"). */
  datatype FilterProblem = TooLong | InvalidCharacters

  /** Assigning one field re-runs its validation: the state changes only when
      the new value is valid, and then only in that field. */
  function AssignFilter(f: FilterState, field: FilterField, v: string): (r: Result<FilterState, FilterProblem>)
    ensures r.Ok? <==> ValidFilterValue(v)
    ensures r == Err(TooLong) <==> |v| > 50
    ensures r == Err(InvalidCharacters) <==> |v| <= 50 && v != "" && !NameMatches(v)
    ensures ValidFilterState(f) && r.Ok? ==> ValidFilterState(r.value)
    ensures r.Ok? && field == SelectedProy ==> r.value == f.(proy := v)
    ensures r.Ok? && field == SelectedModulo ==> r.value == f.(modulo := v)
    ensures r.Ok? && field == SelectedGrupo ==> r.value == f.(grupo := v)
  {
    if |v| > 50 then Err(TooLong)
    else if !ValidFilterValue(v) then Err(InvalidCharacters)
    else
      match field
      case SelectedProy => Ok(f.(proy := v))
      case SelectedModulo => Ok(f.(modulo := v))
      case SelectedGrupo => Ok(f.(grupo := v))
  }
}

=== FILE: overlap.dfy ===
/** Closed-interval conflicts between task spans.

    A span is a pair of optional day numbers (start, end); a span with a
    missing bound never conflicts with anything. Two dated spans conflict
    when they share at least one day, so spans that only touch on one day
    already conflict. */
module Overlap {
  import opened Wrappers

  type Span = (Option<int>, Option<int>)

  predicate Dated(t: Span) {
    t.0.Some? && t.1.Some?
  }

  /** `start_new <= task_end and end_new >= task_start`. */
  predicate Overlaps(s1: int, e1: int, s2: int, e2: int) {
    s1 <= e2 && e1 >= s2
  }

  predicate InClosed(d: int, lo: int, hi: int) {
    lo <= d <= hi
  }

  /** For well-formed intervals the test holds exactly when they share a day. */
  lemma OverlapsIffCommonDay(s1: int, e1: int, s2: int, e2: int)
    requires s1 <= e1 && s2 <= e2
    ensures Overlaps(s1, e1, s2, e2) <==> exists d :: InClosed(d, s1, e1) && InClosed(d, s2, e2)
  {
    if Overlaps(s1, e1, s2, e2) {
      var d := if s1 < s2 then s2 else s1;
      assert InClosed(d, s1, e1) && InClosed(d, s2, e2);
    }
  }

  lemma OverlapsSymmetric(s1: int, e1: int, s2: int, e2: int)
    ensures Overlaps(s1, e1, s2, e2) == Overlaps(s2, e2, s1, e1)
  {
  }

  /** Two spans, both dated, that overlap. */
  predicate SpansOverlap(a: Span, b: Span) {
    Dated(a) && Dated(b) && Overlaps(a.0.value, a.1.value, b.0.value, b.1.value)
  }

  /** `check_conflict_generic` / `checkConflict`: does the new span `[s, e]`
      overlap some existing task whose two dates are both present? The loop
      stops at the first conflicting task. */
  function ConflictsWith(s: int, e: int, tasks: seq<Span>): (r: bool)
    ensures r <==> exists i :: 0 <= i < |tasks| && SpansOverlap((Some(s), Some(e)), tasks[i])
  {
    if |tasks| == 0 then false
    else if SpansOverlap((Some(s), Some(e)), tasks[0]) then true
    else
      var rest := ConflictsWith(s, e, tasks[1..]);
      assert forall i :: 1 <= i < |tasks| ==> tasks[i] == tasks[1..][i - 1];
      rest
  }

  /** How many spans of `s` overlap `x`. */
  function CountOverlapping(x: Span, s: seq<Span>): (r: nat)
    ensures r == 0 <==> forall j :: 0 <= j < |s| ==> !SpansOverlap(x, s[j])
    ensures r <= |s|
  {
    if |s| == 0 then 0
    else
      var rest := CountOverlapping(x, s[1..]);
      assert forall j :: 1 <= j < |s| ==> s[j] == s[1..][j - 1];
      (if SpansOverlap(x, s[0]) then 1 else 0) + rest
  }

  /** The number of index pairs `i < j` whose spans overlap (the
      "Conflicts" column of the resource summary). */
  function PairConflicts(s: seq<Span>): nat {
    if |s| == 0 then 0 else CountOverlapping(s[0], s[1..]) + PairConflicts(s[1..])
  }

  predicate PairwiseDisjoint(s: seq<Span>) {
    forall i, j :: 0 <= i < j < |s| ==> !SpansOverlap(s[i], s[j])
  }

  /** No conflicts are counted exactly when no two spans overlap. */
  lemma {:induction false} PairConflictsZeroIff(s: seq<Span>)
    ensures PairConflicts(s) == 0 <==> PairwiseDisjoint(s)
  {
    if |s| > 0 {
      PairConflictsZeroIff(s[1..]);
      assert forall j :: 1 <= j < |s| ==> s[j] == s[1..][j - 1];
      if PairwiseDisjoint(s) {
        assert PairwiseDisjoint(s[1..]);
      }
      if PairConflicts(s) == 0 {
        forall i, j | 0 <= i < j < |s|
          ensures !SpansOverlap(s[i], s[j])
        {
          if i > 0 {
            assert s[i] == s[1..][i - 1] && s[j] == s[1..][j - 1];
          }
        }
      }
    }
  }

  /** A single task never conflicts with itself. */
  lemma PairConflictsSingle(t: Span)
    ensures PairConflicts([t]) == 0
  {
    assert [t][1..] == [];
  }

  /** Pairs are counted at most once each. */
  lemma {:induction false} PairConflictsBound(s: seq<Span>)
    ensures 2 * PairConflicts(s) <= |s| * (|s| - 1)
  {
    if |s| > 0 {
      var m := |s| - 1;
      PairConflictsBound(s[1..]);
      var c, p := CountOverlapping(s[0], s[1..]), PairConflicts(s[1..]);
      assert PairConflicts(s) == c + p && c <= m && 2 * p <= m * (m - 1);
      assert (m + 1) * m == m * (m - 1) + 2 * m;
    }
  }
}

=== FILE: page_manager.dfy ===
/** The page registry of the Streamlit front end (`PageManager`): pages are
    registered by name, can be disabled and enabled, one of them is current,
    and rendering a page runs its function unless it is disabled. The
    registry is class-level state, modelled as a value; a page function is
    an opaque `Handler` whose behaviour is a parameter of `RenderPage`. */
module PageManager {
  import opened Wrappers

  /** The identity of a registered page function. */
  datatype Handler = Handler(id: nat)

  datatype Page = Page(handler: Handler, icon: string, title: string, active: bool)

  datatype Registry = Registry(pages: map<string, Page>, current: Option<string>)

  const DefaultIcon := "📄"

  const Empty := Registry(map[], None)

  /** The `ConfigError` message for an unknown page. */
  function NotRegistered(name: string): (r: string)
    ensures |r| > |name|
  {
    "Page '" + name + "' not registered"
  }

  /** `register_page`: a new or replaced entry, active, titled by its name
      when the title is missing or empty. Every other page is untouched. */
  function RegisterPage(reg: Registry, name: string, handler: Handler, icon: string, title: Option<string>): (r: Registry)
    ensures r.pages.Keys == reg.pages.Keys + {name}
    ensures r.pages[name].active && r.pages[name].handler == handler && r.pages[name].icon == icon
    ensures r.pages[name].title == (if title.Some? && title.value != "" then title.value else name)
    ensures forall n :: n in reg.pages && n != name ==> r.pages[n] == reg.pages[n]
    ensures r.current == reg.current
  {
    var t := if title.Some? && title.value != "" then title.value else name;
    reg.(pages := reg.pages[name := Page(handler, icon, t, true)])
  }

  /** `get_page`. */
  function GetPage(reg: Registry, name: string): (r: Result<Page, string>)
    ensures r.Ok? <==> name in reg.pages
    ensures r.Ok? ==> r.value == reg.pages[name]
    ensures r.Err? ==> r.error == NotRegistered(name)
  {
    if name !in reg.pages then Err(NotRegistered(name)) else Ok(reg.pages[name])
  }

  /** `get_all_pages`: every registered page, each as `get_page` gives it. */
  function GetAllPages(reg: Registry): (r: map<string, Page>)
    ensures forall n :: n in r <==> GetPage(reg, n).Ok?
    ensures forall n :: n in r ==> Ok(r[n]) == GetPage(reg, n)
  {
    reg.pages
  }

  /** `set_current_page`: an unknown name raises and leaves the current
      page as it was. */
  function SetCurrentPage(reg: Registry, name: string): (r: Result<Registry, string>)
    ensures r.Ok? <==> name in reg.pages
    ensures r.Ok? ==> r.value.current == Some(name) && r.value.pages == reg.pages
    ensures r.Err? ==> r.error == NotRegistered(name)
  {
    if name !in reg.pages then Err(NotRegistered(name)) else Ok(reg.(current := Some(name)))
  }

  /** `disable_page` / `enable_page`: set the flag of a registered page;
      an unknown name is ignored. */
  function SetActive(reg: Registry, name: string, active: bool): (r: Registry)
    ensures r.pages.Keys == reg.pages.Keys && r.current == reg.current
    ensures name in reg.pages ==> r.pages[name] == reg.pages[name].(active := active)
    ensures name !in reg.pages ==> r == reg
    ensures forall n :: n in reg.pages && n != name ==> r.pages[n] == reg.pages[n]
  {
    if name in reg.pages then reg.(pages := reg.pages[name := reg.pages[name].(active := active)]) else reg
  }

  function DisablePage(reg: Registry, name: string): (r: Registry)
    ensures name in reg.pages ==> name in r.pages && !r.pages[name].active
    ensures name !in reg.pages ==> r == reg
  {
    SetActive(reg, name, false)
  }

  function EnablePage(reg: Registry, name: string): (r: Registry)
    ensures name in reg.pages ==> name in r.pages && r.pages[name].active
    ensures name !in reg.pages ==> r == reg
  {
    SetActive(reg, name, true)
  }

  /** Enabling undoes disabling of a page that was active. */
  lemma EnableAfterDisable(reg: Registry, name: string)
    requires name in reg.pages && reg.pages[name].active
    ensures EnablePage(DisablePage(reg, name), name) == reg
  {
    var r := EnablePage(DisablePage(reg, name), name);
    assert r.pages == reg.pages;
  }

  /** What `render_page` shows: an unknown page raises `ConfigError`; a
      disabled page shows an error without running; otherwise the page
      function runs and any exception it raises is shown, not propagated. */
  datatype Rendered = Disabled(message: string) | Ran | Failed(message: string)

  function RenderPage(reg: Registry, name: string, run: Handler -> Result<(), string>): (r: Result<Rendered, string>)
    ensures r.Err? <==> name !in reg.pages
    ensures r.Err? ==> r.error == NotRegistered(name)
    ensures r.Ok? ==> (r.value.Disabled? <==> !reg.pages[name].active)
    ensures r.Ok? && reg.pages[name].active ==>
              (r.value == Ran <==> run(reg.pages[name].handler).Ok?)
  {
    match GetPage(reg, name)
    case Err(e) => Err(e)
    case Ok(page) =>
      if !page.active then Ok(Disabled("Page '" + name + "' is currently disabled"))
      else
        match run(page.handler)
        case Ok(_) => Ok(Ran)
        case Err(e) => Ok(Failed("Error rendering page '" + name + "': " + e))
  }

  /** A disabled page's function is never consulted: rendering gives the
      same outcome whatever the function would do. */
  lemma DisabledNeverRuns(reg: Registry, name: string, run1: Handler -> Result<(), string>, run2: Handler -> Result<(), string>)
    requires name in reg.pages
    ensures RenderPage(DisablePage(reg, name), name, run1) == RenderPage(DisablePage(reg, name), name, run2)
    ensures RenderPage(DisablePage(reg, name), name, run1).value.Disabled?
  {
  }

  /** A freshly registered page renders by running the function given. */
  lemma RegisteredPageRuns(reg: Registry, name: string, handler: Handler, icon: string, title: Option<string>,
                           run: Handler -> Result<(), string>)
    ensures var r := RenderPage(RegisterPage(reg, name, handler, icon, title), name, run);
            r.Ok? && (r.value == Ran <==> run(handler).Ok?)
    ensures SetCurrentPage(RegisterPage(reg, name, handler, icon, title), name).Ok?
  {
  }
}

=== FILE: perf_auditor.dfy ===
/** The browser-side API-call auditor (`PerformanceAuditor`): debounce of
    repeated calls from one component, a per-endpoint cap over the last
    minute, a five-minute call history keyed by `method:endpoint`, and the
    running metrics. The clock is a parameter (`now`, in milliseconds). */
module PerfAuditor {
  import opened Wrappers
  import Sorting
  import Seqs

  const DebounceDelay: int := 1000
  const SlowCallThreshold: real := 2000.0
  const MaxCallsPerEndpoint: nat := 5
  const Minute: int := 60000
  const Retention: int := 5 * 60 * 1000

  datatype Call = Call(endpoint: string, verb: string, timestamp: int, component: string)

  /** `averageResponseTime` is `None` once it has become `NaN` or infinite
      (an update while `totalCalls` is 0 divides by zero). */
  datatype Metrics = Metrics(totalCalls: nat, duplicateCalls: nat, average: Option<real>, slowCalls: nat, errors: nat)

  const ZeroMetrics := Metrics(0, 0, Some(0.0), 0, 0)

  /** The `Map<string, APICall[]>`: its entries and its keys in insertion order. */
  datatype History = History(order: seq<string>, calls: map<string, seq<Call>>)

  datatype Auditor = Auditor(history: History, metrics: Metrics)

  const Fresh := Auditor(History([], map[]), ZeroMetrics)

  function CallKey(endpoint: string, verb: string): string {
    verb + ":" + endpoint
  }

  // ---------------------------------------------------------------------------
  // The history map

  /** Keys listed once each and exactly the map's keys, and every call filed
      under its own key. */
  predicate Filed(h: History) {
    && Sorting.Distinct(h.order)
    && h.calls.Keys == set k | k in h.order
    && (forall k, c | k in h.calls && c in h.calls[k] :: CallKey(c.endpoint, c.verb) == k)
  }

  /** Filed, and no key is left with an empty list. */
  predicate Tidy(h: History) {
    Filed(h) && forall k | k in h.calls :: |h.calls[k]| > 0
  }

  /** `apiCalls.get(key) || []`. */
  function CallsOf(h: History, key: string): seq<Call> {
    if key in h.calls then h.calls[key] else []
  }

  /** `apiCalls.set(key, calls)`: an existing key keeps its place, a new one goes last. */
  function Store(h: History, key: string, calls: seq<Call>): (r: History)
    requires Filed(h)
    requires forall c | c in calls :: CallKey(c.endpoint, c.verb) == key
    ensures Filed(r)
    ensures CallsOf(r, key) == calls
    ensures forall k :: k != key ==> CallsOf(r, k) == CallsOf(h, k)
  {
    if key in h.calls then History(h.order, h.calls[key := calls])
    else
      var order := h.order + [key];
      assert forall a :: 0 <= a < |h.order| ==> order[a] == h.order[a] != key;
      History(order, h.calls[key := calls])
  }

  function NewerThan(cutoff: real): Call -> bool {
    (c: Call) => c.timestamp as real > cutoff
  }

  /** The calls with a timestamp after `cutoff`, in order. */
  function After(calls: seq<Call>, cutoff: real): (r: seq<Call>)
    ensures |r| <= |calls|
    ensures forall c :: c in r <==> c in calls && c.timestamp as real > cutoff
  {
    if |calls| == 0 then []
    else
      var rest := After(calls[1..], cutoff);
      assert forall c :: c in calls <==> c == calls[0] || c in calls[1..];
      if calls[0].timestamp as real > cutoff then [calls[0]] + rest else rest
  }

  /** `After` is the order-keeping filter on the timestamp, so it keeps each
      recent call as often as it occurs. */
  lemma {:induction false} AfterIsFilter(calls: seq<Call>, cutoff: real)
    ensures After(calls, cutoff) == Seqs.Filter(calls, NewerThan(cutoff))
    decreases |calls|
  {
    if |calls| > 0 {
      AfterIsFilter(calls[1..], cutoff);
    }
  }

  /** The keys of `order` that are in `keep`, in order. */
  function KeepKeys(order: seq<string>, keep: set<string>): (r: seq<string>)
    ensures forall k :: k in r <==> k in order && k in keep
    ensures Sorting.Distinct(order) ==> Sorting.Distinct(r)
  {
    if |order| == 0 then []
    else
      var rest := KeepKeys(order[1..], keep);
      assert forall k :: k in order <==> k == order[0] || k in order[1..];
      assert Sorting.Distinct(order) ==> Sorting.Distinct(order[1..]) && order[0] !in order[1..] by {
        if Sorting.Distinct(order) {
          assert forall a :: 0 <= a < |order| - 1 ==> order[1..][a] == order[a + 1];
        }
      }
      if order[0] in keep then [order[0]] + rest else rest
  }

  /** `cleanupOldCalls`: keep the calls of the last five minutes and drop the
      keys left with none. */
  function Cleanup(h: History, now: int): (r: History)
    requires Filed(h)
    ensures Tidy(r)
    ensures forall k :: CallsOf(r, k) == After(CallsOf(h, k), (now - Retention) as real)
  {
    var cutoff := (now - Retention) as real;
    var m := map k | k in h.calls && |After(h.calls[k], cutoff)| > 0 :: After(h.calls[k], cutoff);
    var r := History(KeepKeys(h.order, m.Keys), m);
    assert forall k :: k !in m ==> After(CallsOf(h, k), cutoff) == [] by {
      forall k | k !in m ensures After(CallsOf(h, k), cutoff) == [] {
        if k !in h.calls {
          assert CallsOf(h, k) == [];
        }
      }
    }
    r
  }

  // ---------------------------------------------------------------------------
  // The operations

  /** A call of this key by this component less than a second ago. */
  predicate IsDuplicate(c: Call, component: string, now: int) {
    now - c.timestamp < DebounceDelay && c.component == component
  }

  /** How many of `calls` lie within the last minute. */
  function InLastMinute(calls: seq<Call>, now: int): (r: nat)
    ensures r <= |calls|
  {
    if |calls| == 0 then 0
    else (if now - calls[0].timestamp < Minute then 1 else 0) + InLastMinute(calls[1..], now)
  }

  datatype Decision = Decision(allowed: bool, auditor: Auditor)

  /** `shouldAllowCall`. Only a denied duplicate changes the auditor (its
      duplicate counter); allowing a call records nothing. */
  function ShouldAllowCall(a: Auditor, endpoint: string, verb: string, component: string, now: int): (r: Decision)
    ensures var recent := CallsOf(a.history, CallKey(endpoint, verb));
            var dup := exists k :: 0 <= k < |recent| && IsDuplicate(recent[k], component, now);
            && (r.allowed <==> !dup && InLastMinute(recent, now) < MaxCallsPerEndpoint)
            && r.auditor.history == a.history
            && (dup ==> r.auditor.metrics == a.metrics.(duplicateCalls := a.metrics.duplicateCalls + 1))
            && (!dup ==> r.auditor == a)
  {
    var recent := CallsOf(a.history, CallKey(endpoint, verb));
    if exists k :: 0 <= k < |recent| && IsDuplicate(recent[k], component, now) then
      Decision(false, a.(metrics := a.metrics.(duplicateCalls := a.metrics.duplicateCalls + 1)))
    else
      Decision(InLastMinute(recent, now) < MaxCallsPerEndpoint, a)
  }

  function CountCall(m: Metrics): (r: Metrics)
    ensures r.totalCalls == m.totalCalls + 1 && r == m.(totalCalls := r.totalCalls)
  {
    m.(totalCalls := m.totalCalls + 1)
  }

  /** `recordCall`: file the call under its key, count it, then clean up. */
  function RecordCall(a: Auditor, endpoint: string, verb: string, component: string, now: int): (r: Auditor)
    requires Filed(a.history)
    ensures Tidy(r.history)
    ensures r.metrics == CountCall(a.metrics)
    ensures var key := CallKey(endpoint, verb);
            CallsOf(r.history, key) == After(CallsOf(a.history, key) + [Call(endpoint, verb, now, component)], (now - Retention) as real)
    ensures forall k :: k != CallKey(endpoint, verb) ==> CallsOf(r.history, k) == After(CallsOf(a.history, k), (now - Retention) as real)
  {
    var key := CallKey(endpoint, verb);
    var call := Call(endpoint, verb, now, component);
    var calls := CallsOf(a.history, key) + [call];
    assert forall c | c in calls :: c == call || c in CallsOf(a.history, key);
    var h := Store(a.history, key, calls);
    Auditor(Cleanup(h, now), CountCall(a.metrics))
  }

  /** A call recorded at `now` is a duplicate for the same component until a
      second has passed: recording and then checking again is denied. */
  lemma DebounceAfterRecord(a: Auditor, endpoint: string, verb: string, component: string, now: int, later: int)
    requires Filed(a.history)
    requires now <= later < now + DebounceDelay
    ensures !ShouldAllowCall(RecordCall(a, endpoint, verb, component, now), endpoint, verb, component, later).allowed
  {
    var key := CallKey(endpoint, verb);
    var call := Call(endpoint, verb, now, component);
    var recent := CallsOf(RecordCall(a, endpoint, verb, component, now).history, key);
    assert call in CallsOf(a.history, key) + [call];
    assert call in recent;
    var k :| 0 <= k < |recent| && recent[k] == call;
    assert IsDuplicate(recent[k], component, later);
  }

  /** A key with five calls in the last minute is refused to everyone. */
  lemma CapPerMinute(a: Auditor, endpoint: string, verb: string, component: string, now: int)
    requires InLastMinute(CallsOf(a.history, CallKey(endpoint, verb)), now) >= MaxCallsPerEndpoint
    ensures !ShouldAllowCall(a, endpoint, verb, component, now).allowed
  {
  }

  /** `recordCompletion`. The running average divides by `totalCalls`, the
      number of recorded calls, not by the number of completions. */
  function Complete(m: Metrics, duration: real, success: bool): (r: Metrics)
    ensures r.totalCalls == m.totalCalls && r.duplicateCalls == m.duplicateCalls
    ensures r.errors == m.errors + (if success then 0 else 1)
    ensures r.slowCalls == m.slowCalls + (if duration > SlowCallThreshold then 1 else 0)
    ensures m.totalCalls > 0 && m.average.Some? ==>
              r.average.Some? && r.average.value * (m.totalCalls as real)
                                 == m.average.value * ((m.totalCalls - 1) as real) + duration
    ensures m.totalCalls == 0 || m.average.None? ==> r.average.None?
  {
    var avg :=
      match m.average
      case None => None
      case Some(v) =>
        if m.totalCalls == 0 then None
        else Some((v * ((m.totalCalls - 1) as real) + duration) / (m.totalCalls as real));
    Metrics(m.totalCalls, m.duplicateCalls, avg, m.slowCalls + (if duration > SlowCallThreshold then 1 else 0),
            m.errors + (if success then 0 else 1))
  }

  function RecordCompletion(a: Auditor, duration: real, success: bool): (r: Auditor)
    ensures r.history == a.history && r.metrics == Complete(a.metrics, duration, success)
  {
    a.(metrics := Complete(a.metrics, duration, success))
  }

  function Sum(ds: seq<real>): real {
    if |ds| == 0 then 0.0 else Sum(ds[..|ds| - 1]) + ds[|ds| - 1]
  }

  /** From a cleared auditor, each call recorded and completed in turn. */
  function Paired(ds: seq<real>): (r: Metrics)
    ensures r.totalCalls == |ds|
  {
    if |ds| == 0 then ZeroMetrics
    else Complete(CountCall(Paired(ds[..|ds| - 1])), ds[|ds| - 1], true)
  }

  lemma SumLast(ds: seq<real>)
    requires |ds| > 0
    ensures Sum(ds) == Sum(ds[..|ds| - 1]) + ds[|ds| - 1]
  {
  }

  /** An average that, weighted by `k` calls, gives the total `s`. */
  predicate TotalIs(m: Metrics, k: nat, s: real) {
    m.average.Some? && m.average.value * (k as real) == s
  }

  /** When every completion follows its own call, the average times the
      number of calls is the total of the durations. */
  lemma {:induction false} PairedTotal(ds: seq<real>)
    ensures TotalIs(Paired(ds), |ds|, Sum(ds))
  {
    if |ds| > 0 {
      var init := ds[..|ds| - 1];
      PairedTotal(init);
      SumLast(ds);
      assert CountCall(Paired(init)).totalCalls - 1 == |init|;
    }
  }

  /** Hence the average is the mean of the durations (0 before any call). */
  lemma PairedAverage(ds: seq<real>)
    ensures |ds| > 0 ==> Paired(ds).average == Some(Sum(ds) / (|ds| as real))
    ensures |ds| == 0 ==> Paired(ds).average == Some(0.0)
  {
    if |ds| > 0 {
      PairedTotal(ds);
      MeanOf(Paired(ds), |ds|, Sum(ds));
    }
  }

  lemma MeanOf(m: Metrics, k: nat, s: real)
    requires k > 0 && TotalIs(m, k, s)
    ensures m.average == Some(s / (k as real))
  {
    var x := m.average.value;
    assert x == s / (k as real);
    assert m.average == Some(x);
  }

  /** Two calls recorded before either completes: the average of two 100 ms
      completions comes out as 75 ms. */
  lemma InterleavedAverage()
    ensures Complete(Complete(CountCall(CountCall(ZeroMetrics)), 100.0, true), 100.0, true).average == Some(75.0)
  {
  }

  /** `clear`. */
  function Clear(a: Auditor): (r: Auditor)
    ensures r.history.calls == map[] && r.metrics.totalCalls == 0 && r.metrics.duplicateCalls == 0
    ensures r.metrics.slowCalls == 0 && r.metrics.errors == 0 && r.metrics.average == Some(0.0)
    ensures Tidy(r.history)
  {
    Fresh
  }

  /** After `clear`, any call is allowed. */
  lemma ClearAllows(a: Auditor, endpoint: string, verb: string, component: string, now: int)
    ensures ShouldAllowCall(Clear(a), endpoint, verb, component, now) == Decision(true, Clear(a))
  {
  }

  // ---------------------------------------------------------------------------
  // Recent calls

  /** The calls of every key, keys in map order. */
  function Flatten(order: seq<string>, calls: map<string, seq<Call>>): (r: seq<Call>)
    ensures forall c :: c in r <==> exists k :: k in order && k in calls && c in calls[k]
  {
    if |order| == 0 then []
    else
      var rest := Flatten(order[1..], calls);
      assert forall k :: k in order <==> k == order[0] || k in order[1..];
      (if order[0] in calls then calls[order[0]] else []) + rest
  }

  function NegatedTimes(calls: seq<Call>): (r: seq<real>)
    ensures |r| == |calls| && forall k :: 0 <= k < |calls| ==> r[k] == -(calls[k].timestamp as real)
  {
    seq(|calls|, k requires 0 <= k < |calls| => -(calls[k].timestamp as real))
  }

  /** The positions of `calls`, newest first, ties in their original order. */
  function NewestOrder(calls: seq<Call>): (r: seq<nat>)
    ensures |r| == |calls| && multiset(r) == multiset(Sorting.Range(|calls|))
    ensures forall a :: 0 <= a < |r| ==> r[a] < |calls|
    ensures forall a, b :: 0 <= a < b < |r| ==> calls[r[a]].timestamp >= calls[r[b]].timestamp
    ensures forall a, b :: 0 <= a < b < |r| && calls[r[a]].timestamp == calls[r[b]].timestamp ==> r[a] < r[b]
  {
    var keys := NegatedTimes(calls);
    var order := Sorting.SortIndices(keys, Sorting.Range(|calls|));
    Sorting.SortedPairs(keys, order);
    order
  }

  /** `allCalls.sort((a, b) => b.timestamp - a.timestamp)`, a stable sort:
      the same calls as often as before, newest first, and calls with the
      same timestamp in their original order (the result reads `calls` at
      the positions `NewestOrder(calls)`). */
  function NewestFirst(calls: seq<Call>): (r: seq<Call>)
    ensures |r| == |calls|
    ensures multiset(r) == multiset(calls)
    ensures forall a, b :: 0 <= a < b < |r| ==> r[a].timestamp >= r[b].timestamp
    ensures forall a :: 0 <= a < |r| ==> r[a] == calls[NewestOrder(calls)[a]]
    ensures forall a, b :: 0 <= a < b < |r| && r[a].timestamp == r[b].timestamp ==>
              NewestOrder(calls)[a] < NewestOrder(calls)[b]
    ensures forall c :: c in r <==> c in calls
  {
    var order := NewestOrder(calls);
    var r := Sorting.Permute(calls, order);
    Sorting.PermuteMultiset(calls, order);
    Sorting.SameMembers(r, calls);
    r
  }

  /** The stable newest-first order is the only one: any rearrangement of
      the positions that puts newer calls first and keeps ties in position
      order reads the calls exactly as `NewestFirst` does. */
  lemma NewestFirstUnique(calls: seq<Call>, order: seq<nat>)
    requires multiset(order) == multiset(Sorting.Range(|calls|))
    requires forall a :: 0 <= a < |order| ==> order[a] < |calls|
    requires forall a, b :: 0 <= a < b < |order| ==> calls[order[a]].timestamp >= calls[order[b]].timestamp
    requires forall a, b :: 0 <= a < b < |order| && calls[order[a]].timestamp == calls[order[b]].timestamp ==> order[a] < order[b]
    ensures Sorting.Permute(calls, order) == NewestFirst(calls)
  {
    var keys := NegatedTimes(calls);
    NewestIsSorted(calls, order);
    Sorting.SortedUnique(keys, order, NewestOrder(calls));
  }

  /** Newest first with ties in position order is the (key, position) order
      on the negated timestamps. */
  lemma NewestIsSorted(calls: seq<Call>, order: seq<nat>)
    requires forall a :: 0 <= a < |order| ==> order[a] < |calls|
    requires forall a, b :: 0 <= a < b < |order| ==> calls[order[a]].timestamp >= calls[order[b]].timestamp
    requires forall a, b :: 0 <= a < b < |order| && calls[order[a]].timestamp == calls[order[b]].timestamp ==> order[a] < order[b]
    ensures Sorting.InRange(NegatedTimes(calls), order) && Sorting.SortedBy(NegatedTimes(calls), order)
  {
    var keys := NegatedTimes(calls);
    forall a, b | 0 <= a < b < |order| ensures Sorting.Precedes(keys, order[a], order[b]) {
      assert keys[order[a]] == -(calls[order[a]].timestamp as real);
      assert keys[order[b]] == -(calls[order[b]].timestamp as real);
    }
  }

  /** `getRecentCalls(minutes)`: the calls newer than `minutes` ago, newest first. */
  function GetRecentCalls(a: Auditor, minutes: real, now: int): (r: seq<Call>)
    ensures forall a, b :: 0 <= a < b < |r| ==> r[a].timestamp >= r[b].timestamp
    ensures forall c :: multiset(r)[c] ==
              if c.timestamp as real > now as real - minutes * 60000.0
              then multiset(Flatten(a.history.order, a.history.calls))[c] else 0
    ensures Filed(a.history) ==>
              forall c :: c in r <==> (exists k :: k in a.history.calls && c in a.history.calls[k])
                                      && c.timestamp as real > now as real - minutes * 60000.0
  {
    var cutoff := now as real - minutes * 60000.0;
    var recent := Seqs.Filter(Flatten(a.history.order, a.history.calls), NewerThan(cutoff));
    assert forall c :: NewerThan(cutoff)(c) == (c.timestamp as real > cutoff);
    var r := NewestFirst(recent);
    assert multiset(r) == multiset(recent);
    r
  }

  /** The recent calls are the stable newest-first sort of the filtered
      history, so calls with equal timestamps keep their recorded order. */
  lemma RecentCallsAreSortedFilter(a: Auditor, minutes: real, now: int)
    ensures GetRecentCalls(a, minutes, now)
            == NewestFirst(Seqs.Filter(Flatten(a.history.order, a.history.calls), NewerThan(now as real - minutes * 60000.0)))
  {
  }
}

=== FILE: py_engine.dfy ===
/** The Python assignment engines: `AssignmentService.assign_resources_generic`
    (`services/assignment_service.py`, with a byte-identical copy under
    `backup_streamlit/`) and the older `assign_resources_generic` in
    `utils/assignment.py`.

    Both make a copy of the table, backfill the dates of pre-assigned rows,
    then walk the unassigned rows by descending hours and give each the first
    resource of its pool that is under its limit and free over the row's
    span. They differ in the day count (ceiling against round-half-even), in
    where the pools come from, and in error handling: the service validates
    the frame first and wraps every failure in `ResourceError`, the older
    function lets errors through as raised. */
module PyEngine {
  import opened Wrappers
  import opened Strings
  import opened Calendar
  import opened Catalog
  import opened Greedy
  import Overlap
  import Sorting
  import UtilsConfig
  import Security

  /** A row as the engines read it. Missing or NaN cells are `None`/`Blank`;
      a frame without the resource, start or end column reads as `None` in
      every row, which is what the engine's column creation writes. */
  datatype Row = Row(
    resource: Option<string>,
    hours: real,
    available: DateCell,
    plan: DateCell,
    group: GroupCell,
    start: Option<int>,
    end: Option<int>)

  /** The optional columns the frame has, and the name of the hours column. */
  datatype Columns = Columns(hoursCol: string, hasHours: bool, hasAvailable: bool, hasGroup: bool)

  /** What one call works with besides the rows: the day count of the
      variant, the holiday days, the frame's columns, whether group mode is
      on, the group pools and the flat pool. */
  datatype Setup = Setup(days: DaysRule, holidays: set<int>, cols: Columns, useGroup: bool, groups: GroupTable, flat: Pool)

  /** The exceptions the engines raise. */
  datatype PyError = ResourceError(msg: string) | AttributeError(msg: string) | KeyError(key: string)

  /** `str(e)`: a `KeyError` shows its key in quotes. */
  function Message(e: PyError): (r: string)
    ensures e.KeyError? ==> |r| == |e.key| + 2 && r[0] == '\'' && r[1..|r| - 1] == e.key
    ensures !e.KeyError? ==> r == e.msg
  {
    match e
    case ResourceError(m) => m
    case AttributeError(m) => m
    case KeyError(k) => "'" + k + "'"
  }

  // ---------------------------------------------------------------------------
  // Reading a row

  /** `row.get(hours_col, 8.0)`. */
  function HoursOf(cols: Columns, row: Row): real {
    if cols.hasHours then row.hours else 8.0
  }

  /** `row.get(available_col, row.get(plan_col))`: the plan date is read only
      when the available-date column is absent, not when its cell is empty. */
  function BaseOf(cols: Columns, row: Row): DateCell {
    if cols.hasAvailable then row.available else row.plan
  }

  /** The span the engine computes for a row: Saturday/Sunday weekends and
      the variant's day count. */
  function RowSpan(s: Setup, row: Row): (r: Option<(int, int)>)
    ensures r.Some? <==> BaseOf(s.cols, row).Day? && HoursOf(s.cols, row) > 0.0
    ensures r.Some? ==> IsSpan(SatSun, s.holidays, BaseOf(s.cols, row).day, DayCount(s.days, HoursOf(s.cols, row)), r.value.0, r.value.1)
  {
    WorkingDates(SatSun, s.days, s.holidays, BaseOf(s.cols, row), HoursOf(s.cols, row))
  }

  // ---------------------------------------------------------------------------
  // Backfilling pre-assigned rows

  /** A pre-assigned row missing either date gets both recomputed from its
      base date, when the base is present; a base that yields no span (not
      a date, or hours not positive) writes `None` to both. */
  function Backfill(s: Setup, row: Row): (r: Row)
    ensures r.resource == row.resource && r.hours == row.hours && r.available == row.available
    ensures r.plan == row.plan && r.group == row.group
    ensures (row.start.Some? && row.end.Some?) || BaseOf(s.cols, row).Blank? ==> r == row
    ensures (row.start.None? || row.end.None?) && !BaseOf(s.cols, row).Blank? ==>
      (r.start.Some? <==> BaseOf(s.cols, row).Day? && HoursOf(s.cols, row) > 0.0) && (r.start.Some? <==> r.end.Some?)
    ensures (row.start.None? || row.end.None?) && !BaseOf(s.cols, row).Blank? && r.start.Some? ==>
      IsSpan(SatSun, s.holidays, BaseOf(s.cols, row).day, DayCount(s.days, HoursOf(s.cols, row)), r.start.value, r.end.value)
  {
    if (row.start.None? || row.end.None?) && !BaseOf(s.cols, row).Blank? then
      match RowSpan(s, row)
      case None => row.(start := None, end := None)
      case Some((st, e)) => row.(start := Some(st), end := Some(e))
    else row
  }

  function BackfillAll(s: Setup, rows: seq<Row>): (r: seq<Row>)
    ensures |r| == |rows|
    ensures forall i :: 0 <= i < |rows| ==> r[i] == if Preassigned(rows[i].resource) then Backfill(s, rows[i]) else rows[i]
  {
    seq(|rows|, i requires 0 <= i < |rows| =>
      if Preassigned(rows[i].resource) then Backfill(s, rows[i]) else rows[i])
  }

  // ---------------------------------------------------------------------------
  // The order of the unassigned rows

  predicate Unassigned(rows: seq<Row>, i: int) {
    0 <= i < |rows| && !Preassigned(rows[i].resource)
  }

  /** An order pandas may produce: every unassigned row exactly once, hours
      never increasing. Ties come in no particular order. */
  predicate PandasOrder(rows: seq<Row>, order: seq<nat>) {
    && (forall a :: 0 <= a < |order| ==> Unassigned(rows, order[a]))
    && (forall i :: 0 <= i < |rows| && !Preassigned(rows[i].resource) ==> i in order)
    && (forall a, b :: 0 <= a < b < |order| ==> order[a] != order[b])
    && (forall a, b :: 0 <= a < b < |order| ==> rows[order[a]].hours >= rows[order[b]].hours)
  }

  /** The sort key: smaller key first means more hours first. */
  function NegHours(rows: seq<Row>): (r: seq<real>)
    ensures |r| == |rows| && forall i :: 0 <= i < |rows| ==> r[i] == -rows[i].hours
  {
    seq(|rows|, i requires 0 <= i < |rows| => -rows[i].hours)
  }

  /** A list sorted by the negated hours has hours never increasing, and
      equal hours in increasing position. */
  lemma SortedByHours(rows: seq<Row>, r: seq<nat>)
    requires Sorting.InRange(NegHours(rows), r) && Sorting.SortedBy(NegHours(rows), r)
    ensures forall a, b :: 0 <= a < b < |r| ==> rows[r[a]].hours >= rows[r[b]].hours
    ensures forall a, b :: 0 <= a < b < |r| && rows[r[a]].hours == rows[r[b]].hours ==> r[a] < r[b]
  {
    Sorting.SortedPairs(NegHours(rows), r);
  }

  /** A stable sort by descending hours: ties keep table order. */
  function StableOrder(rows: seq<Row>): (r: seq<nat>)
    ensures PandasOrder(rows, r)
    ensures forall a, b :: 0 <= a < b < |r| && rows[r[a]].hours == rows[r[b]].hours ==> r[a] < r[b]
  {
    var un := UnassignedIndices(TasksOf(rows));
    var keys := NegHours(rows);
    assert Sorting.InRange(keys, un) && Sorting.Distinct(un);
    var r := Sorting.SortIndices(keys, un);
    SortedIsPandas(rows, un, r);
    r
  }

  lemma SortedIsPandas(rows: seq<Row>, un: seq<nat>, r: seq<nat>)
    requires un == UnassignedIndices(TasksOf(rows))
    requires Sorting.InRange(NegHours(rows), r) && Sorting.SortedBy(NegHours(rows), r)
    requires multiset(r) == multiset(un)
    ensures PandasOrder(rows, r)
    ensures forall a, b :: 0 <= a < b < |r| && rows[r[a]].hours == rows[r[b]].hours ==> r[a] < r[b]
  {
    Sorting.SameMembers(r, un);
    Sorting.SortedByDistinct(NegHours(rows), r);
    SortedByHours(rows, r);
    assert forall a :: 0 <= a < |r| ==> Unassigned(rows, r[a]) by {
      forall a | 0 <= a < |r| ensures Unassigned(rows, r[a]) {
        assert r[a] in un;
      }
    }
    assert forall i :: 0 <= i < |rows| && !Preassigned(rows[i].resource) ==> i in r by {
      forall i | 0 <= i < |rows| && !Preassigned(rows[i].resource) ensures i in r {
        assert Unassigned(rows, i);
        assert i in un;
      }
    }
  }

  // ---------------------------------------------------------------------------
  // Pools

  /** `config.get("max_tasks", 15)` for every entry, in pool order. */
  function LimitsOf(p: Pool): (r: Limits)
    ensures |r| == |p|
    ensures forall k :: 0 <= k < |p| ==> r[k].0 == p[k].0 && r[k].1 == p[k].1.maxTasks.GetOr(15)
  {
    seq(|p|, k requires 0 <= k < |p| => (p[k].0, p[k].1.maxTasks.GetOr(15)))
  }

  /** The pool of one row: its group's pool in group mode (only when the
      frame has the group column), the flat pool otherwise. */
  function RowPool(s: Setup, row: Row): (r: Result<Pool, PyError>)
    ensures r.Err? <==> s.useGroup && s.cols.hasGroup && row.group.NaNGroup?
    ensures r.Err? ==> r.error == AttributeError(Catalog.AttributeError)
    ensures !(s.useGroup && s.cols.hasGroup) ==> r == Ok(s.flat)
    ensures s.useGroup && s.cols.hasGroup && r.Ok? ==> r.value == GroupLookup(s.groups, row.group).value
  {
    if s.useGroup && s.cols.hasGroup then
      match GroupLookup(s.groups, row.group)
      case Ok(p) => Ok(p)
      case Err(m) => Err(AttributeError(m))
    else Ok(s.flat)
  }

  /** `_get_resource_config`: the merged developers for a developer plan, the
      testers otherwise. */
  function ServiceFlatPool(groups: GroupTable, testers: Pool, resourceTitle: string): (r: Pool)
    ensures Contains(resourceTitle, "Developer") ==> r == groups.fallback
    ensures !Contains(resourceTitle, "Developer") ==> r == testers
  {
    if Contains(resourceTitle, "Developer") then groups.fallback else testers
  }

  // ---------------------------------------------------------------------------
  // The pass

  /** A visited row raises: its base date is present (so the row is not
      skipped) and its pool lookup fails. Any such row aborts the whole call,
      whatever came before it. */
  predicate LoopFails(s: Setup, rows: seq<Row>, order: seq<nat>)
    requires forall a :: 0 <= a < |order| ==> order[a] < |rows|
  {
    exists a :: 0 <= a < |order| && !BaseOf(s.cols, rows[order[a]]).Blank? && RowPool(s, rows[order[a]]).Err?
  }

  function TaskOf(row: Row): Task {
    Task(row.resource, row.start, row.end)
  }

  function TasksOf(rows: seq<Row>): (r: seq<Task>)
    ensures |r| == |rows| && forall i :: 0 <= i < |rows| ==> r[i] == TaskOf(rows[i])
  {
    seq(|rows|, i requires 0 <= i < |rows| => TaskOf(rows[i]))
  }

  /** The limits the pass consults for each row; a row whose lookup fails is
      never reached on a successful call. */
  function PoolsOf(s: Setup, rows: seq<Row>): (r: seq<Limits>)
    ensures |r| == |rows|
    ensures forall i :: 0 <= i < |rows| ==> r[i] == match RowPool(s, rows[i]) case Ok(p) => LimitsOf(p) case Err(_) => []
  {
    seq(|rows|, i requires 0 <= i < |rows| =>
      match RowPool(s, rows[i]) case Ok(p) => LimitsOf(p) case Err(_) => [])
  }

  function SpansOfRows(s: Setup, rows: seq<Row>): (r: seq<Option<(int, int)>>)
    ensures |r| == |rows| && forall i :: 0 <= i < |rows| ==> r[i] == RowSpan(s, rows[i])
  {
    seq(|rows|, i requires 0 <= i < |rows| => RowSpan(s, rows[i]))
  }

  /** Writes the pass's three columns back into the rows. */
  function Merge(rows: seq<Row>, tasks: seq<Task>): (r: seq<Row>)
    requires |tasks| == |rows|
    ensures |r| == |rows|
    ensures forall i :: 0 <= i < |rows| ==> TaskOf(r[i]) == tasks[i]
    ensures forall i :: 0 <= i < |rows| ==> r[i] == rows[i].(resource := tasks[i].resource, start := tasks[i].start, end := tasks[i].end)
  {
    seq(|rows|, i requires 0 <= i < |rows| => rows[i].(resource := tasks[i].resource, start := tasks[i].start, end := tasks[i].end))
  }

  /** The pass proper on backfilled rows, before any error is considered. */
  function Pass(s: Setup, b: seq<Row>, order: seq<nat>): (r: seq<Task>)
    requires forall a :: 0 <= a < |order| ==> order[a] < |b|
    ensures |r| == |b|
  {
    Run(TasksOf(b), order, PoolsOf(s, b), SpansOfRows(s, b), false)
  }

  /** `assign_resources_generic` without the service's validation and
      wrapping: the whole of `utils/assignment.py`, and the body of the
      service's `try`. The caller's rows are not modified; a new table is
      returned. */
  function AssignRows(s: Setup, rows: seq<Row>, order: seq<nat>): (r: Result<seq<Row>, PyError>)
    requires PandasOrder(rows, order)
    ensures r.Err? <==> |order| > 0 && (!s.cols.hasHours || LoopFails(s, rows, order))
    ensures r.Err? && !s.cols.hasHours ==> r.error == KeyError(s.cols.hoursCol)
    ensures r.Err? && s.cols.hasHours ==> r.error == AttributeError(Catalog.AttributeError)
    ensures r.Ok? ==> |r.value| == |rows|
    ensures |order| == 0 ==> r == Ok(BackfillAll(s, rows))
  {
    var b := BackfillAll(s, rows);
    if |order| == 0 then Ok(b)
    else if !s.cols.hasHours then Err(KeyError(s.cols.hoursCol))
    else if LoopFails(s, rows, order) then Err(AttributeError(Catalog.AttributeError))
    else Ok(Merge(b, Pass(s, b, order)))
  }

  /** `utils/assignment.py`: round-half-even days, the group pools of
      `utils/config.py`, the flat pool given by the caller, errors as raised. */
  function StreamlitAssign(rows: seq<Row>, cols: Columns, holidays: set<int>, useGroup: bool, resourceConfig: Pool, order: seq<nat>): (r: Result<seq<Row>, PyError>)
    requires PandasOrder(rows, order)
    ensures r.Err? ==> r.error.KeyError? || r.error == AttributeError(Catalog.AttributeError)
    ensures !useGroup ==> (r.Err? <==> |order| > 0 && !cols.hasHours)
  {
    var r := AssignRows(Setup(HalfEven, holidays, cols, useGroup, UtilsConfig.AppCatalogue(), resourceConfig), rows, order);
    assert !useGroup && |order| > 0 && cols.hasHours ==> r.Ok?;
    r
  }

  const FailedToAssign := "Failed to assign resources: "

  /** `AssignmentService.assign_resources_generic`: `validate_dataframe` on
      the frame first (`None` for a missing frame; `rows` are its rows), then
      the pass with ceiling days, the given group pools and the plan's flat
      pool; every failure comes back as `ResourceError` carrying `str(e)`.
      `show` renders a set of column names as Python prints it. */
  function ServiceAssign(rows: seq<Row>, cols: Columns, holidays: set<int>, useGroup: bool, groups: GroupTable, testers: Pool,
                         resourceTitle: string, frame: Option<Security.Frame>, show: set<string> -> string,
                         order: seq<nat>): (r: Result<seq<Row>, PyError>)
    requires PandasOrder(rows, order)
    requires frame.Some? && |frame.value.columns| > 0 ==> |frame.value.columns[0].cells| == |rows|
    ensures r.Err? ==> r.error.ResourceError? && StartsWith(r.error.msg, FailedToAssign)
    ensures |rows| == 0 || frame.None? ==> r == Err(ResourceError(FailedToAssign + Security.EmptyFrameText))
    ensures Security.ValidateDataframe(frame).Err? ==>
      r == Err(ResourceError(FailedToAssign + Security.FrameMessage(Security.ValidateDataframe(frame).error, show)))
    ensures Security.ValidateDataframe(frame).Ok? && |order| > 0 && !cols.hasHours ==>
      r == Err(ResourceError(FailedToAssign + Message(KeyError(cols.hoursCol))))
    ensures Security.ValidateDataframe(frame).Ok? ==>
      (r.Ok? <==> AssignRows(Setup(Ceiling, holidays, cols, useGroup, groups, ServiceFlatPool(groups, testers, resourceTitle)), rows, order).Ok?)
    ensures r.Ok? ==>
      r.value == AssignRows(Setup(Ceiling, holidays, cols, useGroup, groups, ServiceFlatPool(groups, testers, resourceTitle)), rows, order).value
  {
    match Security.ValidateDataframe(frame)
    case Err(p) => Err(ResourceError(FailedToAssign + Security.FrameMessage(p, show)))
    case Ok(_) =>
      match AssignRows(Setup(Ceiling, holidays, cols, useGroup, groups, ServiceFlatPool(groups, testers, resourceTitle)), rows, order)
      case Ok(out) => Ok(out)
      case Err(e) => Err(ResourceError(FailedToAssign + Message(e)))
  }

  // ---------------------------------------------------------------------------
  // Properties of a successful call

  /** Only the resource, start and end columns are written, and the row
      order is kept. */
  lemma AssignWritesThreeColumns(s: Setup, rows: seq<Row>, order: seq<nat>, i: nat)
    requires PandasOrder(rows, order)
    requires AssignRows(s, rows, order).Ok? && i < |rows|
    ensures var out := AssignRows(s, rows, order).value;
      out[i] == rows[i].(resource := out[i].resource, start := out[i].start, end := out[i].end)
  {
  }

  /** A pre-assigned row keeps its resource; its dates are the backfilled ones. */
  lemma AssignKeepsPreassigned(s: Setup, rows: seq<Row>, order: seq<nat>, i: nat)
    requires PandasOrder(rows, order)
    requires AssignRows(s, rows, order).Ok?
    requires i < |rows| && Preassigned(rows[i].resource)
    ensures AssignRows(s, rows, order).value[i] == Backfill(s, rows[i])
  {
    var b := BackfillAll(s, rows);
    if |order| > 0 {
      assert forall a :: 0 <= a < |order| ==> order[a] != i;
      RunKeeps(TasksOf(b), order, PoolsOf(s, b), SpansOfRows(s, b), false, i);
    }
  }

  /** A successful call with rows to place is the pass on the backfilled rows. */
  lemma AssignIsPass(s: Setup, rows: seq<Row>, order: seq<nat>)
    requires PandasOrder(rows, order)
    requires AssignRows(s, rows, order).Ok? && |order| > 0
    ensures var b := BackfillAll(s, rows);
      TasksOf(AssignRows(s, rows, order).value) == Pass(s, b, order)
  {
    var b := BackfillAll(s, rows);
    var t := Pass(s, b, order);
    assert AssignRows(s, rows, order).value == Merge(b, t);
    assert TasksOf(Merge(b, t)) == t;
  }

  /** Backfilling touches no column the pool lookup or the span reads. */
  lemma BackfillKeepsInputs(s: Setup, rows: seq<Row>)
    ensures PoolsOf(s, BackfillAll(s, rows)) == PoolsOf(s, rows)
    ensures SpansOfRows(s, BackfillAll(s, rows)) == SpansOfRows(s, rows)
  {
    var b := BackfillAll(s, rows);
    assert forall i :: 0 <= i < |rows| ==> RowPool(s, b[i]) == RowPool(s, rows[i]);
    assert forall i :: 0 <= i < |rows| ==> RowSpan(s, b[i]) == RowSpan(s, rows[i]);
  }

  /** An unassigned row either stays as it was or gets a resource of its own
      pool and exactly the span its base date and hours give. A row with no
      base date is never touched. */
  lemma AssignUnassignedRow(s: Setup, rows: seq<Row>, order: seq<nat>, i: nat)
    requires PandasOrder(rows, order) && i < |rows|
    ensures var res := AssignRows(s, rows, order);
      res.Ok? && !Preassigned(rows[i].resource) ==>
        && (|| res.value[i] == rows[i]
            || (&& RowSpan(s, rows[i]).Some?
                && res.value[i].start == Some(RowSpan(s, rows[i]).value.0)
                && res.value[i].end == Some(RowSpan(s, rows[i]).value.1)
                && res.value[i].resource.Some?
                && RowPool(s, rows[i]).Ok?
                && res.value[i].resource.value in NameSet(RowPool(s, rows[i]).value)))
        && (BaseOf(s.cols, rows[i]).Blank? ==> res.value[i] == rows[i])
  {
    if AssignRows(s, rows, order).Ok? && !Preassigned(rows[i].resource) {
      var b := BackfillAll(s, rows);
      assert b[i] == rows[i];
      if |order| > 0 {
        AssignIsPass(s, rows, order);
        BackfillKeepsInputs(s, rows);
        var t := Pass(s, b, order);
        if t[i] != TaskOf(rows[i]) {
          var a :| 0 <= a < |order| && order[a] == i;
          assert RowPool(s, rows[i]).Ok?;
          LimitsNames(RowPool(s, rows[i]).value, t[i].resource.value);
        }
      }
    }
  }

  lemma LimitsNames(p: Pool, name: string)
    requires InPool(name, LimitsOf(p))
    ensures name in NameSet(p)
  {
    var k :| 0 <= k < |p| && LimitsOf(p)[k].0 == name;
    assert p[k].0 == name;
  }

  /** Every pool row `i` may consult limits `name` to at most `bound` tasks
      (an entry without `max_tasks` counts as 15). */
  predicate LimitAtMost(s: Setup, rows: seq<Row>, name: string, bound: int) {
    forall i, k :: 0 <= i < |rows| && RowPool(s, rows[i]).Ok? && 0 <= k < |RowPool(s, rows[i]).value| ==>
      (RowPool(s, rows[i]).value[k].0 == name ==> RowPool(s, rows[i]).value[k].1.maxTasks.GetOr(15) <= bound)
  }

  /** Capacity: when every pool the call can consult limits `name` to at most
      `bound` tasks, the call leaves `name` with at most `bound` rows, or
      with no more than it had. Existing overloads are not repaired. */
  lemma AssignCapacity(s: Setup, rows: seq<Row>, order: seq<nat>, name: string, bound: int)
    requires PandasOrder(rows, order)
    requires AssignRows(s, rows, order).Ok?
    requires LimitAtMost(s, rows, name, bound)
    ensures var c := CountOf(TasksOf(rows), name);
      CountOf(TasksOf(AssignRows(s, rows, order).value), name) <= if c < bound then bound else c
  {
    var b := BackfillAll(s, rows);
    var tasks := TasksOf(b);
    CountSameResources(tasks, TasksOf(rows), name);
    if |order| > 0 {
      BackfillKeepsInputs(s, rows);
      LimitsCarryOver(s, rows, order, name, bound);
      AssignIsPass(s, rows, order);
      RunCapacity(tasks, order, PoolsOf(s, b), SpansOfRows(s, b), false, name, bound);
    }
  }

  lemma LimitsCarryOver(s: Setup, rows: seq<Row>, order: seq<nat>, name: string, bound: int)
    requires IndicesIn(order, |rows|) && LimitAtMost(s, rows, name, bound)
    ensures LimitsBounded(order, PoolsOf(s, rows), name, bound)
  {
    var pools: seq<Limits> := PoolsOf(s, rows);
    forall a, k | 0 <= a < |order| && 0 <= k < |pools[order[a]]| && pools[order[a]][k].0 == name
      ensures pools[order[a]][k].1 <= bound
    {
      var i := order[a];
      assert RowPool(s, rows[i]).Ok?;
    }
  }

  /** No new overlap: a row the call assigns overlaps no other row that ends
      up with the same resource. Rows that already overlapped, and rows with
      a missing date, are left as they are. */
  lemma AssignNoNewOverlap(s: Setup, rows: seq<Row>, order: seq<nat>)
    requires PandasOrder(rows, order)
    requires AssignRows(s, rows, order).Ok?
    ensures NoNewOverlap(TasksOf(BackfillAll(s, rows)), TasksOf(AssignRows(s, rows, order).value))
  {
    var b := BackfillAll(s, rows);
    if |order| > 0 {
      RunNoNewOverlap(TasksOf(b), order, PoolsOf(s, b), SpansOfRows(s, b), false);
    }
  }
}

=== FILE: security.dfy ===
/** The security-first validator of the Streamlit back end
    (`SecurityValidator`): upload checks, data-frame checks, the injection
    scan of text columns, input sanitising, the email pattern and the
    permission check. Exceptions become `Err(Problem)`; the class of the
    exception (`SecurityError` or `ValidationError`) is `KindOf`. */
module Security {
  import opened Wrappers
  import opened Strings
  import Models

  datatype Kind = SecurityError | ValidationError

  /** Why a check failed; each alternative is one `raise` of the source. */
  datatype Problem =
    | NoFile
    | InvalidFileType(ext: string)
    | FileTooLarge(bytes: nat)
    | EmptyOrNone
    | MissingColumns(columns: set<string>)
    | SuspiciousColumns(columns: set<string>)
    | InvalidDataType(column: string, typeName: string)
    | ValueTooLong(column: string)
    | SuspiciousContent(column: string)

  function KindOf(p: Problem): Kind {
    match p
    case EmptyOrNone | MissingColumns(_) | InvalidDataType(_, _) => ValidationError
    case _ => SecurityError
  }

  // ---------------------------------------------------------------------------
  // Uploads

  const AllowedFileExtensions: set<string> := {".csv", ".xlsx", ".xls"}
  const MaxFileSizeMb: nat := 50
  const BytesPerMb: nat := 1024 * 1024

  /** The last path component (`PurePath.name`). */
  function BaseName(path: string): (r: string)
    ensures EndsWith(path, r)
    ensures forall k :: 0 <= k < |r| ==> r[k] != '/'
    ensures |r| < |path| ==> path[|path| - |r| - 1] == '/'
  {
    match Models.LastIndexOf(path, '/')
    case None => path
    case Some(i) => path[i + 1..]
  }

  /** `PurePath.suffix`: from the last `.` of the name, provided that dot is
      neither the first nor the last character of the name. */
  function Suffix(path: string): (r: string)
    ensures r != "" ==> |r| >= 2 && r[0] == '.' && EndsWith(BaseName(path), r) && |r| < |BaseName(path)|
    ensures r != "" ==> forall k :: 1 <= k < |r| ==> r[k] != '.' && r[k] != '/'
  {
    var name := BaseName(path);
    match Models.LastIndexOf(name, '.')
    case None => ""
    case Some(i) => if 0 < i < |name| - 1 then name[i..] else ""
  }

  /** The part of an uploaded file the validator looks at. */
  datatype Upload = Upload(name: string, size: nat)

  /** `len(content) / (1024 * 1024) > 50`, in true division. */
  predicate TooLarge(size: nat) {
    (size as real) / (BytesPerMb as real) > MaxFileSizeMb as real
  }

  lemma TooLargeIff(size: nat)
    ensures TooLarge(size) <==> size > 52428800
  {
    var x := (size as real) / (BytesPerMb as real);
    assert size as real == x * 1048576.0;
  }

  function ValidateFileUpload(file: Option<Upload>): (r: Result<(), Problem>)
    ensures file.None? <==> r == Err(NoFile)
    ensures r.Ok? <==> file.Some? && Lower(Suffix(file.value.name)) in AllowedFileExtensions
                       && file.value.size <= 52428800
    ensures r.Err? && r.error.InvalidFileType? ==> r.error.ext !in AllowedFileExtensions
    ensures r.Err? && r.error.FileTooLarge? ==> r.error.bytes > 52428800
    ensures r.Err? ==> KindOf(r.error) == SecurityError
  {
    match file
    case None => Err(NoFile)
    case Some(f) =>
      var ext := Lower(Suffix(f.name));
      TooLargeIff(f.size);
      if ext !in AllowedFileExtensions then Err(InvalidFileType(ext))
      else if TooLarge(f.size) then Err(FileTooLarge(f.size))
      else Ok(())
  }

  /** A name ending in a dot and an extension has that extension as its
      suffix; a name that is only a dot and an extension has none. */
  lemma SuffixOfExtension(stem: string, ext: string)
    requires |ext| >= 2 && ext[0] == '.'
    requires forall k :: 1 <= k < |ext| ==> ext[k] != '.' && ext[k] != '/'
    ensures stem != "" && stem[|stem| - 1] != '/' ==> Suffix(stem + ext) == ext
    ensures Suffix("/" + ext) == "" && Suffix(ext) == ""
  {
    if stem != "" && stem[|stem| - 1] != '/' {
      StemSuffix(stem, ext);
    }
    SlashSuffix(ext);
    SuffixOfName(ext, ext);
  }

  lemma StemSuffix(stem: string, ext: string)
    requires |ext| >= 2 && ext[0] == '.'
    requires forall k :: 1 <= k < |ext| ==> ext[k] != '.' && ext[k] != '/'
    requires stem != "" && stem[|stem| - 1] != '/'
    ensures Suffix(stem + ext) == ext
  {
    var path := stem + ext;
    assert path[|stem|..] == ext;
    assert path[|stem| - 1] == stem[|stem| - 1];
    SuffixOfName(path, ext);
  }

  lemma SlashSuffix(ext: string)
    requires |ext| >= 2 && ext[0] == '.'
    requires forall k :: 1 <= k < |ext| ==> ext[k] != '.' && ext[k] != '/'
    ensures Suffix("/" + ext) == ""
  {
    var path := "/" + ext;
    assert path[1..] == ext && path[0] == '/';
    var name := BaseName(path);
    assert |name| < |path|;
    SuffixOfName(path, ext);
  }

  lemma SuffixOfName(path: string, ext: string)
    requires |ext| >= 2 && ext[0] == '.'
    requires forall k :: 1 <= k < |ext| ==> ext[k] != '.' && ext[k] != '/'
    requires EndsWith(path, ext)
    ensures |BaseName(path)| >= |ext|
    ensures |BaseName(path)| > |ext| ==> Suffix(path) == ext
    ensures |BaseName(path)| == |ext| ==> Suffix(path) == ""
  {
    var name := BaseName(path);
    LastSlashBeforeExtension(path, ext);
    assert EndsWith(name, ext);
    LastDotOfExtension(name, ext);
    var i := |name| - |ext|;
    SuffixAt(path, i);
    if |name| > |ext| {
      assert 0 < i < |name| - 1;
      assert name[i..] == ext;
    } else {
      assert i == 0;
    }
  }

  lemma SuffixAt(path: string, i: nat)
    requires Models.LastIndexOf(BaseName(path), '.') == Some(i)
    ensures 0 < i < |BaseName(path)| - 1 ==> Suffix(path) == BaseName(path)[i..]
    ensures !(0 < i < |BaseName(path)| - 1) ==> Suffix(path) == ""
  {
  }

  lemma {:induction false} LastDotOfExtension(path: string, ext: string)
    requires |ext| >= 2 && ext[0] == '.'
    requires forall k :: 1 <= k < |ext| ==> ext[k] != '.'
    requires EndsWith(path, ext)
    ensures Models.LastIndexOf(path, '.') == Some(|path| - |ext|)
    decreases |ext|
  {
    var short := path[..|path| - 1];
    assert path[|path| - 1] == ext[|ext| - 1] != '.';
    if |ext| == 2 {
      assert short[|short| - 1] == '.';
    } else {
      assert EndsWith(short, ext[..|ext| - 1]) by {
        assert short[|short| - (|ext| - 1)..] == path[|path| - |ext|..|path| - 1];
      }
      LastDotOfExtension(short, ext[..|ext| - 1]);
    }
  }

  lemma {:induction false} LastSlashBeforeExtension(path: string, ext: string)
    requires forall k :: 0 <= k < |ext| ==> ext[k] != '/'
    requires EndsWith(path, ext)
    ensures EndsWith(BaseName(path), ext)
    decreases |ext|
  {
    if |ext| > 0 {
      var short := path[..|path| - 1];
      assert path[|path| - 1] == ext[|ext| - 1];
      assert EndsWith(short, ext[..|ext| - 1]) by {
        assert short[|short| - (|ext| - 1)..] == path[|path| - |ext|..|path| - 1];
      }
      LastSlashBeforeExtension(short, ext[..|ext| - 1]);
      assert Models.LastIndexOf(path, '/') == Models.LastIndexOf(short, '/');
    }
  }

  // ---------------------------------------------------------------------------
  // Data frames

  datatype Cell = Null | Str(s: string) | NonStr(typeName: string)
  datatype Column = Column(name: string, cells: seq<Cell>)
  /** A data frame as its columns in order; every column has one cell per row. */
  datatype Frame = Frame(columns: seq<Column>)

  function Names(df: Frame): (r: set<string>)
    ensures forall k :: 0 <= k < |df.columns| ==> df.columns[k].name in r
    ensures forall n :: n in r ==> exists k :: 0 <= k < |df.columns| && df.columns[k].name == n
  {
    set k | 0 <= k < |df.columns| :: df.columns[k].name
  }

  /** `DataFrame.empty`: no columns or no rows. */
  predicate IsEmpty(df: Frame) {
    |df.columns| == 0 || |df.columns[0].cells| == 0
  }

  const RequiredColumns: set<string> := {"PROY", "Módulo"}
  const TextColumns: seq<string> := ["PROY", "Módulo", "grupo_dev"]
  const SuspiciousNameParts: seq<string> := ["script", "javascript", "onclick", "onload", "eval"]

  const AllowedColumns: set<string> := {
    "PROY", "Módulo", "grupo_dev", "plan_abap_dev_time", "esfu_disponible",
    "plan_abap_dev_ini", "plan_abap_dev_fin", "plan_abap_pu_time",
    "available_test_date", "plan_abap_pu_ini", "plan_abap_pu_fin",
    "Titulo", "abap_asignado", "real_abap_dev_ini", "real_abap_pu_ini",
    "Frente", "Mesa Principal", "Mesas Adicionales", "Bloque", "Orden", "ID",
    "Descripción", "Tiempo Consultor Funcional", "Tipo de Desarrollo",
    "Sistema Destino / Origen", "Tipos desarrollo 2", "Criticidad",
    "Estatus RFP", "Go Live", "TI", "PO", "Key User ",
    "Fecha Inicio Plan", "Fecha Fin Plan", " Fecha Fin Replan ",
    "Fecha Fin Real", "Fecha Inicio Plan Desarrollo", "Fecha Fin Plan Desarrollo",
    "Fecha Fin Desarrollo", "Fecha Fin Plan v2 Dev", "Fecha Aprobacion Plan *",
    "Fecha Aprobacion Real", "Fecha Aprobacion Real *", "Fecha de probación Replan",
    "Fecha envío a Pluz Plan", "Fech envío a Pluz Real",
    "Consultor NTT", "Fech. Ini. Plan Consultor", "Fech. Fin Plan Consultor",
    "Fech. Fin Replan Consultor",
    "Estatus REQ", "Estatus Final EF", "Estatus Desarrollo",
    "Observaciones/Comentarios1", "Observaciones", "Observaciones2",
    "Comentario",
    "Recurso ABAP", "real_abap_dev_fin",
    "plan_cpi_dev_time", "plan_cpi_pu_time", "plan_cpi_dev_ini",
    "plan_cpi_dev_fin", "real_cpi_pu_ini", "real_cpi_pu_fin",
    "Semana", "Transacción", "Clave", "pu_ini"
  }

  predicate SuspiciousName(name: string) {
    exists p | p in SuspiciousNameParts :: Contains(Lower(name), p)
  }

  /** Columns outside the allow-list whose lower-cased name holds a script word. */
  function TrulySuspicious(df: Frame): (r: set<string>)
    ensures forall n :: n in r <==> n in Names(df) && n !in AllowedColumns && SuspiciousName(n)
  {
    set n | n in Names(df) && n !in AllowedColumns && SuspiciousName(n)
  }

  lemma NonEmptyDifference<T>(a: set<T>, b: set<T>)
    requires a - b != {}
    ensures !(a <= b)
  {
    var x :| x in a - b;
  }

  lemma EmptyDifference<T>(a: set<T>, b: set<T>)
    requires a - b == {}
    ensures a <= b
  {
    forall x | x in a ensures x in b {
      assert x !in a - b;
    }
  }

  // The injection scan of one text value (`re.search(..., re.IGNORECASE)`)

  const LiteralPatterns: seq<string> :=
    ["<script", "javascript:", "data:text/html", "vbscript:", "<iframe", "<object", "<embed"]

  /** Regular-expression `\w` restricted to ASCII. */
  predicate IsWordChar(c: char) {
    Models.IsAsciiLetter(c) || Models.IsAsciiDigit(c) || c == '_'
  }

  /** Length of the run of word characters starting at `p`. */
  function WordRun(s: string, p: nat): (r: nat)
    requires p <= |s|
    ensures p + r <= |s|
    ensures forall k :: p <= k < p + r ==> IsWordChar(s[k])
    ensures p + r == |s| || !IsWordChar(s[p + r])
    decreases |s| - p
  {
    if p < |s| && IsWordChar(s[p]) then 1 + WordRun(s, p + 1) else 0
  }

  /** Length of the run of whitespace (`\s`) starting at `p`. */
  function SpaceRun(s: string, p: nat): (r: nat)
    requires p <= |s|
    ensures p + r <= |s|
    ensures forall k :: p <= k < p + r ==> IsPySpace(s[k])
    ensures p + r == |s| || !IsPySpace(s[p + r])
    decreases |s| - p
  {
    if p < |s| && IsPySpace(s[p]) then 1 + SpaceRun(s, p + 1) else 0
  }

  /** `on\w+\s*=` matches at `i`, found greedily. */
  predicate HandlerAt(s: string, i: nat) {
    && i + 2 <= |s| && LowerChar(s[i]) == 'o' && LowerChar(s[i + 1]) == 'n'
    && var w := WordRun(s, i + 2);
    && w >= 1
    && var k := i + 2 + w + SpaceRun(s, i + 2 + w);
    && k < |s| && s[k] == '='
  }

  /** The language of `on\w+\s*=` at `i`: "on", word characters up to `j`,
      whitespace up to `k`, then `=`. */
  ghost predicate HandlerSplit(s: string, i: nat, j: nat, k: nat) {
    && i + 2 < j <= k < |s|
    && LowerChar(s[i]) == 'o' && LowerChar(s[i + 1]) == 'n'
    && (forall m :: i + 2 <= m < j ==> IsWordChar(s[m]))
    && (forall m :: j <= m < k ==> IsPySpace(s[m]))
    && s[k] == '='
  }

  /** The greedy scan finds a match exactly when the pattern has one. */
  lemma HandlerAtIff(s: string, i: nat)
    ensures HandlerAt(s, i) <==> exists j: nat, k: nat :: HandlerSplit(s, i, j, k)
  {
    if HandlerAt(s, i) {
      HandlerAtSplits(s, i);
    }
    if exists j: nat, k: nat :: HandlerSplit(s, i, j, k) {
      var j: nat, k: nat :| HandlerSplit(s, i, j, k);
      SplitIsHandler(s, i, j, k);
    }
  }

  lemma HandlerAtSplits(s: string, i: nat)
    requires HandlerAt(s, i)
    ensures HandlerSplit(s, i, i + 2 + WordRun(s, i + 2), i + 2 + WordRun(s, i + 2) + SpaceRun(s, i + 2 + WordRun(s, i + 2)))
  {
  }

  lemma SplitIsHandler(s: string, i: nat, j: nat, k: nat)
    requires HandlerSplit(s, i, j, k)
    ensures HandlerAt(s, i)
  {
    // Whitespace and `=` are not word characters, so the word run ends at `j`.
    assert !IsWordChar(s[j]) by { assert j < k ==> IsPySpace(s[j]); }
    WordRunEnds(s, i + 2, j);
    SpaceRunEnds(s, j, k);
  }

  /** A run of word characters ends where the first other character is. */
  lemma WordRunEnds(s: string, p: nat, q: nat)
    requires p <= q < |s| && !IsWordChar(s[q])
    requires forall m :: p <= m < q ==> IsWordChar(s[m])
    ensures WordRun(s, p) == q - p
  {
  }

  lemma SpaceRunEnds(s: string, p: nat, q: nat)
    requires p <= q < |s| && !IsPySpace(s[q])
    requires forall m :: p <= m < q ==> IsPySpace(s[m])
    ensures SpaceRun(s, p) == q - p
  {
  }

  predicate HandlerFound(s: string) {
    exists i: nat | i < |s| :: HandlerAt(s, i)
  }

  /** Any of the eight injection patterns occurs, ignoring ASCII case. */
  predicate InjectionFound(s: string) {
    (exists p | p in LiteralPatterns :: Contains(Lower(s), p)) || HandlerFound(s)
  }

  /** The problems raised about a single value. */
  predicate IsValueProblem(p: Problem) {
    p.InvalidDataType? || p.ValueTooLong? || p.SuspiciousContent?
  }

  /** What `_validate_text_column` raises for one non-null value, if anything. */
  function CellProblem(column: string, c: Cell): (r: Option<Problem>)
    ensures r.Some? ==> IsValueProblem(r.value) && r.value.column == column
    ensures c.Null? ==> r.None?
  {
    match c
    case Null => None
    case NonStr(t) => Some(InvalidDataType(column, t))
    case Str(s) =>
      if |s| > 1000 then Some(ValueTooLong(column))
      else if InjectionFound(s) then Some(SuspiciousContent(column))
      else None
  }

  /** The first problem among the values of a column, in row order
      (`series.dropna()` skips the nulls). */
  function FirstProblem(column: string, cells: seq<Cell>): (r: Option<Problem>)
    ensures r.Some? ==> IsValueProblem(r.value)
    ensures r.None? <==> forall k :: 0 <= k < |cells| ==> CellProblem(column, cells[k]).None?
    ensures r.Some? ==> exists k :: 0 <= k < |cells| && r == CellProblem(column, cells[k])
                                   && forall m :: 0 <= m < k ==> CellProblem(column, cells[m]).None?
  {
    if |cells| == 0 then None
    else
      match CellProblem(column, cells[0])
      case Some(p) => Some(p)
      case None =>
        var rest := FirstProblem(column, cells[1..]);
        assert forall k :: 1 <= k < |cells| ==> cells[k] == cells[1..][k - 1];
        rest
  }

  /** Every value of every text column passes `_validate_text_column`. */
  predicate TextCellsClean(cols: seq<Column>) {
    forall k :: 0 <= k < |cols| && cols[k].name in TextColumns ==> FirstProblem(cols[k].name, cols[k].cells).None?
  }

  /** Text columns are checked in frame order; others are not looked at. */
  function ColumnsProblem(cols: seq<Column>): (r: Option<Problem>)
    ensures r.Some? ==> IsValueProblem(r.value)
    ensures r.None? <==> TextCellsClean(cols)
    ensures r.Some? ==> exists k :: 0 <= k < |cols| && cols[k].name in TextColumns
                                   && r == FirstProblem(cols[k].name, cols[k].cells)
  {
    if |cols| == 0 then None
    else
      var here := if cols[0].name in TextColumns then FirstProblem(cols[0].name, cols[0].cells) else None;
      if here.Some? then here
      else
        var rest := ColumnsProblem(cols[1..]);
        assert forall k :: 1 <= k < |cols| ==> cols[k] == cols[1..][k - 1];
        rest
  }

  function ValidateDataframe(df: Option<Frame>): (r: Result<(), Problem>)
    ensures (df.None? || IsEmpty(df.value)) <==> r == Err(EmptyOrNone)
    ensures r.Ok? <==> && df.Some? && !IsEmpty(df.value)
                       && RequiredColumns <= Names(df.value)
                       && TrulySuspicious(df.value) == {}
                       && TextCellsClean(df.value.columns)
    ensures r.Err? && r.error.MissingColumns? ==> r.error.columns == RequiredColumns - Names(df.value) != {}
    ensures r.Err? && r.error.SuspiciousColumns? ==> RequiredColumns <= Names(df.value)
                                                     && r.error.columns == TrulySuspicious(df.value) != {}
    ensures r.Err? ==> IsFrameProblem(r.error)
  {
    match df
    case None => Err(EmptyOrNone)
    case Some(f) => ValidateFrame(f)
  }

  /** The checks on a frame that is present, in the order the validator
      makes them. */
  function ValidateFrame(f: Frame): (r: Result<(), Problem>)
    ensures IsEmpty(f) <==> r == Err(EmptyOrNone)
    ensures r.Ok? <==> && !IsEmpty(f)
                       && RequiredColumns <= Names(f)
                       && TrulySuspicious(f) == {}
                       && TextCellsClean(f.columns)
    ensures r.Err? && r.error.MissingColumns? ==> r.error.columns == RequiredColumns - Names(f) != {}
    ensures r.Err? && r.error.SuspiciousColumns? ==> RequiredColumns <= Names(f)
                                                     && r.error.columns == TrulySuspicious(f) != {}
    ensures r.Err? ==> IsFrameProblem(r.error)
  {
    if IsEmpty(f) then Err(EmptyOrNone)
    else
      var missing := RequiredColumns - Names(f);
      if missing != {} then
        NonEmptyDifference(RequiredColumns, Names(f));
        Err(MissingColumns(missing))
      else
        EmptyDifference(RequiredColumns, Names(f));
        var suspicious := TrulySuspicious(f);
        if suspicious != {} then Err(SuspiciousColumns(suspicious))
        else
          match ColumnsProblem(f.columns)
          case Some(p) => Err(p)
          case None => Ok(())
  }

  /** The problems the data-frame check raises. */
  predicate IsFrameProblem(p: Problem) {
    p.EmptyOrNone? || p.MissingColumns? || p.SuspiciousColumns? || IsValueProblem(p)
  }

  const EmptyFrameText := "DataFrame is empty or None"

  /** `str(e)` for an exception of the data-frame check. `show` renders a
      set of column names as Python prints it, whose order follows string
      hashing; a non-string cell is reported with its `type(value)`. */
  function FrameMessage(p: Problem, show: set<string> -> string): (r: string)
    requires IsFrameProblem(p)
    ensures p.EmptyOrNone? ==> r == EmptyFrameText
    ensures p.MissingColumns? ==> r == "Missing required columns: " + show(p.columns)
    ensures p.SuspiciousColumns? ==> r == "Suspicious columns detected: " + show(p.columns)
    ensures p.InvalidDataType? ==> r == "Invalid data type in " + p.column + ": <class '" + p.typeName + "'>"
    ensures p.ValueTooLong? ==> r == "Value too long in " + p.column
    ensures p.SuspiciousContent? ==> r == "Suspicious content detected in " + p.column
  {
    match p
    case EmptyOrNone => EmptyFrameText
    case MissingColumns(cs) => "Missing required columns: " + show(cs)
    case SuspiciousColumns(cs) => "Suspicious columns detected: " + show(cs)
    case InvalidDataType(c, t) => "Invalid data type in " + c + ": <class '" + t + "'>"
    case ValueTooLong(c) => "Value too long in " + c
    case SuspiciousContent(c) => "Suspicious content detected in " + c
  }

  // ---------------------------------------------------------------------------
  // Sanitising (`html.escape`, control-character removal, `strip`)

  function EscapeChar(c: char): (r: string)
    ensures |r| >= 1
  {
    if c == '&' then "&amp;"
    else if c == '<' then "&lt;"
    else if c == '>' then "&gt;"
    else if c == '"' then "&quot;"
    else if c == '\'' then "&#x27;"
    else [c]
  }

  predicate IsMarkup(c: char) {
    c == '<' || c == '>' || c == '"' || c == '\''
  }

  /** `html.escape(s)` with `quote=True`. */
  function Escape(s: string): (r: string)
    ensures forall k :: 0 <= k < |r| ==> !IsMarkup(r[k])
    ensures |r| >= |s|
  {
    if |s| == 0 then ""
    else
      var r := EscapeChar(s[0]) + Escape(s[1..]);
      assert forall k :: 0 <= k < |EscapeChar(s[0])| ==> !IsMarkup(EscapeChar(s[0])[k]);
      r
  }

  /** `html.unescape` on the five references `Escape` writes. */
  function Unescape(s: string): string
    decreases |s|
  {
    if |s| == 0 then ""
    else if StartsWith(s, "&amp;") then "&" + Unescape(s[5..])
    else if StartsWith(s, "&lt;") then "<" + Unescape(s[4..])
    else if StartsWith(s, "&gt;") then ">" + Unescape(s[4..])
    else if StartsWith(s, "&quot;") then "\"" + Unescape(s[6..])
    else if StartsWith(s, "&#x27;") then "'" + Unescape(s[6..])
    else [s[0]] + Unescape(s[1..])
  }

  lemma UnescapeStep(c: char, rest: string)
    ensures Unescape(EscapeChar(c) + rest) == [c] + Unescape(rest)
  {
    if c == '&' {
      assert EscapeChar(c) == "&amp;";
      UnescapeAmp(rest);
    } else if c == '<' {
      assert EscapeChar(c) == "&lt;";
      UnescapeLt(rest);
    } else if c == '>' {
      assert EscapeChar(c) == "&gt;";
      UnescapeGt(rest);
    } else if c == '"' {
      assert EscapeChar(c) == "&quot;";
      UnescapeQuot(rest);
    } else if c == '\'' {
      assert EscapeChar(c) == "&#x27;";
      UnescapeApos(rest);
    } else {
      assert EscapeChar(c) == [c];
      UnescapePlain(c, rest);
    }
  }

  /** A character other than `&` starts no reference. */
  lemma UnescapePlain(c: char, rest: string)
    requires c != '&'
    ensures Unescape([c] + rest) == [c] + Unescape(rest)
  {
    var s := [c] + rest;
    assert s[0] == c && s[1..] == rest;
    assert !StartsWith(s, "&amp;") by { assert |s| < 5 || s[..5][0] != "&amp;"[0]; }
    assert !StartsWith(s, "&lt;") by { assert |s| < 4 || s[..4][0] != "&lt;"[0]; }
    assert !StartsWith(s, "&gt;") by { assert |s| < 4 || s[..4][0] != "&gt;"[0]; }
    assert !StartsWith(s, "&quot;") by { assert |s| < 6 || s[..6][0] != "&quot;"[0]; }
    assert !StartsWith(s, "&#x27;") by { assert |s| < 6 || s[..6][0] != "&#x27;"[0]; }
  }

  // One lemma per reference: each names the character that rules out the
  // references tried before it.

  lemma UnescapeAmp(rest: string)
    ensures Unescape("&amp;" + rest) == "&" + Unescape(rest)
  {
    var s := "&amp;" + rest;
    assert s[..5] == "&amp;" && s[5..] == rest;
  }

  lemma UnescapeLt(rest: string)
    ensures Unescape("&lt;" + rest) == "<" + Unescape(rest)
  {
    var s := "&lt;" + rest;
    assert s[1] == 'l';
    assert !StartsWith(s, "&amp;") by { assert |s| < 5 || s[..5][1] != "&amp;"[1]; }
    assert s[..4] == "&lt;" && s[4..] == rest;
  }

  lemma UnescapeGt(rest: string)
    ensures Unescape("&gt;" + rest) == ">" + Unescape(rest)
  {
    var s := "&gt;" + rest;
    assert s[1] == 'g';
    assert !StartsWith(s, "&amp;") by { assert |s| < 5 || s[..5][1] != "&amp;"[1]; }
    assert !StartsWith(s, "&lt;") by { assert s[..4][1] != "&lt;"[1]; }
    assert s[..4] == "&gt;" && s[4..] == rest;
  }

  lemma UnescapeQuot(rest: string)
    ensures Unescape("&quot;" + rest) == "\"" + Unescape(rest)
  {
    var s := "&quot;" + rest;
    assert s[1] == 'q';
    assert !StartsWith(s, "&amp;") by { assert s[..5][1] != "&amp;"[1]; }
    assert !StartsWith(s, "&lt;") by { assert s[..4][1] != "&lt;"[1]; }
    assert !StartsWith(s, "&gt;") by { assert s[..4][1] != "&gt;"[1]; }
    assert s[..6] == "&quot;" && s[6..] == rest;
  }

  lemma UnescapeApos(rest: string)
    ensures Unescape("&#x27;" + rest) == "'" + Unescape(rest)
  {
    var s := "&#x27;" + rest;
    assert s[1] == '#';
    assert !StartsWith(s, "&amp;") by { assert s[..5][1] != "&amp;"[1]; }
    assert !StartsWith(s, "&lt;") by { assert s[..4][1] != "&lt;"[1]; }
    assert !StartsWith(s, "&gt;") by { assert s[..4][1] != "&gt;"[1]; }
    assert !StartsWith(s, "&quot;") by { assert s[..6][1] != "&quot;"[1]; }
    assert s[..6] == "&#x27;" && s[6..] == rest;
  }

  /** Escaping loses nothing. */
  lemma {:induction false} UnescapeEscape(s: string)
    ensures Unescape(Escape(s)) == s
  {
    if |s| > 0 {
      UnescapeStep(s[0], Escape(s[1..]));
      UnescapeEscape(s[1..]);
      assert [s[0]] + s[1..] == s;
    }
  }

  /** The characters `[\x00-\x08\x0B\x0C\x0E-\x1F\x7F]`. */
  predicate IsControl(c: char) {
    var n := c as int;
    n <= 0x08 || n == 0x0B || n == 0x0C || (0x0E <= n <= 0x1F) || n == 0x7F
  }

  function RemoveControls(s: string): (r: string)
    ensures NoControl(r)
    ensures NoMarkup(s) ==> NoMarkup(r)
    ensures NoControl(s) ==> r == s
  {
    if |s| == 0 then ""
    else
      var rest := RemoveControls(s[1..]);
      if IsControl(s[0]) then rest
      else
        assert [s[0]] + s[1..] == s;
        [s[0]] + rest
  }

  /** `sanitize_input`: `None` becomes the empty string. */
  function SanitizeInput(v: Option<string>): (r: string)
    ensures v.None? ==> r == ""
    ensures NoMarkup(r) && NoControl(r) && Unpadded(r)
  {
    match v
    case None => ""
    case Some(s) =>
      var e := Escape(s);
      var c := RemoveControls(e);
      var r := Strip(c);
      StripChars(c);
      KeepsClean(c, r);
      r
  }

  predicate NoMarkup(s: string) {
    forall k :: 0 <= k < |s| ==> !IsMarkup(s[k])
  }

  /** Characters drawn from a string free of markup (or of control
      characters) are free of it too. */
  lemma KeepsClean(from: string, r: string)
    requires forall k :: 0 <= k < |r| ==> r[k] in from
    ensures NoMarkup(from) ==> NoMarkup(r)
    ensures NoControl(from) ==> NoControl(r)
  {
    forall k | 0 <= k < |r| ensures exists j :: 0 <= j < |from| && from[j] == r[k] {
      assert r[k] in from;
    }
  }

  lemma EscapeEnds(s: string)
    requires |s| > 0
    ensures |Escape(s)| > 0
    ensures Escape(s)[0] == s[0] || Escape(s)[0] == '&'
    ensures Escape(s)[|Escape(s)| - 1] == s[|s| - 1] || Escape(s)[|Escape(s)| - 1] == ';'
  {
    if |s| > 1 {
      EscapeEnds(s[1..]);
    }
  }

  predicate NoControl(s: string) {
    forall k :: 0 <= k < |s| ==> !IsControl(s[k])
  }

  /** No whitespace at either end. */
  predicate Unpadded(s: string) {
    s == "" || (!IsPySpace(s[0]) && !IsPySpace(s[|s| - 1]))
  }

  lemma EscapeCharNoControl(c: char)
    requires !IsControl(c)
    ensures NoControl(EscapeChar(c))
  {
  }

  /** Escaping introduces no control character. */
  lemma {:induction false} EscapeKeepsControls(s: string)
    requires NoControl(s)
    ensures NoControl(Escape(s))
  {
    if |s| > 0 {
      EscapeKeepsControls(s[1..]);
      EscapeCharNoControl(s[0]);
      var e := EscapeChar(s[0]);
      var rest := Escape(s[1..]);
      assert Escape(s) == e + rest;
      forall k | 0 <= k < |e| + |rest| ensures !IsControl((e + rest)[k]) {
        if k < |e| {
          assert (e + rest)[k] == e[k];
        } else {
          assert (e + rest)[k] == rest[k - |e|];
        }
      }
    }
  }

  lemma StripNoEdges(s: string)
    requires Unpadded(s)
    ensures Strip(s) == s
  {
  }

  /** An ampersand makes escaping lengthen the text, and survives it. */
  lemma {:induction false} EscapeAmpersand(s: string)
    requires '&' in s
    ensures |Escape(s)| > |s| && '&' in Escape(s)
  {
    if s[0] == '&' {
      assert Escape(s)[0] == '&';
    } else {
      EscapeAmpersand(s[1..]);
      var e := EscapeChar(s[0]);
      assert Escape(s) == e + Escape(s[1..]);
      assert Escape(s)[|e| + 0] == Escape(s[1..])[0];
      var k :| 0 <= k < |Escape(s[1..])| && Escape(s[1..])[k] == '&';
      assert Escape(s)[|e| + k] == '&';
    }
  }

  /** Escaping keeps text free of surrounding whitespace: it starts and ends
      with the original characters or with `&` and `;`. */
  lemma EscapeEdges(s: string)
    requires Unpadded(s)
    ensures Unpadded(Escape(s))
  {
    if |s| > 0 {
      EscapeEnds(s);
      assert !IsPySpace('&') && !IsPySpace(';');
    }
  }

  /** On text without control characters or surrounding whitespace,
      sanitising is escaping. */
  lemma SanitizePlain(s: string)
    requires NoControl(s) && Unpadded(s)
    ensures SanitizeInput(Some(s)) == Escape(s)
    ensures NoControl(Escape(s)) && Unpadded(Escape(s))
  {
    SanitizePipeline(s);
    NothingToRemove(s);
    EscapeEdges(s);
    StripNoEdges(Escape(s));
  }

  lemma SanitizePipeline(s: string)
    ensures SanitizeInput(Some(s)) == Strip(RemoveControls(Escape(s)))
  {
  }

  lemma NothingToRemove(s: string)
    requires NoControl(s)
    ensures NoControl(Escape(s))
    ensures RemoveControls(Escape(s)) == Escape(s)
  {
    EscapeKeepsControls(s);
  }

  /** Text without control characters or surrounding whitespace comes back
      from `html.unescape` unchanged after sanitising. */
  lemma SanitizeRecoverable(s: string)
    requires NoControl(s) && Unpadded(s)
    ensures Unescape(SanitizeInput(Some(s))) == s
  {
    SanitizePlain(s);
    UnescapeEscape(s);
  }

  /** Sanitising is not idempotent: a second pass escapes every ampersand
      again, so the text grows. */
  lemma SanitizeTwiceDiffers(s: string)
    requires NoControl(s) && Unpadded(s)
    requires '&' in s
    ensures var t := SanitizeInput(Some(s)); |SanitizeInput(Some(t))| > |t|
  {
    SanitizePlain(s);
    EscapeAmpersand(s);
    SanitizePlain(Escape(s));
    EscapeAmpersand(Escape(s));
  }

  // ---------------------------------------------------------------------------
  // Email and permissions

  /** `validate_email`: `re.match` with `$`, which also matches just before a
      final line feed. */
  function ValidateEmail(email: string): (r: bool)
    ensures r <==> email != "" && (Models.EmailShape(email)
                     || (email[|email| - 1] == '\n' && Models.EmailShape(email[..|email| - 1])))
  {
    if email == "" then false
    else Models.MatchesEmail(email) || (email[|email| - 1] == '\n' && Models.MatchesEmail(email[..|email| - 1]))
  }

  /** Without a line feed the validator and the session model's pattern agree;
      with a trailing one only this validator accepts. */
  lemma ValidateEmailVersusModel(email: string)
    ensures (forall k :: 0 <= k < |email| ==> email[k] != '\n') ==> (ValidateEmail(email) <==> Models.MatchesEmail(email))
    ensures ValidateEmail("a@b.co\n") && !Models.MatchesEmail("a@b.co\n")
  {
    assert Models.EmailSplit("a@b.co", 1, 3);
    assert ("a@b.co\n")[..6] == "a@b.co";
    if forall k :: 0 <= k < |email| ==> email[k] != '\n' {
      if email != "" {
        assert email[|email| - 1] != '\n';
      }
    }
  }

  /** The fields of a user dictionary the check reads; an absent
      `is_authenticated` is falsy and absent `permissions` is empty. */
  datatype UserRecord = UserRecord(isAuthenticated: bool, permissions: seq<string>)

  function ValidateUserPermissions(user: Option<UserRecord>, required: string): (r: bool)
    ensures r <==> user.Some? && user.value.isAuthenticated
                   && (required in user.value.permissions || "admin" in user.value.permissions)
  {
    match user
    case None => false
    case Some(u) => u.isAuthenticated && (required in u.permissions || "admin" in u.permissions)
  }

  /** `admin` grants every permission, and granting more never revokes one. */
  lemma PermissionMonotone(u: UserRecord, extra: seq<string>, p: string)
    ensures u.isAuthenticated && "admin" in u.permissions ==> ValidateUserPermissions(Some(u), p)
    ensures ValidateUserPermissions(Some(u), p) ==> ValidateUserPermissions(Some(u.(permissions := u.permissions + extra)), p)
  {
  }
}

=== FILE: seqs.dfy ===
/** Filtering a sequence, as JavaScript's `Array.prototype.filter` and a
    Python comprehension with a condition do: the elements that pass, in
    their order, each as often as it occurs. */
module Seqs {

  function Filter<T(==,!new)>(s: seq<T>, p: T -> bool): (r: seq<T>)
    ensures |r| <= |s|
    ensures forall x :: x in r <==> x in s && p(x)
    ensures forall x :: multiset(r)[x] == if p(x) then multiset(s)[x] else 0
    decreases |s|
  {
    if |s| == 0 then []
    else
      var rest := Filter(s[1..], p);
      assert s == [s[0]] + s[1..];
      if p(s[0]) then [s[0]] + rest else rest
  }

  /** Filtering twice with the same test changes nothing more. */
  lemma {:induction false} FilterIdempotent<T(!new)>(s: seq<T>, p: T -> bool)
    ensures Filter(Filter(s, p), p) == Filter(s, p)
    decreases |s|
  {
    if |s| > 0 {
      FilterIdempotent(s[1..], p);
    }
  }
}

=== FILE: sorting.dfy ===
/** Sorting row indices by a numeric key.

    Every sort in the modelled code orders rows by one numeric column: the
    engines by hours (largest first), the Gantt view by start date. A stable
    sort of the positions `0 .. n-1` by a key is the same thing as ordering
    them strictly by the pair (key, position); `Precedes` is that pair order
    and `SortIndices` is an insertion sort that produces it. */
module Sorting {

  /** Position `i` goes before position `j`: smaller key, or the same key
      and an earlier position. */
  predicate Precedes(keys: seq<real>, i: nat, j: nat)
    requires i < |keys| && j < |keys|
  {
    keys[i] < keys[j] || (keys[i] == keys[j] && i < j)
  }

  predicate InRange(keys: seq<real>, xs: seq<nat>) {
    forall a :: 0 <= a < |xs| ==> xs[a] < |keys|
  }

  predicate Distinct<T(==)>(xs: seq<T>) {
    forall a, b :: 0 <= a < b < |xs| ==> xs[a] != xs[b]
  }

  /** `xs` lists positions in the (key, position) order. */
  predicate SortedBy(keys: seq<real>, xs: seq<nat>)
    requires InRange(keys, xs)
  {
    forall a, b :: 0 <= a < b < |xs| ==> Precedes(keys, xs[a], xs[b])
  }

  /** Any two distinct positions are ordered one way or the other. */
  lemma PrecedesTotal(keys: seq<real>, i: nat, j: nat)
    requires i < |keys| && j < |keys| && i != j
    ensures Precedes(keys, i, j) != Precedes(keys, j, i)
  {
  }

  lemma SortedByDistinct(keys: seq<real>, xs: seq<nat>)
    requires InRange(keys, xs) && SortedBy(keys, xs)
    ensures Distinct(xs)
  {
    forall a, b | 0 <= a < b < |xs|
      ensures xs[a] != xs[b]
    {
      assert Precedes(keys, xs[a], xs[b]);
    }
  }

  lemma PrecedesTransitive(keys: seq<real>, i: nat, j: nat, k: nat)
    requires i < |keys| && j < |keys| && k < |keys|
    requires Precedes(keys, i, j) && Precedes(keys, j, k)
    ensures Precedes(keys, i, k)
  {
  }

  /** A position that precedes the head of a sorted sequence precedes all of it. */
  lemma PrecedesSorted(keys: seq<real>, x: nat, xs: seq<nat>)
    requires x < |keys| && InRange(keys, xs) && SortedBy(keys, xs)
    requires |xs| > 0 && Precedes(keys, x, xs[0])
    ensures forall b :: 0 <= b < |xs| ==> Precedes(keys, x, xs[b])
  {
    forall b | 0 < b < |xs|
      ensures Precedes(keys, x, xs[b])
    {
      PrecedesTransitive(keys, x, xs[0], xs[b]);
    }
  }

  /** The head of a sorted sequence precedes every element of the tail with `x` added. */
  lemma HeadPrecedesInsertion(keys: seq<real>, x: nat, xs: seq<nat>, rest: seq<nat>)
    requires x < |keys| && InRange(keys, xs) && SortedBy(keys, xs) && |xs| > 0
    requires Precedes(keys, xs[0], x)
    requires multiset(rest) == multiset(xs[1..]) + multiset{x}
    ensures forall b :: 0 <= b < |rest| ==> rest[b] < |keys| && Precedes(keys, xs[0], rest[b])
  {
    forall b | 0 <= b < |rest|
      ensures rest[b] < |keys| && Precedes(keys, xs[0], rest[b])
    {
      assert rest[b] in multiset(rest);
      if rest[b] != x {
        assert rest[b] in multiset(xs[1..]);
        var c :| 0 <= c < |xs[1..]| && xs[1..][c] == rest[b];
        assert xs[c + 1] == rest[b];
      }
    }
  }

  /** Inserts `x` in front of the first element it precedes. */
  function Insert(keys: seq<real>, x: nat, xs: seq<nat>): (r: seq<nat>)
    requires x < |keys| && InRange(keys, xs) && SortedBy(keys, xs) && x !in xs
    ensures multiset(r) == multiset(xs) + multiset{x}
    ensures |r| == |xs| + 1
    ensures InRange(keys, r) && SortedBy(keys, r)
  {
    if |xs| == 0 then [x]
    else if Precedes(keys, x, xs[0]) then
      PrecedesSorted(keys, x, xs);
      [x] + xs
    else
      PrecedesTotal(keys, x, xs[0]);
      assert xs == [xs[0]] + xs[1..];
      var rest := Insert(keys, x, xs[1..]);
      HeadPrecedesInsertion(keys, x, xs, rest);
      [xs[0]] + rest
  }

  /** A stable sort of `xs` by `keys`: a permutation of `xs` in (key, position) order. */
  function SortIndices(keys: seq<real>, xs: seq<nat>): (r: seq<nat>)
    requires InRange(keys, xs) && Distinct(xs)
    ensures multiset(r) == multiset(xs)
    ensures |r| == |xs|
    ensures InRange(keys, r) && SortedBy(keys, r)
  {
    if |xs| == 0 then []
    else
      var init := xs[..|xs| - 1];
      var last := xs[|xs| - 1];
      assert xs == init + [last];
      var sortedInit := SortIndices(keys, init);
      assert last !in multiset(init);
      Insert(keys, last, sortedInit)
  }

  /** The head of a sorted sequence precedes every other element of it. */
  lemma HeadPrecedes(keys: seq<real>, a: seq<nat>, y: nat)
    requires InRange(keys, a) && SortedBy(keys, a) && |a| > 0
    requires y in a && y != a[0]
    ensures y < |keys| && Precedes(keys, a[0], y)
  {
    var j :| 0 <= j < |a| && a[j] == y;
  }

  lemma TailsSameElements<T>(a: seq<T>, b: seq<T>)
    requires |a| > 0 && |b| > 0 && a[0] == b[0] && multiset(a) == multiset(b)
    ensures multiset(a[1..]) == multiset(b[1..])
  {
    assert a == [a[0]] + a[1..] && b == [b[0]] + b[1..];
    assert multiset(a[1..]) == multiset(a) - multiset{a[0]};
    assert multiset(b[1..]) == multiset(b) - multiset{b[0]};
  }

  /** Two sequences with the same elements, both in (key, position) order, are
      equal: the sorted order is determined by the keys alone. */
  lemma {:induction false} SortedUnique(keys: seq<real>, a: seq<nat>, b: seq<nat>)
    requires InRange(keys, a) && InRange(keys, b)
    requires SortedBy(keys, a) && SortedBy(keys, b)
    requires multiset(a) == multiset(b)
    ensures a == b
  {
    if |a| == 0 {
      assert |b| == |multiset(b)| == 0;
    } else {
      assert |b| == |multiset(b)| == |multiset(a)| == |a|;
      assert a[0] in multiset(b) && b[0] in multiset(a);
      if a[0] != b[0] {
        HeadPrecedes(keys, a, b[0]);
        HeadPrecedes(keys, b, a[0]);
        assert false;
      }
      TailsSameElements(a, b);
      SortedUnique(keys, a[1..], b[1..]);
      assert a == [a[0]] + a[1..] && b == [b[0]] + b[1..];
    }
  }

  /** A list sorted by `keys` has keys never decreasing, and equal keys in
      increasing position. */
  lemma SortedPairs(keys: seq<real>, r: seq<nat>)
    requires InRange(keys, r) && SortedBy(keys, r)
    ensures forall a, b :: 0 <= a < b < |r| ==> keys[r[a]] <= keys[r[b]]
    ensures forall a, b :: 0 <= a < b < |r| && keys[r[a]] == keys[r[b]] ==> r[a] < r[b]
  {
    forall a, b | 0 <= a < b < |r|
      ensures keys[r[a]] <= keys[r[b]]
      ensures keys[r[a]] == keys[r[b]] ==> r[a] < r[b]
    {
      assert Precedes(keys, r[a], r[b]);
    }
  }

  /** Two sequences with the same multiset have the same members. */
  lemma SameMembers<T>(r: seq<T>, s: seq<T>)
    requires multiset(r) == multiset(s)
    ensures forall x :: x in r <==> x in s
  {
    forall x
      ensures x in r <==> x in s
    {
      assert x in r <==> x in multiset(r);
      assert x in s <==> x in multiset(s);
    }
  }

  /** The positions `0 .. n-1` in order. */
  function Range(n: nat): (r: seq<nat>)
    ensures |r| == n
    ensures forall a :: 0 <= a < n ==> r[a] == a
  {
    if n == 0 then [] else Range(n - 1) + [n - 1]
  }

  /** `xs` read in the order of the positions `order`. */
  function Permute<T>(xs: seq<T>, order: seq<nat>): (r: seq<T>)
    requires forall a :: 0 <= a < |order| ==> order[a] < |xs|
    ensures |r| == |order|
    ensures forall a :: 0 <= a < |order| ==> r[a] == xs[order[a]]
  {
    seq(|order|, a requires 0 <= a < |order| => xs[order[a]])
  }

  /** A permutation of the positions only names positions that exist. */
  lemma PermutationInRange(order: seq<nat>, n: nat)
    requires multiset(order) == multiset(Range(n))
    ensures forall a :: 0 <= a < |order| ==> order[a] < n
  {
    forall a | 0 <= a < |order| ensures order[a] < n {
      assert order[a] in multiset(Range(n));
      var k :| 0 <= k < n && Range(n)[k] == order[a];
    }
  }

  /** Taking the largest position out of a permutation of `0 .. n` leaves a
      permutation of `0 .. n-1`. */
  lemma RemoveLast(order: seq<nat>, n: nat, p: nat)
    requires multiset(order) == multiset(Range(n + 1))
    requires p < |order| && order[p] == n
    ensures multiset(order[..p] + order[p + 1..]) == multiset(Range(n))
  {
    var front, back := order[..p], order[p + 1..];
    assert order == front + [n] + back;
    assert multiset(order) == multiset(front) + multiset{n} + multiset(back);
    var left, right := multiset(front + back), multiset(Range(n));
    assert left == multiset(front) + multiset(back);
    assert multiset(Range(n + 1)) == right + multiset{n};
    assert left + multiset{n} == right + multiset{n};
    forall x ensures left[x] == right[x] {
      assert (left + multiset{n})[x] == (right + multiset{n})[x];
    }
  }

  /** Reading `xs` through `order` is reading its prefix through `order`
      without the last position, with the last element put back at its place. */
  lemma PermuteLast<T>(xs: seq<T>, order: seq<nat>, p: nat)
    requires |xs| > 0 && p < |order| && order[p] == |xs| - 1
    requires forall a :: 0 <= a < |order| ==> order[a] < |xs|
    requires forall a :: 0 <= a < |order| && a != p ==> order[a] < |xs| - 1
    ensures var rest := order[..p] + order[p + 1..];
            var r' := Permute(xs[..|xs| - 1], rest);
            Permute(xs, order) == r'[..p] + [xs[|xs| - 1]] + r'[p..]
  {
    var rest := order[..p] + order[p + 1..];
    var r' := Permute(xs[..|xs| - 1], rest);
    var r := Permute(xs, order);
    forall a | 0 <= a < |r| ensures r[a] == (r'[..p] + [xs[|xs| - 1]] + r'[p..])[a] {
      if a < p {
        assert rest[a] == order[a];
      } else if a > p {
        assert rest[a - 1] == order[a];
      }
    }
  }

  /** Putting one element back into a sequence adds it to the multiset. */
  lemma InsertKeepsMultiset<T>(r: seq<T>, p: nat, y: T, xs: seq<T>)
    requires p <= |r| && multiset(r) == multiset(xs)
    ensures multiset(r[..p] + [y] + r[p..]) == multiset(xs + [y])
  {
    assert r == r[..p] + r[p..];
    assert multiset(r[..p] + [y] + r[p..]) == multiset(r[..p]) + multiset{y} + multiset(r[p..]);
  }

  /** Positions other than `p` lie below `n` when the rest of them does. */
  lemma OthersBelow(order: seq<nat>, rest: seq<nat>, p: nat, n: nat)
    requires p < |order| && rest == order[..p] + order[p + 1..]
    requires forall a :: 0 <= a < |rest| ==> rest[a] < n
    ensures forall a :: 0 <= a < |order| && a != p ==> order[a] < n
  {
    forall a | 0 <= a < |order| && a != p ensures order[a] < n {
      if a < p {
        assert order[a] == rest[a];
      } else {
        assert order[a] == rest[a - 1];
      }
    }
  }

  /** A non-empty sequence is its prefix and its last element. */
  lemma LastSplit<T>(xs: seq<T>)
    requires |xs| > 0
    ensures xs == xs[..|xs| - 1] + [xs[|xs| - 1]]
  {
  }

  /** Reading a sequence through a permutation of its positions keeps every
      element with its multiplicity. */
  lemma {:induction false} PermuteMultiset<T>(xs: seq<T>, order: seq<nat>)
    requires multiset(order) == multiset(Range(|xs|))
    ensures forall a :: 0 <= a < |order| ==> order[a] < |xs|
    ensures multiset(Permute(xs, order)) == multiset(xs)
    decreases |xs|
  {
    PermutationInRange(order, |xs|);
    if |xs| == 0 {
      assert |multiset(order)| == 0;
    } else {
      var n: nat := |xs| - 1;
      assert n in multiset(Range(|xs|)) by { assert Range(|xs|)[n] == n; }
      assert n in multiset(order);
      var p :| 0 <= p < |order| && order[p] == n;
      var rest := order[..p] + order[p + 1..];
      RemoveLast(order, n, p);
      PermuteMultiset(xs[..n], rest);
      PermutationInRange(rest, n);
      OthersBelow(order, rest, p, n);
      PermuteLast(xs, order, p);
      InsertKeepsMultiset(Permute(xs[..n], rest), p, xs[n], xs[..n]);
      LastSplit(xs);
    }
  }
}

=== FILE: strings.dfy ===
/** String primitives shared by the model: substring search (`includes`,
    `indexOf`, first-occurrence `replace` with its `$` patterns),
    `split`/`join` on one separator, ASCII case mapping, Python's whitespace set and `strip()`, code-point
    lexicographic order (Python's `<` on `str`) and decimal rendering of
    naturals (`toString().padStart(2, '0')`). */
module Strings {
  import opened Wrappers

  // ---------------------------------------------------------------------------
  // Prefixes, suffixes and occurrences

  predicate StartsWith(s: string, prefix: string) {
    |prefix| <= |s| && s[..|prefix|] == prefix
  }

  predicate EndsWith(s: string, suffix: string) {
    |suffix| <= |s| && s[|s| - |suffix|..] == suffix
  }

  /** `p` occurs in `s` starting at index `i`. */
  predicate OccursAt(s: string, p: string, i: nat) {
    i + |p| <= |s| && s[i..i + |p|] == p
  }

  /** First occurrence of `p` in `s` at or after `i` (JavaScript `indexOf(p, i)`). */
  function IndexFrom(s: string, p: string, i: nat): (r: Option<nat>)
    requires i <= |s|
    ensures r.Some? ==> i <= r.value && OccursAt(s, p, r.value)
    ensures r.Some? ==> forall j: nat :: i <= j < r.value ==> !OccursAt(s, p, j)
    ensures r.None? ==> forall j: nat :: i <= j ==> !OccursAt(s, p, j)
    decreases |s| - i
  {
    if OccursAt(s, p, i) then Some(i)
    else if i == |s| then None
    else IndexFrom(s, p, i + 1)
  }

  /** First occurrence of `p` in `s` (JavaScript `indexOf`, Python `find`). */
  function IndexOf(s: string, p: string): (r: Option<nat>)
    ensures r.Some? ==> OccursAt(s, p, r.value)
    ensures r.Some? ==> forall j: nat :: j < r.value ==> !OccursAt(s, p, j)
    ensures r.None? <==> forall j: nat :: !OccursAt(s, p, j)
  {
    IndexFrom(s, p, 0)
  }

  /** JavaScript `s.includes(p)` and Python `p in s`. */
  predicate Contains(s: string, p: string) {
    IndexOf(s, p).Some?
  }

  lemma ContainsIff(s: string, p: string)
    ensures Contains(s, p) <==> exists i: nat :: OccursAt(s, p, i)
  {
    if Contains(s, p) {
      assert OccursAt(s, p, IndexOf(s, p).value);
    }
  }

  predicate NoDollar(s: string) {
    forall k :: 0 <= k < |s| ==> s[k] != '$'
  }

  /** The replacement text JavaScript's `replace` inserts for a string
      pattern (ECMAScript's GetSubstitution with no capture groups): `$$`
      gives `$`, `$&` the matched text, `` $` `` the text before the match
      and `$'` the text after it; any other `$` is copied as it is. */
  function Substitute(rep: string, matched: string, before: string, after: string): (r: string)
    ensures NoDollar(rep) ==> r == rep
    decreases |rep|
  {
    if |rep| == 0 then ""
    else if rep[0] == '$' && |rep| >= 2 && rep[1] in "$&`'" then
      var piece := match rep[1]
        case '$' => "$"
        case '&' => matched
        case '`' => before
        case _ => after;
      piece + Substitute(rep[2..], matched, before, after)
    else [rep[0]] + Substitute(rep[1..], matched, before, after)
  }

  /** Every `$` doubled: the usual way to make a text literal as a
      replacement. */
  function EscapeDollars(v: string): (r: string)
    ensures |r| >= |v|
    ensures NoDollar(v) ==> r == v
  {
    if |v| == 0 then ""
    else (if v[0] == '$' then "$$" else [v[0]]) + EscapeDollars(v[1..])
  }

  /** Substitution undoes the doubling of dollars, whatever the match and
      its surroundings are. */
  lemma {:induction false} SubstituteEscaped(v: string, matched: string, before: string, after: string)
    ensures Substitute(EscapeDollars(v), matched, before, after) == v
    decreases |v|
  {
    if |v| > 0 {
      var rest := EscapeDollars(v[1..]);
      SubstituteEscaped(v[1..], matched, before, after);
      if v[0] == '$' {
        assert EscapeDollars(v) == "$$" + rest;
        assert ("$$" + rest)[2..] == rest;
      } else {
        assert EscapeDollars(v) == [v[0]] + rest;
        assert ([v[0]] + rest)[1..] == rest;
      }
      assert v == [v[0]] + v[1..];
    }
  }

  /** `$&` puts the matched text back. */
  lemma SubstituteMatched(matched: string, before: string, after: string)
    ensures Substitute("$&", matched, before, after) == matched
  {
    assert "$&"[2..] == "";
  }

  /** JavaScript `s.replace(p, rep)` with a string pattern: only the first
      occurrence is replaced, by `rep` with its `$` patterns expanded, and a
      pattern that does not occur leaves `s` as it was. */
  function ReplaceFirst(s: string, p: string, rep: string): (r: string)
    ensures (forall j: nat :: !OccursAt(s, p, j)) ==> r == s
    ensures forall k: nat :: OccursAt(s, p, k) && (forall j: nat :: j < k ==> !OccursAt(s, p, j)) ==>
              r == s[..k] + Substitute(rep, p, s[..k], s[k + |p|..]) + s[k + |p|..]
  {
    match IndexOf(s, p)
    case None => s
    case Some(i) => s[..i] + Substitute(rep, p, s[..i], s[i + |p|..]) + s[i + |p|..]
  }

  // ---------------------------------------------------------------------------
  // split / join on one separator character

  /** JavaScript `s.split(c)` for a one-character separator: the pieces
      between separators, `[""]` for the empty string. */
  function Split(s: string, c: char): (r: seq<string>)
    ensures |r| >= 1
    ensures forall i :: 0 <= i < |r| ==> c !in r[i]
  {
    if |s| == 0 then [""]
    else
      var rest := Split(s[1..], c);
      if s[0] == c then [""] + rest
      else [[s[0]] + rest[0]] + rest[1..]
  }

  /** JavaScript `xs.join(c)`. */
  function Join(xs: seq<string>, c: char): string {
    if |xs| == 0 then ""
    else if |xs| == 1 then xs[0]
    else xs[0] + [c] + Join(xs[1..], c)
  }

  lemma {:induction false} JoinSplit(s: string, c: char)
    ensures Join(Split(s, c), c) == s
  {
    if |s| > 0 {
      var rest := Split(s[1..], c);
      JoinSplit(s[1..], c);
      if s[0] == c {
        assert Split(s, c) == [""] + rest;
        assert Join([""] + rest, c) == "" + [c] + Join(rest, c);
      } else {
        var r := Split(s, c);
        assert r == [[s[0]] + rest[0]] + rest[1..];
        if |rest| == 1 {
          assert Join(r, c) == [s[0]] + rest[0];
        } else {
          assert Join(rest, c) == rest[0] + [c] + Join(rest[1..], c);
          assert r[1..] == rest[1..];
          assert Join(r, c) == ([s[0]] + rest[0]) + [c] + Join(rest[1..], c);
        }
      }
    }
  }

  lemma {:induction false} SplitNoSeparator(a: string, c: char)
    requires c !in a
    ensures Split(a, c) == [a]
  {
    if |a| > 0 {
      SplitNoSeparator(a[1..], c);
      assert [a[0]] + a[1..] == a;
    }
  }

  lemma {:induction false} SplitAfterPiece(a: string, b: string, c: char)
    requires c !in a
    ensures Split(a + [c] + b, c) == [a] + Split(b, c)
  {
    if |a| == 0 {
      assert a + [c] + b == [c] + b;
      assert ([c] + b)[1..] == b;
    } else {
      var s := a + [c] + b;
      assert s[1..] == a[1..] + [c] + b;
      SplitAfterPiece(a[1..], b, c);
      assert [a[0]] + a[1..] == a;
    }
  }

  /** Splitting a joined list gives the list back when no piece holds the separator. */
  lemma {:induction false} SplitJoin(xs: seq<string>, c: char)
    requires |xs| >= 1
    requires forall i :: 0 <= i < |xs| ==> c !in xs[i]
    ensures Split(Join(xs, c), c) == xs
  {
    if |xs| == 1 {
      SplitNoSeparator(xs[0], c);
    } else {
      SplitJoin(xs[1..], c);
      SplitAfterPiece(xs[0], Join(xs[1..], c), c);
      assert [xs[0]] + xs[1..] == xs;
    }
  }

  // ---------------------------------------------------------------------------
  // ASCII case mapping

  function UpperChar(c: char): char {
    if 'a' <= c <= 'z' then (c as int - 32) as char else c
  }

  function LowerChar(c: char): char {
    if 'A' <= c <= 'Z' then (c as int + 32) as char else c
  }

  /** Python `str.upper()` / JavaScript `toUpperCase()` restricted to ASCII letters. */
  function Upper(s: string): (r: string)
    ensures |r| == |s|
    ensures forall i :: 0 <= i < |s| ==> r[i] == UpperChar(s[i])
  {
    seq(|s|, i requires 0 <= i < |s| => UpperChar(s[i]))
  }

  /** Python `str.lower()` / JavaScript `toLowerCase()` restricted to ASCII letters. */
  function Lower(s: string): (r: string)
    ensures |r| == |s|
    ensures forall i :: 0 <= i < |s| ==> r[i] == LowerChar(s[i])
  {
    seq(|s|, i requires 0 <= i < |s| => LowerChar(s[i]))
  }

  // ---------------------------------------------------------------------------
  // Python whitespace and strip()

  /** The characters for which Python's `str.isspace()` holds. */
  predicate IsPySpace(c: char) {
    var n := c as int;
    n == 0x20 || (0x09 <= n <= 0x0D) || (0x1C <= n <= 0x1F) || n == 0x85 || n == 0xA0
    || n == 0x1680 || (0x2000 <= n <= 0x200A) || n == 0x2028 || n == 0x2029
    || n == 0x202F || n == 0x205F || n == 0x3000
  }

  function StripStart(s: string): (r: string)
    ensures |r| <= |s| && r == s[|s| - |r|..]
    ensures r == "" || !IsPySpace(r[0])
  {
    if |s| > 0 && IsPySpace(s[0]) then StripStart(s[1..]) else s
  }

  function StripEnd(s: string): (r: string)
    ensures |r| <= |s| && r == s[..|r|]
    ensures r == "" || !IsPySpace(r[|r| - 1])
  {
    if |s| > 0 && IsPySpace(s[|s| - 1]) then StripEnd(s[..|s| - 1]) else s
  }

  /** Python `str.strip()`: the result has no leading or trailing whitespace
      and is a contiguous piece of `s`. */
  function Strip(s: string): (r: string)
    ensures r == "" || (!IsPySpace(r[0]) && !IsPySpace(r[|r| - 1]))
    ensures exists i, j :: 0 <= i <= j <= |s| && r == s[i..j]
    ensures |r| <= |s|
  {
    var a := StripStart(s);
    var b := StripEnd(a);
    assert b == s[|s| - |a|..][..|b|] == s[|s| - |a|..|s| - |a| + |b|];
    assert b != "" ==> b[0] == a[0];
    b
  }

  /** Every character of the stripped text comes from the original. */
  lemma StripChars(s: string)
    ensures forall k :: 0 <= k < |Strip(s)| ==> Strip(s)[k] in s
  {
    var r := Strip(s);
    var i, j :| 0 <= i <= j <= |s| && r == s[i..j];
    forall k | 0 <= k < |r| ensures r[k] in s {
      assert r[k] == s[i + k];
    }
  }

  // ---------------------------------------------------------------------------
  // Code-point lexicographic order (Python's `<` on `str`)

  predicate LexLess(a: string, b: string)
    decreases |a|
  {
    if |a| == 0 then |b| > 0
    else if |b| == 0 then false
    else if a[0] == b[0] then LexLess(a[1..], b[1..])
    else a[0] < b[0]
  }

  lemma {:induction false} LexLessIrreflexive(a: string)
    ensures !LexLess(a, a)
  {
    if |a| > 0 {
      LexLessIrreflexive(a[1..]);
    }
  }

  lemma {:induction false} LexLessTransitive(a: string, b: string, c: string)
    requires LexLess(a, b) && LexLess(b, c)
    ensures LexLess(a, c)
  {
    if |a| > 0 && |b| > 0 && |c| > 0 && a[0] == b[0] && b[0] == c[0] {
      LexLessTransitive(a[1..], b[1..], c[1..]);
    }
  }

  lemma {:induction false} LexLessTotal(a: string, b: string)
    requires a != b
    ensures LexLess(a, b) || LexLess(b, a)
  {
    if |a| > 0 && |b| > 0 && a[0] == b[0] {
      assert a == [a[0]] + a[1..] && b == [b[0]] + b[1..];
      LexLessTotal(a[1..], b[1..]);
    }
  }

  lemma {:induction false} LexLessAsymmetric(a: string, b: string)
    requires LexLess(a, b)
    ensures !LexLess(b, a)
  {
    if LexLess(b, a) {
      LexLessTransitive(a, b, a);
      LexLessIrreflexive(a);
    }
  }

  // ---------------------------------------------------------------------------
  // Decimal rendering

  function DigitChar(d: nat): char
    requires d < 10
  {
    ('0' as int + d) as char
  }

  /** JavaScript `n.toString()` for a natural number. */
  function NatToString(n: nat): (r: string)
    ensures |r| >= 1
    ensures forall i :: 0 <= i < |r| ==> '0' <= r[i] <= '9'
  {
    if n < 10 then [DigitChar(n)] else NatToString(n / 10) + [DigitChar(n % 10)]
  }

  /** The number a string of decimal digits denotes. */
  function DecimalValue(s: string): nat
    requires forall i :: 0 <= i < |s| ==> '0' <= s[i] <= '9'
  {
    if |s| == 0 then 0
    else 10 * DecimalValue(s[..|s| - 1]) + (s[|s| - 1] as int - '0' as int)
  }

  lemma {:induction false} DecimalOfNatToString(n: nat)
    ensures DecimalValue(NatToString(n)) == n
  {
    if n >= 10 {
      DecimalOfNatToString(n / 10);
      var s := NatToString(n);
      assert s[..|s| - 1] == NatToString(n / 10);
    }
  }

  /** JavaScript `n.toString().padStart(2, '0')`. */
  function PadTwo(n: nat): (r: string)
    ensures |r| >= 2
    ensures forall i :: 0 <= i < |r| ==> '0' <= r[i] <= '9'
  {
    if n < 10 then "0" + NatToString(n) else NatToString(n)
  }

  lemma {:induction false} DecimalOfPadTwo(n: nat)
    ensures DecimalValue(PadTwo(n)) == n
  {
    DecimalOfNatToString(n);
    if n < 10 {
      var s := PadTwo(n);
      assert s[..|s| - 1] == "0";
      assert DecimalValue("0"[..0]) == 0;
    }
  }

  /** Different numbers render to different padded strings. */
  lemma PadTwoInjective(m: nat, n: nat)
    requires m != n
    ensures PadTwo(m) != PadTwo(n)
  {
    DecimalOfPadTwo(m);
    DecimalOfPadTwo(n);
  }
}

=== FILE: summary.dfy ===
/** The per-resource summary of a planned table (`create_resource_summary`
    in `utils/visualization.py`) and the four headline counters of the web
    dashboard (`app/components/Metrics.tsx`).

    Both read the same kind of row: a resource cell, an hours cell, the two
    planned dates and the project code. A resource cell counts as assigned
    when it is present and not the empty string; the engine's `"None"` and
    `"nan"` sentinels are ordinary names here. Rows are folded from the back
    so that "the table plus one more row" is the inductive step. */
module Summary {
  import opened Wrappers
  import opened Overlap
  import Catalog
  import Calendar

  datatype Row = Row(proy: Option<string>, resource: Option<string>, hours: Option<real>, start: Option<int>, end: Option<int>)

  /** `notna() & != ""`, and the JavaScript `row[col] && row[col] !== ''`. */
  predicate HasResource(r: Row) {
    r.resource.Some? && r.resource.value != ""
  }

  predicate Holds(r: Row, name: string) {
    HasResource(r) && r.resource.value == name
  }

  function Init<T>(s: seq<T>): seq<T>
    requires |s| > 0
  {
    s[..|s| - 1]
  }

  function Last<T>(s: seq<T>): T
    requires |s| > 0
  {
    s[|s| - 1]
  }

  /** The rows with an assigned resource, in table order. */
  function AssignedRows(rows: seq<Row>): (r: seq<Row>)
    ensures |r| <= |rows|
    ensures forall x :: x in r <==> x in rows && HasResource(x)
  {
    if |rows| == 0 then []
    else
      var p := AssignedRows(Init(rows));
      assert forall x :: x in rows <==> x in Init(rows) || x == Last(rows) by {
        assert rows == Init(rows) + [Last(rows)];
      }
      if HasResource(Last(rows)) then p + [Last(rows)] else p
  }

  /** `df_with_assigned[df_with_assigned[resource_col] == resource]`. */
  function RowsOf(rows: seq<Row>, name: string): (r: seq<Row>)
    ensures |r| <= |rows|
    ensures forall x :: x in r <==> x in rows && Holds(x, name)
  {
    if |rows| == 0 then []
    else
      var p := RowsOf(Init(rows), name);
      assert forall x :: x in rows <==> x in Init(rows) || x == Last(rows) by {
        assert rows == Init(rows) + [Last(rows)];
      }
      if Holds(Last(rows), name) then p + [Last(rows)] else p
  }

  predicate Distinct(names: seq<string>) {
    forall a, b :: 0 <= a < b < |names| ==> names[a] != names[b]
  }

  /** `df_with_assigned[resource_col].unique()`: every assigned name once,
      in order of first appearance. */
  function Resources(rows: seq<Row>): (r: seq<string>)
    ensures Distinct(r)
    ensures forall x :: x in r <==> exists i :: 0 <= i < |rows| && Holds(rows[i], x)
  {
    if |rows| == 0 then []
    else
      var p := Resources(Init(rows));
      assert forall i :: 0 <= i < |rows| - 1 ==> rows[i] == Init(rows)[i];
      var t := Last(rows);
      if HasResource(t) && t.resource.value !in p then p + [t.resource.value] else p
  }

  /** The hours column's `sum()`: missing cells are skipped. */
  function HoursSum(rows: seq<Row>): real {
    if |rows| == 0 then 0.0
    else HoursSum(Init(rows)) + Last(rows).hours.GetOr(0.0)
  }

  /** Summing a table in two parts gives the sum of the parts. */
  lemma {:induction false} HoursSumAppend(a: seq<Row>, b: seq<Row>)
    ensures HoursSum(a + b) == HoursSum(a) + HoursSum(b)
    decreases |b|
  {
    if |b| == 0 {
      assert a + b == a;
    } else {
      assert Init(a + b) == a + Init(b) && Last(a + b) == Last(b);
      HoursSumAppend(a, Init(b));
    }
  }

  /** With no negative hours the sum is not negative. */
  lemma {:induction false} HoursSumNonNegative(rows: seq<Row>)
    requires forall i :: 0 <= i < |rows| && rows[i].hours.Some? ==> rows[i].hours.value >= 0.0
    ensures HoursSum(rows) >= 0.0
  {
    if |rows| > 0 {
      HoursSumNonNegative(Init(rows));
    }
  }

  function SpansOf(rows: seq<Row>): (r: seq<Span>)
    ensures |r| == |rows|
    ensures forall i :: 0 <= i < |rows| ==> r[i] == (rows[i].start, rows[i].end)
  {
    seq(|rows|, i requires 0 <= i < |rows| => (rows[i].start, rows[i].end))
  }

  /** `round(tasks / max_tasks * 100, 1) if max_tasks > 0 else 0`, taking
      Python's rounding to one decimal as round-half-even on the exact
      value. */
  function Percent(tasks: nat, max: int): (r: real)
    ensures max <= 0 ==> r == 0.0
    ensures max > 0 ==> -0.05 <= r - (tasks as real) * 100.0 / (max as real) <= 0.05
    ensures max > 0 ==> r >= 0.0
  {
    if max > 0 then
      var exact := (tasks as real) * 100.0 / (max as real);
      assert exact >= 0.0;
      var x := exact * 10.0;
      assert Calendar.RoundHalfEven(x) >= 0;
      var r := (Calendar.RoundHalfEven(x) as real) / 10.0;
      assert r - exact == (Calendar.RoundHalfEven(x) as real - x) / 10.0;
      r
    else 0.0
  }

  /** One line of the summary. */
  datatype Entry = Entry(resource: string, level: string, tasks: nat, max: int, percent: real, hours: real, conflicts: nat)

  /** The summary line of one resource; a resource missing from the
      configuration reads as level "N/A" with a maximum of 0. */
  function EntryFor(rows: seq<Row>, config: Catalog.Pool, name: string): (r: Entry)
    ensures r.resource == name && r.tasks == |RowsOf(rows, name)|
    ensures r.hours == HoursSum(RowsOf(rows, name))
    ensures r.conflicts == PairConflicts(SpansOf(RowsOf(rows, name)))
    ensures Catalog.Lookup(config, name).None? ==> r.level == "N/A" && r.max == 0 && r.percent == 0.0
    ensures Catalog.Lookup(config, name).Some? ==> r.level == Catalog.Lookup(config, name).value.level
  {
    var mine := RowsOf(rows, name);
    var cfg := Catalog.Lookup(config, name);
    var level := if cfg.Some? then cfg.value.level else "N/A";
    var max := if cfg.Some? then cfg.value.maxTasks.GetOr(0) else 0;
    Entry(name, level, |mine|, max, Percent(|mine|, max), HoursSum(mine), PairConflicts(SpansOf(mine)))
  }

  /** The summary lines of a table whose resource and hours columns exist:
      one line per assigned name in order of first appearance. */
  function Summarise(rows: seq<Row>, config: Catalog.Pool): (r: seq<Entry>)
    ensures |AssignedRows(rows)| == 0 ==> r == []
    ensures |r| == |Resources(rows)|
    ensures forall i :: 0 <= i < |r| ==> r[i] == EntryFor(rows, config, Resources(rows)[i])
  {
    var names := Resources(rows);
    AssignedNamesListed(rows);
    seq(|names|, i requires 0 <= i < |names| => EntryFor(rows, config, names[i]))
  }

  /** `create_resource_summary`: empty when the table is empty, has no
      resource column or has no assigned row; otherwise one line per
      assigned name in order of first appearance. Each line sums
      `df_resource[hours_col]`, so a missing hours column raises the
      `KeyError` of that column (`Err(hoursCol)`) as soon as one row is
      assigned. The date columns are taken as present. */
  function CreateResourceSummary(hasResourceColumn: bool, hasHoursColumn: bool, hoursCol: string,
                                 rows: seq<Row>, config: Catalog.Pool): (r: Result<seq<Entry>, string>)
    ensures r.Err? <==> hasResourceColumn && |AssignedRows(rows)| > 0 && !hasHoursColumn
    ensures r.Err? ==> r.error == hoursCol
    ensures !hasResourceColumn || |AssignedRows(rows)| == 0 ==> r == Ok([])
    ensures r.Ok? && hasResourceColumn ==> r.value == Summarise(rows, config)
    ensures r.Ok? && hasResourceColumn ==> |r.value| == |Resources(rows)|
    ensures r.Ok? && hasResourceColumn ==>
              forall i :: 0 <= i < |r.value| ==> r.value[i] == EntryFor(rows, config, Resources(rows)[i])
  {
    if !hasResourceColumn || |rows| == 0 then Ok([])
    else
      var names := Resources(rows);
      AssignedNamesListed(rows);
      if |names| == 0 then Ok([])
      else if !hasHoursColumn then Err(hoursCol)
      else Ok(Summarise(rows, config))
  }

  /** Some assigned row exists exactly when some name is listed. */
  lemma AssignedNamesListed(rows: seq<Row>)
    ensures |AssignedRows(rows)| == 0 <==> |Resources(rows)| == 0
  {
    if |AssignedRows(rows)| > 0 {
      var x := AssignedRows(rows)[0];
      assert x in rows;
      var i :| 0 <= i < |rows| && rows[i] == x;
      assert x.resource.value in Resources(rows);
    }
    if |Resources(rows)| > 0 {
      var n := Resources(rows)[0];
      assert n in Resources(rows);
      var i :| 0 <= i < |rows| && Holds(rows[i], n);
      assert rows[i] in AssignedRows(rows);
    }
  }

  // The summary's Tasks column partitions the assigned rows

  function TasksOver(names: seq<string>, rows: seq<Row>): nat {
    if |names| == 0 then 0 else |RowsOf(rows, names[0])| + TasksOver(names[1..], rows)
  }

  /** How many of `names` the row is held by. */
  function Hits(names: seq<string>, t: Row): nat {
    if |names| == 0 then 0 else (if Holds(t, names[0]) then 1 else 0) + Hits(names[1..], t)
  }

  lemma {:induction false} TasksOverStep(names: seq<string>, rows: seq<Row>)
    requires |rows| > 0
    ensures TasksOver(names, rows) == TasksOver(names, Init(rows)) + Hits(names, Last(rows))
  {
    if |names| > 0 {
      TasksOverStep(names[1..], rows);
    }
  }

  lemma {:induction false} HitsDistinct(names: seq<string>, t: Row)
    requires Distinct(names)
    ensures Hits(names, t) == if HasResource(t) && t.resource.value in names then 1 else 0
  {
    if |names| > 0 {
      assert Distinct(names[1..]) by {
        forall a, b | 0 <= a < b < |names[1..]| ensures names[1..][a] != names[1..][b] {
          assert names[1..][a] == names[a + 1] && names[1..][b] == names[b + 1];
        }
      }
      HitsDistinct(names[1..], t);
      if Holds(t, names[0]) {
        assert t.resource.value !in names[1..] by {
          forall k | 0 <= k < |names[1..]| ensures names[1..][k] != names[0] {
            assert names[1..][k] == names[k + 1];
          }
        }
      } else {
        assert HasResource(t) && t.resource.value in names ==> t.resource.value in names[1..] by {
          if HasResource(t) && t.resource.value in names {
            var k :| 0 <= k < |names| && names[k] == t.resource.value;
            assert k > 0 && names[1..][k - 1] == names[k];
          }
        }
      }
    }
  }

  /** Counting each listed resource's rows counts every assigned row once,
      provided the list is duplicate-free and names every assigned row. */
  lemma {:induction false} TasksOverCovers(names: seq<string>, rows: seq<Row>)
    requires Distinct(names)
    requires forall i :: 0 <= i < |rows| && HasResource(rows[i]) ==> rows[i].resource.value in names
    ensures TasksOver(names, rows) == |AssignedRows(rows)|
  {
    if |rows| == 0 {
      TasksOverEmpty(names, rows);
    } else {
      assert forall i :: 0 <= i < |rows| - 1 ==> Init(rows)[i] == rows[i];
      TasksOverCovers(names, Init(rows));
      TasksOverStep(names, rows);
      HitsDistinct(names, Last(rows));
    }
  }

  lemma {:induction false} TasksOverEmpty(names: seq<string>, rows: seq<Row>)
    requires |rows| == 0
    ensures TasksOver(names, rows) == 0
  {
    if |names| > 0 {
      TasksOverEmpty(names[1..], rows);
    }
  }

  function TasksColumn(s: seq<Entry>): nat {
    if |s| == 0 then 0 else s[0].tasks + TasksColumn(s[1..])
  }

  lemma {:induction false} TasksColumnIsTasksOver(s: seq<Entry>, rows: seq<Row>, config: Catalog.Pool, names: seq<string>)
    requires |s| == |names|
    requires forall i :: 0 <= i < |s| ==> s[i] == EntryFor(rows, config, names[i])
    ensures TasksColumn(s) == TasksOver(names, rows)
  {
    if |s| > 0 {
      TasksColumnIsTasksOver(s[1..], rows, config, names[1..]);
    }
  }

  /** The Tasks column adds up to the number of assigned rows: every
      assigned row is counted under exactly one resource. */
  lemma SummaryTasksTotal(rows: seq<Row>, config: Catalog.Pool)
    ensures TasksColumn(Summarise(rows, config)) == |AssignedRows(rows)|
  {
    var names := Resources(rows);
    AssignedNamesListed(rows);
    TasksColumnIsTasksOver(Summarise(rows, config), rows, config, names);
    forall i | 0 <= i < |rows| && HasResource(rows[i]) ensures rows[i].resource.value in names {
      assert Holds(rows[i], rows[i].resource.value);
    }
    TasksOverCovers(names, rows);
  }

  /** Every listed resource has at least one task. */
  lemma SummaryTasksPositive(rows: seq<Row>, config: Catalog.Pool, i: nat)
    requires i < |Summarise(rows, config)|
    ensures Summarise(rows, config)[i].tasks >= 1
  {
    var n := Resources(rows)[i];
    assert n in Resources(rows);
    var k :| 0 <= k < |rows| && Holds(rows[k], n);
    assert rows[k] in RowsOf(rows, n);
  }

  /** A resource's Conflicts is zero exactly when no two of its dated tasks
      overlap; a resource with a single task has none. */
  lemma SummaryConflicts(rows: seq<Row>, config: Catalog.Pool, name: string)
    ensures EntryFor(rows, config, name).conflicts == 0 <==> PairwiseDisjoint(SpansOf(RowsOf(rows, name)))
    ensures |RowsOf(rows, name)| == 1 ==> EntryFor(rows, config, name).conflicts == 0
  {
    var s := SpansOf(RowsOf(rows, name));
    PairConflictsZeroIff(s);
    if |s| == 1 {
      assert s == [s[0]];
      PairConflictsSingle(s[0]);
    }
  }

  // The dashboard counters

  datatype Counters = Counters(totalProjects: nat, totalTasks: nat, assignedTasks: nat, unassignedTasks: nat)

  function Projects(data: seq<Row>): (r: set<string>)
    ensures |r| <= |data|
    ensures forall p :: p in r <==> exists i :: 0 <= i < |data| && data[i].proy == Some(p) && p != ""
  {
    if |data| == 0 then {}
    else
      var rest := Projects(Init(data));
      assert forall i :: 0 <= i < |data| - 1 ==> Init(data)[i] == data[i];
      var t := Last(data);
      if t.proy.Some? && t.proy.value != "" then rest + {t.proy.value} else rest
  }

  /** The `metrics` object of the dashboard: distinct non-empty project
      codes, all rows, and the rows split by whether they are assigned. */
  function Metrics(data: seq<Row>): (r: Counters)
    ensures r.totalTasks == |data| && r.assignedTasks + r.unassignedTasks == r.totalTasks
    ensures r.assignedTasks == |AssignedRows(data)|
    ensures r.totalProjects <= r.totalTasks
    ensures r.totalProjects == |Projects(data)|
  {
    var kept := AssignedRows(data);
    var rest := |data| - |kept|;
    Counters(if |data| > 0 then |Projects(data)| else 0, |data|, |kept|, rest)
  }

  /** The dashboard's assigned count agrees with the summary: it is the sum
      of the Tasks column. */
  lemma MetricsMatchSummary(data: seq<Row>, config: Catalog.Pool)
    ensures Metrics(data).assignedTasks == TasksColumn(Summarise(data, config))
  {
    SummaryTasksTotal(data, config);
  }

  /** The strings "None" and "nan", which the assignment engine treats as
      unassigned, count as assigned on the dashboard. */
  lemma SentinelsCountAsAssigned(r: Row)
    requires r.resource == Some("None") || r.resource == Some("nan")
    ensures Metrics([r]).assignedTasks == 1
  {
    assert r in [r];
  }
}

=== FILE: timeline.dfy ===
/** The pure helpers of the Gantt view (`app/components/Timeline.tsx`):
    business-day arithmetic, the choice of rows to draw, their order and
    the pagination. A business day is Monday to Friday; unlike the
    assignment engines these helpers never look at holidays. */
module Timeline {
  import opened Wrappers
  import opened Strings
  import Calendar
  import Sorting

  // Business days

  /** `day !== 0 && day !== 6` on `getDay()`. */
  predicate IsBusinessDay(d: int) {
    Calendar.JsGetDay(d) != 0 && Calendar.JsGetDay(d) != 6
  }

  /** A business day is a working day of the engines' Saturday/Sunday
      calendar when there are no holidays. */
  lemma BusinessDayIsWorkingDay(d: int)
    ensures IsBusinessDay(d) <==> Calendar.IsWorking(Calendar.SatSun, {}, d)
  {
  }

  /** The number of business days in `[lo, hi)`. */
  function BusinessDays(lo: int, hi: int): nat
    decreases hi - lo
  {
    if hi <= lo then 0 else BusinessDays(lo, hi - 1) + (if IsBusinessDay(hi - 1) then 1 else 0)
  }

  /** Of any three consecutive days at least one is a business day. */
  lemma ThreeDaysHoldABusinessDay(d: int)
    ensures IsBusinessDay(d) || IsBusinessDay(d + 1) || IsBusinessDay(d + 2)
  {
  }

  /** `addBusinessDays`: steps forward one day at a time and counts the
      business days it lands on, until it has counted `n`. The result is
      `start` when `n <= 0`; otherwise it is a business day after `start`
      with exactly `n` business days in `(start, r]`. */
  method AddBusinessDays(start: int, n: int) returns (r: int)
    ensures n <= 0 ==> r == start
    ensures n > 0 ==> r > start && IsBusinessDay(r) && BusinessDays(start + 1, r + 1) == n
  {
    var current := start;
    var added := 0;
    ghost var lastCounted := start;
    while added < n
      invariant 0 <= added && (n > 0 ==> added <= n)
      invariant n <= 0 ==> current == start
      invariant n > 0 && added == n ==> current == lastCounted
      invariant start <= lastCounted <= current <= lastCounted + 2
      invariant BusinessDays(start + 1, current + 1) == added
      invariant added > 0 ==> lastCounted > start && IsBusinessDay(lastCounted)
      invariant forall k :: lastCounted < k <= current ==> !IsBusinessDay(k)
      decreases 3 * (n - added) - (current - lastCounted)
    {
      current := current + 1;
      if IsBusinessDay(current) {
        added := added + 1;
        lastCounted := current;
      } else {
        ThreeDaysHoldABusinessDay(lastCounted + 1);
      }
    }
    r := current;
  }

  /** `countBusinessDays`: the business days in `[start, end)`, zero when
      `end <= start`. */
  method CountBusinessDays(start: int, end: int) returns (r: nat)
    ensures r == BusinessDays(start, end)
    ensures end <= start ==> r == 0
  {
    r := 0;
    var current := start;
    while current < end
      invariant start <= current && (current <= end || current == start)
      invariant r == BusinessDays(start, current)
      decreases end - current
    {
      if IsBusinessDay(current) {
        r := r + 1;
      }
      current := current + 1;
    }
  }

  /** Counting is additive over adjacent ranges. */
  lemma {:induction false} BusinessDaysSplit(lo: int, mid: int, hi: int)
    requires lo <= mid <= hi
    ensures BusinessDays(lo, hi) == BusinessDays(lo, mid) + BusinessDays(mid, hi)
    decreases hi - mid
  {
    if hi > mid {
      BusinessDaysSplit(lo, mid, hi - 1);
    }
  }

  function Ind(d: int): nat {
    if IsBusinessDay(d) then 1 else 0
  }

  lemma WeekUnfolds(d: int)
    ensures BusinessDays(d, d + 7) == Ind(d) + Ind(d + 1) + Ind(d + 2) + Ind(d + 3) + Ind(d + 4) + Ind(d + 5) + Ind(d + 6)
  {
    assert BusinessDays(d, d) == 0;
    assert BusinessDays(d, d + 1) == Ind(d);
    assert BusinessDays(d, d + 2) == BusinessDays(d, d + 1) + Ind(d + 1);
    assert BusinessDays(d, d + 3) == BusinessDays(d, d + 2) + Ind(d + 2);
    assert BusinessDays(d, d + 4) == BusinessDays(d, d + 3) + Ind(d + 3);
    assert BusinessDays(d, d + 5) == BusinessDays(d, d + 4) + Ind(d + 4);
    assert BusinessDays(d, d + 6) == BusinessDays(d, d + 5) + Ind(d + 5);
    assert BusinessDays(d, d + 7) == BusinessDays(d, d + 6) + Ind(d + 6);
  }

  /** Every week holds exactly five business days. */
  lemma FiveBusinessDaysAWeek(d: int)
    ensures BusinessDays(d, d + 7) == 5
  {
    WeekUnfolds(d);
    var w := Calendar.JsGetDay(d);
    IndAt(d, 1); IndAt(d, 2); IndAt(d, 3); IndAt(d, 4); IndAt(d, 5); IndAt(d, 6);
    assert Ind(d) == WeekdayInd(w) by { IndAt(d, 0); }
    var total := WeekdayInd(w) + WeekdayInd((w + 1) % 7) + WeekdayInd((w + 2) % 7) + WeekdayInd((w + 3) % 7)
                 + WeekdayInd((w + 4) % 7) + WeekdayInd((w + 5) % 7) + WeekdayInd((w + 6) % 7);
    assert total == 5 by { WeekTotal(w); }
  }

  lemma IndAt(d: int, k: nat)
    ensures Ind(d + k) == WeekdayInd((Calendar.JsGetDay(d) + k) % 7)
  {
    DayShift(d, k);
  }

  lemma WeekTotal(w: int)
    requires 0 <= w < 7
    ensures WeekdayInd(w) + WeekdayInd((w + 1) % 7) + WeekdayInd((w + 2) % 7) + WeekdayInd((w + 3) % 7)
            + WeekdayInd((w + 4) % 7) + WeekdayInd((w + 5) % 7) + WeekdayInd((w + 6) % 7) == 5
  {
  }

  /** 1 for the JavaScript weekdays Monday to Friday. */
  function WeekdayInd(w: int): nat {
    if w == 0 || w == 6 then 0 else 1
  }

  lemma DayShift(d: int, k: nat)
    ensures Calendar.JsGetDay(d + k) == (Calendar.JsGetDay(d) + k) % 7
  {
  }

  // The rows the timeline draws

  /** A table row as the timeline reads it. A date cell is blank (falsy
      or missing), a string `new Date` cannot parse, or a day number.
      Hours are `None` when missing or not a number. */
  datatype Row = Row(id: Option<string>, start: Calendar.DateCell, end: Calendar.DateCell, resource: Option<string>, hours: Option<real>, group: Option<string>)

  predicate Truthy(s: Option<string>) {
    s.Some? && s.value != ""
  }

  /** `startDate && endDate && resource`: an unparseable date string is
      still truthy. */
  predicate Drawn(r: Row) {
    r.start != Calendar.Blank && r.end != Calendar.Blank && Truthy(r.resource)
  }

  /** Both dates of the row are real days, so `toISOString` succeeds. */
  predicate Parsed(r: Row) {
    r.start.Day? && r.end.Day?
  }

  /** The message of the `RangeError` that `toISOString` throws on an
      invalid date. */
  const InvalidTimeValue: string := "Invalid time value"

  datatype Item = Item(task: string, start: int, finish: int, resource: string, hours: real, group: string)

  /** `Number(hours) || 8.0`. */
  function HoursOf(h: Option<real>): (r: real)
    ensures r != 0.0
    ensures h.Some? && h.value != 0.0 ==> r == h.value
  {
    if h.Some? && h.value != 0.0 then h.value else 8.0
  }

  /** The item for a drawn row with parsed dates when `k` items precede it:
      the task is the row's ID, or `Task_k` when the ID is falsy; the group
      is `N/A` when falsy. */
  function ItemOf(r: Row, k: nat): (it: Item)
    requires Drawn(r) && Parsed(r)
    ensures it.start == r.start.day && it.finish == r.end.day && it.resource == r.resource.value
    ensures Truthy(r.id) ==> it.task == r.id.value
    ensures !Truthy(r.id) ==> it.task == "Task_" + NatToString(k)
    ensures it.hours == HoursOf(r.hours)
  {
    Item(if Truthy(r.id) then r.id.value else "Task_" + NatToString(k),
         r.start.day, r.end.day, r.resource.value, HoursOf(r.hours),
         if Truthy(r.group) then r.group.value else "N/A")
  }

  function DrawnRows(rows: seq<Row>): (r: seq<Row>)
    ensures |r| <= |rows|
    ensures forall x :: x in r <==> x in rows && Drawn(x)
    ensures forall k :: 0 <= k < |r| ==> Drawn(r[k])
  {
    if |rows| == 0 then []
    else
      var init := rows[..|rows| - 1];
      var last := rows[|rows| - 1];
      assert rows == init + [last];
      DrawnRows(init) + (if Drawn(last) then [last] else [])
  }

  /** `timelineData`: one item per drawn row, in table order; the `k`-th
      item is numbered `k` when its row has no ID. A drawn row whose date
      does not parse makes `toISOString` throw, and no timeline is built. */
  function TimelineData(rows: seq<Row>): (r: Result<seq<Item>, string>)
    ensures r.Err? <==> exists k :: 0 <= k < |DrawnRows(rows)| && !Parsed(DrawnRows(rows)[k])
    ensures r.Err? ==> r.error == InvalidTimeValue
    ensures r.Ok? ==> |r.value| == |DrawnRows(rows)|
    ensures r.Ok? ==> forall k :: 0 <= k < |r.value| ==> Parsed(DrawnRows(rows)[k]) && r.value[k] == ItemOf(DrawnRows(rows)[k], k)
  {
    if |rows| == 0 then Ok([])
    else
      var init := rows[..|rows| - 1];
      var last := rows[|rows| - 1];
      var prev := TimelineData(init);
      assert DrawnRows(rows) == DrawnRows(init) + (if Drawn(last) then [last] else []);
      if prev.Err? then prev
      else if !Drawn(last) then prev
      else if !Parsed(last) then Err(InvalidTimeValue)
      else Ok(prev.value + [ItemOf(last, |prev.value|)])
  }

  /** Without an unparseable date, a row is drawn exactly when its start,
      end and resource are all set. */
  lemma TimelineRowsAreDrawnRows(rows: seq<Row>, x: Row)
    requires TimelineData(rows).Ok?
    ensures (exists k :: 0 <= k < |TimelineData(rows).value| && DrawnRows(rows)[k] == x) <==> x in rows && Drawn(x)
  {
    if x in rows && Drawn(x) {
      assert x in DrawnRows(rows);
      var k :| 0 <= k < |DrawnRows(rows)| && DrawnRows(rows)[k] == x;
    }
  }

  /** A row with a resource and an unparseable date makes the whole
      timeline fail, whatever the other rows hold. */
  lemma UnparsedDateFailsTimeline(rows: seq<Row>, x: Row)
    requires x in rows && Drawn(x) && !Parsed(x)
    ensures TimelineData(rows) == Err(InvalidTimeValue)
  {
    assert x in DrawnRows(rows);
    var k :| 0 <= k < |DrawnRows(rows)| && DrawnRows(rows)[k] == x;
  }

  // Order and pages

  function StartKeys(items: seq<Item>): (r: seq<real>)
    ensures |r| == |items|
    ensures forall k :: 0 <= k < |items| ==> r[k] == items[k].start as real
  {
    seq(|items|, k requires 0 <= k < |items| => items[k].start as real)
  }

  /** The positions of `items` in the order the stable sort by start puts them. */
  function SortOrder(items: seq<Item>): (r: seq<nat>)
    ensures |r| == |items| && multiset(r) == multiset(Sorting.Range(|items|))
    ensures forall a :: 0 <= a < |r| ==> r[a] < |items|
    ensures forall a, b :: 0 <= a < b < |r| ==> items[r[a]].start <= items[r[b]].start
    ensures forall a, b :: 0 <= a < b < |r| && items[r[a]].start == items[r[b]].start ==> r[a] < r[b]
  {
    var keys := StartKeys(items);
    var rng := Sorting.Range(|items|);
    var r := Sorting.SortIndices(keys, rng);
    Sorting.SortedPairs(keys, r);
    r
  }

  /** `[...timelineData].sort(by start)`: a permutation of the items with
      starts never decreasing and, the sort being stable, items with the
      same start in their original order. */
  function SortByStart(items: seq<Item>): (r: seq<Item>)
    ensures |r| == |items|
    ensures forall a :: 0 <= a < |r| ==> r[a] == items[SortOrder(items)[a]]
    ensures forall a, b :: 0 <= a < b < |r| ==> r[a].start <= r[b].start
  {
    var order := SortOrder(items);
    seq(|order|, a requires 0 <= a < |order| => items[order[a]])
  }

  /** The sorted list holds every item exactly as often as the input, and
      nothing else. */
  lemma SortByStartSameItems(items: seq<Item>)
    ensures multiset(SortByStart(items)) == multiset(items)
    ensures forall x :: x in SortByStart(items) <==> x in items
  {
    var order := SortOrder(items);
    Sorting.PermuteMultiset(items, order);
    assert SortByStart(items) == Sorting.Permute(items, order);
    Sorting.SameMembers(SortByStart(items), items);
  }

  /** `Math.ceil(n / size)`. */
  function TotalPages(n: nat, size: nat): (r: nat)
    requires size >= 1
    ensures n == 0 <==> r == 0
    ensures r > 0 ==> (r - 1) * size < n <= r * size
  {
    (n + size - 1) / size
  }

  function Min(a: nat, b: nat): nat {
    if a <= b then a else b
  }

  /** `slice(page * size, page * size + size)`, which clamps both ends to
      the length. */
  function Page<T>(s: seq<T>, page: nat, size: nat): (r: seq<T>)
    requires size >= 1
    ensures |r| <= size
    ensures page * size < |s| ==> |r| > 0 && r[0] == s[page * size]
    ensures page * size >= |s| ==> r == []
  {
    s[Min(page * size, |s|)..Min(page * size + size, |s|)]
  }

  /** A page has rows exactly when its number is below the page count. */
  lemma PageNonEmptyIff<T>(s: seq<T>, page: nat, size: nat)
    requires size >= 1
    ensures Page(s, page, size) != [] <==> page < TotalPages(|s|, size)
  {
    var t := TotalPages(|s|, size);
    if page < t {
      MulMonotone(page, t - 1, size);
      assert page * size < |s|;
    } else if t > 0 {
      MulMonotone(t, page, size);
      assert page * size >= |s|;
    }
  }

  lemma {:induction false} MulMonotone(a: nat, b: nat, c: nat)
    requires a <= b
    ensures a * c <= b * c
  {
    if a < b {
      MulMonotone(a, b - 1, c);
      assert b * c == (b - 1) * c + c;
    }
  }

  function PagesUpTo<T>(s: seq<T>, size: nat, k: nat): seq<T>
    requires size >= 1
  {
    if k == 0 then [] else PagesUpTo(s, size, k - 1) + Page(s, k - 1, size)
  }

  /** The first `k` pages, one after the other, are the first `k * size`
      items (or all of them). */
  lemma {:induction false} PagesUpToPrefix<T>(s: seq<T>, size: nat, k: nat)
    requires size >= 1
    ensures PagesUpTo(s, size, k) == s[..Min(k * size, |s|)]
  {
    if k > 0 {
      PagesUpToPrefix(s, size, k - 1);
      assert (k - 1) * size + size == k * size;
      assert (k - 1) * size <= k * size;
    }
  }

  /** Paging through all the pages shows every item once, in order. */
  lemma PagesCoverAll<T>(s: seq<T>, size: nat)
    requires size >= 1
    ensures PagesUpTo(s, size, TotalPages(|s|, size)) == s
  {
    PagesUpToPrefix(s, size, TotalPages(|s|, size));
  }
}

=== FILE: ts_config.dfy ===
/** The web application's developer configuration
    (`app/lib/types/developers-config.ts`) and the plan types the assignment
    engines ask for (`AppConfig.getPlanConfig` in `app/lib/config.ts`).
    Entries carry a level and a task limit but no colour. GRID has seven
    names here, C4E's member is spelled `C4E1`, and Angel Burga is in both
    GRID and ERP. */
module TsConfig {
  import opened Wrappers
  import opened Strings
  import opened Catalog

  function Entry(level: string, maxTasks: int): Resource {
    Resource(level, Some(maxTasks), None)
  }

  const Grid: Pool := [
    ("Fabricio Sánchez", Entry("SENIOR", 15)),
    ("Oscar Castellanos", Entry("SENIOR", 15)),
    ("Gabriel Huamani", Entry("SENIOR", 15)),
    ("Luiggi Gonzales", Entry("SENIOR", 15)),
    ("Norman Tinco", Entry("SENIOR", 4)),
    ("Angel Burga", Entry("SENIOR", 15)),
    ("Oscar De Lama", Entry("SENIOR", 15))]

  const Fsm: Pool := [
    ("FSM1", Entry("SENIOR", 15)),
    ("FSM2", Entry("SENIOR", 15))]

  const C4e: Pool := [
    ("C4E1", Entry("SENIOR", 15))]

  const Erp: Pool := [
    ("Luis Ore", Entry("SENIOR", 6)),
    ("Angel Burga", Entry("SENIOR", 15)),
    ("Richard Galán", Entry("SEMI_SENIOR", 12)),
    ("Cesar Rivero", Entry("SENIOR", 7))]

  const Loc: Pool := [
    ("Jhonatan Colina", Entry("PLENO", 6)),
    ("Jose Aguilar", Entry("PLENO", 12))]

  const Portal: Pool := [
    ("Jhonatan Colina", Entry("PLENO", 6)),
    ("Jorge Clemente", Entry("JUNIOR", 8)),
    ("Jose Urbina", Entry("JUNIOR", 8))]

  const Hcm: Pool := [
    ("Cesar Rivero", Entry("SENIOR", 7)),
    ("Katheryn Quiroz", Entry("SEMI_SENIOR", 12))]

  /** `TESTERS_CONFIG`. */
  const Testers: Pool := [
    ("Tester QA 1", Entry("SENIOR", 15)),
    ("Tester QA 2", Entry("PLENO", 12)),
    ("Tester QA 3", Entry("JUNIOR", 10))]

  /** `GROUP_CONFIG_MAPPING`, at the positions of `GroupKeys`. */
  const Groups: seq<Pool> := [Grid, Fsm, C4e, Erp, Loc, Portal, Hcm]

  /** `getAllDevelopersConfig`: a fresh object that every group is
      `Object.assign`ed into, in mapping order. */
  function AllDevelopers(): Pool {
    UnionOf(Groups)
  }

  lemma HeadNames()
    ensures Keys(Grid) == {"Fabricio Sánchez", "Oscar Castellanos", "Gabriel Huamani", "Luiggi Gonzales", "Norman Tinco", "Angel Burga", "Oscar De Lama"}
    ensures Keys(Fsm) == {"FSM1", "FSM2"}
    ensures Keys(C4e) == {"C4E1"}
  {
    GridKeys();
  }

  lemma GridKeys()
    ensures Keys(Grid) == {"Fabricio Sánchez", "Oscar Castellanos", "Gabriel Huamani", "Luiggi Gonzales", "Norman Tinco", "Angel Burga", "Oscar De Lama"}
  {
  }

  lemma TailNames()
    ensures Keys(Erp) == {"Luis Ore", "Angel Burga", "Richard Galán", "Cesar Rivero"}
    ensures Keys(Loc) == {"Jhonatan Colina", "Jose Aguilar"}
    ensures Keys(Portal) == {"Jhonatan Colina", "Jorge Clemente", "Jose Urbina"}
    ensures Keys(Hcm) == {"Cesar Rivero", "Katheryn Quiroz"}
  {
  }

  lemma GroupsAllNames()
    ensures AllNames(Groups) == Keys(Grid) + Keys(Fsm) + Keys(C4e) + Keys(Erp) + Keys(Loc) + Keys(Portal) + Keys(Hcm)
  {
    AllNamesCons(Hcm, []);
    AllNamesCons(Portal, [Hcm]);
    AllNamesCons(Loc, [Portal, Hcm]);
    AllNamesCons(Erp, [Loc, Portal, Hcm]);
    AllNamesCons(C4e, [Erp, Loc, Portal, Hcm]);
    AllNamesCons(Fsm, [C4e, Erp, Loc, Portal, Hcm]);
    AllNamesCons(Grid, [Fsm, C4e, Erp, Loc, Portal, Hcm]);
  }

  /** The developer names, in three parts that share no name. */
  const GridNameSet: set<string> := {"Fabricio Sánchez", "Oscar Castellanos", "Gabriel Huamani", "Luiggi Gonzales", "Norman Tinco", "Angel Burga", "Oscar De Lama"}
  const MiddleNameSet: set<string> := {"FSM1", "FSM2", "C4E1", "Luis Ore", "Richard Galán"}
  const LastNameSet: set<string> := {"Cesar Rivero", "Jhonatan Colina", "Jose Aguilar", "Jorge Clemente", "Jose Urbina", "Katheryn Quiroz"}
  const DeveloperNames: set<string> := GridNameSet + MiddleNameSet + LastNameSet

  lemma DeveloperNamesSplit()
    ensures DeveloperNames ==
      {"Fabricio Sánchez", "Oscar Castellanos", "Gabriel Huamani", "Luiggi Gonzales", "Norman Tinco", "Angel Burga", "Oscar De Lama"} +
      {"FSM1", "FSM2"} + {"C4E1"} + {"Luis Ore", "Angel Burga", "Richard Galán", "Cesar Rivero"} +
      {"Jhonatan Colina", "Jose Aguilar"} + {"Jhonatan Colina", "Jorge Clemente", "Jose Urbina"} +
      {"Cesar Rivero", "Katheryn Quiroz"}
  {
  }

  lemma DeveloperNamesAreGroupNames()
    ensures AllNames(Groups) == DeveloperNames
  {
    HeadNames();
    TailNames();
    GroupsAllNames();
    DeveloperNamesSplit();
  }

  lemma GridNameSetCount()
    ensures |GridNameSet| == 7
  {
  }

  lemma MiddleNameSetCount()
    ensures |MiddleNameSet| == 5
  {
  }

  lemma LastNameSetCount()
    ensures |LastNameSet| == 6
  {
  }

  lemma NameSetsDisjoint()
    ensures GridNameSet !! MiddleNameSet && GridNameSet !! LastNameSet && MiddleNameSet !! LastNameSet
  {
  }

  lemma DeveloperNamesCount()
    ensures |DeveloperNames| == 18
  {
    GridNameSetCount();
    MiddleNameSetCount();
    LastNameSetCount();
    NameSetsDisjoint();
  }

  /** The merged pool lists each of the 18 names once; the three names shared
      by two groups keep one entry. */
  lemma AllDevelopersNames()
    ensures NameSet(AllDevelopers()) == DeveloperNames
    ensures |AllDevelopers()| == 18
  {
    UnionNames(Groups);
    DeveloperNamesAreGroupNames();
    DeveloperNamesCount();
    UniqueCount(AllDevelopers());
  }

  // ---------------------------------------------------------------------------
  // Group lookup

  /** Which pool object a lookup hands back. A known group is the mapping's
      own object, shared by every caller; the merged pool is built afresh on
      each call; the testers' pool is a shared module-level object. */
  datatype PoolRef = SharedGroup(index: nat) | FreshUnion | SharedTesters

  /** The catalogue contents behind a reference, before any caller adds to it. */
  function InitialPool(ref: PoolRef): Pool {
    match ref
    case SharedGroup(k) => if k < |Groups| then Groups[k] else []
    case FreshUnion => AllDevelopers()
    case SharedTesters => Testers
  }

  /** `getGroupConfig`: an empty or missing name gives a fresh merged pool;
      otherwise the upper-cased name picks its shared group, and an unknown
      name gives a fresh merged pool. */
  function GroupConfig(groupName: Option<string>): (r: PoolRef)
    ensures r.SharedGroup? <==> groupName.Some? && Upper(groupName.value) in GroupKeys
    ensures r.SharedGroup? ==> r.index < |Groups| && GroupKeys[r.index] == Upper(groupName.value)
    ensures !r.SharedTesters?
  {
    match groupName
    case None => FreshUnion
    case Some(s) =>
      if s == "" then FreshUnion
      else
        match IndexOfKey(GroupKeys, Upper(s))
        case Some(k) => SharedGroup(k)
        case None => FreshUnion
  }

  lemma GroupConfigIgnoresCase(s: string, t: string)
    requires Upper(s) == Upper(t)
    ensures GroupConfig(Some(s)) == GroupConfig(Some(t))
  {
    UpperKeepsEmpty(s, t);
  }

  /** Every pool a lookup can return lists only names of the merged pool. */
  lemma GroupConfigCovered(groupName: Option<string>)
    ensures NameSet(InitialPool(GroupConfig(groupName))) <= NameSet(AllDevelopers())
  {
    match GroupConfig(groupName)
    case SharedGroup(k) => GroupInUnion(Groups, k);
    case FreshUnion =>
  }

  // ---------------------------------------------------------------------------
  // Validation

  /** A falsy level (`''`) or task limit (missing or `0`) fails `validateDeveloperConfig`. */
  predicate EntryValid(e: (string, Resource)) {
    e.1.level != "" && e.1.maxTasks.Some? && e.1.maxTasks.value != 0
  }

  predicate PoolValid(p: Pool) {
    forall i :: 0 <= i < |p| ==> EntryValid(p[i])
  }

  function FirstInvalid(p: Pool): (r: Option<string>)
    ensures r.None? <==> PoolValid(p)
    ensures r.Some? ==> exists i :: 0 <= i < |p| && p[i].0 == r.value && !EntryValid(p[i])
  {
    if |p| == 0 then None
    else if !EntryValid(p[0]) then Some(p[0].0)
    else
      var rest := FirstInvalid(p[1..]);
      assert forall i :: 1 <= i < |p| ==> p[i] == p[1..][i - 1];
      rest
  }

  const ValidationFailed := "Configuration validation failed: Error: "

  /** `validateDeveloperConfig` over named groups and the testers: `Ok(true)`
      when every entry has a level and a non-zero limit, otherwise the error
      names the first bad entry (and its group). */
  function ValidateDeveloperConfig(keys: seq<string>, groups: seq<Pool>, testers: Pool): (r: Result<bool, string>)
    requires |keys| == |groups|
    ensures r.Ok? <==> (forall k :: 0 <= k < |groups| ==> PoolValid(groups[k])) && PoolValid(testers)
    ensures r.Ok? ==> r.value
    ensures r.Err? ==> StartsWith(r.error, ValidationFailed)
    decreases |groups|
  {
    if |groups| == 0 then
      match FirstInvalid(testers)
      case None => Ok(true)
      case Some(n) => Err(ValidationFailed + "Invalid tester config for " + n)
    else
      match FirstInvalid(groups[0])
      case Some(n) => Err(ValidationFailed + "Invalid resource config for " + n + " in " + keys[0])
      case None =>
        assert forall k :: 1 <= k < |groups| ==> groups[k] == groups[1..][k - 1];
        ValidateDeveloperConfig(keys[1..], groups[1..], testers)
  }

  lemma HeadGroupsValid()
    ensures PoolValid(Grid) && PoolValid(Fsm) && PoolValid(C4e)
  {
  }

  lemma TailGroupsValid()
    ensures PoolValid(Erp) && PoolValid(Loc) && PoolValid(Portal) && PoolValid(Hcm) && PoolValid(Testers)
  {
  }

  /** The shipped configuration passes its own validation. */
  lemma ShippedConfigValid()
    ensures ValidateDeveloperConfig(GroupKeys, Groups, Testers) == Ok(true)
  {
    HeadGroupsValid();
    TailGroupsValid();
    assert forall k :: 0 <= k < |Groups| ==> PoolValid(Groups[k]) by {
      assert Groups == [Grid, Fsm, C4e, Erp, Loc, Portal, Hcm];
    }
  }

  // ---------------------------------------------------------------------------
  // Plan types

  /** What the assignment engines read from a plan configuration: whether
      rows pick their pool by group, and whether the plan is a developer plan
      (`resource_title` contains "Developer"), which selects the flat pool. */
  datatype Plan = Plan(useGroupBasedAssignment: bool, developerPlan: bool)

  /** `AppConfig.getPlanConfig`: three developer plans with group mode on,
      the testing plan with group mode off, and `ConfigError` otherwise. All
      four read start and plan date from the same column. */
  function GetPlanConfig(planType: string): (r: Result<Plan, string>)
    ensures r.Ok? <==> planType in {"Plan de Desarrollo", "Plan de Mantenimiento", "Plan de Soporte", "Plan de Pruebas"}
    ensures r.Err? ==> r.error == "Unknown plan type: " + planType
    ensures r.Ok? ==> r.value.useGroupBasedAssignment == r.value.developerPlan
    ensures r.Ok? ==> (r.value.developerPlan <==> planType != "Plan de Pruebas")
  {
    if planType == "Plan de Desarrollo" || planType == "Plan de Mantenimiento" || planType == "Plan de Soporte" then
      Ok(Plan(true, true))
    else if planType == "Plan de Pruebas" then
      Ok(Plan(false, false))
    else Err("Unknown plan type: " + planType)
  }

  /** The flat pool of a plan without group mode. */
  function FlatPool(p: Plan): (r: PoolRef)
    ensures r.FreshUnion? <==> p.developerPlan
    ensures r.SharedTesters? <==> !p.developerPlan
  {
    if p.developerPlan then FreshUnion else SharedTesters
  }
}

=== FILE: ts_engine.dfy ===
/** The two web engines over one table: `calculateAssignments`
    (`app/lib/assignment-calculator.ts`) and the loop of `POST` in
    `app/api/assign/route.ts`.

    Both prepare the table the same way: when the first row has no resource
    (or no start, or no end) that column is cleared in every row; already
    assigned rows without both dates get their span written; then the other
    rows are visited in a stable order of descending hours, and each takes
    the first entry of its pool with room and no overlapping task.

    They differ in three ways: the calculator's weekend is Saturday and
    Sunday, the route's Friday and Saturday; when nothing fits, the
    calculator invents a consultant `Senior_NN`, writes it into the pool
    object it was scanning and gives the row to it, while the route leaves the
    row unassigned; and the calculator answers `[]` for an empty table
    where the route fails on `workingData[0]`.

    The pool objects of the known groups and of the testers are module-level
    objects, so what the calculator writes into them is seen by later rows
    and by later calls. `SharedPools` carries their current contents in and
    out of a call. */
module TsEngine {
  import opened Wrappers
  import opened Strings
  import opened Calendar
  import opened Catalog
  import opened Greedy
  import Sorting
  import TsConfig

  /** One row as the engines read it. `resource` and `hours` are `None` when
      missing (or `NaN`); `ready` is the effort-ready date, `start` the
      planned start, which is also the plan's date column, and `end` the
      planned end. */
  datatype JsRow = JsRow(resource: Option<string>, hours: Option<real>, ready: DateCell, group: Option<string>, start: DateCell, end: DateCell)

  /** JavaScript truthiness of a string cell. */
  predicate Truthy(s: Option<string>) {
    s.Some? && s.value != ""
  }

  /** `row[hours_col] || 8.0`: a missing or zero value counts as a day's work. */
  function HoursUsed(h: Option<real>): (r: real)
    ensures h.Some? && h.value != 0.0 ==> r == h.value
    ensures h.None? || h.value == 0.0 ==> r == 8.0
  {
    match h
    case None => 8.0
    case Some(x) => if x == 0.0 then 8.0 else x
  }

  /** `row[hours_col] || 0`, the sort key. */
  function SortKey(h: Option<real>): (r: real)
    ensures h.Some? ==> r == h.value
    ensures h.None? ==> r == 0.0
  {
    h.GetOr(0.0)
  }

  /** `row[available_date_col] || row[plan_date_col]`. */
  function BaseOf(row: JsRow): (r: DateCell)
    ensures r.Blank? <==> row.ready.Blank? && row.start.Blank?
  {
    if row.ready.Blank? then row.start else row.ready
  }

  // ---------------------------------------------------------------------------
  // Preparing the table

  /** "Ensure required columns exist": a falsy cell in the first row clears
      that column in every row. Only the three columns change. */
  function Reset(rows: seq<JsRow>): (r: seq<JsRow>)
    requires |rows| > 0
    ensures |r| == |rows|
    ensures forall j :: 0 <= j < |rows| ==>
      r[j].hours == rows[j].hours && r[j].ready == rows[j].ready && r[j].group == rows[j].group
    ensures forall j :: 0 <= j < |rows| ==>
      r[j].resource == (if Truthy(rows[0].resource) then rows[j].resource else None)
    ensures forall j :: 0 <= j < |rows| ==>
      r[j].start == (if rows[0].start.Blank? then Blank else rows[j].start)
    ensures forall j :: 0 <= j < |rows| ==>
      r[j].end == (if rows[0].end.Blank? then Blank else rows[j].end)
  {
    var first := rows[0];
    seq(|rows|, j requires 0 <= j < |rows| =>
      rows[j].(resource := if Truthy(first.resource) then rows[j].resource else None,
               start := if first.start.Blank? then Blank else rows[j].start,
               end := if first.end.Blank? then Blank else rows[j].end))
  }

  /** Clearing the columns a second time changes nothing. */
  lemma ResetIdempotent(rows: seq<JsRow>)
    requires |rows| > 0
    ensures Reset(Reset(rows)) == Reset(rows)
  {
  }

  /** Without a resource in the first row every row is to be assigned. */
  lemma ResetErasesAssignments(rows: seq<JsRow>, j: nat)
    requires |rows| > 0 && j < |rows| && !Truthy(rows[0].resource)
    ensures !Preassigned(Reset(rows)[j].resource)
  {
  }

  datatype Engine = Calculator | Route

  function WeekendOf(e: Engine): WeekendRule {
    if e.Calculator? then SatSun else FriSat
  }

  /** `calculateWorkingDates(baseDate, hours, holidays)` of each engine, with
      `hours` already defaulted. */
  function RowSpan(e: Engine, holidays: set<int>, row: JsRow): (r: Option<(int, int)>)
    ensures r.Some? <==> BaseOf(row).Day? && HoursUsed(row.hours) > 0.0
    ensures r.Some? ==> IsSpan(WeekendOf(e), holidays, BaseOf(row).day, DayCount(Ceiling, HoursUsed(row.hours)), r.value.0, r.value.1)
  {
    match e
    case Calculator => CalculatorDates(holidays, BaseOf(row), HoursUsed(row.hours))
    case Route => WorkingDates(FriSat, Ceiling, holidays, BaseOf(row), HoursUsed(row.hours))
  }

  /** The route's spans start and end on Sunday to Thursday. */
  lemma RouteSpanAvoidsFriday(holidays: set<int>, row: JsRow)
    requires RowSpan(Route, holidays, row).Some?
    ensures var (s, e) := RowSpan(Route, holidays, row).value;
      JsGetDay(s) < 5 && JsGetDay(e) < 5
  {
    var (s, e) := RowSpan(Route, holidays, row).value;
    RouteWeekendIsFriSat(s);
    RouteWeekendIsFriSat(e);
  }

  /** An assigned row missing a date gets both dates of its span; nothing
      is written when the span cannot be computed. */
  function Backfill(e: Engine, holidays: set<int>, row: JsRow): (r: JsRow)
    ensures r.resource == row.resource && r.hours == row.hours && r.ready == row.ready && r.group == row.group
    ensures r != row ==> (row.start.Blank? || row.end.Blank?) && RowSpan(e, holidays, row).Some?
    ensures (row.start.Blank? || row.end.Blank?) && RowSpan(e, holidays, row).Some? ==>
      r.start == Day(RowSpan(e, holidays, row).value.0) && r.end == Day(RowSpan(e, holidays, row).value.1)
  {
    if row.start.Blank? || row.end.Blank? then
      match RowSpan(e, holidays, row)
      case None => row
      case Some((s, d)) => row.(start := Day(s), end := Day(d))
    else row
  }

  /** Filling in dates a second time changes nothing. */
  lemma BackfillIdempotent(e: Engine, holidays: set<int>, row: JsRow)
    ensures Backfill(e, holidays, Backfill(e, holidays, row)) == Backfill(e, holidays, row)
  {
  }

  function BackfillAll(e: Engine, holidays: set<int>, rows: seq<JsRow>): (r: seq<JsRow>)
    ensures |r| == |rows|
    ensures forall j :: 0 <= j < |rows| ==>
      r[j] == if Preassigned(rows[j].resource) then Backfill(e, holidays, rows[j]) else rows[j]
  {
    seq(|rows|, j requires 0 <= j < |rows| =>
      if Preassigned(rows[j].resource) then Backfill(e, holidays, rows[j]) else rows[j])
  }

  /** The table both engines assign from. */
  function Prepare(e: Engine, holidays: set<int>, data: seq<JsRow>): (r: seq<JsRow>)
    requires |data| > 0
    ensures |r| == |data|
  {
    BackfillAll(e, holidays, Reset(data))
  }

  // ---------------------------------------------------------------------------
  // Rows as tasks

  function DateOf(c: DateCell): Option<int> {
    if c.Day? then Some(c.day) else None
  }

  /** A row as the counting and conflict tests see it. A cell that is not a
      date makes `new Date(...)` invalid, and every comparison with it is
      false, so it conflicts with nothing, like a missing one. */
  function TaskOf(row: JsRow): Task {
    Task(row.resource, DateOf(row.start), DateOf(row.end))
  }

  function TasksOf(rows: seq<JsRow>): (r: seq<Task>)
    ensures |r| == |rows| && forall j :: 0 <= j < |rows| ==> r[j] == TaskOf(rows[j])
  {
    seq(|rows|, j requires 0 <= j < |rows| => TaskOf(rows[j]))
  }

  function CellOf(d: Option<int>, old_: DateCell): DateCell {
    if d.Some? then Day(d.value) else old_
  }

  /** Writes the resource and dates of `tasks` back into the rows. */
  function Merge(rows: seq<JsRow>, tasks: seq<Task>): (r: seq<JsRow>)
    requires |tasks| == |rows|
    ensures |r| == |rows|
    ensures forall j :: 0 <= j < |rows| && tasks[j] == TaskOf(rows[j]) ==> r[j] == rows[j]
    ensures forall j :: 0 <= j < |rows| ==>
      r[j].hours == rows[j].hours && r[j].ready == rows[j].ready && r[j].group == rows[j].group
    ensures forall j :: 0 <= j < |rows| ==> r[j].resource == tasks[j].resource
    ensures forall j :: 0 <= j < |rows| && tasks[j].start.Some? ==> r[j].start == Day(tasks[j].start.value)
    ensures forall j :: 0 <= j < |rows| && tasks[j].end.Some? ==> r[j].end == Day(tasks[j].end.value)
  {
    seq(|rows|, j requires 0 <= j < |rows| =>
      rows[j].(resource := tasks[j].resource,
               start := CellOf(tasks[j].start, rows[j].start),
               end := CellOf(tasks[j].end, rows[j].end)))
  }

  /** Reading back what was merged gives the tasks, when every task either
      is its row's own or carries both dates. */
  lemma MergeTasks(rows: seq<JsRow>, tasks: seq<Task>)
    requires |tasks| == |rows|
    requires forall j :: 0 <= j < |rows| && tasks[j] != TaskOf(rows[j]) ==> tasks[j].start.Some? && tasks[j].end.Some?
    ensures TasksOf(Merge(rows, tasks)) == tasks
  {
    var m := Merge(rows, tasks);
    forall j | 0 <= j < |rows|
      ensures TaskOf(m[j]) == tasks[j]
    {
    }
  }

  // ---------------------------------------------------------------------------
  // Order

  function NegKeys(rows: seq<JsRow>): (r: seq<real>)
    ensures |r| == |rows| && forall j :: 0 <= j < |rows| ==> r[j] == -SortKey(rows[j].hours)
  {
    seq(|rows|, j requires 0 <= j < |rows| => -SortKey(rows[j].hours))
  }

  /** `unassigned.sort((a, b) => (b.hours || 0) - (a.hours || 0))`: the
      unassigned rows, each once, by descending key; `Array.prototype.sort`
      is stable, so equal keys keep table order. */
  function Order(rows: seq<JsRow>): (r: seq<nat>)
    ensures forall a :: 0 <= a < |r| ==> r[a] < |rows| && !Preassigned(rows[r[a]].resource)
    ensures forall j :: 0 <= j < |rows| && !Preassigned(rows[j].resource) ==> j in r
    ensures forall a, b :: 0 <= a < b < |r| ==> r[a] != r[b]
    ensures forall a, b :: 0 <= a < b < |r| ==> SortKey(rows[r[a]].hours) >= SortKey(rows[r[b]].hours)
    ensures forall a, b :: 0 <= a < b < |r| && SortKey(rows[r[a]].hours) == SortKey(rows[r[b]].hours) ==> r[a] < r[b]
  {
    var un := UnassignedIndices(TasksOf(rows));
    var keys := NegKeys(rows);
    assert Sorting.InRange(keys, un) && Sorting.Distinct(un);
    var r := Sorting.SortIndices(keys, un);
    OrderFacts(rows, un, r);
    r
  }

  lemma OrderFacts(rows: seq<JsRow>, un: seq<nat>, r: seq<nat>)
    requires un == UnassignedIndices(TasksOf(rows))
    requires Sorting.InRange(NegKeys(rows), r) && Sorting.SortedBy(NegKeys(rows), r)
    requires multiset(r) == multiset(un)
    ensures forall a :: 0 <= a < |r| ==> r[a] < |rows| && !Preassigned(rows[r[a]].resource)
    ensures forall j :: 0 <= j < |rows| && !Preassigned(rows[j].resource) ==> j in r
    ensures forall a, b :: 0 <= a < b < |r| ==> r[a] != r[b]
    ensures forall a, b :: 0 <= a < b < |r| ==> SortKey(rows[r[a]].hours) >= SortKey(rows[r[b]].hours)
    ensures forall a, b :: 0 <= a < b < |r| && SortKey(rows[r[a]].hours) == SortKey(rows[r[b]].hours) ==> r[a] < r[b]
  {
    Sorting.SameMembers(r, un);
    Sorting.SortedByDistinct(NegKeys(rows), r);
    Sorting.SortedPairs(NegKeys(rows), r);
    assert forall a :: 0 <= a < |r| ==> r[a] in un;
  }

  // ---------------------------------------------------------------------------
  // Pools

  /** `config.max_tasks || 15` for every entry, in `Object.entries` order. */
  function LimitsOf(p: Pool): (r: Limits)
    ensures |r| == |p|
    ensures forall k :: 0 <= k < |p| ==> r[k].0 == p[k].0
    ensures forall k :: 0 <= k < |p| ==>
      r[k].1 == if p[k].1.maxTasks.Some? && p[k].1.maxTasks.value != 0 then p[k].1.maxTasks.value else 15
  {
    seq(|p|, k requires 0 <= k < |p| =>
      (p[k].0, if p[k].1.maxTasks.Some? && p[k].1.maxTasks.value != 0 then p[k].1.maxTasks.value else 15))
  }

  /** The current contents of the shared pool objects: the seven groups of
      `GROUP_CONFIG_MAPPING`, in `GroupKeys` order, and `TESTERS_CONFIG`. */
  datatype Shared = Shared(groups: seq<Pool>, testers: Pool)

  type SharedPools = s: Shared | |s.groups| == |GroupKeys| witness Shared([[], [], [], [], [], [], []], [])

  /** The pools as shipped, before any call. */
  function Shipped(): SharedPools {
    Shared(TsConfig.Groups, TsConfig.Testers)
  }

  /** Which pool a row scans: its group's, when the plan works by group and
      the row has one, otherwise the plan's flat pool. */
  function RowRef(plan: TsConfig.Plan, row: JsRow): (r: TsConfig.PoolRef)
    ensures r.SharedGroup? ==> r.index < |GroupKeys|
    ensures r.SharedGroup? ==> plan.useGroupBasedAssignment && Truthy(row.group) && GroupKeys[r.index] == Upper(row.group.value)
    ensures r.SharedTesters? <==> !(plan.useGroupBasedAssignment && Truthy(row.group)) && !plan.developerPlan
  {
    if plan.useGroupBasedAssignment && Truthy(row.group) then TsConfig.GroupConfig(row.group) else TsConfig.FlatPool(plan)
  }

  /** The pool object behind a reference. The merged pool is rebuilt from the
      groups' current contents. */
  function PoolAt(sh: SharedPools, ref: TsConfig.PoolRef): (r: Pool)
    requires ref.SharedGroup? ==> ref.index < |GroupKeys|
    ensures ref.FreshUnion? ==> NameSet(r) == AllNames(sh.groups)
  {
    match ref
    case SharedGroup(k) => sh.groups[k]
    case FreshUnion =>
      UnionNames(sh.groups);
      UnionOf(sh.groups)
    case SharedTesters => sh.testers
  }

  /** Writing a pool object back: the shared ones keep the change, the merged
      copy is dropped. */
  function Store(sh: SharedPools, ref: TsConfig.PoolRef, p: Pool): (r: SharedPools)
    requires ref.SharedGroup? ==> ref.index < |GroupKeys|
    ensures ref.FreshUnion? ==> r == sh
    ensures forall k :: 0 <= k < |GroupKeys| && ref != TsConfig.SharedGroup(k) ==> r.groups[k] == sh.groups[k]
    ensures !ref.SharedTesters? ==> r.testers == sh.testers
    ensures PoolAt(r, ref) == if ref.FreshUnion? then PoolAt(sh, ref) else p
  {
    match ref
    case SharedGroup(k) => sh.(groups := sh.groups[k := p])
    case FreshUnion => sh
    case SharedTesters => sh.(testers := p)
  }

  // ---------------------------------------------------------------------------
  // Dynamic consultants

  /** The 25 colours, in order, of the consultants the calculator invents. */
  const Colors: seq<string> := [
    "#FF6B6B", "#4ECDC4", "#45B7D1", "#96CEB4", "#FFEAA7",
    "#A3E4DB", "#FFD6E0", "#B5EAD7", "#FFDAC1", "#E2F0CB",
    "#C7CEEA", "#FFF1BA", "#B5D8FA", "#FFB7B2", "#D4A5A5",
    "#9B59B6", "#3498DB", "#E67E22", "#F39C12", "#1ABC9C",
    "#E74C3C", "#2ECC71", "#9B59B6", "#34495E", "#16A085"]

  /** `Senior_${n.toString().padStart(2, '0')}`. */
  function SeniorName(n: nat): (r: string)
    ensures StartsWith(r, "Senior_") && |r| >= 9
  {
    var r := "Senior_" + PadTwo(n);
    assert r[..7] == "Senior_";
    r
  }

  /** Different numbers name different consultants. */
  lemma SeniorNameInjective(m: nat, n: nat)
    requires m != n
    ensures SeniorName(m) != SeniorName(n)
  {
    PadTwoInjective(m, n);
    var a, b := SeniorName(m), SeniorName(n);
    assert a[7..] == PadTwo(m) && b[7..] == PadTwo(n);
  }

  /** The colour of the `n`-th consultant, counting from 1: the list taken
      in turn. */
  function ColorOf(n: nat): (r: string)
    requires n >= 1
  {
    Cyclic(Colors, n)
  }

  /** The `n`-th element (from 1) of `xs` repeated without end. */
  function Cyclic<T>(xs: seq<T>, n: nat): T
    requires n >= 1 && |xs| > 0
  {
    xs[(n - 1) % |xs|]
  }

  /** A cyclic sequence of 25 repeats after a full turn. */
  lemma CyclicShift<T>(xs: seq<T>, n: nat)
    requires n >= 1 && |xs| == 25
    ensures Cyclic(xs, n + |xs|) == Cyclic(xs, n)
  {
    assert (n - 1 + 25) % 25 == (n - 1) % 25;
  }

  lemma ColorsCount()
    ensures |Colors| == 25
  {
  }

  /** The configuration of the `n`-th consultant: a senior with limit 15. */
  function DynamicEntry(n: nat): (r: Resource)
    requires n >= 1
    ensures r.level == "SENIOR" && r.maxTasks == Some(15) && r.color == Some(ColorOf(n))
  {
    Resource("SENIOR", Some(15), Some(ColorOf(n)))
  }

  /** `generateDynamicSeniorConsultants(count)`: `Senior_01` to
      `Senior_count`, each written into an object in turn. */
  function GenerateDynamicSeniorConsultants(count: int): (r: Pool)
    ensures |r| == if count > 0 then count else 0
    ensures forall i :: 0 <= i < |r| ==> r[i] == (SeniorName(i + 1), DynamicEntry(i + 1))
    decreases count
  {
    if count <= 0 then []
    else
      var before := GenerateDynamicSeniorConsultants(count - 1);
      AppendSenior(before, count);
      Put(before, SeniorName(count), DynamicEntry(count))
  }

  /** Writing the next consultant into the first `count - 1` appends it. */
  lemma AppendSenior(before: Pool, count: nat)
    requires count >= 1 && |before| == count - 1
    requires forall i :: 0 <= i < |before| ==> before[i] == (SeniorName(i + 1), DynamicEntry(i + 1))
    ensures var r := Put(before, SeniorName(count), DynamicEntry(count));
      |r| == count && forall i :: 0 <= i < count ==> r[i] == (SeniorName(i + 1), DynamicEntry(i + 1))
  {
    FreshSeniorName(before, count);
    var r := Put(before, SeniorName(count), DynamicEntry(count));
    assert r == before + [(SeniorName(count), DynamicEntry(count))];
    forall i | 0 <= i < count ensures r[i] == (SeniorName(i + 1), DynamicEntry(i + 1)) {
      if i < |before| {
        assert r[i] == before[i];
      }
    }
  }

  lemma FreshSeniorName(before: Pool, count: nat)
    requires count >= 1 && |before| == count - 1
    requires forall i :: 0 <= i < |before| ==> before[i].0 == SeniorName(i + 1)
    ensures SeniorName(count) !in NameSet(before)
  {
    if SeniorName(count) in NameSet(before) {
      var i :| 0 <= i < |before| && before[i].0 == SeniorName(count);
      SeniorNameInjective(i + 1, count);
    }
  }

  /** The generated names are distinct. */
  lemma GeneratedNamesUnique(count: int)
    ensures UniqueNames(GenerateDynamicSeniorConsultants(count))
  {
    var r := GenerateDynamicSeniorConsultants(count);
    forall a, b | 0 <= a < b < |r| ensures r[a].0 != r[b].0 {
      SeniorNameInjective(a + 1, b + 1);
    }
  }

  /** The generated colours repeat after a full turn of the list. */
  lemma GeneratedColorsCycle(count: int, i: nat)
    requires i + |Colors| < count
    ensures GenerateDynamicSeniorConsultants(count)[i + |Colors|].1.color == GenerateDynamicSeniorConsultants(count)[i].1.color
  {
    ColorsCount();
    GeneratedColor(count, i);
    GeneratedColor(count, i + 25);
    CyclicShift(Colors, i + 1);
  }

  lemma GeneratedColor(count: int, k: nat)
    requires k < count
    ensures GenerateDynamicSeniorConsultants(count)[k].1.color == Some(ColorOf(k + 1))
  {
    var r := GenerateDynamicSeniorConsultants(count);
    assert r[k] == (SeniorName(k + 1), DynamicEntry(k + 1));
  }

  /** `b` is `a` after writes of invented consultants: every entry of `a`
      keeps its name and position, and every new name is a `Senior_` name. */
  predicate PoolGrows(a: Pool, b: Pool) {
    && |a| <= |b|
    && (forall j :: 0 <= j < |a| ==> b[j].0 == a[j].0)
    && (forall n :: n in NameSet(b) && n !in NameSet(a) ==> StartsWith(n, "Senior_"))
  }

  predicate SharedGrows(a: SharedPools, b: SharedPools) {
    && (forall k :: 0 <= k < |GroupKeys| ==> PoolGrows(a.groups[k], b.groups[k]))
    && PoolGrows(a.testers, b.testers)
  }

  lemma SharedGrowsTransitive(a: SharedPools, b: SharedPools, c: SharedPools)
    requires SharedGrows(a, b) && SharedGrows(b, c)
    ensures SharedGrows(a, c)
  {
    forall k | 0 <= k < |GroupKeys| ensures PoolGrows(a.groups[k], c.groups[k]) {
      assert PoolGrows(a.groups[k], b.groups[k]) && PoolGrows(b.groups[k], c.groups[k]);
    }
  }

  // ---------------------------------------------------------------------------
  // The calculator's pass

  /** The table's tasks, the shared pools, and how many consultants this
      call has invented. */
  datatype CalcState = CalcState(tasks: seq<Task>, shared: SharedPools, created: nat)

  /** A row holding a named resource and exactly the span `span`. */
  predicate Assigned(t: Task, span: (int, int)) {
    Truthy(t.resource) && t.start == Some(span.0) && t.end == Some(span.1)
  }

  /** `currentResourceConfig[name] = dynamicConfig` for the `n`-th
      consultant: the shared pools keep the new entry, the merged copy
      drops it. */
  function Invent(sh: SharedPools, ref: TsConfig.PoolRef, n: nat): (r: SharedPools)
    requires ref.SharedGroup? ==> ref.index < |GroupKeys|
    requires n >= 1
    ensures SharedGrows(sh, r)
    ensures !ref.FreshUnion? ==> Lookup(PoolAt(r, ref), SeniorName(n)) == Some(DynamicEntry(n))
    ensures ref.FreshUnion? ==> r == sh
  {
    var pool := PoolAt(sh, ref);
    var grown := Put(pool, SeniorName(n), DynamicEntry(n));
    assert PoolGrows(pool, grown);
    Store(sh, ref, grown)
  }

  /** The first entry of the row's pool with room and no overlap, when the
      row has a span and that entry's name is not empty. */
  function NamedFit(pool: Pool, tasks: seq<Task>, span: Option<(int, int)>): (r: Option<string>)
    ensures r.Some? ==> r.value != "" && span.Some?
    ensures r.Some? <==> (span.Some? && FirstFit(LimitsOf(pool), tasks, span.value.0, span.value.1).Some? &&
      pool[FirstFit(LimitsOf(pool), tasks, span.value.0, span.value.1).value].0 != "")
  {
    match span
    case None => None
    case Some((s, e)) =>
      match FirstFit(LimitsOf(pool), tasks, s, e)
      case None => None
      case Some(k) => if pool[k].0 != "" then Some(pool[k].0) else None
  }

  /** One row of the calculator's loop. A row without a base date is
      skipped. Otherwise the first entry of its pool with room and no
      overlap takes it; when there is none, or its name is empty, the
      consultant `Senior_NN` is written into that pool and takes the row,
      unless the row has no span, in which case the pool keeps the new
      entry and the row stays unassigned. */
  function CalcStep(plan: TsConfig.Plan, holidays: set<int>, rows: seq<JsRow>, st: CalcState, i: nat): (r: CalcState)
    requires |st.tasks| == |rows| && i < |rows|
    ensures |r.tasks| == |rows|
    ensures forall j :: 0 <= j < |rows| && j != i ==> r.tasks[j] == st.tasks[j]
    ensures BaseOf(rows[i]).Blank? ==> r == st
    ensures RowSpan(Calculator, holidays, rows[i]).None? ==> r.tasks == st.tasks && r.created == st.created
    ensures RowSpan(Calculator, holidays, rows[i]).Some? ==> Assigned(r.tasks[i], RowSpan(Calculator, holidays, rows[i]).value)
    ensures r.created == st.created || (r.created == st.created + 1 && r.tasks[i].resource == Some(SeniorName(r.created)))
    ensures SharedGrows(st.shared, r.shared)
  {
    var row := rows[i];
    if BaseOf(row).Blank? then st
    else
      var ref := RowRef(plan, row);
      var span := RowSpan(Calculator, holidays, row);
      match NamedFit(PoolAt(st.shared, ref), st.tasks, span)
      case Some(name) =>
        CalcState(st.tasks[i := Task(Some(name), Some(span.value.0), Some(span.value.1))], st.shared, st.created)
      case None =>
        var n := st.created + 1;
        var shared := Invent(st.shared, ref, n);
        match span
        case None => CalcState(st.tasks, shared, st.created)
        case Some((s, e)) => CalcState(st.tasks[i := Task(Some(SeniorName(n)), Some(s), Some(e))], shared, n)
  }

  /** A row the step gives to an existing entry had room and no overlap
      there, and no earlier entry of its pool did. */
  lemma CalcStepFirstFit(plan: TsConfig.Plan, holidays: set<int>, rows: seq<JsRow>, st: CalcState, i: nat)
    requires |st.tasks| == |rows| && i < |rows|
    ensures var next := CalcStep(plan, holidays, rows, st, i);
      var pool := LimitsOf(PoolAt(st.shared, RowRef(plan, rows[i])));
      next.tasks != st.tasks && next.created == st.created ==>
        && RowSpan(Calculator, holidays, rows[i]).Some?
        && var (s, e) := RowSpan(Calculator, holidays, rows[i]).value;
           exists k :: 0 <= k < |pool| && next.tasks[i].resource == Some(pool[k].0) &&
             Fits(st.tasks, pool[k], s, e) && forall k' :: 0 <= k' < k ==> !Fits(st.tasks, pool[k'], s, e)
  {
    var next := CalcStep(plan, holidays, rows, st, i);
    if next.tasks != st.tasks && next.created == st.created {
      var row := rows[i];
      var p := PoolAt(st.shared, RowRef(plan, row));
      var span := RowSpan(Calculator, holidays, row);
      assert NamedFit(p, st.tasks, span).Some?;
      var k := FirstFit(LimitsOf(p), st.tasks, span.value.0, span.value.1).value;
      assert next.tasks[i].resource == Some(p[k].0);
    }
  }

  /** A consultant is invented only when the pool offers no named entry as
      the first fit. */
  lemma CalcStepFallback(plan: TsConfig.Plan, holidays: set<int>, rows: seq<JsRow>, st: CalcState, i: nat)
    requires |st.tasks| == |rows| && i < |rows|
    ensures CalcStep(plan, holidays, rows, st, i).created == st.created + 1 ==>
      && RowSpan(Calculator, holidays, rows[i]).Some?
      && var pool := LimitsOf(PoolAt(st.shared, RowRef(plan, rows[i])));
         var (s, e) := RowSpan(Calculator, holidays, rows[i]).value;
         var fit := FirstFit(pool, st.tasks, s, e);
         fit.None? || pool[fit.value].0 == ""
  {
  }

  /** The loop over `order`. */
  function CalcRun(plan: TsConfig.Plan, holidays: set<int>, rows: seq<JsRow>, st: CalcState, order: seq<nat>): (r: CalcState)
    requires |st.tasks| == |rows| && IndicesIn(order, |rows|)
    ensures |r.tasks| == |rows|
    ensures forall j :: 0 <= j < |rows| && j !in order ==> r.tasks[j] == st.tasks[j]
    ensures forall j :: 0 <= j < |rows| && r.tasks[j] != st.tasks[j] ==>
      RowSpan(Calculator, holidays, rows[j]).Some? && Assigned(r.tasks[j], RowSpan(Calculator, holidays, rows[j]).value)
    ensures st.created <= r.created
    ensures SharedGrows(st.shared, r.shared)
    decreases |order|
  {
    if |order| == 0 then st
    else
      var mid := CalcStep(plan, holidays, rows, st, order[0]);
      OrderTail(order, |rows|);
      var r := CalcRun(plan, holidays, rows, mid, order[1..]);
      SharedGrowsTransitive(st.shared, mid.shared, r.shared);
      r
  }

  /** Every row of the loop that has a span ends up assigned to it. */
  lemma {:induction false} CalcRunAssigns(plan: TsConfig.Plan, holidays: set<int>, rows: seq<JsRow>, st: CalcState, order: seq<nat>, i: nat)
    requires |st.tasks| == |rows| && IndicesIn(order, |rows|)
    requires i in order && RowSpan(Calculator, holidays, rows[i]).Some?
    ensures Assigned(CalcRun(plan, holidays, rows, st, order).tasks[i], RowSpan(Calculator, holidays, rows[i]).value)
    decreases |order|
  {
    var mid := CalcStep(plan, holidays, rows, st, order[0]);
    var tail := order[1..];
    OrderTail(order, |rows|);
    assert CalcRun(plan, holidays, rows, st, order) == CalcRun(plan, holidays, rows, mid, tail);
    if order[0] != i {
      CalcRunAssigns(plan, holidays, rows, mid, tail, i);
    }
  }

  /** The calculator's result for a non-empty table under a known plan. */
  datatype CalcOutcome = CalcOutcome(rows: seq<JsRow>, shared: SharedPools)

  function Calc(plan: TsConfig.Plan, holidays: set<int>, data: seq<JsRow>, sh: SharedPools): (r: CalcOutcome)
    requires |data| > 0
    ensures |r.rows| == |data|
    ensures SharedGrows(sh, r.shared)
  {
    var rows := Prepare(Calculator, holidays, data);
    var st := CalcRun(plan, holidays, rows, CalcState(TasksOf(rows), sh, 0), Order(rows));
    CalcOutcome(Merge(rows, st.tasks), st.shared)
  }

  /** `calculateAssignments(data, planType)`. `data` is `None` when it is
      falsy or not an array. An empty or missing table gives `[]` before the
      plan is looked up; an unknown plan throws `ConfigError`. */
  function CalculateAssignments(data: Option<seq<JsRow>>, planType: string, holidays: set<int>, sh: SharedPools): (r: Result<CalcOutcome, string>)
    ensures data.None? || |data.value| == 0 ==> r == Ok(CalcOutcome([], sh))
    ensures data.Some? && |data.value| > 0 ==> (r.Err? <==> TsConfig.GetPlanConfig(planType).Err?)
    ensures r.Err? ==> r.error == "Unknown plan type: " + planType
    ensures r.Ok? && data.Some? ==> |r.value.rows| == |data.value|
    ensures r.Ok? ==> SharedGrows(sh, r.value.shared)
  {
    if data.None? || |data.value| == 0 then Ok(CalcOutcome([], sh))
    else
      match TsConfig.GetPlanConfig(planType)
      case Err(m) => Err(m)
      case Ok(plan) => Ok(Calc(plan, holidays, data.value, sh))
  }

  /** Assigned rows come back as prepared: the calculator never reassigns. */
  lemma CalcKeepsPreassigned(plan: TsConfig.Plan, holidays: set<int>, data: seq<JsRow>, sh: SharedPools, i: nat)
    requires i < |data| && Preassigned(Prepare(Calculator, holidays, data)[i].resource)
    ensures Calc(plan, holidays, data, sh).rows[i] == Prepare(Calculator, holidays, data)[i]
  {
    var rows := Prepare(Calculator, holidays, data);
    var order := Order(rows);
    assert forall a :: 0 <= a < |order| ==> order[a] != i;
  }

  /** Every unassigned row with a base date and positive hours gets a named
      resource and its span: the calculator never leaves such a row behind. */
  lemma CalcAssignsEveryUsableRow(plan: TsConfig.Plan, holidays: set<int>, data: seq<JsRow>, sh: SharedPools, i: nat)
    requires i < |data|
    requires !Preassigned(Prepare(Calculator, holidays, data)[i].resource)
    requires RowSpan(Calculator, holidays, Prepare(Calculator, holidays, data)[i]).Some?
    ensures var row := Calc(plan, holidays, data, sh).rows[i];
      var (s, e) := RowSpan(Calculator, holidays, Prepare(Calculator, holidays, data)[i]).value;
      Truthy(row.resource) && row.start == Day(s) && row.end == Day(e)
  {
    var rows := Prepare(Calculator, holidays, data);
    var order := Order(rows);
    CalcRunAssigns(plan, holidays, rows, CalcState(TasksOf(rows), sh, 0), order, i);
  }

  /** A row the calculator changes was unassigned, had a span, and now holds
      a named resource and that span. */
  lemma CalcChangedRows(plan: TsConfig.Plan, holidays: set<int>, data: seq<JsRow>, sh: SharedPools, i: nat)
    requires i < |data|
    ensures var rows := Prepare(Calculator, holidays, data);
      var row := Calc(plan, holidays, data, sh).rows[i];
      row != rows[i] ==>
        && !Preassigned(rows[i].resource)
        && RowSpan(Calculator, holidays, rows[i]).Some?
        && Truthy(row.resource)
        && row.start == Day(RowSpan(Calculator, holidays, rows[i]).value.0)
        && row.end == Day(RowSpan(Calculator, holidays, rows[i]).value.1)
  {
    var rows := Prepare(Calculator, holidays, data);
    if Calc(plan, holidays, data, sh).rows[i] != rows[i] {
      assert i in Order(rows);
    }
  }

  // ---------------------------------------------------------------------------
  // The route

  datatype Response = Success(rows: seq<JsRow>) | Failure(status: int, error: string)

  const InvalidDataFormat := "Invalid data format"

  /** The `TypeError` message of `workingData[0][planConfig.resource_col]` on an empty array. */
  const EmptyTableError := "Cannot read properties of undefined (reading 'abapAssigned')"

  function RoutePools(plan: TsConfig.Plan, sh: SharedPools, rows: seq<JsRow>): (r: seq<Limits>)
    ensures |r| == |rows|
    ensures forall j :: 0 <= j < |rows| ==> r[j] == LimitsOf(PoolAt(sh, RowRef(plan, rows[j])))
  {
    seq(|rows|, j requires 0 <= j < |rows| => LimitsOf(PoolAt(sh, RowRef(plan, rows[j]))))
  }

  function RouteSpans(holidays: set<int>, rows: seq<JsRow>): (r: seq<Option<(int, int)>>)
    ensures |r| == |rows|
    ensures forall j :: 0 <= j < |rows| ==> r[j] == RowSpan(Route, holidays, rows[j])
  {
    seq(|rows|, j requires 0 <= j < |rows| => RowSpan(Route, holidays, rows[j]))
  }

  /** The route's pass over a prepared table: the greedy pass of the Python
      engines, with the `if (bestResource)` test. */
  function RoutePass(plan: TsConfig.Plan, holidays: set<int>, sh: SharedPools, rows: seq<JsRow>): (r: seq<Task>)
    ensures |r| == |rows|
  {
    Run(TasksOf(rows), Order(rows), RoutePools(plan, sh, rows), RouteSpans(holidays, rows), true)
  }

  /** The assigning part of `POST` for a non-empty table under a known plan. */
  function RouteAssign(plan: TsConfig.Plan, holidays: set<int>, sh: SharedPools, data: seq<JsRow>): (r: seq<JsRow>)
    requires |data| > 0
    ensures |r| == |data|
  {
    var rows := Prepare(Route, holidays, data);
    Merge(rows, RoutePass(plan, holidays, sh, rows))
  }

  /** `POST /api/assign`: 400 for data that is missing or not an array; 500
      with the `ConfigError` message for an unknown plan; 500 with a
      `TypeError` for an empty array; otherwise the assigned table. The
      shared pools are only read. */
  function Post(data: Option<seq<JsRow>>, planType: string, holidays: set<int>, sh: SharedPools): (r: Response)
    ensures r == Failure(400, InvalidDataFormat) <==> data.None?
    ensures data.Some? && TsConfig.GetPlanConfig(planType).Err? ==> r == Failure(500, "Unknown plan type: " + planType)
    ensures data.Some? && TsConfig.GetPlanConfig(planType).Ok? && |data.value| == 0 ==> r == Failure(500, EmptyTableError)
    ensures r.Success? <==> data.Some? && |data.value| > 0 && TsConfig.GetPlanConfig(planType).Ok?
    ensures r.Success? ==> |r.rows| == |data.value|
  {
    if data.None? then Failure(400, InvalidDataFormat)
    else
      match TsConfig.GetPlanConfig(planType)
      case Err(m) => Failure(500, m)
      case Ok(plan) =>
        if |data.value| == 0 then Failure(500, EmptyTableError)
        else Success(RouteAssign(plan, holidays, sh, data.value))
  }

  lemma RoutePassTasks(plan: TsConfig.Plan, holidays: set<int>, sh: SharedPools, data: seq<JsRow>)
    requires |data| > 0
    ensures TasksOf(RouteAssign(plan, holidays, sh, data)) == RoutePass(plan, holidays, sh, Prepare(Route, holidays, data))
  {
    var rows := Prepare(Route, holidays, data);
    MergeTasks(rows, RoutePass(plan, holidays, sh, rows));
  }

  /** Assigned rows come back as prepared. */
  lemma RouteKeepsPreassigned(plan: TsConfig.Plan, holidays: set<int>, sh: SharedPools, data: seq<JsRow>, i: nat)
    requires i < |data| && Preassigned(Prepare(Route, holidays, data)[i].resource)
    ensures RouteAssign(plan, holidays, sh, data)[i] == Prepare(Route, holidays, data)[i]
  {
    var rows := Prepare(Route, holidays, data);
    var order := Order(rows);
    assert forall a :: 0 <= a < |order| ==> order[a] != i;
  }

  /** A row the route changes was unassigned and now holds a non-empty name
      from its own pool, with its span. */
  lemma RouteChangedRows(plan: TsConfig.Plan, holidays: set<int>, sh: SharedPools, data: seq<JsRow>, i: nat)
    requires i < |data|
    ensures var rows := Prepare(Route, holidays, data);
      var row := RouteAssign(plan, holidays, sh, data)[i];
      row != rows[i] ==>
        && !Preassigned(rows[i].resource)
        && RowSpan(Route, holidays, rows[i]).Some?
        && Truthy(row.resource)
        && InPool(row.resource.value, LimitsOf(PoolAt(sh, RowRef(plan, rows[i]))))
        && row.start == Day(RowSpan(Route, holidays, rows[i]).value.0)
        && row.end == Day(RowSpan(Route, holidays, rows[i]).value.1)
  {
    var rows := Prepare(Route, holidays, data);
    if RouteAssign(plan, holidays, sh, data)[i] != rows[i] {
      var order := Order(rows);
      var out := RoutePass(plan, holidays, sh, rows);
      assert i in order;
      assert out[i] != TasksOf(rows)[i];
      RunWritesNamed(TasksOf(rows), order, RoutePools(plan, sh, rows), RouteSpans(holidays, rows), i);
    }
  }

  /** The most rows any pool the route consults lets `name` take. */
  predicate RouteLimitAtMost(plan: TsConfig.Plan, sh: SharedPools, rows: seq<JsRow>, name: string, bound: int) {
    forall j, k ::
      (0 <= j < |rows| && 0 <= k < |LimitsOf(PoolAt(sh, RowRef(plan, rows[j])))| &&
       LimitsOf(PoolAt(sh, RowRef(plan, rows[j])))[k].0 == name) ==>
      LimitsOf(PoolAt(sh, RowRef(plan, rows[j])))[k].1 <= bound
  }

  /** Capacity: when every pool limits `name` to at most `bound` rows, the
      route leaves it with at most `bound`, or no more than it had. */
  lemma RouteCapacity(plan: TsConfig.Plan, holidays: set<int>, sh: SharedPools, data: seq<JsRow>, name: string, bound: int)
    requires |data| > 0
    requires RouteLimitAtMost(plan, sh, Prepare(Route, holidays, data), name, bound)
    ensures var c := CountOf(TasksOf(Prepare(Route, holidays, data)), name);
      CountOf(TasksOf(RouteAssign(plan, holidays, sh, data)), name) <= if c < bound then bound else c
  {
    var rows := Prepare(Route, holidays, data);
    var order := Order(rows);
    var pools := RoutePools(plan, sh, rows);
    assert LimitsBounded(order, pools, name, bound);
    RoutePassTasks(plan, holidays, sh, data);
    RunCapacity(TasksOf(rows), order, pools, RouteSpans(holidays, rows), true, name, bound);
  }

  /** No new overlap: a row the route assigns overlaps no other row that
      ends up with the same resource. */
  lemma RouteNoNewOverlap(plan: TsConfig.Plan, holidays: set<int>, sh: SharedPools, data: seq<JsRow>)
    requires |data| > 0
    ensures NoNewOverlap(TasksOf(Prepare(Route, holidays, data)), TasksOf(RouteAssign(plan, holidays, sh, data)))
  {
    var rows := Prepare(Route, holidays, data);
    RoutePassTasks(plan, holidays, sh, data);
    RunNoNewOverlap(TasksOf(rows), Order(rows), RoutePools(plan, sh, rows), RouteSpans(holidays, rows), true);
  }
}

=== FILE: utils_config.dfy ===
/** The older Streamlit configuration (`utils/config.py`): GRID carries two
    extra seniors, a group of placeholder developers joins the default pool,
    and an unknown plan type gives an empty configuration instead of an error. */
module UtilsConfig {
  import opened Wrappers
  import opened Strings
  import opened Catalog
  import CoreConfig
  import Models

  /** `DEVELOPERS_CONFIG_GRID`: the five core seniors plus senior6 and senior7. */
  const Grid: Pool := [
    ("Fabricio Sánchez", CoreConfig.Senior(15, "#FF6B6B")),
    ("Oscar Castellanos", CoreConfig.Senior(15, "#4ECDC4")),
    ("Gabriel Huamani", CoreConfig.Senior(15, "#45B7D1")),
    ("Luiggi Gonzales", CoreConfig.Senior(15, "#96CEB4")),
    ("Norman Tinco", CoreConfig.Senior(4, "#FFEAA7")),
    ("senior6", CoreConfig.Senior(15, "#DDA0DD")),
    ("senior7", CoreConfig.Senior(15, "#98D8C8"))]

  /** `OTHER_DEVELOPERS_CONFIG`. */
  const Other: Pool := [
    ("junior1", CoreConfig.Res("JUNIOR", 10, "#FF9999")),
    ("pleno1", CoreConfig.Res("PLENO", 12, "#99CCFF")),
    ("senior1", CoreConfig.Senior(15, "#99FF99"))]

  /** `GROUP_CONFIG_MAPPING`, at the positions of `GroupKeys`; the other six
      groups are the same as in the application configuration. */
  const Groups: seq<Pool> := [Grid, CoreConfig.Fsm, CoreConfig.C4e, CoreConfig.Erp, CoreConfig.Loc, CoreConfig.Portal, CoreConfig.Hcm]

  /** `DEVELOPERS_CONFIG`: the seven groups and then the placeholder group,
      merged with `{**a, **b, ...}`. */
  function Developers(): Pool {
    UnionOf(Groups + [Other])
  }

  lemma GridNames()
    ensures Keys(Grid) == Keys(CoreConfig.Grid) + {"senior6", "senior7"}
  {
    CoreConfig.GridKeys();
  }

  lemma OtherNames()
    ensures Keys(Other) == {"junior1", "pleno1", "senior1"}
  {
  }

  lemma ExtraNamesSplit()
    ensures ExtraNames == {"senior6", "senior7"} + Keys(Other)
  {
    OtherNames();
  }

  /** Only GRID differs between the two mappings. */
  lemma GroupsAgree(k: nat)
    requires 1 <= k < |Groups|
    ensures Groups[k] == CoreConfig.Groups[k]
  {
  }

  /** The six groups both mappings share. */
  const SharedGroups: seq<Pool> := CoreConfig.Groups[1..]

  /** Each mapping is its own GRID followed by the shared groups. */
  lemma GroupsSplit()
    ensures Groups == [Grid] + SharedGroups
    ensures CoreConfig.Groups == [CoreConfig.Grid] + SharedGroups
  {
  }

  lemma GroupsAllNames()
    ensures AllNames(Groups) == Keys(Grid) + AllNames(SharedGroups)
    ensures AllNames(CoreConfig.Groups) == Keys(CoreConfig.Grid) + AllNames(SharedGroups)
  {
    GroupsSplit();
    AllNamesCons(Grid, SharedGroups);
    AllNamesCons(CoreConfig.Grid, SharedGroups);
  }

  lemma DisjointCount<T>(a: set<T>, b: set<T>)
    requires a !! b
    ensures |a + b| == |a| + |b|
  {
    assert a * b == {};
  }

  lemma Regroup<T>(a: set<T>, s: set<T>, t: set<T>, o: set<T>)
    ensures (a + s) + t + o == (a + t) + (s + o)
  {
  }

  /** The names `utils/config.py` adds to the application's seventeen. */
  const ExtraNames: set<string> := {"senior6", "senior7", "junior1", "pleno1", "senior1"}

  lemma ExtraNamesCount()
    ensures |ExtraNames| == 5
  {
    assert |{"senior6", "senior7", "junior1", "pleno1", "senior1"}| == 5;
  }

  lemma ExtraNamesAreNew()
    ensures ExtraNames !! CoreConfig.DeveloperNames
  {
  }

  lemma DevelopersNameSet()
    ensures NameSet(Developers()) == CoreConfig.DeveloperNames + ExtraNames
  {
    UnionNames(Groups + [Other]);
    AllNamesAppend(Groups, [Other]);
    AllNamesSingle(Other);
    GroupsAllNames();
    CoreConfig.DeveloperNamesAreGroupNames();
    GridNames();
    ExtraNamesSplit();
    Regroup(Keys(CoreConfig.Grid), {"senior6", "senior7"}, AllNames(SharedGroups), Keys(Other));
  }

  /** The default pool has 22 distinct names, each once. */
  lemma DevelopersCount()
    ensures |Developers()| == 22
  {
    DevelopersNameSet();
    NameCount();
    UniqueCount(Developers());
  }

  lemma NameCount()
    ensures |CoreConfig.DeveloperNames + ExtraNames| == 22
  {
    ExtraNamesAreNew();
    ExtraNamesCount();
    CoreConfig.DeveloperNamesCount();
    DisjointCount(CoreConfig.DeveloperNames, ExtraNames);
  }

  // ---------------------------------------------------------------------------
  // Group lookup

  /** `GROUP_CONFIG_MAPPING` with the default pool as fallback. */
  function AppCatalogue(): GroupTable {
    Catalogue(Groups, Developers())
  }

  /** `get_group_config`: a truthy name is upper-cased and looked up; a falsy
      name or an unknown group gives the default pool. A NaN group is truthy
      and has no `.upper()`, and the error propagates unchanged. */
  function GroupConfig(g: GroupCell): (r: Result<Pool, string>)
    ensures r.Err? <==> g.NaNGroup?
    ensures r.Err? ==> r.error == AttributeError
    ensures r.Ok? ==> r.value == Developers() || r.value in Groups
    ensures g.Group? && Upper(g.name) in GroupKeys ==> r == Ok(Groups[IndexOfKey(GroupKeys, Upper(g.name)).value])
    ensures (g.Group? && Upper(g.name) !in GroupKeys) || g.NoGroup? ==> r == Ok(Developers())
  {
    GroupLookup(AppCatalogue(), g)
  }

  lemma GroupConfigIgnoresCase(s: string, t: string)
    requires Upper(s) == Upper(t)
    ensures GroupConfig(Group(s)) == GroupConfig(Group(t))
  {
    UpperKeepsEmpty(s, t);
  }

  /** Outside GRID, a group gets the same pool as under the application
      configuration; GRID gets the seven-name pool. */
  lemma GroupConfigMatchesCore(g: GroupCell)
    requires g.Group? && Upper(g.name) in GroupKeys
    ensures IndexOfKey(GroupKeys, Upper(g.name)).value != 0 ==> GroupConfig(g) == CoreConfig.GroupConfig(g)
    ensures IndexOfKey(GroupKeys, Upper(g.name)).value == 0 ==> GroupConfig(g) == Ok(Grid)
  {
    var k := IndexOfKey(GroupKeys, Upper(g.name)).value;
    if k != 0 {
      GroupsAgree(k);
    }
  }

  // ---------------------------------------------------------------------------
  // Plan types

  /** Which module-level pool a plan configuration's `resource_config` is. */
  datatype PoolRef = DevelopersPool | TestersPool

  function PoolOf(ref: PoolRef): Pool {
    match ref
    case DevelopersPool => Developers()
    case TestersPool => CoreConfig.Testers
  }

  /** `get_plan_config`: the two known plan types; anything else gives the
      empty configuration, modelled as `None`. */
  function GetPlanConfig(planType: string): (r: Option<(Models.PlanConfig, PoolRef)>)
    ensures r.Some? <==> planType == "Plan de Desarrollo" || planType == "Plan de Pruebas"
    ensures r.Some? ==> (r.value.0.useGroupBasedAssignment <==> planType == "Plan de Desarrollo")
    ensures r.Some? ==> (r.value.1 == DevelopersPool <==> planType == "Plan de Desarrollo")
    ensures r.Some? ==> r.value.0.resourceCol == "abap_asignado"
    ensures r.Some? ==> Models.NewPlanConfig(Models.PlanNames(r.value.0), Some(r.value.0.useGroupBasedAssignment), {}) == Ok(r.value.0)
  {
    if planType == "Plan de Desarrollo" then
      Some((Models.PlanConfig("abap_asignado", "plan_abap_dev_time", "esfu_disponible", "plan_abap_dev_ini",
          "real_abap_dev_ini", "plan_abap_dev_fin", "Developer", "Developers", "Assigned ABAPs", true),
        DevelopersPool))
    else if planType == "Plan de Pruebas" then
      Some((Models.PlanConfig("abap_asignado", "plan_abap_pu_time", "available_test_date", "plan_abap_pu_ini",
          "real_abap_pu_ini", "plan_abap_pu_fin", "Tester", "Testers", "Assigned Testers", false),
        TestersPool))
    else None
  }
}

=== FILE: wrappers.dfy ===
/** Failure-compatible wrappers shared by every module of the model.
    `Option` stands for the source's null / None / undefined, `Result` for a
    value-or-exception return. */
module Wrappers {

  datatype Option<+T> = None | Some(value: T) {

    predicate IsFailure() {
      None?
    }

    function PropagateFailure<U>(): Option<U>
      requires None?
    {
      None
    }

    function Extract(): T
      requires Some?
    {
      value
    }

    /** The value, or `default` when absent. */
    function GetOr(default: T): T {
      match this
      case Some(v) => v
      case None => default
    }
  }

  datatype Result<+T, +E> = Ok(value: T) | Err(error: E) {

    predicate IsFailure() {
      Err?
    }

    function PropagateFailure<U>(): Result<U, E>
      requires Err?
    {
      Err(error)
    }

    function Extract(): T
      requires Ok?
    {
      value
    }
  }
}
